=== FILE: README.md ===
# Historic sites platform — a Dafny model of its service and web layers

The repository is a Flask/SQLAlchemy application: an admin panel and a
public JSON API for a catalogue of historic sites. It handles users, roles
and permissions; feature flags; sites with tags, image galleries and
reviews; and an audit history. It also includes a small stand-alone
calculator. This project models that logic as pure Dafny functions over
immutable values and proves what the code promises about it.

How the model is built:

- **Tables.** Every database table is a map from id to record, plus an
  autoincrement counter (`Tables`). A join table is a set of id pairs. The
  site history is an append-only sequence.
- **Requests and responses.** A request is its parsed arguments. A response
  is a datatype saying which page is rendered, which redirect is sent, or
  which JSON status and body come back.
- **Services and controllers.** Each service function becomes a function
  from the store to a new store and a result. Each controller route becomes
  a function of the store, the session and the request.
- **Things the model cannot compute.** The clock, the storage bucket,
  password hashing, HMAC, JSON encoding, float parsing and date formatting
  are passed in as parameters, so every contract holds for any choice of
  them.

Module layout, leaves first:

| module | file | models |
|---|---|---|
| `Common` | common.dfy | Option/Result, `safe_int`, strip, join/split, the request-value type |
| `Tables` | common.dfy | a table with an autoincrement key |
| `Calculadora` | calculadora.dfy | calculadora.py |
| `Paging` | pagination.dfy | the `Pagination` container, LIMIT/OFFSET windows, the API slice |
| `Ordering` | ordering.dfy | stable sort by a key, ascending or descending |
| `Listing` | listing.dfy | the listing helpers shared by the admin controllers |
| `Dates` | dates.dfy | date filters and ISO dates |
| `SiteModels` | site_models.dfy | the enumerations and the site record (`models.py`) |
| `SiteForms` | site_forms.dfy | the site validators and the form reading of `sites_utils.py` |
| `TagNames` | tag_names.dfy | slugs and tag-name checks |
| `TagQuery` | tag_query.dfy | tag listing filters |
| `TagService` | tag_service.dfy | `tags_service.py` |
| `History` | history.dfy | `history_service.py` |
| `SiteService` | site_service.dfy | `core/sites/service.py` |
| `Images` | images.dfy | `images_service.py` |
| `ImageHelpers` | image_helpers.dfy | `images_helpers.py` |
| `Reviews` | reviews.dfy | `reviews_service.py` |
| `Moderation` | moderation.dfy | `sites_reviews.py` |
| `Flags` | flags.dfy | the flag service and the flag controller |
| `Users` | users.dfy | the user service, its validators and the user controller |
| `Permissions` | permissions.dfy | the permission service |
| `Auth` | auth.dfy | the login controller and the permission guards of `web/__init__.py` |
| `Jwt` | jwt.dfy | `jwt_tokens.py` |
| `ApiHelpers` | api_helpers.dfy | `sites_helpers.py` |
| `ApiAuth` | api_auth.dfy | the API's login and token endpoints |
| `ApiSites` | api_sites.dfy | the public API routes of `web/api/sites.py` |
| `SitesAdmin` | sites_admin.dfy | the admin site routes of `sites_admin.py` |

## Model

| member | source | states |
|---|---|---|
| Common.Strip | admin/src/core/sites/validators.py:10-12 | `str.strip()` returns text with no whitespace at either end, and the input is that text with only whitespace around it |
| Common.StripUnique | admin/src/core/sites/validators.py:10-12 | any non-empty unpadded infix with only whitespace around it is exactly what `strip()` returns |
| Common.StripEmpty | admin/src/core/sites/validators.py:10-12 | `strip()` gives the empty text exactly when every character is whitespace |
| Common.StripOfStripped | admin/src/core/sites/validators.py:10-12 | stripping text that is already stripped changes nothing |
| Common.CleanStr | admin/src/core/sites/validators.py:10-12 | `(value or "").strip()`: a missing field reads as "", and a present one is its stripped text |
| Common.Lower | admin/src/web/api/sites_helpers.py:82-85 | lower-casing keeps the length and maps each character on its own |
| Common.LowerNoUpper | admin/src/web/api/sites_helpers.py:82-85 | text with no upper-case ASCII letter is its own lower-case form |
| Common.Split | admin/src/web/security/jwt_tokens.py:75-79 | `split(sep)` yields at least one piece, and no piece contains the separator |
| Common.JoinSplit | admin/src/web/security/jwt_tokens.py:75-79 | joining the pieces of a split with the separator restores the text |
| Common.SplitJoin | admin/src/web/security/jwt_tokens.py:75-79 | splitting the join of separator-free pieces gives those pieces back |
| Common.NatToStringInjective | admin/src/web/controllers/sites/sites_admin.py:428 | two different ids never print as the same decimal text |
| Common.IntToStringShape | admin/src/web/controllers/sites/sites_admin.py:428 | `str(i)` is never empty and has no surrounding whitespace |
| Common.ParseInt | admin/src/core/sites/validators.py:15-20 | `int(text)` succeeds only on text that is not blank once stripped |
| Common.ParseIntOfIntToString | admin/src/core/sites/validators.py:15-20 | reading back the decimal text of any integer gives that integer |
| Common.TruncateReal | admin/src/core/sites/validators.py:18 | `int(x)` on a float truncates toward zero: the result is within one of x, on the side of zero |
| Common.SafeInt | admin/src/core/sites/validators.py:15-20 | None, "" and lists give None; an integer is kept; a bool is 0 or 1; text reads as `int(text)` |
| Calculadora.Resta | calculadora.py:12-13 | the difference plus the subtrahend gives the minuend back |
| Calculadora.Division | calculadora.py:21-24 | a zero divisor is an error, and only a zero divisor; otherwise the quotient times the divisor is the dividend |
| Calculadora.Calcular | calculadora.py:1-10 | each of the four symbols dispatches to its operation, any other symbol gives 0, and the only error is division by zero |
| Calculadora.CalcularInverses | calculadora.py:1-24 | subtracting undoes adding, and dividing by a non-zero number undoes multiplying by it |
| Paging.Pages | admin/src/core/pagination.py:20-25 | no pages when per_page is not positive; otherwise the least n with n pages covering total rows, and 0 for no rows |
| Paging.ClampPage | admin/src/core/sites/service.py:215 | the page used is at least 1, and a valid page is kept |
| Paging.ClampPerPage | admin/src/core/sites/service.py:216 | per_page is brought into 1..cap and kept when already inside |
| Paging.Window | admin/src/core/sites/service.py:217 | LIMIT/OFFSET yields the rows that follow the page's offset, as many as fit on the page, and none past the end |
| Paging.Paginate | admin/src/core/sites/service.py:215-217 | the container holds the clamped page parameters, the total count and the rows of that page in order |
| Paging.RowOnItsPage | admin/src/core/pagination.py:20-25 | every row appears on the page its index predicts, and that page is among the counted pages |
| Paging.HasNextIffNextPageNonEmpty | admin/src/core/pagination.py:32-35 | `has_next` holds exactly when the following page has rows |
| Paging.PySlice | admin/src/web/api/sites_helpers.py:250 | a Python slice within bounds is the plain subsequence, and a start past the end gives nothing |
| Paging.ApiPaginate | admin/src/web/api/sites_helpers.py:246-258 | the API slice echoes page, per_page and total, and for positive parameters it is the same window as LIMIT/OFFSET |
| Ordering.TextLtTotal | admin/src/web/controllers/sites/sites_admin.py:424 | code-point order on names compares any two different texts one way or the other |
| Ordering.TextLtTransitive | admin/src/web/controllers/sites/sites_admin.py:424 | code-point order on names is transitive |
| Ordering.AheadFacts | admin/src/core/sites/service.py:211-213 | "listed before", ascending or descending, is a strict total order on sort keys |
| Ordering.Insert | admin/src/web/api/sites_helpers.py:195-215 | one step of the stable sort adds the element and keeps every other one |
| Ordering.InsertSorted | admin/src/web/api/sites_helpers.py:195-215 | inserting into a sorted list keeps it sorted |
| Ordering.SortBy | admin/src/core/sites/service.py:211-213 | `ORDER BY` and `sorted(key=…, reverse=…)` return a permutation of the rows that no later row should precede |
| Ordering.SortByMembers | admin/src/web/api/sites_helpers.py:195-215 | sorting keeps exactly the elements it was given |
| Ordering.SortStable | admin/src/web/api/sites_helpers.py:195-215 | the sort is stable in both directions: rows with equal keys keep their original order, as `sorted(..., reverse=True)` does |
| Ordering.Filter | admin/src/web/api/sites_helpers.py:219-220 | a list comprehension or WHERE clause keeps exactly the rows satisfying the condition |
| Ordering.FilterKeepsAll | admin/src/web/api/sites_helpers.py:170-172 | a condition every row meets leaves the list unchanged |
| Ordering.FilterAppend | admin/src/web/api/sites_helpers.py:219-220 | filtering a concatenation filters each part |
| Ordering.FilterSubsequence | admin/src/web/api/sites_helpers.py:219-220 | filtering keeps the rows in their original order |
| Ordering.FilterKeepsNone | admin/src/web/api/sites_helpers.py:219-220 | a condition no row meets leaves nothing |
| Listing.Ordered | admin/src/core/sites/service.py:172-213 | the query's result is a permutation of exactly the matching rows, sorted on the order column |
| Listing.WindowSorted | admin/src/core/sites/service.py:213-217 | a page cut from a sorted result is sorted |
| Listing.WindowMembers | admin/src/core/sites/service.py:217 | a page holds only rows of the result it was cut from |
| Listing.Query | admin/src/core/sites/service.py:172-228 | the count is the number of matches; the page parameters are clamped; the page is exactly the requested window, at offset (page-1)*per_page, of the matching rows in the stable order of the order column |
| Listing.QueryRowOnItsPage | admin/src/core/sites/service.py:215-217 | every matching row appears on the page its position names, at its position within that page |
| Dates.DaysInMonth | admin/src/web/controllers/sites/sites_utils.py:68 | the month lengths `strptime` checks a day against: 28 to 31 days, and 29 exactly for February of a leap year |
| Dates.Ordinal | admin/src/web/controllers/sites/sites_utils.py:72 | every valid date has a positive day number |
| Dates.Instant | admin/src/web/controllers/sites/sites_utils.py:71-72 | combining a date with midnight or `time.max` gives a non-negative instant |
| Dates.OrdinalIncreasing | admin/src/web/controllers/sites/sites_utils.py:71-72 | an earlier date gives an earlier instant, so instants order days as the calendar does |
| Dates.OrdinalInjective | admin/src/web/controllers/sites/sites_utils.py:71-72 | two valid dates with the same day number are the same date |
| Dates.DayWindow | admin/src/web/controllers/sites/sites_utils.py:71-72 | midnight and `time.max` of a date bracket exactly the instants on that day |
| Dates.DateRangeInclusive | admin/src/web/controllers/sites/sites_admin.py:72-73 | a "from" date at midnight and a "to" date at `time.max` select exactly the instants on the days from one to the other, both included |
| Dates.Strptime | admin/src/web/controllers/sites/sites_utils.py:67-70 | a parsed date is a real date and its year is the four leading digits before a dash; every text the model rejects gives no date (digits are ASCII only, see Left out) |
| Dates.ParseDate | admin/src/web/controllers/sites/sites_utils.py:62-72 | an empty text and a text the model's `strptime` rejects give None; a text it accepts gives the instant of the parsed date at midnight or at its last microsecond (ASCII digits only, see Left out) |
| Dates.EndOfDayLater | admin/src/web/controllers/sites/sites_utils.py:71-72 | for one text the end-of-day instant is the midnight instant plus one day less a microsecond, on the same day |
| Dates.FirstDayWhole | admin/src/web/controllers/sites/sites_utils.py:68 | `%d` consumes a whole text exactly when it is 1-9, 01-09, 10-31 or a space and 1-9 |
| Dates.FirstMonthText | admin/src/web/controllers/sites/sites_utils.py:68 | with backtracking, `%m-` reads every month text 1-9, 01-09, 10-12 whole when a day follows the dash |
| Dates.FormatDate | admin/src/core/sites/models.py:109 | `isoformat` writes a date as ten characters |
| Dates.StrptimeFormatDate | admin/src/web/controllers/sites/sites_utils.py:68 | `strptime` reads back exactly the date `isoformat` wrote |
| Dates.ParseFormatDate | admin/src/web/controllers/sites/sites_utils.py:62-72 | `parse_date` of a date's ISO text gives that date's instant, at either end of the day |
| SiteModels.Statuses | admin/src/core/sites/models.py:46-51 | iterating the enumeration gives each conservation status once |
| SiteModels.Categories | admin/src/core/sites/models.py:53-59 | iterating the enumeration gives each category once |
| SiteModels.StatusValuesExact | admin/src/core/sites/models.py:46-51 | every status is listed; the stored values are exactly Bueno, Regular and Malo; values and names each identify a member, and no value equals a name |
| SiteModels.CategoryValuesExact | admin/src/core/sites/models.py:53-59 | every category is listed; the stored values are exactly the four Spanish labels; values and names each identify a member, and no value equals a name |
| SiteModels.Latitude | admin/src/core/sites/models.py:114-120 | the latitude is None exactly when the site has no location |
| SiteModels.Longitude | admin/src/core/sites/models.py:122-128 | the longitude is None exactly when the site has no location |
| SiteModels.CoordinatesRoundTrip | admin/src/core/sites/models.py:113-128 | a site stored at `POINT(lon lat)` reads back the latitude and longitude it was given |
| SiteModels.LinkedTags | admin/src/core/sites/models.py:91 | a site's tags are exactly the stored tags linked to it through the association table |
| SiteModels.TagNamesOf | admin/src/core/sites/models.py:108 | the names listed are exactly the names of the tags linked to the site, one per link |
| SiteModels.ToDict | admin/src/core/sites/models.py:93-111 | `to_dict` carries the id, name and visibility, the coordinates read from the point, and exactly the linked tags' names |
| SiteForms.FirstMatch | admin/src/web/controllers/sites/sites_utils.py:80-83 | the option found is the first whose value or name equals the text, and None means no option matches |
| SiteForms.FirstMatchExact | admin/src/web/controllers/sites/sites_utils.py:75-83 | over an enumeration whose values and names are distinct, the option found is exactly the one the text names |
| SiteForms.ParseStatus | admin/src/web/controllers/sites/sites_utils.py:75-83 | a status is returned exactly when the non-empty text is its stored value or its member name |
| SiteForms.ParseCategory | admin/src/web/controllers/sites/sites_utils.py:75-83 | a category is returned exactly when the non-empty text is its stored value or its member name |
| SiteForms.ParseTagIds | admin/src/web/controllers/sites/sites_utils.py:86-95 | every id returned comes from an entry `int()` accepts, and every such entry contributes its id |
| SiteForms.ParseTagIdsAppend | admin/src/web/controllers/sites/sites_utils.py:89-95 | entries are read one by one, in order: parsing a concatenation concatenates the results |
| SiteForms.ParseTagIdsRoundTrip | admin/src/web/controllers/sites/sites_utils.py:86-95 | ids written as decimal texts read back as the same ids, in the same order |
| SiteForms.IdTextConverts | admin/src/web/controllers/sites/sites_utils.py:92 | `int()` reads the decimal text of every integer back to that integer |
| SiteForms.FormTexts | admin/src/web/controllers/sites/sites_utils.py:120-130 | the shown-back values have exactly the ten text keys |
| SiteForms.AllChecks | admin/src/web/controllers/sites/sites_utils.py:136-162 | the checks listed are in their collection order, each once |
| SiteForms.SiteErrors | admin/src/web/controllers/sites/sites_utils.py:135-162 | exactly the failed checks are reported, in the order the code collects them |
| SiteForms.Text | admin/src/web/controllers/sites/sites_utils.py:38-41 | a cleaned field has no surrounding whitespace |
| SiteForms.BuildSitePayload | admin/src/web/controllers/sites/sites_utils.py:117-187 | the messages are exactly the failed checks in order; the payload carries the cleaned texts, latitude and longitude through `safe_float`, the parsed conservation status and category, the year through `safe_int`, the parsed tag ids, and visibility is "on"; the values shown back carry every text key cleaned and the payload's visibility and tags |
| SiteForms.CompleteFormAccepted | admin/src/web/controllers/sites/sites_utils.py:117-187 | a complete site submitted the way a browser writes it yields no message and a payload holding exactly that site |
| SiteForms.NoFailureNoError | admin/src/web/controllers/sites/sites_utils.py:143-162 | a payload with every required field present fails no check |
| SiteForms.EmptySiteForm | admin/src/web/controllers/sites/sites_utils.py:98-114 | the blank form has the ten text keys, all empty, no visibility and no tags |
| SiteForms.BlankFormRejected | admin/src/web/controllers/sites/sites_utils.py:117-187 | submitting an empty form shows the blank form again with every message |
| SiteForms.TagIdsSources | admin/src/web/controllers/sites/sites_utils.py:132 | the ticked tags arrive as one value each and are read back in order, also when they arrive as one list |
| SiteForms.SingleTagIdSources | admin/src/core/sites/validators.py:57-66 | a single id, as a number or a text, is one tag; None and "" are no tags |
| SiteForms.Provinces | admin/src/web/controllers/sites/sites_utils.py:10-35 | the province list has 24 entries, each different |
| TagNames.NonEmpty | admin/src/core/sites/tags_service.py:24-27 | the kept pieces are non-empty pieces of the input, and a non-empty first piece is kept first |
| TagNames.Words | admin/src/core/sites/tags_service.py:24-27 | the words of a name are non-empty and contain no space |
| TagNames.CleanTagName | admin/src/core/sites/tags_service.py:16-29 | None and blank names give ""; a name with text gives a non-empty result; the result has no surrounding whitespace and no double space |
| TagNames.CleanTagNameWords | admin/src/core/sites/tags_service.py:16-29 | cleaning keeps exactly the words of the stripped name, so cleaning a cleaned name changes nothing |
| TagNames.JoinWordsShape | admin/src/core/sites/tags_service.py:29 | joining non-empty space-free words with one space gives a text with no double space that starts and ends with a word |
| TagNames.NfkdChar | admin/src/core/sites/tags_service.py:36 | NFKD leaves ASCII characters alone and decomposes the "ffi" ligature into three letters |
| TagNames.AsciiOnly | admin/src/core/sites/tags_service.py:37 | only ASCII characters are kept |
| TagNames.Prepared | admin/src/core/sites/tags_service.py:36-39 | the text the slug loop reads is ASCII and has no capital letters |
| TagNames.Walk | admin/src/core/sites/tags_service.py:41-52 | the loop's flag says exactly whether the last character written is a dash; it never writes a leading dash or two dashes in a row; it writes only alphanumerics and dashes |
| TagNames.WalkAlnum | admin/src/core/sites/tags_service.py:43-46 | the slug loop keeps every alphanumeric of its input, in order |
| TagNames.WalkSlugChars | admin/src/core/sites/tags_service.py:41-52 | on a text without capitals the loop writes only slug characters |
| TagNames.LTrimDash | admin/src/core/sites/tags_service.py:54 | stripping leading dashes removes only dashes and leaves no leading dash |
| TagNames.RTrimDash | admin/src/core/sites/tags_service.py:54 | stripping trailing dashes removes only dashes and leaves no trailing dash |
| TagNames.Slugify | admin/src/core/sites/tags_service.py:32-55 | None gives "tag"; every result is a slug; a text with alphanumerics gives a slug with exactly those alphanumerics, and a text without gives "tag"; `TagNames.SlugifyIsReference` shows it equals the reference definition |
| TagNames.SlugifyIsReference | admin/src/core/sites/tags_service.py:32-55 | for every text, the loop's slug equals the reference definition: the words left after each space, '-' or '_' becomes a break and every other non-alphanumeric is dropped, lower-cased and joined by '-', or "tag" when there is no word |
| TagNames.SlugifyShape | admin/src/core/sites/tags_service.py:41-55 | the trimmed loop output is a slug when non-empty, keeps every alphanumeric, and is empty exactly when the text has none |
| TagNames.SlugFixpoint | admin/src/core/sites/tags_service.py:32-55 | a slug is its own slug |
| TagNames.SlugifyIdempotent | admin/src/core/sites/tags_service.py:32-55 | slugifying a slug gives it back |
| TagQuery.FirstIndex | admin/src/web/api/sites_helpers.py:379-384 | the position found holds the element and no earlier position does |
| TagQuery.Dedup | admin/src/web/api/sites_helpers.py:377-384 | skipping keys already seen keeps each key once, every key of the input, in order of first occurrence |
| TagQuery.DedupDistinct | admin/src/web/api/sites_helpers.py:377-384 | a list without repeats is its own de-duplication |
| TagQuery.DedupIdempotent | admin/src/web/api/sites_helpers.py:377-384 | de-duplicating twice is de-duplicating once |
| TagQuery.TagCandidates | admin/src/web/api/sites_helpers.py:344-354 | only None, text and lists are accepted; None and "" give nothing; every candidate is stripped; a text gives one candidate per comma-separated piece |
| TagQuery.TagNames | admin/src/web/api/sites_helpers.py:344-356 | only None, text and lists are accepted, and every name kept is non-empty and stripped |
| TagQuery.NamesOfJoined | admin/src/web/api/sites_helpers.py:346-356 | tags written out comma-separated come back as written |
| TagQuery.LowerAll | admin/src/web/api/sites_helpers.py:360 | each tag is folded in place |
| TagQuery.LastMatch | admin/src/web/api/sites_helpers.py:368-372 | no id exactly when no row matches; otherwise the id of a matching row |
| TagQuery.Resolve | admin/src/web/api/sites_helpers.py:368-372 | a key resolves exactly when some tag's folded slug or name equals it, and a name match wins over a slug match |
| TagQuery.ResolveAll | admin/src/web/api/sites_helpers.py:377-384 | one id per key, each the id the key resolves to |
| TagQuery.Missing | admin/src/web/api/sites_helpers.py:373 | the unknown keys sorted, without repeats, and nothing else |
| TagQuery.KeysKnown | admin/src/web/api/sites_helpers.py:373-375 | every de-duplicated key is known exactly when every name folded is |
| TagQuery.UnknownKeys | admin/src/web/api/sites_helpers.py:373 | the keys no tag answers to, each once |
| TagQuery.ResolveNames | admin/src/web/api/sites_helpers.py:360-385 | success exactly when every folded name is known, giving one id per de-duplicated key; otherwise a non-empty sorted list of exactly the unknown keys |
| TagQuery.ParseTags | admin/src/web/api/sites_helpers.py:343-385 | a refused shape exactly when the value is not None, text or a list; nothing for None or ""; otherwise the names and the ids of their de-duplicated folded forms, or exactly the unknown keys sorted |
| TagService.TakenSlugs | admin/src/core/sites/tags_service.py:87-89 | the slugs owned by every tag other than the one being edited, and only those |
| TagService.Cut | admin/src/core/sites/tags_service.py:76-77 | the cut is `slug[:n]` as written, never longer than n, and a prefix of it; the corrected cut never ends with a dash |
| TagService.BaseSlug | admin/src/core/sites/tags_service.py:74-77 | the slug of the cleaned name, kept whole up to 60 characters, and never longer than 60 |
| TagService.Suffix | admin/src/core/sites/tags_service.py:95 | the suffix is a dash followed by the counter's decimal digits |
| TagService.Candidate | admin/src/core/sites/tags_service.py:95-99 | every candidate ends with its suffix; it is `base-k` when that fits in 60 characters, and otherwise it is cut to 60 characters |
| TagService.CandidateInjective | admin/src/core/sites/tags_service.py:92-107 | different counters give different candidates |
| TagService.TriedSize | admin/src/core/sites/tags_service.py:92-107 | the candidates tried before counter k are k-2 different slugs |
| TagService.TriedStep | admin/src/core/sites/tags_service.py:92-107 | each pass of the loop tries one new candidate |
| TagService.FindFreeSuffix | admin/src/core/sites/tags_service.py:92-107 | the loop stops at the first counter whose candidate no other tag owns, after at most as many passes as there are taken slugs |
| TagService.NameErrors | admin/src/core/sites/tags_service.py:65-84 | a blank name is "required"; a name shorter than 3 or longer than 50 characters is "length"; otherwise the only possible error is a name another tag already uses, ignoring case |
| TagService.ValidateTagWith | admin/src/core/sites/tags_service.py:58-110 | the name is cleaned; it is valid exactly when 3 to 50 characters long and no other tag uses it; a valid name's slug is owned by no other tag, and is the base slug when that is free and otherwise the first free counter candidate |
| TagService.ValidateTagAsWritten | admin/src/core/sites/tags_service.py:58-110 | as written, a valid name still gets a slug no other tag owns |
| TagService.ValidateTag | admin/src/core/sites/tags_service.py:58-110 | with the corrected cut, every base slug and every valid name's slug has the shape of a slug |
| TagService.CutSlug | admin/src/core/sites/tags_service.py:76-77 | cutting a slug and dropping trailing dashes leaves a slug |
| TagService.CandidateShape | admin/src/core/sites/tags_service.py:95-99 | a candidate built from a slug is a slug |
| TagService.StoreKeepsUnique | admin/src/core/sites/tags_service.py:65-107 | a tag whose name and slug passed the checks against the other tags keeps names and slugs unique when stored |
| TagService.CreateTag | admin/src/core/sites/tags_service.py:148-156 | an invalid name stores nothing and returns its errors; a valid one stores a new tag with the cleaned name and the slug chosen with the given cut (the code's `slug[:60]` or the corrected one); names and slugs stay unique |
| TagService.UpdateTag | admin/src/core/sites/tags_service.py:159-168 | the edited tag is left out of both uniqueness checks; a valid name replaces its name and its slug, chosen with the given cut, and nothing else; names and slugs stay unique |
| TagService.DeleteTag | admin/src/core/sites/tags_service.py:171-176 | deletion is refused exactly when a site carries the tag, and changes nothing then; otherwise only that tag is removed |
| TagService.TagColumnOf | admin/src/core/sites/tags_service.py:132-133 | "created_at" picks the creation time and every other text the name |
| TagService.PaginateTags | admin/src/core/sites/tags_service.py:118-141 | page parameters are clamped to at least 1 and 1..25; the total counts the tags matching the search; the page is exactly the requested window of the matching tags sorted on the chosen column, ascending only for "asc" |
| TagService.PaginateTagsDefaults | admin/src/core/sites/tags_service.py:132-134 | an unknown column sorts as the name, and any direction other than "asc" as descending |
| TagService.ListTags | admin/src/core/sites/tags_service.py:113-115 | one entry per tag: every stored tag appears, no id appears twice, each entry carries its tag's name, and the names ascend |
| TagService.AsWrittenSlugEndsWithDash | admin/src/core/sites/tags_service.py:74-77 | as written, a valid name of nineteen "ffi" ligatures and "ab c" gets a 60-character slug ending with a dash |
| TagService.CorrectedSlugDropsDash | admin/src/core/sites/tags_service.py:74-77 | with the corrected cut the same name gets the slug without that dash |
| TagService.CreatedSlugIsSlug | admin/src/core/sites/tags_service.py:148-156 | with the corrected cut, every tag the creation stores has a slug: lower-case words joined by single dashes, at most 60 characters |
| TagService.RenamedSlugIsSlug | admin/src/core/sites/tags_service.py:159-168 | with the corrected cut, every renamed tag keeps a well-formed slug of at most 60 characters |
| History.RecordEvent | admin/src/core/sites/history_service.py:19-29 | recording appends exactly one event carrying the given site, user, action and details, and keeps every earlier event |
| History.Indexed | admin/src/core/sites/history_service.py:43 | events are numbered from 1 in insertion order, as the autoincrement id does |
| History.MatchingUsers | admin/src/core/sites/history_service.py:45-47 | the users picked are exactly those whose email contains the text, ignoring case |
| History.UserEmail | admin/src/core/sites/history_service.py:75-79 | an email is shown exactly when the event has a non-zero user id that names a stored user, and it is that user's email |
| History.ListHistory | admin/src/core/sites/history_service.py:32-81 | the total counts the site's matching events; page parameters are clamped with a cap of 25; the page is exactly the requested window of the site's events that pass every filter, newest first, each with its user's email |
| History.UnknownEmailEmpty | admin/src/core/sites/history_service.py:48-51 | an email text that matches no user lists nothing |
| History.RecordCounts | admin/src/core/sites/history_service.py:19-61 | recording an event adds one to the count of every listing it matches and leaves the others alone |
| History.OtherSitesIgnored | admin/src/core/sites/history_service.py:43 | events of other sites never change a site's listing |
| SiteService.LinksFor | admin/src/core/sites/service.py:57-59 | a new site is linked to exactly the listed ids that name an existing tag |
| SiteService.LinksWithout | admin/src/core/sites/service.py:150 | deleting a site drops exactly that site's links |
| SiteService.CreateSite | admin/src/core/sites/service.py:26-63 | a missing coordinate and a taken name are the only failures; on success exactly one new site is added with the given values, the other rows are unchanged, the existing listed tags are linked and one "Creación" event is logged |
| SiteService.GetSite | admin/src/core/sites/service.py:66-73 | None exactly for an unknown id; otherwise the site's dictionary and exactly the ids of its tags |
| SiteService.TagIdsOf | admin/src/core/sites/service.py:72 | the ids are exactly those of the tags linked to the site |
| SiteService.CreateThenGet | admin/src/core/sites/service.py:26-73 | a created site reads back with the name, coordinates and visibility it was created with and exactly the existing tags among its ids |
| SiteService.Apply | admin/src/core/sites/service.py:85-114 | a field not passed keeps its value, the point changes only when both coordinates are given, the creation time is kept and the update time is now |
| SiteService.Relink | admin/src/core/sites/service.py:107-112 | without `tag_ids` the links are unchanged; with them the site is linked to exactly the existing tags listed, and other sites' links are kept |
| SiteService.UpdateSite | admin/src/core/sites/service.py:76-118 | an unknown id and a rename onto another site's name are the only failures; on success only the edited row changes, the links are recomputed and one event is logged, by default "Edición" / "Datos editados" |
| SiteService.EmptyUpdateKeepsData | admin/src/core/sites/service.py:76-118 | an update that passes nothing changes only the update time and adds one event |
| SiteService.DeleteSite | admin/src/core/sites/service.py:121-152 | False and no change exactly for an unknown id; otherwise the row and its links are gone, every other row is kept and one "Eliminación" event describing the site is logged |
| SiteService.CreateThenDelete | admin/src/core/sites/service.py:26-152 | creating a site and deleting it restores the site rows and the links, and the log keeps both events |
| SiteService.SortColumn | admin/src/core/sites/service.py:271-272 | the column is one of created_at, name and city: the one asked for when it is one of them, and created_at otherwise |
| SiteService.ExportSites | admin/src/core/sites/service.py:231-284 | exactly the stored sites passing every filter, sorted on the chosen column and direction |
| SiteService.Dicts | admin/src/core/sites/service.py:218-227 | one dictionary per row, in order |
| SiteService.SearchSites | admin/src/core/sites/service.py:155-228 | the total counts the matching sites; page parameters are clamped with a cap of 25; every item is the dictionary of a stored matching site |
| SiteService.SearchIsPageOfExport | admin/src/core/sites/service.py:155-284 | the search page is the export list cut to that page: both queries agree on which sites match and in which order |
| SiteService.SortFallback | admin/src/core/sites/service.py:271-273 | an unknown sort column sorts as created_at and an unknown direction as descending |
| SiteService.MarkFavorite | admin/src/core/sites/service.py:294-315 | False and no change exactly for a missing or hidden site; otherwise the pair is present afterwards, once |
| SiteService.UnmarkFavorite | admin/src/core/sites/service.py:318-330 | always True, and the pair is absent afterwards |
| SiteService.FavoriteSiteIds | admin/src/core/sites/service.py:333-337 | the ids listed are exactly the sites the user marked |
| SiteService.FavoritesIdempotent | admin/src/core/sites/service.py:294-337 | marking twice is marking once and unmarking twice is unmarking once; a successful mark makes the site a favourite, an unmark removes it, and other users' favourites are untouched |
| SiteService.ListSites | admin/src/core/sites/service.py:21-24 | one dictionary per stored site |
| SiteService.ListSitesComplete | admin/src/core/sites/service.py:21-24 | the list holds the dictionary of every stored site and nothing else |
| Images.Description | admin/src/core/sites/images_service.py:71 | an empty description is stored as null, and any other is kept |
| Images.LastOrder | admin/src/core/sites/images_service.py:59-64 | the largest order index of the gallery, or 0 for an empty one |
| Images.DenseLastOrder | admin/src/core/sites/images_service.py:59-64 | in a gallery numbered 1..n the largest order index is n |
| Images.ClearCovers | admin/src/core/sites/images_service.py:210-215 | every image except the kept one loses its cover flag, and nothing else changes |
| Images.AddImage | admin/src/core/sites/images_service.py:54-80 | refused exactly at ten images; otherwise the new image goes last with the next order index, and it is the cover when asked or when the gallery had none, in which case every other image stops being the cover |
| Images.AddImageKeepsGallery | admin/src/core/sites/images_service.py:54-80 | adding an image under a fresh id keeps distinct ids and exactly one cover in a non-empty gallery |
| Images.MakeCover | admin/src/core/sites/images_service.py:118-125 | the chosen image becomes the cover, every other image stops being one, and the ids and order are kept |
| Images.MakeCoverKeepsGallery | admin/src/core/sites/images_service.py:118-125 | after marking, the gallery is well formed and the chosen image is its only cover |
| Images.MakeCoverIdempotent | admin/src/core/sites/images_service.py:118-125 | marking the same image twice is marking it once |
| Images.Renumber | admin/src/core/sites/images_service.py:218-230 | the gallery is renumbered 1..n in its current order, and ids are kept |
| Images.RemoveImage | admin/src/core/sites/images_service.py:135-148 | refused exactly for the cover of a gallery with other images; otherwise the image is gone and the others keep their order, renumbered 1..n |
| Images.RemoveImageKeepsGallery | admin/src/core/sites/images_service.py:135-148 | removing an image keeps distinct ids, and a non-empty remainder keeps exactly one cover |
| Images.SwapAdjacent | admin/src/core/sites/images_service.py:179-190 | the two neighbours trade places and keep their positions' order indexes; every other image is untouched |
| Images.MoveImage | admin/src/core/sites/images_service.py:163-177 | a move happens exactly for "up" off the first image or "down" off the last, ignoring case, and swaps with that neighbour |
| Images.SwapKeepsGallery | admin/src/core/sites/images_service.py:179-190 | a swap keeps the gallery well formed and keeps its ids |
| Images.UpThenDown | admin/src/core/sites/images_service.py:158-197 | moving an image up and then down again restores the gallery |
| Images.AddThenRemove | admin/src/core/sites/images_service.py:44-155 | adding a non-cover image and deleting it again restores the gallery |
| Images.IdSet | admin/src/core/sites/images_service.py:19-26 | the ids of the gallery's images |
| Images.IndexOf | admin/src/core/sites/images_service.py:167-170 | no position exactly for an id outside the gallery; otherwise the position of that id |
| Images.Position | admin/src/core/sites/images_service.py:164-168 | an image's position in its own site's gallery holds that image |
| Images.CreateImage | admin/src/core/sites/images_service.py:44-87 | refused exactly at ten images; otherwise the image joins its site's gallery under a fresh id as `AddImage` says, other galleries are unchanged, the store stays consistent and one "Cambio de imágenes" event is logged |
| Images.UpdateImage | admin/src/core/sites/images_service.py:90-115 | None exactly for an unknown id; otherwise only that image is edited, the store stays consistent and one event is logged |
| Images.EditImage | admin/src/core/sites/images_service.py:103-107 | title and description are replaced, the file only when both a new name and a new URL are given, and every other image is untouched |
| Images.EditKeepsGallery | admin/src/core/sites/images_service.py:103-107 | editing keeps the gallery well formed and keeps its ids |
| Images.MarkAsCover | admin/src/core/sites/images_service.py:118-132 | None exactly for an unknown id; otherwise that image is its gallery's only cover, the store stays consistent and one event is logged |
| Images.DeleteImage | admin/src/core/sites/images_service.py:135-155 | false for an unknown id; refused for the cover of a gallery with other images; otherwise the image is gone, its gallery renumbered, and one event is logged |
| Images.MoveImageIn | admin/src/core/sites/images_service.py:158-197 | None for an unknown id or a move that cannot happen; otherwise the image trades places with its neighbour, the store stays consistent and one event is logged |
| Images.CountImages | admin/src/core/sites/images_service.py:29-36 | the count is the gallery's size and never more than ten in a consistent store |
| ImageHelpers.AfterLastDot | admin/src/web/controllers/sites/images_helpers.py:90 | the text after the last dot, holding no dot, and the whole text when there is none |
| ImageHelpers.Extension | admin/src/web/controllers/sites/images_helpers.py:90 | no extension without a dot; otherwise the lower-cased text after the last dot |
| ImageHelpers.ValidateImageFile | admin/src/web/controllers/sites/images_helpers.py:78-100 | a missing or blank file name is one error with no extension; otherwise the extension of the stripped name and the size are checked |
| ImageHelpers.FileErrors | admin/src/web/controllers/sites/images_helpers.py:91-98 | a format error exactly for an extension outside jpg, jpeg, png and webp; an empty-file error exactly for a size of 0 or less; a too-large error exactly above 5 MiB |
| ImageHelpers.AcceptedFiles | admin/src/web/controllers/sites/images_helpers.py:78-100 | a file is accepted exactly when its stripped name is not blank, its extension is allowed and its size is 1 byte to 5 MiB |
| ImageHelpers.ExtractImageForm | admin/src/web/controllers/sites/images_helpers.py:33-51 | title and description are stripped; a blank title is an error; a file is validated when required or present and handed on only when it passed; a required file that is missing is an error |
| ImageHelpers.ObjectName | admin/src/web/controllers/sites/images_helpers.py:59 | the object name starts with "sites/" |
| ImageHelpers.ObjectNameParts | admin/src/web/controllers/sites/images_helpers.py:59 | the object name splits back into "sites", the site id and the file name, and its extension is the one given |
| ImageHelpers.RStripSlash | admin/src/web/controllers/sites/images_helpers.py:146 | only trailing slashes are removed, and none is left |
| ImageHelpers.BuildPublicUrl | admin/src/web/controllers/sites/images_helpers.py:141-153 | an error exactly without a bucket; a server with a scheme is used as it is, and otherwise the secure flag picks https or http; the URL ends with the bucket and the object |
| ImageHelpers.PublicUrlShape | admin/src/web/controllers/sites/images_helpers.py:146-153 | a bare host gets the scheme the secure flag picks, followed by the host, the bucket and the object |
| ImageHelpers.ImageOfSite | admin/src/web/controllers/sites/images_helpers.py:26-30 | the image is found exactly when it exists and belongs to the site, and it is in that site's gallery |
| Reviews.FullName | admin/src/core/sites/reviews_service.py:138 | the moderation listing's full name carries no outer whitespace, and it is empty exactly when both name columns are missing or blank |
| Reviews.JoinAllSpace | admin/src/core/sites/reviews_service.py:138 | joining the non-empty name parts with a space gives only whitespace exactly when both parts are whitespace only |
| Reviews.UserDisplay | admin/src/core/sites/reviews_service.py:31-37 | the shown user is never empty: the stripped name when it is not blank, else the email when present and non-empty, else the unknown-user text |
| Reviews.FormatAuthorName | admin/src/core/sites/reviews_service.py:187-190 | the author name is never empty and has no outer whitespace: both cleaned names joined by one space, or the only non-blank one, or "Visitante" when both are blank |
| Reviews.DisplayAgreesWithAuthor | admin/src/core/sites/reviews_service.py:31-37 | for a user with at least one clean non-empty name column, the moderation display and the public author name are the same text |
| Reviews.ValidateRejectionReason | admin/src/core/sites/reviews_service.py:277-289 | the reason is stripped; it is rejected as missing exactly when blank and as too long exactly above 200 characters, and accepted exactly when neither |
| Reviews.NewReview | admin/src/core/sites/reviews_service.py:243-255 | a new review is pending with the given site, user, rating and creation time and the stripped comment |
| Reviews.UpdateSiteReview | admin/src/core/sites/reviews_service.py:258-266 | an edited review keeps its site, author and creation time, takes the new rating and stripped comment, and goes back to pending |
| Reviews.ApproveReview | admin/src/core/sites/reviews_service.py:269-274 | approving sets the approved state and keeps site, author, rating, comment and creation time |
| Reviews.RejectReview | admin/src/core/sites/reviews_service.py:292-302 | an invalid reason reports its error and leaves the review untouched; a valid one rejects it with the cleaned reason; content and author are kept either way |
| Reviews.ApproveApprovedIsNoOp | admin/src/core/sites/reviews_service.py:269-274 | approving an already approved review changes nothing |
| Reviews.ModerationReachesEveryState | admin/src/core/sites/reviews_service.py:258-302 | from any state, approve reaches approved, reject with a valid reason reaches rejected holding that reason, and an edit reaches pending |
| Reviews.CreateSiteReview | admin/src/core/sites/reviews_service.py:243-255 | creating adds exactly one new id holding the new pending review, and every other review is unchanged |
| Reviews.SaveReview | admin/src/core/sites/reviews_service.py:264-265 | committing a moved review replaces that row only and keeps the set of ids |
| Reviews.DeleteReview | admin/src/core/sites/reviews_service.py:305-308 | deleting removes that id only and keeps every other review as it was |
| Reviews.CreateThenDelete | admin/src/core/sites/reviews_service.py:243-308 | deleting the review just created gives back the same rows |
| Reviews.FindReviewByUser | admin/src/core/sites/reviews_service.py:229-240 | there is no answer exactly when that user has no review on that site; an answer is a stored review by that user on that site |
| Reviews.AuthorName | admin/src/core/sites/reviews_service.py:187-194 | the attached author name is never empty, and a missing user row gives "Visitante" |
| Reviews.Authored | admin/src/core/sites/reviews_service.py:198-212 | each listed review carries its own id, record and the author name of its user, in order |
| Reviews.ListPublicReviews | admin/src/core/sites/reviews_service.py:198-212 | the public listing holds exactly the approved reviews of that site, each as stored, every one of them, newest first |
| Reviews.PublicComplete | admin/src/core/sites/reviews_service.py:198-212 | every approved review of the site appears in the public listing |
| Reviews.PublicStats | admin/src/core/sites/reviews_service.py:215-226 | the count is the number of approved reviews of the site, the average is absent exactly when there are none, and otherwise it is their rating sum over the count |
| Reviews.StatsMatchListing | admin/src/core/sites/reviews_service.py:198-226 | the statistics count exactly the reviews the public listing shows |
| Reviews.SumBounds | admin/src/core/sites/reviews_service.py:215-226 | ratings between two bounds sum to between the bounds times the count |
| Reviews.AverageWithinScale | admin/src/core/sites/reviews_service.py:215-226 | when every stored rating is 1 to 5, so is the average |
| Reviews.NewReviewStaysHidden | admin/src/core/sites/reviews_service.py:243-255 | a new review is pending, so no site's public listing or statistics change until it is approved |
| Reviews.ReviewColumnOf | admin/src/core/sites/reviews_service.py:115-119 | the listing orders by rating exactly when asked for "rating", and by creation date otherwise |
| Reviews.Presenters | admin/src/core/sites/reviews_service.py:127-149 | one presenter per fetched row, in the same order |
| Reviews.PaginateReviews | admin/src/core/sites/reviews_service.py:73-151 | the total counts every matching review; page and size are clamped with a cap of 25; the page is exactly the requested window of the matching reviews in the chosen order, each presented with its site name |
| Reviews.PaginateReviewsDefaults | admin/src/core/sites/reviews_service.py:119-120 | an unknown order column sorts by creation date, and any direction other than "asc" sorts descending |
| Reviews.ListReviewsForUser | admin/src/core/sites/reviews_service.py:311-333 | the user's listing holds exactly the stored reviews by that user on visible sites, newest first |
| Moderation.SafePositiveInt | admin/src/web/controllers/sites/sites_reviews.py:52-60 | a number comes back only for a present text that parses to a positive integer, and it is that integer; absent, empty, unparsable and non-positive texts give nothing |
| Moderation.SafePositiveIntOfText | admin/src/web/controllers/sites/sites_reviews.py:52-60 | every positive integer written in decimal reads back as itself |
| Moderation.ParseRating | admin/src/web/controllers/sites/sites_reviews.py:63-70 | a rating comes back exactly when the positive-integer reading gives a value up to 5, and it is that value |
| Moderation.ParseRatingScale | admin/src/web/controllers/sites/sites_reviews.py:63-70 | the written integer n is accepted as a rating exactly when 1 <= n <= 5 |
| Moderation.StatusFromText | admin/src/web/controllers/sites/sites_reviews.py:100-108 | a status is found only when the text is its value or its name, and none is found exactly when the text names no status |
| Moderation.StatusTextRoundTrip | admin/src/web/controllers/sites/sites_reviews.py:100-108 | every status is found again from its value and from its name |
| Moderation.OrderedRatings | admin/src/web/controllers/sites/sites_reviews.py:82-87 | the two rating bounds come back as the same pair, possibly swapped, and never crossing when both are present |
| Moderation.OrderColumn | admin/src/web/controllers/sites/sites_reviews.py:93-94 | the column is "created_at" or "rating", and the requested one is kept when it is one of those |
| Moderation.OrderDirection | admin/src/web/controllers/sites/sites_reviews.py:95-96 | the direction is "asc" or "desc", and the requested one is kept when it is one of those |
| Moderation.PageArg | admin/src/web/controllers/sites/sites_reviews.py:98 | the page is at least 1, and a positive page argument is kept |
| Moderation.StatusArg | admin/src/web/controllers/sites/sites_reviews.py:100-108 | an empty status text selects no status; otherwise the status that text names, if any |
| Moderation.ExtractFilters | admin/src/web/controllers/sites/sites_reviews.py:73-113 | each filter is read from its own argument; the status text becomes the found status's value, or empty when none is found; the dates are parsed, the upper one to the end of its day |
| Moderation.FiltersInRange | admin/src/web/controllers/sites/sites_reviews.py:73-113 | whatever the query string holds, the order column and direction are known, the page is at least 1, and the ratings lie in 1..5 without crossing |
| Moderation.UnknownStatusIgnored | admin/src/web/controllers/sites/sites_reviews.py:100-108 | a status text that names no status is blanked and filters nothing |
| Moderation.ServiceFilter | admin/src/web/controllers/sites/sites_reviews.py:149-161 | the service gets the extracted filters, with an empty user text passed as no user filter |
| Moderation.ModerationIndex | admin/src/web/controllers/sites/sites_reviews.py:143-161 | the index shows 25 reviews per page on the requested page; the total counts the reviews passing the filters read from the query string; the page is exactly that window of them in the chosen order |
| Moderation.SafeReturnPathAsWritten | admin/src/web/controllers/sites/sites_reviews.py:124-130 | as written, any present text starting with "/" is accepted unchanged, and nothing else |
| Moderation.AsWrittenAcceptsOtherHost | admin/src/web/controllers/sites/sites_reviews.py:124-130 | the check as written lets the protocol-relative target "//evil.example/x" through, which leaves the site |
| Moderation.SafeReturnPath | admin/src/web/controllers/sites/sites_reviews.py:124-130 | the intended check accepts a text unchanged exactly when it starts with "/" and does not leave the site |
| Moderation.CorrectedReturnPath | admin/src/web/controllers/sites/sites_reviews.py:124-130 | the corrected check never yields a target off the site, agrees with the written check on every path that stays on the site, and refuses every path that leaves it |
| Moderation.RedirectBack | admin/src/web/controllers/sites/sites_reviews.py:133-140 | the redirect goes to the return path exactly when it is safe, otherwise to the default when one is given, otherwise to the index |
| Moderation.Approve | admin/src/web/controllers/sites/sites_reviews.py:231-255 | an unknown id changes nothing; an approved review is left alone; any other is approved; other reviews and the set of ids are kept |
| Moderation.ApproveIdempotent | admin/src/web/controllers/sites/sites_reviews.py:243-255 | approving twice is approving once, and the route's result is the service's approval saved in place |
| Moderation.Reject | admin/src/web/controllers/sites/sites_reviews.py:258-279 | an unknown id or an already rejected review changes nothing; an invalid reason fails and changes nothing; a valid one rejects the review with its stripped reason; other reviews are kept |
| Moderation.RejectKeepsFirstReason | admin/src/web/controllers/sites/sites_reviews.py:267-269 | once rejected, a second rejection changes nothing, so the first reason stays |
| Moderation.Destroy | admin/src/web/controllers/sites/sites_reviews.py:282-293 | an unknown id changes nothing; an existing review is removed and every other one is kept |
| Flags.GetFlag | admin/src/core/flags/service.py:22-24 | a flag comes back exactly when some stored flag has that key, and it is a stored row carrying that key |
| Flags.GetFlagUnique | admin/src/core/flags/service.py:22-24 | with unique keys, the flag found for a key is the one row that carries it |
| Flags.FlagsOf | admin/src/core/flags/service.py:27-29 | the listed flags are the fetched rows' records, one each, in order |
| Flags.ListFlags | admin/src/core/flags/service.py:27-29 | the listing holds every stored flag and nothing else, one per row, in ascending key order |
| Flags.FlagsOfRows | admin/src/core/flags/service.py:27-29 | a flag is among the listed records exactly when it is stored under some id |
| Flags.LoadFlags | admin/src/core/flags/service.py:31-32 | the loaded map has exactly the keys of the listed flags, each mapped to a listed flag with that key |
| Flags.LoadStep | admin/src/core/flags/service.py:32 | adding one flag to the comprehension keeps both facts of the map: its keys are the listed keys, each mapped to a listed flag with that key |
| Flags.LoadAgreesWithGet | admin/src/core/flags/service.py:22-32 | loading finds a key exactly when the single lookup does, and then the same flag |
| Flags.EnsureFlag | admin/src/core/flags/service.py:34-61 | afterwards the key exists; an existing flag is returned and nothing changes; otherwise exactly one new flag with the given data and no author is added |
| Flags.EnsureFlagIdempotent | admin/src/core/flags/service.py:34-61 | ensuring a flag a second time changes nothing and returns the same flag |
| Flags.SetFlag | admin/src/core/flags/service.py:63-100 | an unknown key, a missing message when switching on and a message over 150 characters are the three errors, each exactly in its case; otherwise only that flag changes, to the new state with the stripped message (cleared when off), author and time |
| Flags.FormMessage | admin/src/web/controllers/featureflags.py:29-62 | the form needs a message when switching any flag but reviews_enabled on, and when switching reviews_enabled off; a needed message that is blank or over 150 characters is refused; otherwise the stripped message is sent, and "" when none is needed |
| Flags.ManageAsWritten | admin/src/web/controllers/featureflags.py:23-80 | as written, the form's refusals are reported and every form that passes them ends in the call's TypeError, with the flags unchanged |
| Flags.ManageAsWrittenNeverSaves | admin/src/web/controllers/featureflags.py:64-72 | no submission of the panel form ever changes a flag |
| Flags.ServiceContradictsReviewsRule | admin/src/web/controllers/featureflags.py:32-33 | even without the TypeError, the service refuses to switch reviews_enabled on with the empty message the form sends, and clears the message the form requires when switching it off |
| Flags.SetFlagWith | admin/src/web/controllers/featureflags.py:64-72 | the service with the two options the form passes: only an unknown key or an enforced message rule fails; otherwise only that flag changes, to the new state, with the stripped message kept when on or when asked to keep it off |
| Flags.SetFlagWithDefaults | admin/src/core/flags/service.py:63-100 | with the options set to keep the old behaviour, the optioned service is exactly the written one |
| Flags.Manage | admin/src/web/controllers/featureflags.py:23-80 | the intended form changes nothing unless it saves; a missing key never saves; a save switches the named, existing flag to the requested state and touches no other flag |
| Flags.ManageReviewsFlag | admin/src/web/controllers/featureflags.py:32-62 | the intended form switches reviews_enabled off keeping the given message, and on without one |
| Flags.ManageMaintenanceFlag | admin/src/web/controllers/featureflags.py:35-46 | a flag other than reviews_enabled switched on through the intended form stores a stripped message of 1 to 150 characters |
| Users.NormalizeBool | admin/src/core/users/validators.py:16-27 | None reads as active and a boolean as itself; any other value is true for a true word, false for a false word and refused otherwise, after stripping and lower-casing its text |
| Users.NormalizeBoolRoundTrip | admin/src/core/users/validators.py:16-27 | the words "true" and "false", bare or padded with spaces, read back as their boolean |
| Users.WordDecides | admin/src/core/users/validators.py:22-26 | a text whose cleaned word is a true word and not a false one reads as true, and the other way round |
| Users.WordRoundTrip | admin/src/core/users/validators.py:22 | "true" and "false", bare or padded, clean to themselves |
| Users.PlainWord | admin/src/core/users/validators.py:22 | a non-empty unpadded lower-case word, bare or padded with one space, cleans to itself |
| Users.StripAroundSpace | admin/src/core/users/validators.py:22 | stripping one space on each side of an unpadded word gives the word |
| Users.NormalizeRole | admin/src/core/users/validators.py:30-37 | no role means the public role; a given role is accepted exactly when its stripped lower-cased slug is allowed, and it is that slug |
| Users.IndexOf | admin/src/core/users/validators.py:8 | the position of the first occurrence of a character, or -1 exactly when it does not occur |
| Users.EmailMatchesPattern | admin/src/core/users/validators.py:8 | the scanning matcher accepts exactly the addresses of the pattern: no whitespace, one '@' with text before it, and a dot after it with text on both sides |
| Users.AllowedOf | admin/src/core/users/validators.py:80 | the allowed roles are never empty: the given ones, or every role when none are given |
| Users.CheckEmail | admin/src/core/users/validators.py:45-51 | the email is stripped and lower-cased; it passes exactly when it is present, matches the pattern and no other user has it |
| Users.CheckName | admin/src/core/users/validators.py:53-63 | a name is required: blank gives the field's error and no value, otherwise its stripped text |
| Users.CheckPassword | admin/src/core/users/validators.py:65-73 | a given password shorter than 8 is too short; a missing or empty one is an error only when required; a password of 8 or more is kept as given |
| Users.CheckActive | admin/src/core/users/validators.py:75-78 | the activity is the normalised boolean, and an error exactly when it cannot be read |
| Users.CheckRole | admin/src/core/users/validators.py:80-84 | the role is the normalised slug among the allowed roles, and an error exactly when it is not one |
| Users.ValidateUserPayload | admin/src/core/users/validators.py:40-94 | the errors are the union of every field's own errors, and the clean values are every field's own clean value |
| Users.ValidPayloadIff | admin/src/core/users/validators.py:40-94 | a payload passes exactly when the email is well formed and free, both names are present, the password rule holds and the activity and role can be read; then every clean value is present |
| Users.ListUsersAsWritten | admin/src/core/users/service.py:13-34 | as written, page and size are clamped (size to 1..50); the total and the page are the window of the users the written filter keeps, and any role filter yields no rows and a total of 0 |
| Users.ListUsers | admin/src/core/users/service.py:13-34 | the intended listing counts every matching user, and its page is exactly the requested window of the users matching every filter, newest first unless the order is "created_at" |
| Users.ListUsersAgreeWithoutRole | admin/src/core/users/service.py:17-22 | without a role filter the written and the intended listing are the same |
| Users.RoleFilterKeepsRole | admin/src/core/users/service.py:21-22 | the intended role filter keeps exactly the stored users holding that role |
| Users.GetUser | admin/src/core/users/service.py:37-38 | a user comes back exactly when the id is stored, and it is that row |
| Users.CreateUserAsWritten | admin/src/core/users/service.py:41-51 | as written, an invalid payload returns its errors, and every valid one raises when the role slug is given to the user's read-only role property |
| Users.CreateUser | admin/src/core/users/service.py:41-51 | the intended creation refuses exactly the invalid payloads; otherwise exactly one new user holds the cleaned fields, the password's hash, the activity and the role, no other user changes and the emails stay unique |
| Users.CleanOfValid | admin/src/core/users/validators.py:40-94 | a valid payload cleans to the stripped, lower-cased email, the stripped names, the activity and the role |
| Users.InsertKeepsEmailsUnique | admin/src/core/users/models.py:48 | adding a user whose email no one has keeps the emails unique |
| Users.PutKeepsEmailsUnique | admin/src/core/users/models.py:48 | replacing a user with one whose email no other user has keeps the emails unique |
| Users.UpdateUserAsWritten | admin/src/core/users/service.py:54-79 | as written, no update is ever saved: an invalid payload returns its errors; deactivating an administrator is refused; deactivating anyone else raises on the missing system-administrator role; any other update raises on the read-only role |
| Users.UpdateUser | admin/src/core/users/service.py:54-79 | the intended update refuses exactly the invalid payloads, and the deactivation of an administrator or system administrator; otherwise only that user changes: the cleaned email, first and last name, the normalised activity and role are written, the creation time stays, the hash of a given non-empty password replaces the hash and otherwise the hash stays, and the emails stay unique |
| Users.DeleteUserAsWritten | admin/src/core/users/service.py:82-85 | as written, the user is removed and the result is falsy |
| Users.DeleteUser | admin/src/core/users/service.py:82-85 | the intended deletion removes exactly the users without a protected role, keeping every other row, and reports whether it did |
| Users.DeactivateUserAsWritten | admin/src/core/users/service.py:87-96 | as written, an administrator is refused and every other user raises on the missing system-administrator role, so no one is ever deactivated |
| Users.DeactivateUser | admin/src/core/users/service.py:87-96 | the intended deactivation refuses exactly the protected roles; otherwise only that user changes, to inactive |
| Users.ActivateUser | admin/src/core/users/service.py:99-106 | activation makes that user active and changes no other user |
| Users.DeactivateThenActivate | admin/src/core/users/service.py:87-106 | blocking and unblocking an active, unprotected user gives back the same table, and blocking twice is blocking once |
| Users.ExtractFilters | admin/src/web/controllers/users.py:23-36 | the page is at least 1, the parsed page when it is at least 1 and 1 when it does not parse; the text filters are stripped; the order defaults to "-created_at" |
| Users.ParseActiveFilter | admin/src/web/controllers/users.py:39-45 | the activity filter is set exactly for "true" and "false", to the matching boolean |
| Users.IndexQuery | admin/src/web/controllers/users.py:68-75 | an empty email or role text means no such filter, and the activity filter is the parsed one |
| Users.Index | admin/src/web/controllers/users.py:62-81 | the listing page shows 25 users on the requested page, and none whenever a role filter is given; without one, the total and the page are those of the users matching the email and activity filters |
| Users.FormPayload | admin/src/web/controllers/users.py:48-59 | the form fields pass through unchanged, and the activity box is ticked exactly for its truth words |
| Users.UpdateAsWritten | admin/src/web/controllers/users.py:161-194 | an unknown id is reported; unticking an administrator or system administrator is refused by the route's own guard; no update is ever saved |
| Users.DestroyAsWritten | admin/src/web/controllers/users.py:197-213 | as written, an unknown id is reported, and every existing user is deleted but reported as refused |
| Users.Destroy | admin/src/web/controllers/users.py:197-213 | with the intended deletion, an unknown id is reported, a reported deletion removed the user, and a refusal changed nothing and concerned a protected role |
| Users.DestroyAsWrittenMisreports | admin/src/web/controllers/users.py:207-210 | the written route reports a refusal for a user it has deleted, while the intended one reports unprotected users as deleted |
| Permissions.LinkChangeKeepsOk | admin/src/core/permissions/models.py:49 | relating two stored ids, or removing any pair, keeps the unique codes, slugs and known links |
| Permissions.Partition | admin/src/core/permissions/service.py:27 | the module part holds no '_'; a code without '_' is all module; otherwise module, '_' and action give the code back |
| Permissions.PartitionJoin | admin/src/core/permissions/service.py:27 | splitting a module without '_' joined by '_' to any action gives that module and action back |
| Permissions.WellFormedCodeIff | admin/src/core/permissions/service.py:27-29 | a code is accepted exactly when its first '_' has text on both sides |
| Permissions.FindPermission | admin/src/core/permissions/service.py:31 | a permission is found exactly when some stored permission has that code, and it is one with that code |
| Permissions.ResolveRole | admin/src/core/permissions/service.py:102-110 | a role row is taken as it is; a slug resolves exactly when some stored role has it, and to such a role |
| Permissions.EnsurePermission | admin/src/core/permissions/service.py:25-42 | a code without module or action is refused, and only such a code; an existing code keeps its id and takes a given description; a new code is stored with its module, action and description; roles and links are untouched |
| Permissions.EnsurePermissionIdempotent | admin/src/core/permissions/service.py:25-42 | ensuring the same permission with the same description a second time changes nothing |
| Permissions.FoundByCode | admin/src/core/permissions/models.py:18 | with unique codes, the stored row carrying a code is the one found |
| Permissions.LinkTarget | admin/src/core/permissions/service.py:47-51 | an unknown code is reported first, then an unknown role; otherwise the pair is the resolved role and the permission with that code |
| Permissions.SameTargets | admin/src/core/permissions/service.py:47-51 | stores with the same permission and role tables resolve every role and code the same way |
| Permissions.AssignPermission | admin/src/core/permissions/service.py:45-63 | the lookup errors are the only errors; an existing pair leaves everything as it was; otherwise exactly that pair is added with its assigner |
| Permissions.AssignIdempotent | admin/src/core/permissions/service.py:52-58 | assigning a second time changes nothing, whoever assigns it |
| Permissions.RevokePermission | admin/src/core/permissions/service.py:66-81 | the lookup errors are the only errors; otherwise exactly that pair is removed, and the answer is whether it was there |
| Permissions.AddThenRemove | admin/src/core/permissions/service.py:60-77 | adding a new key and removing it gives the map back, and removing a missing key changes nothing |
| Permissions.AssignThenRevoke | admin/src/core/permissions/service.py:45-81 | revoking a permission just given to a role that lacked it gives back the same store and answers true; revoking one it lacks answers false |
| Permissions.PermsOf | admin/src/core/permissions/service.py:93 | the returned permissions are the fetched rows' records, one each, in order |
| Permissions.ListRolePermissions | admin/src/core/permissions/service.py:84-93 | an unknown role is an error, and only then; otherwise exactly the stored permissions related to that role, ordered by code |
| Permissions.KeptPermsMembers | admin/src/core/permissions/service.py:17-22 | a permission is among those a filter keeps exactly when some stored row holding it passes the filter |
| Permissions.KeptPermsSound | admin/src/core/permissions/service.py:17-22 | every kept permission is a stored row that passes the filter |
| Permissions.KeptPermsComplete | admin/src/core/permissions/service.py:17-22 | every stored row that passes the filter is kept |
| Permissions.ListPermissions | admin/src/core/permissions/service.py:17-22 | exactly the stored permissions, of that module when a non-empty module is given, ordered by code |
| Permissions.BulkAssign | admin/src/core/permissions/service.py:96-99 | it succeeds exactly when every code names a permission and the role is known, and then relates every named pair; the tables and earlier links stay, and a failure keeps the assignments before it |
| Permissions.BulkStep | admin/src/core/permissions/service.py:98-99 | one assignment step keeps the targets of the remaining codes valid, and their links give all the links |
| Permissions.TargetsOkStep | admin/src/core/permissions/service.py:98-99 | when the later codes resolve the same way after the first assignment, all codes resolve exactly when the later ones do |
| Permissions.LinkedStep | admin/src/core/permissions/service.py:98-99 | the first pair linked plus the later pairs linked gives every pair linked |
| Auth.Granted | admin/src/web/controllers/auth.py:35 | the granted set holds exactly the cached codes, and nothing when none are cached |
| Auth.CodeSet | admin/src/web/__init__.py:102 | the set holds exactly the listed codes |
| Auth.RequireLogin | admin/src/web/controllers/auth.py:16-24 | the view runs exactly when a user id is in the session; otherwise the request goes to the login page |
| Auth.RequirePermissionsAsWritten | admin/src/web/controllers/auth.py:26-41 | as written, a request without a session goes to the login page, and every logged-in request raises on the missing system-administrator role member |
| Auth.RequirePermissionsAsWrittenNeverRuns | admin/src/web/controllers/auth.py:31-39 | the written decorator never runs its view, while the intended one lets a logged-in sysadmin through |
| Auth.RequirePermissions | admin/src/web/controllers/auth.py:26-41 | the intended decorator sends requests without a session to the login page, and runs the view exactly for a sysadmin or a session holding every required code |
| Auth.RequirePermissionsMonotone | admin/src/web/controllers/auth.py:35-36 | a passing check still passes when fewer codes are required or more are held |
| Auth.VerifyPassword | admin/src/core/security/passwords.py:15-22 | an empty password or hash never matches; otherwise the answer is the hash check's |
| Auth.FindUserByEmail | admin/src/web/controllers/auth.py:65 | a user is found exactly when one has exactly that email, and it is such a user |
| Auth.LoginEmail | admin/src/web/controllers/auth.py:61 | the typed email comes back without outer whitespace or upper-case letters, and empty when missing |
| Auth.LowerCharSpace | admin/src/web/controllers/auth.py:61 | lower-casing a character keeps whether it is whitespace |
| Auth.LowerKeepsStripped | admin/src/web/controllers/auth.py:61 | lower-casing text without outer whitespace adds none |
| Auth.LoginEmailIdempotent | admin/src/web/controllers/auth.py:61 | normalising an already normalised email changes nothing |
| Auth.NextOf | admin/src/web/controllers/auth.py:63 | the target is the next argument exactly when it is present and non-empty, and the home page otherwise |
| Auth.MaintenanceText | admin/src/web/controllers/auth.py:83 | the maintenance notice is never empty: the flag's own message when it has one, else the default |
| Auth.CodesOf | admin/src/web/controllers/auth.py:47 | the codes of the permissions, one each, in order |
| Auth.RoleCodes | admin/src/web/controllers/auth.py:44-47 | an unknown role is an error, and only then; otherwise the codes are exactly those of the permissions related to the role |
| Auth.CodesOfMembers | admin/src/web/controllers/auth.py:47 | a code is listed exactly when some permission in the list has it |
| Auth.RoleCodesMembers | admin/src/web/controllers/auth.py:44-47 | the listed codes are exactly the codes of the stored permissions related to the role |
| Auth.LoginPostAsWritten | admin/src/web/controllers/auth.py:58-96 | as written, every submission raises at the user lookup, which the users service does not define |
| Auth.LoginPost | admin/src/web/controllers/auth.py:58-96 | with the lookup by email, an unknown email is refused as invalid credentials, and an inactive user as an inactive account |
| Auth.LoginSucceedsIff | admin/src/web/controllers/auth.py:58-96 | a login succeeds exactly for an active user with a matching password while maintenance is off or the user is a sysadmin; the new session holds that user, role and the role's codes; it leads to the flag panel exactly under maintenance |
| Auth.InactiveBeforePassword | admin/src/web/controllers/auth.py:71-77 | an inactive account is reported whatever password is typed |
| Auth.MaintenanceLogin | admin/src/web/controllers/auth.py:79-86 | under maintenance, only a sysadmin logs in, and is then sent to the flag panel |
| Auth.MaintenanceRefusal | admin/src/web/controllers/auth.py:79-85 | under maintenance, a user with the right credentials who is not a sysadmin is refused with the maintenance notice |
| Auth.LoginThenRequire | admin/src/web/controllers/auth.py:26-96 | a fresh login session passes the permission check exactly when the user is a sysadmin or the role holds every required code |
| Auth.Logout | admin/src/web/controllers/auth.py:98-106 | a logged-in session is cleared and reported; any other session is left alone |
| Auth.LogoutThenGuarded | admin/src/web/controllers/auth.py:16-106 | after logging out, both guards send every request to the login page |
| Auth.LoadUserPermissions | admin/src/web/__init__.py:90-102 | without a session, nothing is granted; cached codes are granted as they are; an uncached user gets the role's codes cached and granted; a missing user gets nothing; an unknown role is an error |
| Auth.LoadUserPermissionsCaches | admin/src/web/__init__.py:94-102 | a second request with the cached session grants the same codes and leaves the session as it is |
| Auth.InjectMaintenance | admin/src/web/__init__.py:104-115 | the template's maintenance state is on exactly when the flag exists and is on; its message is non-empty exactly then, and the flag's own message when it has one |
| Auth.ProtectPrivateArea | admin/src/web/__init__.py:130-167 | public paths pass; other paths need a session; a sysadmin passes; otherwise maintenance clears the session and redirects to the login, except on paths starting with "/login", where the notice is stored; without maintenance the notice is dropped |
| Auth.LoginAndHookAgree | admin/src/web/__init__.py:130-167 | a session a login just created is never turned away from a private page by the maintenance gate |
| Auth.NoCacheHeaders | admin/src/web/__init__.py:169-180 | the three no-cache headers are added exactly to a logged-in GET answered with 200 |
| Jwt.SymbolValue | admin/src/web/security/jwt_tokens.py:32-38 | a character has a value exactly when it is in the url-safe alphabet, and that value's symbol is the character |
| Jwt.SymbolRoundTrip | admin/src/web/security/jwt_tokens.py:32-38 | every value 0..63 is read back from its symbol |
| Jwt.Quad | admin/src/web/security/jwt_tokens.py:32-33 | three bytes become four symbols |
| Jwt.B64Encode | admin/src/web/security/jwt_tokens.py:32-33 | the unpadded encoding has ceil(4n/3) symbols, never a length of 1 modulo 4, all from the url-safe alphabet |
| Jwt.QuadAlphabet | admin/src/web/security/jwt_tokens.py:32-33 | the four symbols of three bytes are in the alphabet |
| Jwt.Group | admin/src/web/security/jwt_tokens.py:36-38 | a group of two to four symbols gives one byte fewer than it has symbols |
| Jwt.Values | admin/src/web/security/jwt_tokens.py:36-38 | the values of a text exist exactly when every character is in the alphabet, and they are the characters' values |
| Jwt.B64Decode | admin/src/web/security/jwt_tokens.py:36-38 | a segment decodes only when its length is not 1 modulo 4 and every character is in the alphabet, and then to three bytes per four symbols |
| Jwt.ValuesOf | admin/src/web/security/jwt_tokens.py:36-38 | the values of a text are determined character by character |
| Jwt.GroupOfQuad | admin/src/web/security/jwt_tokens.py:32-38 | decoding the four symbols of three bytes gives the three bytes back |
| Jwt.B64RoundTrip | admin/src/web/security/jwt_tokens.py:32-38 | decoding the encoding of any bytes gives them back |
| Jwt.DecodeStep | admin/src/web/security/jwt_tokens.py:36-38 | decoding a segment is decoding its first group, then the rest |
| Jwt.RoundTripOne | admin/src/web/security/jwt_tokens.py:32-38 | one byte, encoded without padding, decodes back to itself |
| Jwt.RoundTripTwo | admin/src/web/security/jwt_tokens.py:32-38 | two bytes, encoded without padding, decode back to themselves |
| Jwt.RoundTripStep | admin/src/web/security/jwt_tokens.py:32-38 | when the bytes after the first three round-trip, so do all the bytes |
| Jwt.SplitToken | admin/src/web/security/jwt_tokens.py:75-79 | a token is malformed exactly when it does not have three '.'-separated segments; otherwise the segments, free of '.', join back to the token |
| Jwt.SplitJoinToken | admin/src/web/security/jwt_tokens.py:75-79 | three segments without '.' split back out of their join |
| Jwt.ConfigSecret | admin/src/web/security/jwt_tokens.py:57-61 | the secret is the JWT secret when set, else the application secret; it is missing exactly when neither is set, and never empty |
| Jwt.Upper | admin/src/web/security/jwt_tokens.py:65 | upper-casing maps every character and keeps the length |
| Jwt.ConfigAlgorithm | admin/src/web/security/jwt_tokens.py:64-68 | the only accepted algorithm is HS256, the default when none is set; a setting of any other length is refused |
| Jwt.AssembleClaims | admin/src/web/security/jwt_tokens.py:86-91 | the signed claims are the caller's plus iat (kept when given, else now), exp at now plus the lifetime when one is given, and sub when a subject is given; no other claim changes |
| Jwt.EncodeToken | admin/src/web/security/jwt_tokens.py:82-97 | a bad configuration is the only error; otherwise the token is the encoded header, the encoded claims and the encoded HMAC of the two, joined by dots |
| Jwt.CheckSignature | admin/src/web/security/jwt_tokens.py:102-107 | the signature stage passes exactly when a secret is set, the signing input is ASCII, and the decoded signature is the HMAC of it; a decodable wrong signature is a signature error |
| Jwt.CheckHeader | admin/src/web/security/jwt_tokens.py:109-112 | the header stage passes exactly when the algorithm setting is valid and the header's alg is HS256; a readable header naming another is an algorithm error |
| Jwt.ReadPayload | admin/src/web/security/jwt_tokens.py:114-121 | an accepted payload is the decoded claims; when asked, an accepted expiry is an integer not expired under the rule; a decodable unexpired payload is accepted |
| Jwt.DecodeTokenWith | admin/src/web/security/jwt_tokens.py:100-121 | a token is split first, then its signature is checked, then its header, then its payload; the first failing stage decides the error |
| Jwt.DecodeTokenAsWritten | admin/src/web/security/jwt_tokens.py:116-120 | as written, an accepted token's expiry is now or later |
| Jwt.DecodeToken | admin/src/web/security/jwt_tokens.py:116-120 | with the intended comparison, an accepted token's expiry is strictly after now |
| Jwt.NoDotInB64 | admin/src/web/security/jwt_tokens.py:32-33 | encoded bytes hold no '.' and are ASCII |
| Jwt.SigningInputAscii | admin/src/web/security/jwt_tokens.py:95 | the signing input of two encoded segments is ASCII |
| Jwt.IssuedSignatureOk | admin/src/web/security/jwt_tokens.py:95-107 | the signature an issued token carries passes the signature stage |
| Jwt.IssuedHeaderOk | admin/src/web/security/jwt_tokens.py:92-112 | the header an issued token carries passes the header stage |
| Jwt.IssuedPayloadOk | admin/src/web/security/jwt_tokens.py:94-121 | the payload an issued token carries reads back as the signed claims when unexpired |
| Jwt.EncodeDecodeRoundTrip | admin/src/web/security/jwt_tokens.py:82-121 | a token this module issues decodes to exactly the claims it signed, while its expiry is not reached |
| Jwt.SignatureCheckedFirst | admin/src/web/security/jwt_tokens.py:102-107 | a token with a wrong signature is refused as such, whatever its header and payload hold |
| Jwt.OtherAlgorithmRefused | admin/src/web/security/jwt_tokens.py:109-112 | a correctly signed token whose header names another algorithm is refused |
| Jwt.ExpiryAtNowAccepted | admin/src/web/security/jwt_tokens.py:116-120 | as written, a token is still accepted in the second its expiry names, while the intended comparison refuses it as expired |
| Jwt.ValidateToken | admin/src/web/security/jwt_tokens.py:151-156 | a decoding error is returned as it is; an accepted token is the decoded one, carrying the expected type when one is given |
| Jwt.Ttl | admin/src/web/security/jwt_tokens.py:124-129 | the lifetime is the setting, or the default when it is missing or zero |
| Jwt.IssueAccessToken | admin/src/web/security/jwt_tokens.py:132-137 | an access token is refused exactly when the configuration is bad |
| Jwt.IssueRefreshToken | admin/src/web/security/jwt_tokens.py:140-148 | a refresh token is refused exactly when the configuration is bad |
| Jwt.ValidateByType | admin/src/web/security/jwt_tokens.py:151-156 | a decodable token validates exactly for the type it carries |
| Jwt.AccessTokenValidates | admin/src/web/security/jwt_tokens.py:132-156 | an access token validates as an access token for its whole lifetime, carries the user id as subject, and is refused where a refresh token is expected |
| Jwt.AccessIsEncode | admin/src/web/security/jwt_tokens.py:132-137 | with no extra claims, issuing an access token encodes its type claim with the access lifetime and the user id as subject |
| Jwt.AccessClaims | admin/src/web/security/jwt_tokens.py:134-137 | the claims of an access token carry its type and its subject |
| ApiHelpers.FilterByTags | admin/src/web/api/sites_helpers.py:170-179 | an empty tag list keeps every site; otherwise exactly the sites that carry every requested tag, compared case-insensitively, are kept |
| ApiHelpers.Step | admin/src/web/api/sites_helpers.py:232-241 | a criterion that is not set keeps the list; a set one keeps exactly the sites that satisfy it, in their order |
| ApiHelpers.Steps | admin/src/web/api/sites_helpers.py:232-242 | the name, description, city, province and tag filters only ever drop sites and never reorder them |
| ApiHelpers.StepsMembers | admin/src/web/api/sites_helpers.py:232-242 | a site survives the five optional filters exactly when it meets every criterion that is set |
| ApiHelpers.ApplyFilters | admin/src/web/api/sites_helpers.py:223-243 | the result holds exactly the visible sites that meet every set criterion, in their original order |
| ApiHelpers.ApplyFiltersIdempotent | admin/src/web/api/sites_helpers.py:223-243 | filtering an already filtered listing with the same query changes nothing |
| ApiHelpers.KeepsMatching | admin/src/web/api/sites_helpers.py:223-243 | a listing whose every site already matches the query passes through unchanged |
| ApiHelpers.RatingValue | admin/src/web/api/sites_helpers.py:188-193 | a site with none of average_rating, rating or score is rated 0 |
| ApiHelpers.SortSites | admin/src/web/api/sites_helpers.py:182-216 | an order outside the five accepted choices is an error, and only such an order; otherwise the result is a permutation of the sites, sorted by the chosen key and direction |
| ApiHelpers.RatingOrderKeepsPlainSites | admin/src/web/api/sites_helpers.py:188-209 | sites with no rating field all rate 0, so both rating orders leave the listing exactly as it was, because the sort is stable |
| ApiHelpers.AllWithKey | admin/src/web/api/sites_helpers.py:206-209 | when every site has the same sort key, none is dropped or moved when the sites with that key are selected |
| ApiHelpers.ArgInt | admin/src/web/api/sites_helpers.py:123-124 | an absent or empty argument gives no number, and any other text is read as an integer or refused |
| ApiHelpers.ParseIntArg | admin/src/web/api/sites_helpers.py:121-134 | non-numeric text is an error naming the parameter; an accepted value is the parsed one or else the default and lies within the bounds; a bound error reports the violated bound |
| ApiHelpers.ParseIntArgOfText | admin/src/web/api/sites_helpers.py:121-134 | a written-out integer is accepted exactly when it lies within the bounds, and is then returned unchanged |
| ApiHelpers.ParseFloatArg | admin/src/web/api/sites_helpers.py:137-142 | an absent or empty argument gives no number; other text is the parsed number, or an error naming the parameter when it does not parse |
| ApiHelpers.FirstStatus | admin/src/web/api/sites_helpers.py:323-325 | the status found is an option whose folded value or name equals the text, and when none is found no option matches |
| ApiHelpers.ParseStateOfConservation | admin/src/web/api/sites_helpers.py:317-327 | a missing status is an error; a known alias gives its status; any other text is accepted exactly when it is, ignoring case, the value or the name of a status, and then gives that status |
| ApiHelpers.FirstCategory | admin/src/web/api/sites_helpers.py:336-338 | the category found is an option whose folded value or name equals the text, and when none is found no option matches |
| ApiHelpers.ParseCategory | admin/src/web/api/sites_helpers.py:330-340 | a missing category means Otro; a known alias gives its category; any other text is accepted exactly when it is, ignoring case, the value or the name of a category, and then gives that category |
| ApiHelpers.LowerIs | admin/src/web/api/sites_helpers.py:82-85 | text whose characters fold one by one to a target folds to that target |
| ApiHelpers.StatusByAlias | admin/src/web/api/sites_helpers.py:98-106 | any spelling that folds to a status alias parses to that status |
| ApiHelpers.CategoryByAlias | admin/src/web/api/sites_helpers.py:107-118 | any spelling that folds to a category alias parses to that category |
| ApiHelpers.StatusNamesParse | admin/src/web/api/sites_helpers.py:317-327 | every conservation status is read back both from its stored value and from its member name |
| ApiHelpers.CategoryNamesParse | admin/src/web/api/sites_helpers.py:330-340 | every category is read back both from its stored value and from its member name |
| ApiHelpers.ValidateReviewPayload | admin/src/web/api/sites_helpers.py:430-448 | a truthy comment that is not text makes cleaning raise, and only such a comment; otherwise the rating is refused exactly when it is not an integer from 1 to 5, and the cleaned comment (empty for a falsy one) is refused as missing, too short or too long exactly when its stripped length is 0, below 20 or above 1000 |
| ApiHelpers.ReviewPayloadAccepted | admin/src/web/api/sites_helpers.py:430-448 | a rating from 1 to 5 with a comment of 20 to 1000 characters is accepted and returned unchanged |
| ApiHelpers.DefaultOrEmpty | admin/src/web/api/sites_helpers.py:70 | a flag's message falls back to its default message, else to empty text |
| ApiHelpers.SerializeFlagStateAsWritten | admin/src/web/api/sites_helpers.py:61-79 | the serialisation fails exactly when the flag is missing and its message is to be shown while disabled |
| ApiHelpers.SerializeFlagState | admin/src/web/api/sites_helpers.py:61-79 | the state is enabled exactly when the flag exists and is on; an enabled flag shows its own message or else the default; a disabled one shows nothing unless asked, and then a stripped message |
| ApiHelpers.SerializeMissingReviewsFlagCrashes | admin/src/web/api/sites_helpers.py:69-75 | a database without the reviews flag makes the serialisation as written fail, while the corrected one reports it disabled with the stripped default message |
| ApiHelpers.SerializeAgrees | admin/src/web/api/sites_helpers.py:61-79 | wherever the code as written does not fail, the corrected serialisation gives the same state |
| ApiHelpers.EnabledKnownFlagHasMessage | admin/src/web/api/sites_helpers.py:69-73 | an enabled flag that has a default message never reports an empty message |
| ApiHelpers.JoinedName | admin/src/web/api/sites_helpers.py:88-93 | a user with a non-blank name part is named as the review author display names them; with both parts blank the name is empty |
| ApiHelpers.FormatUserDisplay | admin/src/web/api/sites_helpers.py:88-95 | the display is never empty: "Visitante" without a user, otherwise that user's display |
| ApiHelpers.UserDisplayOf | admin/src/web/api/sites_helpers.py:88-95 | the display is never empty: the joined name when a name part is non-blank, else the email, else "Visitante" |
| ApiHelpers.FalsyCommentIsMissing | admin/src/web/api/sites_helpers.py:437-441 | a falsy comment that is not text (0, false, []) is read as a missing comment |
| ApiAuth.WordLength | admin/src/web/api/sites_helpers.py:291 | the first field of a header is the longest leading run of non-whitespace characters |
| ApiAuth.FieldsShape | admin/src/web/api/sites_helpers.py:291 | splitting on whitespace yields only non-empty fields that contain no whitespace |
| ApiAuth.WordLengthOf | admin/src/web/api/sites_helpers.py:291 | a word followed by whitespace is read as a field of exactly its own length |
| ApiAuth.FieldsOfWord | admin/src/web/api/sites_helpers.py:291 | a single word without whitespace splits into just that word |
| ApiAuth.FieldsOfPair | admin/src/web/api/sites_helpers.py:291 | two words joined by one space split back into the same two words |
| ApiAuth.BearerToken | admin/src/web/api/sites_helpers.py:286-294 | a blank header is the missing-header error, and only a blank one; a token is returned exactly when the stripped header splits into two fields whose first is "bearer" in any case, and the token is the second field |
| ApiAuth.BearerRoundTrip | admin/src/web/api/sites_helpers.py:286-294 | any case-spelling of "bearer", a space and a token give that token back |
| ApiAuth.BareTokenRefused | admin/src/web/api/sites_helpers.py:291-293 | a token sent without a scheme is a malformed header |
| ApiAuth.RequireApiUser | admin/src/web/api/sites_helpers.py:278-307 | an active public session wins; any authenticated user exists and is active, and is public unless the session vouched for them; anonymity happens exactly for an optional call with no session and a blank header; a malformed header is refused; a well-formed token authenticates exactly when it loads to the id of an active public user |
| ApiAuth.TokenAuthenticates | admin/src/web/api/sites_helpers.py:286-307 | a token that loads to an active public user's id, sent as "Bearer <token>", authenticates that user |
| ApiAuth.MalformedRefusedEvenWhenOptional | admin/src/web/api/sites_helpers.py:286-293 | without a session a malformed header is refused even where a user is optional |
| ApiAuth.VerifyToken | admin/src/web/api/sites.py:509-530 | a valid verdict names a non-zero id of an active public user; a blank header is the missing-header failure; a well-formed header with no secret key configured fails outside the handler |
| ApiAuth.VerifyAgreesWithRequire | admin/src/web/api/sites.py:509-530 | on a table whose ids start at 1, token verification accepts a header for a user exactly when the API guard, with no session, authenticates that user |
| ApiAuth.LoginFields | admin/src/web/api/sites.py:450-460 | the fields are accepted exactly when the body is a JSON object with a non-blank email and a non-empty password, and both returned values are non-empty |
| ApiAuth.ApiLoginAsWritten | admin/src/web/api/sites.py:448-487 | a bad body is a 400 exactly as in the corrected login, but every well-formed request ends in a 500 because the user lookup does not exist |
| ApiAuth.ApiLogin | admin/src/web/api/sites.py:448-487 | a bad body is a 400, and only a bad body; a token is issued only for the user the email names when that user is an active public user whose password matches, and it is that user's signed id with the configured lifetime |
| ApiAuth.PasswordBeforeInactive | admin/src/web/api/sites.py:463-466 | a wrong password for an inactive account is reported as bad credentials, not as an inactive user |
| ApiAuth.LoginThenAuthenticated | admin/src/web/api/sites.py:470-478 | a token from a successful login, sent back as a Bearer header, authenticates the user it was issued to |
| ApiSites.VisibleSite | admin/src/web/api/sites_helpers.py:451-456 | a site is found exactly when it exists and is visible, and the one found is that site |
| ApiSites.GeoRule | admin/src/web/api/sites.py:133-142 | the query is accepted exactly when a positive radius comes with both coordinates or no geographic parameter is sent; a non-positive radius and coordinates without a radius are each their own error; an accepted radius is converted from kilometres to metres |
| ApiSites.Geo | admin/src/web/api/sites.py:129-142 | a latitude that does not parse is reported first; when all three numbers parse, the geographic rules decide |
| ApiSites.Base | admin/src/web/api/sites.py:138-142 | the sites the listing starts from carry no favourite mark yet |
| ApiSites.QueryTags | admin/src/web/api/sites.py:124-125 | no requested tag is empty text |
| ApiSites.LowerAllNonEmpty | admin/src/web/api/sites.py:125-150 | folding the requested tags keeps every one of them non-empty |
| ApiSites.Selected | admin/src/web/api/sites.py:129-153 | a geographic error is reported as is; otherwise the only error is an unknown order; the sites returned are exactly the visible starting sites that meet every criterion |
| ApiSites.PageArgs | admin/src/web/api/sites.py:170-176 | an accepted page is at least 1 and per_page lies in 1..100; absent parameters give page 1 of 20; the errors are those of integer parsing |
| ApiSites.MarkFavorites | admin/src/web/api/sites.py:178-181 | the sites and their order are unchanged; with favourites every site is marked with whether it is one of them, and without favourites nothing is marked |
| ApiSites.Present | admin/src/web/api/sites.py:165-182 | the page echoes its parameters; the total counts the sites shown (in favourites mode only the caller's favourites); the data is exactly the requested window of them, each marked with whether it is a favourite when the caller has favourites |
| ApiSites.Index | admin/src/web/api/sites.py:115-189 | a query error is reported before the caller is looked at; then a refused caller; then a page-parameter error; an accepted listing's total and data are the window of the selected sites, narrowed to the caller's favourites in favourites mode and marked with them |
| ApiSites.Answer | admin/src/web/api/sites.py:165-182 | a bad page parameter is the answer; otherwise the page and size are echoed, the total counts the caller's shown sites (only favourites in favourites mode), and the data is that page of them with the favourite marks, every item visible and matching the criteria |
| ApiSites.MarkedMatch | admin/src/web/api/sites.py:178-181 | the favourite marks do not change which criteria a site meets |
| ApiSites.PageItemsFrom | admin/src/web/api/sites_helpers.py:246-258 | a page holds only items of the list it was cut from |
| ApiSites.FavoritesListingNeedsCaller | admin/src/web/api/sites.py:157-163 | favourites mode without a session or header is refused as unauthenticated, whatever the filters |
| ApiSites.FavoritesListingShowsFavorites | admin/src/web/api/sites.py:157-181 | an accepted favourites listing has an authenticated caller, and every site it lists is that caller's favourite and is marked so |
| ApiSites.AnonymousListingUnmarked | admin/src/web/api/sites.py:155-181 | a caller without a session or header may list, and then no site carries a favourite mark |
| ApiSites.SiteDetailsAsWritten | admin/src/web/api/sites_helpers.py:459-466 | as written the detail leaves the store unchanged (the visit update fails and is rolled back); a hidden or unknown site is not found; the detail is that site, marked with the caller's favourite exactly when a caller is authenticated |
| ApiSites.SiteDetails | admin/src/web/api/sites.py:192-209 | as intended a hidden or unknown site is not found and counts no visit; a visible one counts exactly one visit more, also when the caller is then refused; the answer is the one of the written endpoint |
| ApiSites.VisitNeverCountedAsWritten | admin/src/web/api/sites_helpers.py:459-466 | on a visible site the written endpoint leaves the visit count as it was, where the intended one adds one |
| ApiSites.PersonsOf | admin/src/core/sites/reviews_service.py:202-203 | the author details are known for exactly the users in the table |
| ApiSites.ListSiteReviews | admin/src/web/api/sites.py:212-239 | a hidden site is not found; the listed reviews are approved reviews of that site and the statistics count them; the caller's own review is shown only to an authenticated caller, is theirs and is of that site |
| ApiSites.ReviewPayload | admin/src/web/api/sites.py:252-255 | a non-JSON body is refused, and only such a body; an object body is validated entry by entry, and a truthy comment that is not text is a server error; a falsy body validates as the empty object |
| ApiSites.ReviewGate | admin/src/web/api/sites.py:246-251 | with reviews switched off every write is refused before the caller is looked at; a write passes exactly when reviews are on, the caller is authenticated and the site is visible, and it proceeds as that caller |
| ApiSites.Checked | admin/src/web/api/sites.py:255-257 | an accepted payload has a rating from 1 to 5 and a stripped comment of 20 to 1000 characters; a payload is accepted exactly when it validates |
| ApiSites.CreateOwn | admin/src/web/api/sites.py:258-263 | creation is refused exactly when the user already reviewed the site; otherwise one new pending review of that user and site is added under a fresh id and no other row changes |
| ApiSites.UpdateOwn | admin/src/web/api/sites.py:288-291 | an update is not found exactly when the review is not the caller's under that site; otherwise the review takes the new rating and comment, goes back to pending, and no other row changes |
| ApiSites.DeleteOwn | admin/src/web/api/sites.py:310-313 | a delete is not found unless the caller owns the review under that site; then exactly that row goes |
| ApiSites.CreateReviewEndpoint | admin/src/web/api/sites.py:242-269 | the gate is checked first, then the payload, then the one-review rule; the saved review is shown with the caller's display name |
| ApiSites.CreateOwnOnce | admin/src/web/api/sites.py:258-262 | once a user's review of a site is created, the next creation for the same site is refused |
| ApiSites.GateIgnoresReviews | admin/src/web/api/sites.py:246-251 | the gate's answer does not depend on the review table |
| ApiSites.SecondReviewRefused | admin/src/web/api/sites.py:242-269 | after a created review, the same caller's next attempt on that site is refused, and with a valid payload it is refused as already reviewed |
| ApiSites.UpdateReviewEndpoint | admin/src/web/api/sites.py:272-297 | the gate is checked first, then the payload, then ownership; the updated review is shown with the caller's display name |
| ApiSites.DeleteReviewEndpoint | admin/src/web/api/sites.py:300-318 | the gate is checked first, then ownership of the review under that site |
| ApiSites.OnlyOwnerWrites | admin/src/web/api/sites.py:288-312 | someone else's review can be neither edited nor deleted: both are not found |
| ApiSites.DisabledReviewsRefuseWrites | admin/src/web/api/sites.py:93-102 | with the reviews flag off, creation, update and deletion are all refused with status 503, whoever asks |
| ApiSites.CreateOwnThenDelete | admin/src/web/api/sites.py:258-313 | a review the user just created is theirs to delete, and deleting it restores the table |
| ApiSites.CreatedReviewDeletable | admin/src/web/api/sites.py:242-318 | after the creation endpoint succeeds, the same caller may delete the review through the delete endpoint, which restores the table |
| ApiSites.VisibleIds | admin/src/web/api/sites_helpers.py:451-456 | the set holds exactly the ids of the visible sites |
| ApiSites.MyReviews | admin/src/web/api/sites.py:561-585 | the listing is given exactly to an authenticated caller; it holds exactly that caller's reviews on visible sites, in any moderation state, newest first |
| ApiSites.MarkFavoriteEndpoint | admin/src/web/api/sites.py:413-428 | marking succeeds exactly for an authenticated caller and a visible site, and adds exactly that pair to the favourites; a hidden site is not found |
| ApiSites.UnmarkFavoriteEndpoint | admin/src/web/api/sites.py:431-444 | unmarking succeeds exactly for an authenticated caller and a visible site, and removes exactly that pair |
| ApiSites.FavoriteEndpointsRoundTrip | admin/src/web/api/sites.py:413-444 | marking twice is marking once, and unmarking after marking removes the caller's favourite and leaves everyone else's as they were |
| ApiSites.CreateSiteEndpointAsWritten | admin/src/web/api/sites.py:321-337 | no proposal ever creates a site: a multipart request with a file fails with a server error, and any other request is refused for the missing cover |
| ApiSites.Missing | admin/src/web/api/sites.py:356-368 | the missing fields are exactly the required fields that are absent or empty |
| ApiSites.FormYear | admin/src/web/api/sites.py:353-373 | an absent or empty year is no year; any other text is the parsed year or the not-a-number error |
| ApiSites.ProposalArgs | admin/src/web/api/sites.py:325-390 | only a multipart request with a valid cover file can pass; accepted arguments carry the submitted name, short and full description, city, province, both parsed coordinates and year, a hidden site, the parsed status, category and tags and the file's extension |
| ApiSites.AttachCover | admin/src/web/api/sites.py:391-400 | it fails, always as a server error, exactly when the upload raises (no storage client or bucket) or the gallery is full; on success only the history of the store changes and the gallery ends with the new cover, titled with the site's name, the only cover |
| ApiSites.CoverImage | admin/src/web/api/sites.py:393-400 | `create_image` of the uploaded file fails, as a server error, exactly when the gallery is full; otherwise only the store's history changes and the file, titled with the site's name, becomes its last image and only cover |
| ApiSites.Commit | admin/src/web/api/sites.py:377-410 | failures are server errors; a taken name writes nothing; otherwise the hidden site is committed first and stays even when its cover then fails, and it is saved with its cover exactly when the upload succeeds and the gallery has room; a success adds exactly one new site under a fresh id, built from the arguments, keeps every other site and leaves reviews, flags and visits alone |
| ApiSites.CreateSiteEndpoint | admin/src/web/api/sites.py:321-410 | a refusal of the checks is the answer and writes nothing; an accepted proposal gives the two writes of `Commit`, including the committed site left behind by a failed cover |
| ApiSites.ProposedSiteCover | admin/src/web/api/sites.py:321-403 | an accepted proposal came with a file, and adds one hidden site under the submitted name whose only cover is the uploaded file, titled with that name |
| ApiSites.FailedUploadKeepsSite | admin/src/web/api/sites.py:377-410 | with storage unconfigured, an accepted proposal under a free name is answered 500, yet a new hidden site under that name is stored under the next id, and no image is written |
| ApiSites.StatusCheckedBeforeFields | admin/src/web/api/sites.py:351-368 | a proposal without a status is refused for the status even when required fields are missing too |
| ApiSites.ProposalNeverCreatedAsWritten | admin/src/web/api/sites.py:321-337 | every request the corrected endpoint accepts fails with a server error in the code as written |
| ApiSites.PublicStatus | admin/src/web/api/sites.py:490-506 | each maintenance state is enabled exactly when its flag exists and is on, and a disabled one shows no message |
| ApiSites.PublicFlagsAsWritten | admin/src/web/api/sites.py:533-558 | the endpoint as written fails exactly when the reviews flag is missing |
| ApiSites.PublicFlags | admin/src/web/api/sites.py:533-558 | the admin and portal states match the status endpoint; the reviews state is enabled exactly when that flag exists and is on, and when disabled its message is stripped |
| ApiSites.PublicFlagsAgree | admin/src/web/api/sites.py:533-558 | wherever the endpoint as written answers, the corrected one gives the same answer |
| ApiSites.ReviewsStateMatchesGate | admin/src/web/api/sites.py:93-98 | when the reviews flag exists, the reported state agrees with the gate on writes; when it is missing, writes are let through while the report says reviews are off |
| SitesAdmin.Arg | admin/src/web/controllers/sites/sites_admin.py:59-64 | a query parameter is always read as cleaned text |
| SitesAdmin.VisibilityFilter | admin/src/web/controllers/sites/sites_admin.py:51-56 | the listing keeps only visible sites exactly for the text "true" and only hidden ones exactly for "false"; anything else lists both |
| SitesAdmin.VisibilityRoundTrip | admin/src/web/controllers/sites/sites_admin.py:51-56 | each option of the visibility select reads back as the value it stands for, and the comparison is case-sensitive |
| SitesAdmin.FieldClean | admin/src/web/controllers/sites/sites_admin.py:58-69 | every text filter the listing reads is cleaned text |
| SitesAdmin.ReadFilters | admin/src/web/controllers/sites/sites_admin.py:50-69 | the filters are cleaned texts; the sort field and direction are never empty, and a given sort field or direction is kept |
| SitesAdmin.ReadTags | admin/src/web/controllers/sites/sites_admin.py:50 | the tag filter holds exactly the ids among the tag values that read as integers |
| SitesAdmin.Given | admin/src/web/controllers/sites/sites_admin.py:77-84 | a filter is left unset exactly when its text is empty |
| SitesAdmin.Params | admin/src/web/controllers/sites/sites_admin.py:91-98 | a link carries exactly the non-blank filters, each under its own key and with its own value |
| SitesAdmin.TagTexts | admin/src/web/controllers/sites/sites_admin.py:95-96 | a link carries one tag value per selected tag id |
| SitesAdmin.ArgOfLink | admin/src/web/controllers/sites/sites_admin.py:91-102 | each text filter read from a link is the filter the link was built from |
| SitesAdmin.FiltersSurviveLinks | admin/src/web/controllers/sites/sites_admin.py:49-105 | following a link the listing built, to another page or back from the export, reads the same filters again |
| SitesAdmin.LinkTagValues | admin/src/web/controllers/sites/sites_admin.py:95-96 | the tag values of a link are the texts of the selected tag ids |
| SitesAdmin.LinkArgs | admin/src/web/controllers/sites/sites_admin.py:91-98 | every cleaned text filter reads back from a link exactly as it was written |
| SitesAdmin.PageArg | admin/src/web/controllers/sites/sites_admin.py:71 | the page asked for is never 0, and with no page parameter it is the first |
| SitesAdmin.PageOfLink | admin/src/web/controllers/sites/sites_admin.py:100-102 | a link to page n reads back as page n |
| SitesAdmin.Index | admin/src/web/controllers/sites/sites_admin.py:43-116 | the listing shows the filters it read, the page asked for (the first when none is valid), 25 sites per page, the count of the whole selection and the rows of that page; a back link exists exactly past the first page and a forward link exactly before the last, each one page away |
| SitesAdmin.FollowNext | admin/src/web/controllers/sites/sites_admin.py:101-105 | the forward link shows the next page of the same selection under the same filters |
| SitesAdmin.FollowPrev | admin/src/web/controllers/sites/sites_admin.py:100 | the back link shows the previous page of the same selection under the same filters |
| SitesAdmin.NoQuerySelectsAll | admin/src/web/controllers/sites/sites_admin.py:58-89 | with no parameters every site is selected, newest first |
| SitesAdmin.VisibilitySelects | admin/src/web/controllers/sites/sites_admin.py:51-83 | with the visibility filter at "true" only visible sites are selected, and at "false" only hidden ones |
| SitesAdmin.CommasEmpty | admin/src/web/controllers/sites/sites_admin.py:424 | joining a list that starts with a non-empty name gives non-empty text |
| SitesAdmin.TagCell | admin/src/web/controllers/sites/sites_admin.py:424 | a site with no named tag exports "-"; otherwise its non-empty tag names, sorted, joined by ", " |
| SitesAdmin.SortedNames | admin/src/web/controllers/sites/sites_admin.py:424 | the sorted names are non-empty exactly when some tag has a name, and then their join is not empty |
| SitesAdmin.TagCellSorted | admin/src/web/controllers/sites/sites_admin.py:424 | a site with named tags exports the join of a sorted list holding exactly its non-empty tag names, each as often as it occurs |
| SitesAdmin.DashTagLooksUntagged | admin/src/web/controllers/sites/sites_admin.py:424 | a site whose one tag is named "-" exports the same cell as a site without tags |
| SitesAdmin.CsvRow | admin/src/web/controllers/sites/sites_admin.py:412-439 | a line has the header's ten columns, holding the id, the texts, the status's value and the tag cell, with blank coordinates for a site without a location |
| SitesAdmin.Lines | admin/src/web/controllers/sites/sites_admin.py:395-439 | the file is the header followed by exactly one line per site, in order |
| SitesAdmin.SiteLines | admin/src/web/controllers/sites/sites_admin.py:412-439 | there is exactly one line per site, in order |
| SitesAdmin.Export | admin/src/web/controllers/sites/sites_admin.py:339-449 | an empty selection sends the browser back to the listing under the same filters, and only an empty one does; otherwise the file is the header and one line per selected site, in the listing's order |
| SitesAdmin.ExportCoversSelection | admin/src/web/controllers/sites/sites_admin.py:369-439 | every line of the exported file after the header has ten columns and names a stored site that passes the filters, and every such site has a line |
| SitesAdmin.LinesCoverSelection | admin/src/web/controllers/sites/sites_admin.py:412-439 | lines that follow the listed sites one by one cover exactly the listed sites |
| SitesAdmin.LinesIds | admin/src/web/controllers/sites/sites_admin.py:412-439 | each line after the header has ten columns and names the site at its position |
| SitesAdmin.SelectedListed | admin/src/web/controllers/sites/sites_admin.py:369-380 | the selection holds exactly the stored sites that pass the filters |
| SitesAdmin.ListedRowsSound | admin/src/web/controllers/sites/sites_admin.py:369-380 | every site the selection holds passes the filters |
| SitesAdmin.ListedRowsComplete | admin/src/web/controllers/sites/sites_admin.py:369-380 | every stored site that passes the filters is in the selection |
| SitesAdmin.FieldErrors | admin/src/web/controllers/sites/sites_admin.py:126 | there is one message per failed field check, and only those |
| SitesAdmin.CoverErrors | admin/src/web/controllers/sites/sites_admin.py:129-138 | without a file, creation reports the missing cover and edition reports nothing; a file that is there reports exactly the image checks it fails |
| SitesAdmin.FormErrors | admin/src/web/controllers/sites/sites_admin.py:126-139 | the messages name exactly the failed field checks and, for creation only, the missing cover; a form without messages has a status, a category and both coordinates |
| SitesAdmin.PassesChecks | admin/src/web/controllers/sites/sites_admin.py:126-139 | a payload without messages passes the status, category and location checks |
| SitesAdmin.PassedChecks | admin/src/web/controllers/sites/sites_admin.py:126-139 | a payload that passes the status, category and location checks has a status, a category and both coordinates |
| SitesAdmin.SaveCover | admin/src/web/controllers/sites/sites_admin.py:165-178 | the cover is saved exactly when the upload succeeds and the gallery has room; then it is the site's last image and only cover, titled with the site's name; otherwise nothing changes; the sites are never touched and the history only grows |
| SitesAdmin.AttachCover | admin/src/web/controllers/sites/sites_admin.py:168-175 | the cover row is added exactly when the gallery has room, as the site's last image and only cover; otherwise nothing changes; the history only grows |
| SitesAdmin.Insert | admin/src/web/controllers/sites/sites_admin.py:151-178 | a taken name is refused with nothing written, and only a taken name; otherwise a new site built from the payload is created, with the uploaded cover when it was saved |
| SitesAdmin.Create | admin/src/web/controllers/sites/sites_admin.py:119-180 | the form is sent back exactly when it has messages, with nothing written; a taken name writes nothing; a saved site came with a file and is built from the form |
| SitesAdmin.CreateFrom | admin/src/web/controllers/sites/sites_admin.py:126-180 | the form is sent back exactly when it has messages, with nothing written; a taken name writes nothing; a saved site came with a file and is built from the payload |
| SitesAdmin.CoverRequired | admin/src/web/controllers/sites/sites_admin.py:129-150 | a form sent without a cover file is sent back with the cover message, whatever else it holds, and nothing is written |
| SitesAdmin.EditAction | admin/src/web/controllers/sites/sites_admin.py:229-236 | an edition is logged as plain exactly when neither the tag list nor the visibility changed, and as a change of state exactly when only the visibility changed |
| SitesAdmin.ReorderedTagsLogged | admin/src/web/controllers/sites/sites_admin.py:231-233 | submitting a site's tags in another order or with a repeat is logged as a change of tags although the site keeps the same tags |
| SitesAdmin.Update | admin/src/web/controllers/sites/sites_admin.py:238-273 | a name taken by another site is refused with nothing written, and only such a name; otherwise the site takes the changes with one logged event, and a saved cover becomes its only cover |
| SitesAdmin.EditPayload | admin/src/web/controllers/sites/sites_admin.py:193-275 | the same rules as `Edit` for a form already read into a payload |
| SitesAdmin.Edit | admin/src/web/controllers/sites/sites_admin.py:193-275 | an unknown site is not found, and only an unknown one; a known site's form with messages is sent back; nothing is written unless the edition is saved, and then the site takes the form's changes under the action the tag and visibility comparison picks |

## Left out

- Database, ORM and transactions: every operation is atomic and sequential on an in-memory store. Check-then-insert races (image count, existing review, existing favourite) are not modelled.
- Templates, flash messages and error pages: a page is reduced to what it writes and where it sends the browser. The GET form of the site edition page, which prefills the form, is not modelled.
- Unicode: `_normalize_text` uses NFKD and casefold, and `str.lower` knows all of Unicode. Here folding is ASCII lower-casing. Stripping uses the whitespace set of `str.strip`: the ASCII white space, U+001C to U+001F, U+0085, U+00A0 and the other Unicode spaces. The API's enumeration aliases recognise only the accented spellings they list. `slugify` decomposes only the accented letters of Spanish and the ligatures U+FB00 to U+FB04; other characters outside ASCII are dropped.
- Python's `int()` also accepts `_` separators and coerces JSON floats and booleans. `safe_int` is modelled as optional whitespace, an optional sign and ASCII digits, plus integer JSON values.
- Dates.Strptime and Dates.ParseDate accept ASCII digits only. In Python's `_strptime`, `%Y` is `\d\d\d\d` and the second digit of a `%d` from 10 to 29 is `\d`, without `re.ASCII`, so any Unicode decimal digit passes there and `int()` reads it: "２０２４-01-05" parses in the source and gives no date here.
- `float()`, the `.6f` coordinate format and `strftime` are function parameters. The kilometre-to-metre conversion is exact on reals. The PostGIS distance query `get_sites_by_location` is a parameter of the listing.
- Calculadora: float rounding is not modelled; numbers are exact reals.
- bcrypt, HMAC-SHA-256, JSON encoding and the itsdangerous timed serializer are parameters. Every contract holds for any choice of them.
- Jwt.B64Decode: accepts only the url-safe alphabet. `urlsafe_b64decode` first maps '-' and '_' to '+' and '/' and then decodes without validation, so the source also reads '+' and '/' as 62 and 63 and drops every other stray character before decoding. A token whose signature is re-spelled with '+' or '/' passes the source's signature check and is refused here; a segment with other stray characters decodes there and is refused here.
- The storage bucket (`_upload_to_storage`, `_get_file_size`) and `uuid4` are parameters. CSV quoting by `csv.writer` is not modelled: the export is its rows of cells.
- `_ensure_visits_column` (schema DDL) is left out. The visit counter of the intended detail endpoint is a per-site map beside the site rows; the findings say why the written endpoint never changes it.
- `list_public_tags` is left out: it returns `list_tags()` unchanged. A tag listing of that shape is modelled in `TagService`.
- The site `remove` route only calls `delete_site`, which `SiteService` models, and then flashes. `deleted_list` imports `list_deleted_sites`, which admin/src/core/sites/history_service.py does not define.
- `list_sites_for_filter`, `get_review` and `get_review_presenter` in the reviews service are left out, and so is the moderation detail route that renders them: they are lookups that feed templates.
- The OAuth, flask_jwt_extended and session-echo API blueprints are left out: they wrap foreign libraries.
- Error message texts are not modelled; an error is its cause and status code.
- The order in which a site's tags load from the database is a parameter (`siteTags`) of the site edition.
- Permissions.ResolveRole: a role passed as a loaded row is trusted to exist, as the source trusts it.
- Jwt.IssueAccessToken: the contract states only when issuing fails. What an issued token carries is proved by `Jwt.AccessIsEncode` and `Jwt.AccessTokenValidates`.
- Jwt.IssueRefreshToken: the contract states only when issuing fails. The claims it carries are those of `Jwt.EncodeToken`, whose round trip is proved.
- Jwt.Upper: the configured algorithm is upper-cased over ASCII only, so a setting such as "hſ256", which Python's `upper()` turns into "HS256", is refused here.
- SQL `ILIKE`: the search texts of the users, sites, history, reviews and tag listings (admin/src/core/users/service.py:18, admin/src/core/sites/service.py:178, 193, 251 and 266, admin/src/core/sites/history_service.py:47, admin/src/core/sites/reviews_service.py:107, admin/src/core/sites/tags_service.py:130) are matched as plain case-insensitive substrings. A `%` or `_` typed by the user, which the database reads as a wildcard, is matched literally here.
- `ORDER BY`: rows are sorted by the code-point order of their keys, with ties kept in id order. The database's collation and its order among equal keys need be neither, so the model fixes one of the orders the database may return.
- Import failures taken as absent: admin/src/web/schemas/sites.py does not define the schemas imported at admin/src/web/api/sites.py:79-85 and admin/src/web/api/sites_helpers.py:16, so both modules fail to import as written. admin/src/core/sites/models.py does not define `ReviewStatus`, `SiteImage`, `SiteReview` or `SiteFavorite`, which the reviews, images and favourites code imports. admin/src/web/controllers/sites/sites_admin.py:14 imports `list_deleted_sites` at module level, so every admin site route fails to import. The model assumes these names exist with the fields the code uses, and describes the code as it would run once they do.
- ApiSites.Base: the contract states only that the starting sites carry no favourite mark. The spatial query behind it is a parameter.
- ApiSites.QueryTags: the contract states only that no requested tag is empty. The splitting on commas is not restated.

## Findings

| source | as written | input that shows it | evidently intended | confidence | as-written member | corrected member |
|---|---|---|---|---|---|---|
| admin/src/web/controllers/featureflags.py:64-72 | `set_flag` is called with `preserve_message_when_disabled` and `require_message_when_enabled`, which it does not accept, so every save raises TypeError | any submission that passes the message checks, e.g. switching admin_maintenance_mode on with message "x" | the flag is saved with the requested state and message | high, not executed | Flags.ManageAsWritten | Flags.Manage |
| admin/src/web/controllers/auth.py:33 | `UserRole.SYSADMIN` is read, but the enum has only PUBLIC, EDITOR and ADMIN, so every logged-in request to a guarded view raises AttributeError | any logged-in session on a view guarded by `require_permissions` | a sysadmin passes and others need every required code | high, not executed | Auth.RequirePermissionsAsWritten | Auth.RequirePermissions |
| admin/src/core/users/service.py:87-96 | the same missing `UserRole.SYSADMIN` makes `deactivate_user` raise for every user who is not an administrator | deactivating an editor | an editor or public user is deactivated | high, not executed | Users.DeactivateUserAsWritten | Users.DeactivateUser |
| admin/src/core/users/service.py:82-85 | `delete_user` returns None, so the `destroy` route reports a refusal for a user it has just deleted | deleting an editor through the users page | deletion of unprotected users is reported as done | high, not executed | Users.DestroyAsWritten | Users.Destroy |
| admin/src/web/api/sites_helpers.py:69-75 | a missing flag with `show_message_when_disabled` reads `flag.message` on None | GET /api/flags on a database without reviews_enabled | a missing flag is reported disabled with its default message | high, not executed | ApiHelpers.SerializeFlagStateAsWritten | ApiHelpers.SerializeFlagState |
| admin/src/web/api/sites.py:533-558 | the public flags endpoint fails whenever the reviews flag is missing, through the helper above | GET /api/flags on a database without reviews_enabled | the three flag states are reported | high, not executed | ApiSites.PublicFlagsAsWritten | ApiSites.PublicFlags |
| admin/src/web/api/sites.py:332 | `images_helpers` is never imported in this file, so a proposal with a cover raises NameError and gets a 500 | a multipart POST /api/sites with a cover file | the hidden site is created with its cover | high, not executed | ApiSites.CreateSiteEndpointAsWritten | ApiSites.CreateSiteEndpoint |
| admin/src/core/sites/tags_service.py:74-77 | a slug longer than 60 characters is cut with `slug[:60]`, which can leave a trailing "-" | nineteen U+FB03 ligatures followed by "ab c" | the cut slug is still a slug, with no trailing dash | medium, not executed | TagService.AsWrittenSlugEndsWithDash | TagService.ValidateTag |
| admin/src/web/controllers/sites/sites_reviews.py:124-130 | any text starting with "/" is accepted as a return path, including a protocol-relative URL | next=//evil.example/x | only paths on the same site are accepted | high, not executed | Moderation.AsWrittenAcceptsOtherHost | Moderation.SafeReturnPath |
| admin/src/web/security/jwt_tokens.py:119 | a token is refused only when `exp < now`, so it is still accepted in the second its expiry names | a token with exp equal to the current second | the token is refused once the current time reaches exp, as section 4.1.4 of RFC 7519 requires | medium, not executed | Jwt.ExpiryAtNowAccepted | Jwt.DecodeToken |
| admin/src/core/users/service.py:41-79 | the role slug is assigned to `User.role`, a read-only property, so every valid creation or update raises | creating any valid user | the user is stored with the chosen role | high, not executed | Users.CreateUserAsWritten | Users.CreateUser |
| admin/src/core/users/service.py:21-22 | `User.role` on the class is a Python property, not a column, so the filter compares a property object with text and no row passes | listing users with role=editor when editors exist | the listing keeps exactly the users with that role | medium, not executed | Users.ListUsersAsWritten | Users.ListUsers |
| admin/src/web/controllers/auth.py:65 | the login calls `users_service.find_user_by_email`, which the users service does not define, so every posted login raises | any posted login form | the user is looked up by the normalised email | high, not executed | Auth.LoginPostAsWritten | Auth.LoginPost |
| admin/src/web/api/sites_helpers.py:459-466 | `_increment_site_visit` reads `site_model.visits`, but `Historic_Site` (admin/src/core/sites/models.py:61-130) has no such attribute; the AttributeError is caught, rolled back and dropped, so no visit is ever counted | any GET /api/sites/<id> of a visible site | the site's visit count goes up by one | high, not executed | ApiSites.SiteDetailsAsWritten | ApiSites.SiteDetails |

=== FILE: api_auth.dfy ===
/** Authentication of the public JSON API: the `Authorization: Bearer`
    header, the session-or-token check every protected endpoint runs, token
    verification and the login that issues tokens. The timed token
    serializer is a pair of parameters: `dumps` signs a user id into a token
    and `loads` reads a token back, reporting expiry or a bad signature. */
module ApiAuth {
  import opened Common
  import opened Tables
  import opened Users
  import Auth

  const DefaultTokenTtl: int := 60 * 60 * 24

  // ---------------------------------------------------------------------------
  // str.split() with no argument

  /** The length of the leading run of non-whitespace characters. */
  function WordLength(s: string): (n: nat)
    ensures n <= |s|
    ensures forall i :: 0 <= i < n ==> !IsSpace(s[i])
    ensures n < |s| ==> IsSpace(s[n])
  {
    if |s| == 0 || IsSpace(s[0]) then 0 else 1 + WordLength(s[1..])
  }

  predicate NoSpace(w: string) { forall i :: 0 <= i < |w| ==> !IsSpace(w[i]) }

  /** `s.split()`: the maximal runs of non-whitespace, in order. */
  function Fields(s: string): seq<string>
    decreases |s|
  {
    if |s| == 0 then []
    else if IsSpace(s[0]) then Fields(s[1..])
    else
      var n := WordLength(s);
      [s[..n]] + Fields(s[n..])
  }

  /** Every field is a non-empty run without whitespace. */
  lemma {:induction false} FieldsShape(s: string)
    ensures forall k :: 0 <= k < |Fields(s)| ==> Fields(s)[k] != "" && NoSpace(Fields(s)[k])
    decreases |s|
  {
    if |s| > 0 {
      if IsSpace(s[0]) {
        FieldsShape(s[1..]);
      } else {
        var n := WordLength(s);
        FieldsShape(s[n..]);
        var w := s[..n];
        assert NoSpace(w);
        var rest := Fields(s[n..]);
        assert Fields(s) == [w] + rest;
        forall k | 1 <= k < |Fields(s)| ensures Fields(s)[k] == rest[k - 1] { }
      }
    }
  }

  lemma WordLengthOf(w: string, rest: string)
    requires NoSpace(w)
    requires rest == "" || IsSpace(rest[0])
    ensures WordLength(w + rest) == |w|
    decreases |w|
  {
    if |w| > 0 {
      assert (w + rest)[1..] == w[1..] + rest;
      WordLengthOf(w[1..], rest);
    } else {
      assert w + rest == rest;
    }
  }

  lemma FieldsOfWord(w: string)
    requires w != "" && NoSpace(w)
    ensures Fields(w) == [w]
  {
    WordLengthOf(w, "");
    assert w + "" == w;
    assert w[|w|..] == "";
  }

  /** Two words separated by one space split back into the two words. */
  lemma FieldsOfPair(a: string, b: string)
    requires a != "" && NoSpace(a) && b != "" && NoSpace(b)
    ensures Fields(a + " " + b) == [a, b]
  {
    var s := a + " " + b;
    assert s == a + (" " + b);
    assert !IsSpace(s[0]);
    WordLengthOf(a, " " + b);
    assert s[..|a|] == a;
    assert s[|a|..] == " " + b;
    assert (" " + b)[1..] == b;
    FieldsOfWord(b);
    assert Fields(" " + b) == [b];
  }

  // ---------------------------------------------------------------------------
  // The Authorization header

  datatype HeaderError = MissingHeader | MalformedHeader

  /** The stripped header split on whitespace must be exactly the scheme
      `bearer` (any case) and one token. */
  function BearerToken(header: string): (r: Result<string, HeaderError>)
    ensures r == Err(MissingHeader) <==> Strip(header) == ""
    ensures r.Ok? <==> && Strip(header) != ""
                       && |Fields(Strip(header))| == 2
                       && Lower(Fields(Strip(header))[0]) == "bearer"
    ensures r.Ok? ==> r.value == Fields(Strip(header))[1] && r.value != "" && NoSpace(r.value)
  {
    var h := Strip(header);
    if h == "" then Err(MissingHeader)
    else
      var parts := Fields(h);
      FieldsShape(h);
      // `parts[1].strip()` changes nothing: a field holds no whitespace.
      if |parts| != 2 || Lower(parts[0]) != "bearer" then Err(MalformedHeader)
      else Ok(parts[1])
  }

  /** `<scheme> <token>` with a scheme spelling `bearer` in any case yields
      the token. */
  lemma BearerRoundTrip(scheme: string, token: string)
    requires Lower(scheme) == "bearer" && NoSpace(scheme)
    requires token != "" && NoSpace(token)
    ensures BearerToken(scheme + " " + token) == Ok(token)
  {
    var h := scheme + " " + token;
    assert |scheme| == 6;
    assert h[0] == scheme[0] && h[|h| - 1] == token[|token| - 1];
    StripOfStripped(h);
    FieldsOfPair(scheme, token);
  }

  /** A header that is just a token, with no scheme, is refused. */
  lemma BareTokenRefused(token: string)
    requires token != "" && NoSpace(token)
    ensures BearerToken(token) == Err(MalformedHeader)
  {
    StripOfStripped(token);
    FieldsOfWord(token);
  }

  // ---------------------------------------------------------------------------
  // _require_api_user

  /** The public user the Flask session names, if any. */
  datatype ApiSession = ApiSession(userId: Option<int>, role: Option<string>)

  function NoSession(): ApiSession { ApiSession(None, None) }

  /** What the serializer's `loads` reports: the payload's `user_id`
      (absent or not an integer as None), an expired signature, or a bad one. */
  datatype TokenLoad = Loaded(userId: Option<int>) | Expired | BadSignature

  datatype AuthFailure = Header(error: HeaderError) | TokenExpired | TokenInvalid | InvalidUser

  /** The caller, nobody (only when that is allowed), a 401 with its
      reason, or the RuntimeError raised when no SECRET_KEY is configured. */
  datatype ApiAuth = Authenticated(id: int) | Anonymous | Denied(failure: AuthFailure) | NoSecretKey

  /** The session names an active user and claims the public role. */
  predicate SessionActive(sess: ApiSession, users: Table<User>) {
    && sess.userId.Some? && sess.userId.value != 0
    && sess.role == Some(PublicRole)
    && sess.userId.value in users.rows
    && users.rows[sess.userId.value].isActive
  }

  /** The user a token's payload names must exist, be active and hold the
      public role. */
  predicate TokenUserOk(users: Table<User>, id: int) {
    id in users.rows && users.rows[id].isActive && users.rows[id].role == PublicRole
  }

  /** `_require_api_user`: a public session with an active user wins;
      otherwise the Bearer header is required (unless `optional` and absent),
      its token must load, and the user it names must be an active public
      user. A malformed header is refused even when the user is optional. */
  function RequireApiUser(sess: ApiSession, header: string, users: Table<User>, secretKey: bool,
                          loads: string -> TokenLoad, optional: bool): (r: ApiAuth)
    ensures SessionActive(sess, users) ==> r == Authenticated(sess.userId.value)
    ensures r.Authenticated? ==> && r.id in users.rows && users.rows[r.id].isActive
                                 && (users.rows[r.id].role == PublicRole || SessionActive(sess, users))
    ensures r == Anonymous <==> !SessionActive(sess, users) && optional && Strip(header) == ""
    ensures !SessionActive(sess, users) && BearerToken(header) == Err(MalformedHeader)
            ==> r == Denied(Header(MalformedHeader))
    ensures !SessionActive(sess, users) && BearerToken(header).Ok? && secretKey ==>
            (r.Authenticated? <==> && loads(BearerToken(header).value).Loaded?
                                   && loads(BearerToken(header).value).userId.Some?
                                   && TokenUserOk(users, loads(BearerToken(header).value).userId.value))
  {
    if SessionActive(sess, users) then Authenticated(sess.userId.value)
    else
      match BearerToken(header)
      case Err(MissingHeader) => if optional then Anonymous else Denied(Header(MissingHeader))
      case Err(e) => Denied(Header(e))
      case Ok(token) =>
        if !secretKey then NoSecretKey
        else
          match loads(token)
          case Expired => Denied(TokenExpired)
          case BadSignature => Denied(TokenInvalid)
          case Loaded(userId) =>
            if userId.Some? && TokenUserOk(users, userId.value) then Authenticated(userId.value)
            else Denied(InvalidUser)
  }

  /** A token the serializer reads back as an active public user's id,
      presented as `Bearer <token>`, authenticates that user. */
  lemma TokenAuthenticates(users: Table<User>, id: int, token: string, loads: string -> TokenLoad, optional: bool)
    requires TokenUserOk(users, id)
    requires token != "" && NoSpace(token) && loads(token) == Loaded(Some(id))
    ensures RequireApiUser(NoSession(), "Bearer " + token, users, true, loads, optional) == Authenticated(id)
  {
    LowerIsBearer();
    BearerRoundTrip("Bearer", token);
    assert "Bearer " + token == "Bearer" + " " + token;
    assert BearerToken("Bearer " + token) == Ok(token);
  }

  lemma LowerIsBearer()
    ensures Lower("Bearer") == "bearer" && NoSpace("Bearer")
  {
    assert Lower("Bearer") == [LowerChar('B')] + Lower("earer");
  }

  /** Without a session, a malformed header is a 401 whether or not the
      endpoint needs a user. */
  lemma MalformedRefusedEvenWhenOptional(header: string, users: Table<User>, secretKey: bool,
                                         loads: string -> TokenLoad)
    requires BearerToken(header) == Err(MalformedHeader)
    ensures RequireApiUser(NoSession(), header, users, secretKey, loads, true) == Denied(Header(MalformedHeader))
  {
  }

  // ---------------------------------------------------------------------------
  // verify_token

  datatype VerifyOutcome = TokenValid(userId: int) | NotValid(failure: AuthFailure) | VerifyCrashed

  /** `verify_token`: the same header rules, then the token's `user_id`,
      which must be truthy, must name an active public user. A missing
      SECRET_KEY raises outside the handler's `try`. */
  function VerifyToken(header: string, users: Table<User>, secretKey: bool, loads: string -> TokenLoad)
    : (r: VerifyOutcome)
    ensures r.TokenValid? ==> r.userId != 0 && TokenUserOk(users, r.userId)
    ensures Strip(header) == "" ==> r == NotValid(Header(MissingHeader))
    ensures BearerToken(header).Ok? && !secretKey ==> r == VerifyCrashed
  {
    match BearerToken(header)
    case Err(e) => NotValid(Header(e))
    case Ok(token) =>
      if !secretKey then VerifyCrashed
      else
        match loads(token)
        case Expired => NotValid(TokenExpired)
        case BadSignature => NotValid(TokenInvalid)
        case Loaded(userId) =>
          if userId.None? || userId.value == 0 then NotValid(TokenInvalid)
          else if !TokenUserOk(users, userId.value) then NotValid(InvalidUser)
          else TokenValid(userId.value)
  }

  /** On a table whose ids start at 1, `verify_token` accepts exactly the
      headers `_require_api_user` authenticates without a session. */
  lemma VerifyAgreesWithRequire(header: string, users: Table<User>, loads: string -> TokenLoad, id: int)
    requires Valid(users)
    ensures VerifyToken(header, users, true, loads) == TokenValid(id)
            <==> RequireApiUser(NoSession(), header, users, true, loads, false) == Authenticated(id)
  {
  }

  // ---------------------------------------------------------------------------
  // api_login

  /** The request body as `api_login` sees it: not JSON at all, a JSON
      value that is not an object (whether it is truthy decides which 400
      it gets), or an object with its `email` and `password` entries. */
  datatype LoginBody =
    | NotJson
    | JsonNonObject(truthy: bool)
    | JsonObject(email: Option<string>, password: Option<string>)

  datatype LoginBadRequest = BodyNotJson | BodyNotObject | FieldsRequired

  datatype LoginRefusal = BadCredentials | InactiveUser | NotPublicRole

  datatype ApiLoginOutcome =
    | LoginInvalid(reason: LoginBadRequest)
    | LoginUnauthorized(refusal: LoginRefusal)
    | TokenIssued(token: string, expiresIn: int)
    | LoginServerError

  /** The email and password after `(x or "").strip().lower()` and `x or ""`;
      a falsy JSON body counts as the empty object. */
  function LoginFields(body: LoginBody): (r: Result<(string, string), LoginBadRequest>)
    ensures r.Ok? ==> r.value.0 != "" && r.value.1 != ""
    ensures r.Ok? <==> body.JsonObject? && Auth.LoginEmail(body.email) != ""
                       && body.password.Some? && body.password.value != ""
  {
    match body
    case NotJson => Err(BodyNotJson)
    case JsonNonObject(truthy) => if truthy then Err(BodyNotObject) else Err(FieldsRequired)
    case JsonObject(email, password) =>
      var address := Auth.LoginEmail(email);
      var secret := if password.Some? then password.value else "";
      if address == "" || secret == "" then Err(FieldsRequired) else Ok((address, secret))
  }

  /** `api_login` as written: the lookup calls `find_user_by_email`, which
      the users service does not define; the AttributeError lands in the
      handler's catch-all, so every well-formed request gets a 500. */
  function ApiLoginAsWritten(body: LoginBody): (r: ApiLoginOutcome)
    ensures r.LoginInvalid? <==> LoginFields(body).Err?
    ensures LoginFields(body).Ok? ==> r == LoginServerError
  {
    match LoginFields(body)
    case Err(e) => LoginInvalid(e)
    case Ok(_) => LoginServerError
  }

  /** `api_login` with the lookup by email: unknown user or wrong password,
      then an inactive account, then a role other than public; only then is
      a token issued (and a missing SECRET_KEY is a 500). */
  function ApiLogin(body: LoginBody, users: Table<User>, checkpw: (string, string) -> bool, secretKey: bool,
                    dumps: int -> string, ttl: int): (r: ApiLoginOutcome)
    requires UsersOk(users)
    ensures r.LoginInvalid? <==> LoginFields(body).Err?
    ensures r.TokenIssued? ==> && LoginFields(body).Ok?
                               && var (address, secret) := LoginFields(body).value;
                                  var found := Auth.FindUserByEmail(users, address);
                                  && found.Some?
                                  && TokenUserOk(users, found.value)
                                  && Auth.VerifyPassword(secret, users.rows[found.value].passwordHash, checkpw)
                                  && r.token == dumps(found.value)
                                  && r.expiresIn == ttl
  {
    match LoginFields(body)
    case Err(e) => LoginInvalid(e)
    case Ok((address, secret)) =>
      match Auth.FindUserByEmail(users, address)
      case None => LoginUnauthorized(BadCredentials)
      case Some(id) =>
        var user := users.rows[id];
        if !Auth.VerifyPassword(secret, user.passwordHash, checkpw) then LoginUnauthorized(BadCredentials)
        else if !user.isActive then LoginUnauthorized(InactiveUser)
        else if user.role != PublicRole then LoginUnauthorized(NotPublicRole)
        else if !secretKey then LoginServerError
        else TokenIssued(dumps(id), ttl)
  }

  /** Unlike the panel's login, the API checks the password before the
      account state: a wrong password for an inactive account reads as bad
      credentials. */
  lemma PasswordBeforeInactive(body: LoginBody, users: Table<User>, checkpw: (string, string) -> bool,
                               secretKey: bool, dumps: int -> string, ttl: int, id: int)
    requires UsersOk(users) && body.JsonObject?
    requires LoginFields(body).Ok? && Auth.FindUserByEmail(users, LoginFields(body).value.0) == Some(id)
    requires !users.rows[id].isActive
    requires !Auth.VerifyPassword(LoginFields(body).value.1, users.rows[id].passwordHash, checkpw)
    ensures ApiLogin(body, users, checkpw, secretKey, dumps, ttl) == LoginUnauthorized(BadCredentials)
  {
  }

  /** A token from a successful login, sent back as `Bearer <token>`,
      authenticates the user it was issued to, provided the serializer
      reads its own tokens back. */
  lemma LoginThenAuthenticated(body: LoginBody, users: Table<User>, checkpw: (string, string) -> bool,
                               dumps: int -> string, loads: string -> TokenLoad, ttl: int, id: int)
    requires UsersOk(users)
    requires ApiLogin(body, users, checkpw, true, dumps, ttl).TokenIssued?
    requires Auth.FindUserByEmail(users, LoginFields(body).value.0) == Some(id)
    requires dumps(id) != "" && NoSpace(dumps(id)) && loads(dumps(id)) == Loaded(Some(id))
    ensures RequireApiUser(NoSession(), "Bearer " + ApiLogin(body, users, checkpw, true, dumps, ttl).token,
                           users, true, loads, false) == Authenticated(id)
  {
    TokenAuthenticates(users, id, dumps(id), loads, false);
  }
}

=== FILE: api_helpers.dfy ===
/** The helpers behind the public JSON API: the in-memory filters and sort
    of the site listing, query-parameter parsing, the enumeration aliases,
    tag resolution, review-payload validation, flag serialisation and the
    Bearer-header check. Text normalisation (NFKD, dropping combining marks,
    casefold) is modelled on ASCII as lower-casing. */
module ApiHelpers {
  import opened Common
  import opened Tables
  import opened Ordering
  import opened SiteModels
  import opened TagService
  import opened Flags
  import opened Users
  import Reviews

  const DefaultPerPage: int := 20
  const MaxPerPage: int := 100
  const ReviewMinScore: int := 1
  const ReviewMaxScore: int := 5
  const ReviewMinLength: int := 20
  const ReviewMaxLength: int := 1000

  /** The `order_by` values the listing accepts. */
  function OrderChoices(): set<string> {
    {"rating-5-1", "rating-1-5", "latest", "oldest", "visits"}
  }

  /** `QueryParamError`, by cause. */
  datatype QueryError =
    | NotNumeric(param: string)
    | BelowMinimum(param: string, minimum: int)
    | AboveMaximum(param: string, maximum: int)
    | BadOrder
    | RadiusNotPositive
    | GeoNeedsCenter
    | CenterNeedsRadius
    | StatusRequired
    | UnknownStatus
    | UnknownCategory
    | BadTagsShape
    | UnknownTags(missing: seq<string>)
    | BadBody

  // ---------------------------------------------------------------------------
  // Listing items and filters

  /** One site as the public listing handles it: the serialised site, the
      rating and visit fields the sort looks for (which `to_dict` does not
      produce), and the favourite mark the listing may add. */
  datatype Item = Item(site: SiteDict, averageRating: Option<real>, rating: Option<real>, score: Option<real>,
                       visits: Option<int>, isFavorite: Option<bool>)

  /** A site dictionary as `list_sites` returns it. */
  function Plain(d: SiteDict): Item { Item(d, None, None, None, None, None) }

  predicate IsVisible(it: Item) { it.site.isVisible }

  predicate NameHas(needle: string, it: Item) { ContainsFold(it.site.name, needle) }

  predicate DescriptionHas(needle: string, it: Item) {
    ContainsFold(it.site.shortDescription, needle) || ContainsFold(it.site.fullDescription, needle)
  }

  predicate CityIs(expected: string, it: Item) { Lower(it.site.city) == Lower(expected) }

  predicate ProvinceIs(expected: string, it: Item) { Lower(it.site.province) == Lower(expected) }

  /** Every requested tag, folded, is among the site's folded tag names. */
  predicate HasTags(tags: seq<string>, it: Item) {
    forall t :: t in tags ==> exists n :: n in it.site.tags && Lower(n) == Lower(t)
  }

  function VisibleTest(): Item -> bool { (it: Item) => IsVisible(it) }
  function NameTest(needle: string): Item -> bool { (it: Item) => NameHas(needle, it) }
  function DescriptionTest(needle: string): Item -> bool { (it: Item) => DescriptionHas(needle, it) }
  function CityTest(expected: string): Item -> bool { (it: Item) => CityIs(expected, it) }
  function ProvinceTest(expected: string): Item -> bool { (it: Item) => ProvinceIs(expected, it) }
  function TagsTest(tags: seq<string>): Item -> bool { (it: Item) => HasTags(tags, it) }

  lemma SubsequenceReflexive<T>(xs: seq<T>)
    ensures Subsequence(xs, xs)
  {
    if |xs| > 0 {
      SubsequenceReflexive(xs[1..]);
    }
  }

  /** `_filter_by_tags`: everything for an empty tag list, otherwise the
      sites carrying every requested tag, in their order. */
  function FilterByTags(items: seq<Item>, tags: seq<string>): (r: seq<Item>)
    ensures forall x :: x in r <==> x in items && HasTags(tags, x)
    ensures |tags| == 0 ==> r == items
  {
    if |tags| == 0 then items else Filter(items, TagsTest(tags))
  }

  /** The text criteria of a listing query; an empty criterion is not
      applied. */
  datatype Criteria = Criteria(name: string, description: string, city: string, province: string,
                               tags: seq<string>)

  predicate MatchesAll(c: Criteria, it: Item) {
    && IsVisible(it)
    && (c.name != "" ==> NameHas(c.name, it))
    && (c.description != "" ==> DescriptionHas(c.description, it))
    && (c.city != "" ==> CityIs(c.city, it))
    && (c.province != "" ==> ProvinceIs(c.province, it))
    && HasTags(c.tags, it)
  }

  /** One optional filter step: the filter when the criterion is set. */
  function Step(items: seq<Item>, apply: bool, p: Item -> bool): (r: seq<Item>)
    ensures forall x :: x in r <==> x in items && (apply ==> p(x))
    ensures Subsequence(r, items)
  {
    if apply then FilterSubsequence(items, p); Filter(items, p)
    else SubsequenceReflexive(items); items
  }

  /** The five optional steps after the visibility filter. */
  function Steps(visible: seq<Item>, c: Criteria): (r: seq<Item>)
    ensures Subsequence(r, visible)
  {
    var byName := Step(visible, c.name != "", NameTest(c.name));
    var byDescription := Step(byName, c.description != "", DescriptionTest(c.description));
    var byCity := Step(byDescription, c.city != "", CityTest(c.city));
    var byProvince := Step(byCity, c.province != "", ProvinceTest(c.province));
    var r := Step(byProvince, |c.tags| > 0, TagsTest(c.tags));
    SubsequenceTransitive(byDescription, byName, visible);
    SubsequenceTransitive(byCity, byDescription, visible);
    SubsequenceTransitive(byProvince, byCity, visible);
    SubsequenceTransitive(r, byProvince, visible);
    r
  }

  /** An item survives the steps exactly when it meets every set criterion. */
  lemma StepsMembers(visible: seq<Item>, c: Criteria, x: Item)
    ensures x in Steps(visible, c) <==>
      (&& x in visible
       && (c.name != "" ==> NameHas(c.name, x))
       && (c.description != "" ==> DescriptionHas(c.description, x))
       && (c.city != "" ==> CityIs(c.city, x))
       && (c.province != "" ==> ProvinceIs(c.province, x))
       && HasTags(c.tags, x))
  {
    var byName := Step(visible, c.name != "", NameTest(c.name));
    var byDescription := Step(byName, c.description != "", DescriptionTest(c.description));
    var byCity := Step(byDescription, c.city != "", CityTest(c.city));
    var byProvince := Step(byCity, c.province != "", ProvinceTest(c.province));
    assert x in byName <==> x in visible && (c.name != "" ==> NameHas(c.name, x));
    assert x in byDescription <==> x in byName && (c.description != "" ==> DescriptionHas(c.description, x));
    assert x in byCity <==> x in byDescription && (c.city != "" ==> CityIs(c.city, x));
    assert x in byProvince <==> x in byCity && (c.province != "" ==> ProvinceIs(c.province, x));
    assert |c.tags| == 0 ==> HasTags(c.tags, x);
  }

  /** `_apply_filters`: the visible sites, then each criterion that is set,
      in turn. */
  function ApplyFilters(items: seq<Item>, c: Criteria): (r: seq<Item>)
    ensures forall x :: x in r <==> x in items && MatchesAll(c, x)
    ensures Subsequence(r, items)
  {
    var visible := Filter(items, VisibleTest());
    FilterSubsequence(items, VisibleTest());
    var r := Steps(visible, c);
    SubsequenceTransitive(r, visible, items);
    assert forall x :: x in r <==> x in items && MatchesAll(c, x) by {
      forall x ensures x in r <==> x in items && MatchesAll(c, x) {
        StepsMembers(visible, c, x);
      }
    }
    r
  }

  /** Filtering twice with the same criteria changes nothing the second
      time. */
  lemma ApplyFiltersIdempotent(items: seq<Item>, c: Criteria)
    ensures ApplyFilters(ApplyFilters(items, c), c) == ApplyFilters(items, c)
  {
    var once := ApplyFilters(items, c);
    forall i | 0 <= i < |once| ensures MatchesAll(c, once[i]) {
      assert once[i] in once;
    }
    KeepsMatching(once, c);
  }

  /** Items that all match pass through every step unchanged. */
  lemma KeepsMatching(items: seq<Item>, c: Criteria)
    requires forall i :: 0 <= i < |items| ==> MatchesAll(c, items[i])
    ensures ApplyFilters(items, c) == items
  {
    FilterKeepsAll(items, VisibleTest());
    assert Filter(items, VisibleTest()) == items;
    if c.name != "" { FilterKeepsAll(items, NameTest(c.name)); }
    if c.description != "" { FilterKeepsAll(items, DescriptionTest(c.description)); }
    if c.city != "" { FilterKeepsAll(items, CityTest(c.city)); }
    if c.province != "" { FilterKeepsAll(items, ProvinceTest(c.province)); }
    if |c.tags| > 0 { FilterKeepsAll(items, TagsTest(c.tags)); }
  }

  // ---------------------------------------------------------------------------
  // _sort_sites

  /** `rating_value`: the first of average_rating, rating and score that is
      present, else 0. */
  function RatingValue(it: Item): (r: real)
    ensures it.averageRating.None? && it.rating.None? && it.score.None? ==> r == 0.0
  {
    if it.averageRating.Some? then it.averageRating.value
    else if it.rating.Some? then it.rating.value
    else if it.score.Some? then it.score.value
    else 0.0
  }

  /** The recency key: `updated_at`, which the site table always fills. */
  function RecencyKey(it: Item): Key { KInt(it.site.updatedAt) }
  function RatingKey(it: Item): Key { KReal(RatingValue(it)) }
  /** Visits, with a missing count as 0. */
  function VisitsKey(it: Item): Key { KInt(if it.visits.Some? then it.visits.value else 0) }

  function RecencyOrder(): Item -> Key { (it: Item) => RecencyKey(it) }
  function RatingOrder(): Item -> Key { (it: Item) => RatingKey(it) }
  function VisitsOrder(): Item -> Key { (it: Item) => VisitsKey(it) }

  /** The key and direction each accepted `order_by` sorts by. */
  function OrderOf(orderBy: string): (Item -> Key, bool)
    requires orderBy in OrderChoices()
  {
    if orderBy == "latest" then (RecencyOrder(), true)
    else if orderBy == "oldest" then (RecencyOrder(), false)
    else if orderBy == "rating-5-1" then (RatingOrder(), true)
    else if orderBy == "rating-1-5" then (RatingOrder(), false)
    else (VisitsOrder(), true)
  }

  /** `_sort_sites`: an unknown order is an error; otherwise the same items,
      stably sorted by the chosen key. */
  function SortSites(items: seq<Item>, orderBy: string): (r: Result<seq<Item>, QueryError>)
    ensures r.Err? <==> orderBy !in OrderChoices()
    ensures r.Err? ==> r.error == BadOrder
    ensures r.Ok? ==> multiset(r.value) == multiset(items)
    ensures r.Ok? ==> SortedBy(r.value, OrderOf(orderBy).0, OrderOf(orderBy).1)
  {
    if orderBy !in OrderChoices() then Err(BadOrder)
    else
      var (key, desc) := OrderOf(orderBy);
      Ok(SortBy(items, key, desc))
  }

  /** The sites `list_sites` serialises carry no rating, so both rating
      orders leave the listing as it was. */
  lemma RatingOrderKeepsPlainSites(items: seq<Item>, orderBy: string)
    requires orderBy == "rating-5-1" || orderBy == "rating-1-5"
    requires forall i :: 0 <= i < |items| ==> items[i].averageRating.None? && items[i].rating.None? && items[i].score.None?
    ensures SortSites(items, orderBy) == Ok(items)
  {
    var (key, desc) := OrderOf(orderBy);
    var k := KReal(0.0);
    assert forall i :: 0 <= i < |items| ==> key(items[i]) == k;
    var sorted := SortBy(items, key, desc);
    forall i | 0 <= i < |sorted| ensures key(sorted[i]) == k {
      assert sorted[i] in multiset(items);
    }
    SortStable(items, key, desc, k);
    AllWithKey(items, key, k);
    AllWithKey(sorted, key, k);
  }

  /** When every element has key `k`, selecting key `k` keeps them all. */
  lemma {:induction false} AllWithKey<T>(xs: seq<T>, key: T -> Key, k: Key)
    requires forall i :: 0 <= i < |xs| ==> key(xs[i]) == k
    ensures WithKey(xs, key, k) == xs
  {
    if |xs| > 0 {
      AllWithKey(xs[..|xs| - 1], key, k);
      assert xs == xs[..|xs| - 1] + [xs[|xs| - 1]];
    }
  }

  // ---------------------------------------------------------------------------
  // Query parameters

  /** `safe_int` of a query-string value: None when absent or empty. */
  function ArgInt(raw: Option<string>): (r: Option<int>)
    ensures raw.None? || raw.value == "" ==> r.None?
    ensures raw.Some? && raw.value != "" ==> r == ParseInt(raw.value)
  {
    if raw.None? then None else SafeInt(PStr(raw.value))
  }

  /** `_parse_int_arg`: a present text that is not an integer is an error;
      the parsed value, else the default, must lie within the bounds given. */
  function ParseIntArg(name: string, raw: Option<string>, default: Option<int>, minimum: Option<int>,
                       maximum: Option<int>): (r: Result<Option<int>, QueryError>)
    ensures raw.Some? && raw.value != "" && ParseInt(raw.value).None? ==> r == Err(NotNumeric(name))
    ensures r.Ok? ==> r.value == (if ArgInt(raw).Some? then ArgInt(raw) else default)
    ensures r.Ok? && r.value.Some? ==>
      (minimum.Some? ==> minimum.value <= r.value.value) && (maximum.Some? ==> r.value.value <= maximum.value)
    ensures r.Err? && r.error.BelowMinimum? ==> minimum.Some? && r.error.minimum == minimum.value
    ensures r.Err? && r.error.AboveMaximum? ==> maximum.Some? && r.error.maximum == maximum.value
    ensures (raw.None? || raw.value == "") && default.None? ==> r == Ok(None)
    ensures (raw.None? || raw.value == "") && default.Some?
            && (minimum.None? || minimum.value <= default.value) && (maximum.None? || default.value <= maximum.value)
            ==> r == Ok(default)
    ensures r.Err? ==> r.error.NotNumeric? || r.error.BelowMinimum? || r.error.AboveMaximum?
  {
    var parsed := ArgInt(raw);
    if raw.Some? && raw.value != "" && parsed.None? then Err(NotNumeric(name))
    else
      var value := if parsed.Some? then parsed else default;
      if value.None? then Ok(None)
      else if minimum.Some? && value.value < minimum.value then Err(BelowMinimum(name, minimum.value))
      else if maximum.Some? && value.value > maximum.value then Err(AboveMaximum(name, maximum.value))
      else Ok(value)
  }

  /** A number written out as the query string carries it comes back when
      it lies within the bounds, and is refused when it does not. */
  lemma ParseIntArgOfText(name: string, n: int, default: Option<int>, minimum: Option<int>, maximum: Option<int>)
    ensures var r := ParseIntArg(name, Some(IntToString(n)), default, minimum, maximum);
      (r.Ok? <==> (minimum.None? || minimum.value <= n) && (maximum.None? || n <= maximum.value))
      && (r.Ok? ==> r.value == Some(n))
  {
    ParseIntOfIntToString(n);
    IntToStringShape(n);
  }

  /** `_parse_float_arg`: a present text that `float()` refuses is an error. */
  function ParseFloatArg(name: string, raw: Option<string>, parseFloat: string -> Option<real>)
    : (r: Result<Option<real>, QueryError>)
    ensures raw.None? || raw.value == "" ==> r == Ok(None)
    ensures raw.Some? && raw.value != "" ==>
      r == if parseFloat(raw.value).None? then Err(NotNumeric(name)) else Ok(parseFloat(raw.value))
  {
    if raw.None? || raw.value == "" then Ok(None)
    else
      match parseFloat(raw.value)
      case None => Err(NotNumeric(name))
      case Some(x) => Ok(Some(x))
  }

  // ---------------------------------------------------------------------------
  // Enumeration aliases

  /** `STATUS_ALIASES`, keys normalised. */
  function StatusAlias(n: string): (r: Option<ConservationStatus>)
  {
    if n == "excelente" || n == "good" || n == "bueno" then Some(Good)
    else if n == "regular" || n == "fair" then Some(Regular)
    else if n == "malo" || n == "bad" then Some(Bad)
    else None
  }

  /** `CATEGORY_ALIASES`, keys normalised. Without NFKD the accented
      spelling is a key of its own. */
  function CategoryAlias(n: string): (r: Option<SiteCategory>)
  {
    if n == "arquitectura" || n == "architecture" then Some(Architecture)
    else if n == "infraestructura" || n == "infrastructure" then Some(Infrastructure)
    else if n == "sitio arqueologico" || n == "sitio arqueol\U{f3}gico" || n == "archaeological"
            || n == "arqueologico" then Some(Archaeological)
    else if n == "otro" || n == "other" then Some(Otro)
    else None
  }

  /** The first member whose normalised value or folded name is `n`. */
  function FirstStatus(options: seq<ConservationStatus>, n: string): (r: Option<ConservationStatus>)
    ensures r.Some? ==> r.value in options && (Lower(r.value.Value()) == n || Lower(r.value.Name()) == n)
    ensures r.None? ==> forall o :: o in options ==> Lower(o.Value()) != n && Lower(o.Name()) != n
  {
    if |options| == 0 then None
    else if Lower(options[0].Value()) == n || Lower(options[0].Name()) == n then Some(options[0])
    else FirstStatus(options[1..], n)
  }

  function FirstCategory(options: seq<SiteCategory>, n: string): (r: Option<SiteCategory>)
    ensures r.Some? ==> r.value in options && (Lower(r.value.Value()) == n || Lower(r.value.Name()) == n)
    ensures r.None? ==> forall o :: o in options ==> Lower(o.Value()) != n && Lower(o.Name()) != n
  {
    if |options| == 0 then None
    else if Lower(options[0].Value()) == n || Lower(options[0].Name()) == n then Some(options[0])
    else FirstCategory(options[1..], n)
  }

  /** `_parse_state_of_conservation`: required; an alias, else a member's
      value or name, compared after normalisation. */
  function ParseStateOfConservation(value: Option<string>): (r: Result<ConservationStatus, QueryError>)
    ensures value.None? || value.value == "" ==> r == Err(StatusRequired)
    ensures value.Some? && StatusAlias(Lower(value.value)).Some? ==> r == Ok(StatusAlias(Lower(value.value)).value)
    ensures r.Err? && value.Some? && value.value != "" ==> r.error == UnknownStatus
    ensures value.Some? && value.value != "" && StatusAlias(Lower(value.value)).None? ==>
      (r.Ok? <==> exists o :: o in Statuses() && (Lower(o.Value()) == Lower(value.value) || Lower(o.Name()) == Lower(value.value)))
      && (r.Ok? ==> Lower(r.value.Value()) == Lower(value.value) || Lower(r.value.Name()) == Lower(value.value))
  {
    if value.None? || value.value == "" then Err(StatusRequired)
    else
      var n := Lower(value.value);
      if StatusAlias(n).Some? then Ok(StatusAlias(n).value)
      else
        match FirstStatus(Statuses(), n)
        case Some(s) => Ok(s)
        case None => Err(UnknownStatus)
  }

  /** `_parse_category`: empty means Otro; otherwise as for the status. */
  function ParseCategory(value: Option<string>): (r: Result<SiteCategory, QueryError>)
    ensures value.None? || value.value == "" ==> r == Ok(Otro)
    ensures value.Some? && CategoryAlias(Lower(value.value)).Some? ==> r == Ok(CategoryAlias(Lower(value.value)).value)
    ensures r.Err? ==> r.error == UnknownCategory
    ensures value.Some? && value.value != "" && CategoryAlias(Lower(value.value)).None? ==>
      (r.Ok? <==> exists o :: o in Categories() && (Lower(o.Value()) == Lower(value.value) || Lower(o.Name()) == Lower(value.value)))
      && (r.Ok? ==> Lower(r.value.Value()) == Lower(value.value) || Lower(r.value.Name()) == Lower(value.value))
  {
    if value.None? || value.value == "" then Ok(Otro)
    else
      var n := Lower(value.value);
      if CategoryAlias(n).Some? then Ok(CategoryAlias(n).value)
      else
        match FirstCategory(Categories(), n)
        case Some(c) => Ok(c)
        case None => Err(UnknownCategory)
  }

  /** Lower-casing a literal, character by character. */
  lemma LowerIs(s: string, t: string)
    requires |s| == |t| && forall i :: 0 <= i < |s| ==> LowerChar(s[i]) == t[i]
    ensures Lower(s) == t
  {
  }

  /** A spelling whose folded form is an alias parses to that alias. */
  lemma StatusByAlias(raw: string, n: string, s: ConservationStatus)
    requires Lower(raw) == n && StatusAlias(n) == Some(s)
    ensures ParseStateOfConservation(Some(raw)) == Ok(s)
  {
    assert raw != "";
  }

  lemma CategoryByAlias(raw: string, n: string, c: SiteCategory)
    requires Lower(raw) == n && CategoryAlias(n) == Some(c)
    ensures ParseCategory(Some(raw)) == Ok(c)
  {
    assert raw != "";
  }

  /** Every status is read back from its stored value and from its member
      name. */
  lemma StatusNamesParse(s: ConservationStatus)
    ensures ParseStateOfConservation(Some(s.Value())) == Ok(s)
    ensures ParseStateOfConservation(Some(s.Name())) == Ok(s)
  {
    match s
    case Good => GoodParses();
    case Regular => RegularParses();
    case Bad => BadParses();
  }

  lemma GoodParses()
    ensures ParseStateOfConservation(Some(Good.Value())) == Ok(Good)
    ensures ParseStateOfConservation(Some(Good.Name())) == Ok(Good)
  {
    assert Good.Value() == "Bueno";
    LowerIs("Bueno", "bueno");
    assert StatusAlias("bueno") == Some(Good);
    StatusByAlias("Bueno", "bueno", Good);
    assert Good.Name() == "GOOD";
    LowerIs("GOOD", "good");
    assert StatusAlias("good") == Some(Good);
    StatusByAlias("GOOD", "good", Good);
  }

  lemma RegularParses()
    ensures ParseStateOfConservation(Some(Regular.Value())) == Ok(Regular)
    ensures ParseStateOfConservation(Some(Regular.Name())) == Ok(Regular)
  {
    assert Regular.Value() == "Regular";
    LowerIs("Regular", "regular");
    assert StatusAlias("regular") == Some(Regular);
    StatusByAlias("Regular", "regular", Regular);
    RegularNameParses();
  }

  lemma RegularNameParses()
    ensures ParseStateOfConservation(Some(Regular.Name())) == Ok(Regular)
  {
    assert Regular.Name() == "REGULAR";
    LowerIs("REGULAR", "regular");
    StatusByAlias("REGULAR", "regular", Regular);
  }

  lemma BadParses()
    ensures ParseStateOfConservation(Some(Bad.Value())) == Ok(Bad)
    ensures ParseStateOfConservation(Some(Bad.Name())) == Ok(Bad)
  {
    assert Bad.Value() == "Malo";
    LowerIs("Malo", "malo");
    assert StatusAlias("malo") == Some(Bad);
    StatusByAlias("Malo", "malo", Bad);
    assert Bad.Name() == "BAD";
    LowerIs("BAD", "bad");
    assert StatusAlias("bad") == Some(Bad);
    StatusByAlias("BAD", "bad", Bad);
  }

  lemma CategoryNamesParse(c: SiteCategory)
    ensures ParseCategory(Some(c.Value())) == Ok(c)
    ensures ParseCategory(Some(c.Name())) == Ok(c)
  {
    match c
    case Architecture => ArchitectureParses();
    case Infrastructure => InfrastructureParses();
    case Archaeological => ArchaeologicalParses();
    case Otro => OtroParses();
  }

  lemma ArchitectureParses()
    ensures ParseCategory(Some(Architecture.Value())) == Ok(Architecture)
    ensures ParseCategory(Some(Architecture.Name())) == Ok(Architecture)
  {
    ArchitectureValueFolds();
    ArchitectureNameFolds();
    ArchitectureAliases();
    CategoryByAlias(Architecture.Value(), "arquitectura", Architecture);
    CategoryByAlias(Architecture.Name(), "architecture", Architecture);
  }

  lemma ArchitectureValueFolds() ensures Lower(Architecture.Value()) == "arquitectura" { LowerIs("Arquitectura", "arquitectura"); }
  lemma ArchitectureNameFolds() ensures Lower(Architecture.Name()) == "architecture" { LowerIs("ARCHITECTURE", "architecture"); }
  lemma ArchitectureAliases() ensures CategoryAlias("arquitectura") == Some(Architecture) && CategoryAlias("architecture") == Some(Architecture) { }

  lemma InfrastructureParses()
    ensures ParseCategory(Some(Infrastructure.Value())) == Ok(Infrastructure)
    ensures ParseCategory(Some(Infrastructure.Name())) == Ok(Infrastructure)
  {
    InfrastructureValueFolds();
    InfrastructureNameFolds();
    InfrastructureAliases();
    CategoryByAlias(Infrastructure.Value(), "infraestructura", Infrastructure);
    CategoryByAlias(Infrastructure.Name(), "infrastructure", Infrastructure);
  }

  lemma InfrastructureValueFolds() ensures Lower(Infrastructure.Value()) == "infraestructura" { LowerIs("Infraestructura", "infraestructura"); }
  lemma InfrastructureNameFolds() ensures Lower(Infrastructure.Name()) == "infrastructure" { LowerIs("INFRASTRUCTURE", "infrastructure"); }
  lemma InfrastructureAliases() ensures CategoryAlias("infraestructura") == Some(Infrastructure) && CategoryAlias("infrastructure") == Some(Infrastructure) { }

  lemma ArchaeologicalParses()
    ensures ParseCategory(Some(Archaeological.Value())) == Ok(Archaeological)
    ensures ParseCategory(Some(Archaeological.Name())) == Ok(Archaeological)
  {
    ArchaeologicalValueFolds();
    ArchaeologicalNameFolds();
    ArchaeologicalAliases();
    CategoryByAlias(Archaeological.Value(), "sitio arqueol\U{f3}gico", Archaeological);
    CategoryByAlias(Archaeological.Name(), "archaeological", Archaeological);
  }

  lemma ArchaeologicalValueFolds() ensures Lower(Archaeological.Value()) == "sitio arqueol\U{f3}gico" { LowerIs("Sitio arqueol\U{f3}gico", "sitio arqueol\U{f3}gico"); }
  lemma ArchaeologicalNameFolds() ensures Lower(Archaeological.Name()) == "archaeological" { LowerIs("ARCHAEOLOGICAL", "archaeological"); }
  lemma ArchaeologicalAliases() ensures CategoryAlias("sitio arqueol\U{f3}gico") == Some(Archaeological) && CategoryAlias("archaeological") == Some(Archaeological) { }

  lemma OtroParses()
    ensures ParseCategory(Some(Otro.Value())) == Ok(Otro)
    ensures ParseCategory(Some(Otro.Name())) == Ok(Otro)
  {
    OtroValueFolds();
    OtroNameFolds();
    OtroAliases();
    CategoryByAlias(Otro.Value(), "otro", Otro);
    CategoryByAlias(Otro.Name(), "otro", Otro);
  }

  lemma OtroValueFolds() ensures Lower(Otro.Value()) == "otro" { LowerIs("Otro", "otro"); }
  lemma OtroNameFolds() ensures Lower(Otro.Name()) == "otro" { LowerIs("OTRO", "otro"); }
  lemma OtroAliases() ensures CategoryAlias("otro") == Some(Otro) && CategoryAlias("otro") == Some(Otro) { }

  // ---------------------------------------------------------------------------
  // Review payload

  datatype CommentError = CommentMissing | CommentTooShort | CommentTooLong

  /** What `_validate_review_payload` returns: whether the rating is
      refused, the comment's single error if any, and the converted values. */
  datatype ReviewCheck = ReviewCheck(ratingError: bool, commentError: Option<CommentError>,
                                     rating: Option<int>, comment: string)

  predicate ReviewOk(c: ReviewCheck) { !c.ratingError && c.commentError.None? }

  /** `_validate_review_payload` on the `rating` and `comment` entries of
      the JSON body; None when cleaning a truthy comment that is not text
      raises. */
  function ValidateReviewPayload(rating: PyValue, comment: PyValue): (c: Option<ReviewCheck>)
    ensures c.None? <==> Truthy(comment) && !comment.PStr?
    ensures c.Some? ==> var text := CleanValue(comment).value;
      && c.value.rating == SafeInt(rating) && c.value.comment == text
      && (!c.value.ratingError <==> SafeInt(rating).Some? && ReviewMinScore <= SafeInt(rating).value <= ReviewMaxScore)
      && (c.value.commentError == Some(CommentMissing) <==> text == "")
      && (c.value.commentError == Some(CommentTooShort) <==> 0 < |text| < ReviewMinLength)
      && (c.value.commentError == Some(CommentTooLong) <==> |text| > ReviewMaxLength)
      && (c.value.commentError.None? <==> ReviewMinLength <= |text| <= ReviewMaxLength)
  {
    var value := SafeInt(rating);
    match CleanValue(comment)
    case None => None
    case Some(text) =>
      var badRating := value.None? || value.value < ReviewMinScore || value.value > ReviewMaxScore;
      var commentError :=
        if text == "" then Some(CommentMissing)
        else if |text| < ReviewMinLength then Some(CommentTooShort)
        else if |text| > ReviewMaxLength then Some(CommentTooLong)
        else None;
      Some(ReviewCheck(badRating, commentError, value, text))
  }

  /** A falsy comment that is not text (`0`, `false`, `[]`) reads as a
      missing comment rather than an error of its own. */
  lemma FalsyCommentIsMissing(rating: PyValue, comment: PyValue)
    requires !Truthy(comment)
    ensures var c := ValidateReviewPayload(rating, comment);
      c.Some? && c.value.commentError == Some(CommentMissing) && c.value.comment == ""
  {
  }

  /** A score in range with a comment of acceptable length, sent as a JSON
      number and a JSON string, passes and comes back unchanged. */
  lemma ReviewPayloadAccepted(score: int, comment: string)
    requires ReviewMinScore <= score <= ReviewMaxScore
    requires Stripped(comment) && ReviewMinLength <= |comment| <= ReviewMaxLength
    ensures var c := ValidateReviewPayload(PInt(score), PStr(comment));
      c.Some? && ReviewOk(c.value) && c.value.rating == Some(score) && c.value.comment == comment
  {
    StripOfStripped(comment);
  }

  // ---------------------------------------------------------------------------
  // Flag state

  /** `{"enabled": ..., "message": ...}` as the public endpoints report a
      flag. */
  datatype FlagState = FlagState(enabled: bool, message: string)

  /** `default_messages.get(flag_key, "")`. */
  function DefaultOrEmpty(key: string): (m: string)
    ensures DefaultMessage(key).Some? ==> m == DefaultMessage(key).value
    ensures DefaultMessage(key).None? ==> m == ""
  {
    match DefaultMessage(key)
    case Some(text) => text
    case None => ""
  }

  /** `_serialize_flag_state` as written: for a missing flag with
      `show_message_when_disabled` set it reads `flag.message` on None, which
      raises; None stands for that crash. */
  function SerializeFlagStateAsWritten(flag: Option<FeatureFlag>, key: string, showWhenDisabled: bool)
    : (r: Option<FlagState>)
    ensures r.None? <==> flag.None? && showWhenDisabled
  {
    var enabled := flag.Some? && flag.value.enabled;
    if enabled then Some(FlagState(true, OrText(flag.value.message, DefaultOrEmpty(key))))
    else if showWhenDisabled then
      if flag.None? then None
      else Some(FlagState(false, Strip(OrText(flag.value.message, DefaultOrEmpty(key)))))
    else Some(FlagState(false, ""))
  }

  /** The serialisation with a missing flag's message read as empty, so the
      default message stands in for it. */
  function SerializeFlagState(flag: Option<FeatureFlag>, key: string, showWhenDisabled: bool): (r: FlagState)
    ensures r.enabled <==> flag.Some? && flag.value.enabled
    ensures !r.enabled && !showWhenDisabled ==> r.message == ""
    ensures r.enabled && flag.value.message != "" ==> r.message == flag.value.message
    ensures r.enabled && flag.value.message == "" ==> r.message == DefaultOrEmpty(key)
    ensures !r.enabled && showWhenDisabled ==> Stripped(r.message)
    ensures flag.None? && showWhenDisabled ==> r.message == Strip(DefaultOrEmpty(key))
  {
    var own := if flag.Some? then flag.value.message else "";
    var enabled := flag.Some? && flag.value.enabled;
    if enabled then FlagState(true, OrText(own, DefaultOrEmpty(key)))
    else if showWhenDisabled then FlagState(false, Strip(OrText(own, DefaultOrEmpty(key))))
    else FlagState(false, "")
  }

  /** The crash: the public flags endpoint asks for the reviews flag with
      `show_message_when_disabled`, so a database without that flag fails. */
  lemma SerializeMissingReviewsFlagCrashes()
    ensures SerializeFlagStateAsWritten(None, ReviewsEnabled, true).None?
    ensures SerializeFlagState(None, ReviewsEnabled, true) == FlagState(false, Strip(DefaultOrEmpty(ReviewsEnabled)))
  {
  }

  /** Wherever the code as written does not crash, the corrected
      serialisation answers the same. */
  lemma SerializeAgrees(flag: Option<FeatureFlag>, key: string, showWhenDisabled: bool)
    requires flag.Some? || !showWhenDisabled
    ensures SerializeFlagStateAsWritten(flag, key, showWhenDisabled) == Some(SerializeFlagState(flag, key, showWhenDisabled))
  {
  }

  /** An enabled flag with a default message never reports an empty one. */
  lemma EnabledKnownFlagHasMessage(f: FeatureFlag, key: string, showWhenDisabled: bool)
    requires f.enabled && DefaultMessage(key).Some? && DefaultMessage(key).value != ""
    ensures SerializeFlagState(Some(f), key, showWhenDisabled).message != ""
  {
  }

  // ---------------------------------------------------------------------------
  // User display

  /** The joined, stripped non-blank parts of a user's name. */
  function JoinedName(u: User): (r: string)
    ensures Strip(u.firstName) != "" || Strip(u.lastName) != ""
            ==> r == Reviews.FormatAuthorName(Some(u.firstName), Some(u.lastName))
    ensures Strip(u.firstName) == "" && Strip(u.lastName) == "" ==> r == ""
  {
    var a := Strip(u.firstName);
    var b := Strip(u.lastName);
    assert CleanStr(Some(u.firstName)) == a && CleanStr(Some(u.lastName)) == b;
    var joined := if a != "" && b != "" then a + " " + b else if a != "" then a else b;
    Reviews.AuthorNameCases(a != "", b != "", a, b, joined);
    Strip(joined)
  }

  /** `_format_user_display`: the stripped non-blank names joined by a
      space, else the email, else "Visitante". */
  function FormatUserDisplay(user: Option<User>): (r: string)
    ensures r != ""
    ensures user.None? ==> r == Reviews.Visitor
    ensures user.Some? ==> r == UserDisplayOf(user.value)
  {
    if user.None? then Reviews.Visitor else UserDisplayOf(user.value)
  }

  /** The display of a user that is present. */
  function UserDisplayOf(u: User): (r: string)
    ensures r != ""
    ensures (Strip(u.firstName) != "" || Strip(u.lastName) != "")
            ==> r == Reviews.FormatAuthorName(Some(u.firstName), Some(u.lastName))
    ensures Strip(u.firstName) == "" && Strip(u.lastName) == ""
            ==> r == OrText(u.email, Reviews.Visitor)
  {
    var clean := JoinedName(u);
    if clean != "" then clean else OrText(u.email, Reviews.Visitor)
  }
}

=== FILE: api_sites.dfy ===
/** The public JSON API over historic sites: the listing with its
    geographic, text, tag, order and favourite parameters; the site detail
    and its visit counter; the review endpoints behind the reviews flag;
    favourites; the site proposal; the public flag and status reports; and
    the caller's own reviews. Each endpoint is a function from the stores
    and the request to the response (and the stores it leaves behind). */
module ApiSites {
  import opened Common
  import opened Tables
  import opened Ordering
  import opened ApiHelpers
  import opened ApiAuth
  import Users
  import Paging
  import SiteModels
  import SiteService
  import Reviews
  import Flags
  import TagQuery
  import Images
  import ImageHelpers

  // ---------------------------------------------------------------------------
  // Responses

  /** Why a request got `400 invalid_data`. */
  datatype Invalid =
    | JsonRequired
    | ReviewRejected(check: ReviewCheck)
    | AlreadyReviewed
    | CoverRequired
    | CoverRefused(errors: seq<ImageHelpers.ImageFormError>)
    | MissingFields(fields: seq<string>)
    | CoordinatesRequired
    | YearNotNumber
    | QueryParam(error: QueryError)

  /** An error response, by its cause. */
  datatype Failure =
    | ReviewsDisabled
    | NotAuthenticated(failure: AuthFailure)
    | SiteNotFound
    | ReviewNotFound
    | InvalidData(reason: Invalid)
    | InvalidQuery(error: QueryError)
    | ServerError

  /** The HTTP status each error response carries. */
  function StatusCode(f: Failure): int {
    match f
    case ReviewsDisabled => 503
    case NotAuthenticated(_) => 401
    case SiteNotFound => 404
    case ReviewNotFound => 404
    case InvalidData(_) => 400
    case InvalidQuery(_) => 400
    case ServerError => 500
  }

  // ---------------------------------------------------------------------------
  // The stores and the caller

  /** Everything the endpoints read and write: the site store, the reviews,
      the feature flags as `load_flags` returns them, the visit counters and
      the image galleries. */
  datatype World = World(store: SiteService.Store, reviews: Table<Reviews.Review>,
                         flags: map<string, Flags.FeatureFlag>, visits: map<int, int>,
                         images: Images.ImageStore)

  /** The sites and the reviews are well formed. */
  predicate Ready(w: World) {
    SiteService.Consistent(w.store) && Reviews.ReviewsOk(w.reviews)
  }

  /** ... and so are the galleries. */
  predicate WorldOk(w: World) {
    Ready(w) && Images.StoreOk(w.images)
  }

  /** The caller: the Flask session and the Authorization header. */
  datatype Caller = Caller(session: ApiSession, header: string)

  /** What authentication depends on besides the caller: the users, whether
      a secret key is configured, and the serializer's `loads`. */
  datatype AuthEnv = AuthEnv(users: Table<Users.User>, secretKey: bool, loads: string -> TokenLoad)

  function Authenticate(env: AuthEnv, c: Caller, optional: bool): ApiAuth {
    RequireApiUser(c.session, c.header, env.users, env.secretKey, env.loads, optional)
  }

  /** The caller's id or nobody; a refused caller is a 401 and the
      RuntimeError of a missing key falls to the handler's 500. */
  function CallerId(a: ApiAuth): Result<Option<int>, Failure> {
    match a
    case Authenticated(id) => Ok(Some(id))
    case Anonymous => Ok(None)
    case Denied(f) => Err(NotAuthenticated(f))
    case NoSecretKey => Err(ServerError)
  }

  /** `_get_site_or_404`: the site when it exists and is visible. */
  function VisibleSite(st: SiteService.Store, siteId: int): (r: Option<SiteModels.SiteDict>)
    requires SiteService.Consistent(st)
    ensures r.Some? <==> siteId in st.sites.rows && st.sites.rows[siteId].isVisible
    ensures r.Some? ==> r.value.id == siteId && r.value.isVisible
  {
    match SiteService.GetSite(st, siteId)
    case None => None
    case Some((d, _)) => if d.isVisible then Some(d) else None
  }

  /** `flags.get(key)`. */
  function FlagGet(flags: map<string, Flags.FeatureFlag>, key: string): Option<Flags.FeatureFlag> {
    if key in flags then Some(flags[key]) else None
  }

  /** `_is_reviews_feature_enabled`: a missing flag leaves reviews on. */
  predicate ReviewsFeatureEnabled(flags: map<string, Flags.FeatureFlag>) {
    Flags.ReviewsEnabled !in flags || flags[Flags.ReviewsEnabled].enabled
  }

  // ---------------------------------------------------------------------------
  // GET /api/sites: the listing

  /** The query string of the listing, each parameter absent or as sent. */
  datatype IndexQuery = IndexQuery(
    name: Option<string>, description: Option<string>, city: Option<string>, province: Option<string>,
    tags: Option<string>, filter: Option<string>, orderBy: Option<string>,
    lat: Option<string>, long: Option<string>, radius: Option<string>,
    page: Option<string>, perPage: Option<string>)

  /** What the listing starts from: every site, or those within a distance
      (in metres) of a point. */
  datatype GeoSource = AllSites | Nearby(latitude: real, longitude: real, meters: real)

  /** The listing's environment: `float()` on query text and the spatial
      query `get_sites_by_location`, both outside this model. */
  datatype ListingEnv = ListingEnv(parseFloat: string -> Option<real>,
                                   nearby: (real, real, real) -> seq<SiteModels.SiteDict>)

  /** The geographic rules on the parsed parameters: a radius must be
      positive and needs both coordinates; coordinates need a radius. */
  function GeoRule(lat: Option<real>, long: Option<real>, radius: Option<real>): (r: Result<GeoSource, QueryError>)
    ensures r.Ok? <==> if radius.Some? then radius.value > 0.0 && lat.Some? && long.Some?
                       else lat.None? && long.None?
    ensures r == Err(RadiusNotPositive) <==> radius.Some? && radius.value <= 0.0
    ensures r == Err(CenterNeedsRadius) <==> radius.None? && (lat.Some? || long.Some?)
    ensures r.Ok? && r.value.Nearby? ==> radius.Some? && r.value == Nearby(lat.value, long.value, radius.value * 1000.0)
    ensures r.Ok? && r.value.AllSites? ==> radius.None?
  {
    if radius.Some? then
      if radius.value <= 0.0 then Err(RadiusNotPositive)
      else if lat.None? || long.None? then Err(GeoNeedsCenter)
      else Ok(Nearby(lat.value, long.value, radius.value * 1000.0))
    else if lat.Some? || long.Some? then Err(CenterNeedsRadius)
    else Ok(AllSites)
  }

  /** `lat`, `long` and `radius` parsed in that order, then the rules. */
  function Geo(q: IndexQuery, parseFloat: string -> Option<real>): (r: Result<GeoSource, QueryError>)
    ensures ParseFloatArg("lat", q.lat, parseFloat).Err? ==> r == Err(NotNumeric("lat"))
    ensures && ParseFloatArg("lat", q.lat, parseFloat).Ok?
            && ParseFloatArg("long", q.long, parseFloat).Ok?
            && ParseFloatArg("radius", q.radius, parseFloat).Ok?
            ==> r == GeoRule(ParseFloatArg("lat", q.lat, parseFloat).value,
                             ParseFloatArg("long", q.long, parseFloat).value,
                             ParseFloatArg("radius", q.radius, parseFloat).value)
  {
    match ParseFloatArg("lat", q.lat, parseFloat)
    case Err(e) => Err(e)
    case Ok(lat) =>
      match ParseFloatArg("long", q.long, parseFloat)
      case Err(e) => Err(e)
      case Ok(long) =>
        match ParseFloatArg("radius", q.radius, parseFloat)
        case Err(e) => Err(e)
        case Ok(radius) => GeoRule(lat, long, radius)
  }

  function Plains(ds: seq<SiteModels.SiteDict>): (r: seq<Item>)
    ensures |r| == |ds| && forall i :: 0 <= i < |ds| ==> r[i] == Plain(ds[i])
  {
    seq(|ds|, (i: int) requires 0 <= i < |ds| => Plain(ds[i]))
  }

  /** The sites the listing starts from, with no rating, visits or mark. */
  function Base(st: SiteService.Store, src: GeoSource, env: ListingEnv): (r: seq<Item>)
    requires SiteService.Consistent(st)
    ensures forall x :: x in r ==> x.isFavorite.None?
  {
    match src
    case AllSites => Plains(SiteService.ListSites(st))
    case Nearby(lat, long, meters) => Plains(env.nearby(lat, long, meters))
  }

  function ArgText(v: Option<string>): string { if v.Some? then v.value else "" }

  /** `_normalize_text(x) if x else ""`. */
  function Normalized(v: Option<string>): string { if v.Some? && v.value != "" then Lower(v.value) else "" }

  /** The `tags` parameter: the stripped non-blank comma-separated pieces,
      normalised. */
  function QueryTags(raw: Option<string>): (r: seq<string>)
    ensures forall t :: t in r ==> t != ""
  {
    var names := TagQuery.TagNames(PStr(ArgText(raw))).value;
    LowerAllNonEmpty(names);
    TagQuery.LowerAll(names)
  }

  lemma LowerAllNonEmpty(xs: seq<string>)
    requires forall t :: t in xs ==> t != ""
    ensures forall t :: t in TagQuery.LowerAll(xs) ==> t != ""
  {
    var r := TagQuery.LowerAll(xs);
    forall t | t in r ensures t != "" {
      var i :| 0 <= i < |r| && r[i] == t;
      assert xs[i] in xs;
    }
  }

  function CriteriaOf(q: IndexQuery): Criteria {
    Criteria(Normalized(q.name), Normalized(q.description), Normalized(q.city), Normalized(q.province),
             QueryTags(q.tags))
  }

  /** `order_by`, "latest" when absent or empty. */
  function OrderByOf(q: IndexQuery): string {
    if q.orderBy.Some? && q.orderBy.value != "" then q.orderBy.value else "latest"
  }

  predicate FavoritesMode(q: IndexQuery) { q.filter == Some("favorites") }

  /** The sites that pass the geographic rules and the filters, in the
      requested order. */
  function Selected(st: SiteService.Store, q: IndexQuery, env: ListingEnv): (r: Result<seq<Item>, QueryError>)
    requires SiteService.Consistent(st)
    ensures Geo(q, env.parseFloat).Err? ==> r == Err(Geo(q, env.parseFloat).error)
    ensures Geo(q, env.parseFloat).Ok? ==>
      (r.Err? <==> OrderByOf(q) !in OrderChoices()) && (r.Err? ==> r.error == BadOrder)
    ensures r.Ok? ==> Geo(q, env.parseFloat).Ok?
    ensures r.Ok? ==> forall x :: x in r.value <==>
      x in Base(st, Geo(q, env.parseFloat).value, env) && MatchesAll(CriteriaOf(q), x)
  {
    match Geo(q, env.parseFloat)
    case Err(e) => Err(e)
    case Ok(src) =>
      var filtered := ApplyFilters(Base(st, src, env), CriteriaOf(q));
      var sorted := SortSites(filtered, OrderByOf(q));
      assert sorted.Ok? ==> forall x :: x in sorted.value <==> x in multiset(filtered);
      sorted
  }

  /** `page` (at least 1, default 1) and `per_page` (1..100, default 20). */
  function PageArgs(q: IndexQuery): (r: Result<(int, int), QueryError>)
    ensures r.Ok? ==> r.value.0 >= 1 && 1 <= r.value.1 <= MaxPerPage
    ensures (q.page.None? || q.page == Some("")) && (q.perPage.None? || q.perPage == Some(""))
            ==> r == Ok((1, DefaultPerPage))
    ensures r.Err? ==> r.error.NotNumeric? || r.error.BelowMinimum? || r.error.AboveMaximum?
  {
    match ParseIntArg("page", q.page, Some(1), Some(1), None)
    case Err(e) => Err(e)
    case Ok(page) =>
      match ParseIntArg("per_page", q.perPage, Some(DefaultPerPage), Some(1), Some(MaxPerPage))
      case Err(e) => Err(e)
      case Ok(perPage) =>
        Ok((if page.Some? then page.value else 1, if perPage.Some? then perPage.value else DefaultPerPage))
  }

  predicate InFavorites(favs: set<int>, it: Item) { it.site.id in favs }

  function FavoriteTest(favs: set<int>): Item -> bool { (it: Item) => InFavorites(favs, it) }

  /** `is_favorite` on every serialised site, only when the caller has
      favourites. */
  function MarkFavorites(items: seq<Item>, favs: set<int>): (r: seq<Item>)
    ensures |r| == |items|
    ensures forall i :: 0 <= i < |items| ==> r[i].site == items[i].site
    ensures favs != {} ==> forall i :: 0 <= i < |r| ==> r[i].isFavorite == Some(items[i].site.id in favs)
    ensures favs == {} ==> r == items
  {
    if favs == {} then items
    else seq(|items|, (i: int) requires 0 <= i < |items| => items[i].(isFavorite := Some(items[i].site.id in favs)))
  }

  /** The sites a listing shows before the page is cut: only the caller's
      favourites in favourites mode, every sorted site otherwise. */
  function Shown(sorted: seq<Item>, favs: set<int>, onlyFavs: bool): seq<Item> {
    if onlyFavs then Filter(sorted, FavoriteTest(favs)) else sorted
  }

  /** The caller's favourite site ids, none for an anonymous caller. */
  function CallerFavorites(w: World, user: Option<int>): set<int> {
    if user.Some? then SiteService.FavoriteSiteIds(w.store, user.value) else {}
  }

  /** The tail of `index` once the caller is known: in favourites mode only
      the caller's favourites stay, every site is marked when the caller
      has favourites, and the page is cut. */
  function Present(sorted: seq<Item>, favs: set<int>, onlyFavs: bool, crit: Criteria, page: int, perPage: int)
    : (r: Paging.ApiPage<Item>)
    requires page >= 1 && perPage >= 1
    requires forall x :: x in sorted ==> MatchesAll(crit, x)
    ensures r.page == page && r.perPage == perPage
    ensures forall x :: x in r.data ==> MatchesAll(crit, x)
    ensures onlyFavs ==> forall x :: x in r.data ==> x.site.id in favs && x.isFavorite == Some(true)
    ensures favs == {} ==> forall x :: x in r.data ==> x in sorted
    ensures r.total == |Shown(sorted, favs, onlyFavs)|
    ensures r.data == Paging.Window(MarkFavorites(Shown(sorted, favs, onlyFavs), favs), page, perPage)
  {
    var shown := Shown(sorted, favs, onlyFavs);
    var marked := MarkFavorites(shown, favs);
    MarkedMatch(shown, favs, crit);
    PageItemsFrom(marked, page, perPage);
    assert onlyFavs ==> forall x :: x in marked ==> x.site.id in favs && x.isFavorite == Some(true) by {
      if onlyFavs {
        forall x | x in marked ensures x.site.id in favs && x.isFavorite == Some(true) {
          var i :| 0 <= i < |marked| && marked[i] == x;
          assert shown[i] in shown;
        }
      }
    }
    Paging.ApiPaginate(marked, page, perPage)
  }

  /** `index`: the geographic rules and the filters and order, then the
      caller (required in favourites mode, optional otherwise), the
      favourites, the page parameters, the `is_favorite` marks and the
      slice. Parameter errors found before the caller is looked at win. */
  function Index(w: World, auth: AuthEnv, c: Caller, q: IndexQuery, env: ListingEnv)
    : (r: Result<Paging.ApiPage<Item>, Failure>)
    requires SiteService.Consistent(w.store)
    ensures Selected(w.store, q, env).Err? ==> r == Err(InvalidQuery(Selected(w.store, q, env).error))
    ensures Selected(w.store, q, env).Ok? && CallerId(Authenticate(auth, c, !FavoritesMode(q))).Err? ==>
      r == Err(CallerId(Authenticate(auth, c, !FavoritesMode(q))).error)
    ensures Selected(w.store, q, env).Ok? && CallerId(Authenticate(auth, c, !FavoritesMode(q))).Ok? ==>
      (r.Ok? <==> PageArgs(q).Ok?) && (PageArgs(q).Err? ==> r == Err(InvalidQuery(PageArgs(q).error)))
    ensures r.Ok? ==> r.value.page >= 1 && 1 <= r.value.perPage <= MaxPerPage
    ensures r.Ok? ==> forall x :: x in r.value.data ==> IsVisible(x) && MatchesAll(CriteriaOf(q), x)
    ensures r.Ok? ==>
      Selected(w.store, q, env).Ok? && CallerId(Authenticate(auth, c, !FavoritesMode(q))).Ok? && PageArgs(q).Ok?
      && var user := CallerId(Authenticate(auth, c, !FavoritesMode(q))).value;
         var favs := CallerFavorites(w, user);
         var shown := Shown(Selected(w.store, q, env).value, favs, user.Some? && FavoritesMode(q));
         r.value.total == |shown|
         && r.value.page == PageArgs(q).value.0 && r.value.perPage == PageArgs(q).value.1
         && r.value.data == Paging.Window(MarkFavorites(shown, favs), r.value.page, r.value.perPage)
  {
    match Selected(w.store, q, env)
    case Err(e) => Err(InvalidQuery(e))
    case Ok(sorted) =>
      match CallerId(Authenticate(auth, c, !FavoritesMode(q)))
      case Err(f) => Err(f)
      case Ok(user) => Answer(w, sorted, user, q)
  }

  /** The answer of `index` once the sites are selected and the caller is
      known: the page parameters, then the page. */
  function Answer(w: World, sorted: seq<Item>, user: Option<int>, q: IndexQuery)
    : (r: Result<Paging.ApiPage<Item>, Failure>)
    requires forall x :: x in sorted ==> MatchesAll(CriteriaOf(q), x)
    ensures (r.Ok? <==> PageArgs(q).Ok?) && (PageArgs(q).Err? ==> r == Err(InvalidQuery(PageArgs(q).error)))
    ensures r.Ok? ==> forall x :: x in r.value.data ==> IsVisible(x) && MatchesAll(CriteriaOf(q), x)
    ensures r.Ok? ==>
      var favs := CallerFavorites(w, user);
      var shown := Shown(sorted, favs, user.Some? && FavoritesMode(q));
      && r.value.total == |shown|
      && r.value.page == PageArgs(q).value.0 && r.value.perPage == PageArgs(q).value.1
      && r.value.data == Paging.Window(MarkFavorites(shown, favs), r.value.page, r.value.perPage)
  {
    var favs := CallerFavorites(w, user);
    match PageArgs(q)
    case Err(e) => Err(InvalidQuery(e))
    case Ok((page, perPage)) =>
      Ok(Present(sorted, favs, user.Some? && FavoritesMode(q), CriteriaOf(q), page, perPage))
  }

  /** The marks leave the sites, and so the criteria they meet, alone. */
  lemma MarkedMatch(items: seq<Item>, favs: set<int>, c: Criteria)
    requires forall x :: x in items ==> MatchesAll(c, x)
    ensures forall x :: x in MarkFavorites(items, favs) ==> MatchesAll(c, x)
  {
    var m := MarkFavorites(items, favs);
    forall x | x in m ensures MatchesAll(c, x) {
      var i :| 0 <= i < |m| && m[i] == x;
      assert items[i] in items;
      assert x.site == items[i].site;
    }
  }

  /** A page holds only items of the list it was cut from. */
  lemma PageItemsFrom<T>(items: seq<T>, page: int, perPage: int)
    requires page >= 1 && perPage >= 1
    ensures forall x :: x in Paging.ApiPaginate(items, page, perPage).data ==> x in items
  {
    var d := Paging.ApiPaginate(items, page, perPage).data;
    forall x | x in d ensures x in items {
      var i :| 0 <= i < |d| && d[i] == x;
      assert x == items[(page - 1) * perPage + i];
    }
  }

  /** Favourites mode needs a caller: without a session or header the
      listing is a 401, whatever the filters. */
  lemma FavoritesListingNeedsCaller(w: World, auth: AuthEnv, c: Caller, q: IndexQuery, env: ListingEnv)
    requires SiteService.Consistent(w.store)
    requires FavoritesMode(q) && Selected(w.store, q, env).Ok?
    requires !SessionActive(c.session, auth.users) && Strip(c.header) == ""
    ensures Index(w, auth, c, q, env) == Err(NotAuthenticated(Header(MissingHeader)))
  {
  }

  /** In favourites mode every listed site is one of the caller's
      favourites, and is marked so. */
  lemma FavoritesListingShowsFavorites(w: World, auth: AuthEnv, c: Caller, q: IndexQuery, env: ListingEnv)
    requires SiteService.Consistent(w.store)
    requires FavoritesMode(q) && Index(w, auth, c, q, env).Ok?
    ensures Authenticate(auth, c, false).Authenticated?
    ensures forall x :: x in Index(w, auth, c, q, env).value.data ==>
      (x.site.id, Authenticate(auth, c, false).id) in w.store.favorites && x.isFavorite == Some(true)
  {
    var a := Authenticate(auth, c, false);
    var id := a.id;
    var sorted := Selected(w.store, q, env).value;
    var user := CallerId(a).value;
    assert a.Authenticated? && user == Some(id);
    var favs := SiteService.FavoriteSiteIds(w.store, id);
    var args := PageArgs(q).value;
    var shown := Present(sorted, favs, true, CriteriaOf(q), args.0, args.1);
    assert Index(w, auth, c, q, env) == Ok(shown);
    forall x | x in shown.data
      ensures (x.site.id, id) in w.store.favorites && x.isFavorite == Some(true)
    {
      assert x.site.id in favs;
    }
  }

  /** A caller without a session or header may list, and then no site
      carries an `is_favorite` mark. */
  lemma AnonymousListingUnmarked(w: World, auth: AuthEnv, c: Caller, q: IndexQuery, env: ListingEnv)
    requires SiteService.Consistent(w.store)
    requires !FavoritesMode(q) && Index(w, auth, c, q, env).Ok?
    requires !SessionActive(c.session, auth.users) && Strip(c.header) == ""
    ensures forall x :: x in Index(w, auth, c, q, env).value.data ==> x.isFavorite.None?
  {
    var sorted := Selected(w.store, q, env).value;
    var base := Base(w.store, Geo(q, env.parseFloat).value, env);
    assert Authenticate(auth, c, true) == Anonymous;
    var args := PageArgs(q).value;
    var shown := Present(sorted, {}, false, CriteriaOf(q), args.0, args.1);
    assert Index(w, auth, c, q, env) == Ok(shown);
    forall x | x in shown.data ensures x.isFavorite.None? {
      assert x in sorted;
      assert x in base;
    }
  }

  // ---------------------------------------------------------------------------
  // GET /api/sites/<id>

  function VisitsOf(visits: map<int, int>, siteId: int): int {
    if siteId in visits then visits[siteId] else 0
  }

  /** The detail of a site, with the caller's favourite mark when known. */
  datatype Detail = Detail(site: SiteModels.SiteDict, isFavorite: Option<bool>)

  /** The answer `site_details` gives once the site is known to be visible:
      the site, with the caller's favourite mark when the optional caller
      is known, or the caller's refusal. */
  function DetailFor(w: World, auth: AuthEnv, c: Caller, siteId: int, d: SiteModels.SiteDict): Result<Detail, Failure> {
    match CallerId(Authenticate(auth, c, true))
    case Err(f) => Err(f)
    case Ok(None) => Ok(Detail(d, None))
    case Ok(Some(id)) => Ok(Detail(d, Some(SiteService.IsFavorite(w.store, siteId, id))))
  }

  /** `site_details` as written: a hidden or unknown site is a 404; the
      visit increment reads `visits`, an attribute the site model does not
      map, so it raises, is rolled back and swallowed, and no store
      changes; then the optional caller is looked at. */
  function SiteDetailsAsWritten(w: World, auth: AuthEnv, c: Caller, siteId: int): (r: (World, Result<Detail, Failure>))
    requires Ready(w)
    ensures r.0 == w
    ensures VisibleSite(w.store, siteId).None? <==> r.1 == Err(SiteNotFound)
    ensures r.1.Ok? ==> r.1.value.site == VisibleSite(w.store, siteId).value
    ensures r.1.Ok? ==> (r.1.value.isFavorite.Some? <==> Authenticate(auth, c, true).Authenticated?)
    ensures r.1.Ok? && r.1.value.isFavorite.Some? ==>
      r.1.value.isFavorite.value == SiteService.IsFavorite(w.store, siteId, Authenticate(auth, c, true).id)
  {
    match VisibleSite(w.store, siteId)
    case None => (w, Err(SiteNotFound))
    case Some(d) => (w, DetailFor(w, auth, c, siteId, d))
  }

  /** `site_details` as intended: the same answer, and a visible site's
      visit is counted before the optional caller is looked at, so a
      refused caller still counts a visit; a hidden or unknown site counts
      nothing. */
  function SiteDetails(w: World, auth: AuthEnv, c: Caller, siteId: int): (r: (World, Result<Detail, Failure>))
    requires Ready(w)
    ensures VisibleSite(w.store, siteId).None? ==> r == (w, Err(SiteNotFound))
    ensures VisibleSite(w.store, siteId).Some? ==>
      r.0 == w.(visits := w.visits[siteId := VisitsOf(w.visits, siteId) + 1])
    ensures r.1 == SiteDetailsAsWritten(w, auth, c, siteId).1
  {
    match VisibleSite(w.store, siteId)
    case None => (w, Err(SiteNotFound))
    case Some(d) =>
      (w.(visits := w.visits[siteId := VisitsOf(w.visits, siteId) + 1]), DetailFor(w, auth, c, siteId, d))
  }

  /** As written no detail request ever counts a visit, while the intended
      endpoint counts one for every request on a visible site, also one
      whose caller is then refused. */
  lemma VisitNeverCountedAsWritten(w: World, auth: AuthEnv, c: Caller, siteId: int)
    requires Ready(w) && VisibleSite(w.store, siteId).Some?
    ensures VisitsOf(SiteDetailsAsWritten(w, auth, c, siteId).0.visits, siteId) == VisitsOf(w.visits, siteId)
    ensures VisitsOf(SiteDetails(w, auth, c, siteId).0.visits, siteId) == VisitsOf(w.visits, siteId) + 1
  {
  }

  // ---------------------------------------------------------------------------
  // Reviews

  /** The user columns the review listing joins in. */
  function PersonsOf(users: Table<Users.User>): (m: map<int, Reviews.Person>)
    ensures forall id :: id in m <==> id in users.rows
  {
    map id | id in users.rows :: Reviews.Person(users.rows[id].email, Some(users.rows[id].firstName),
                                                Some(users.rows[id].lastName))
  }

  /** What `GET /<id>/reviews` answers: the approved reviews, their
      statistics, and the caller's own review whatever its state. */
  datatype SiteReviews = SiteReviews(reviews: seq<Reviews.PublicReview>, stats: Reviews.Stats,
                                     userReview: Option<(int, Reviews.Review)>)

  /** `list_site_reviews`: the site must be visible (checked before the
      caller); the caller is optional. */
  function ListSiteReviews(w: World, auth: AuthEnv, c: Caller, siteId: int): (r: Result<SiteReviews, Failure>)
    requires Ready(w)
    ensures VisibleSite(w.store, siteId).None? ==> r == Err(SiteNotFound)
    ensures r.Ok? ==> r.value.stats.total == |r.value.reviews|
    ensures r.Ok? ==> forall i :: 0 <= i < |r.value.reviews| ==>
      r.value.reviews[i].review.siteId == siteId && r.value.reviews[i].review.status == Reviews.Approved
    ensures r.Ok? && r.value.userReview.Some? ==>
      && Authenticate(auth, c, true).Authenticated?
      && r.value.userReview.value.1.userId == Authenticate(auth, c, true).id
      && r.value.userReview.value.1.siteId == siteId
      && r.value.userReview.value.0 in w.reviews.rows
    ensures r.Ok? && Authenticate(auth, c, true).Anonymous? ==> r.value.userReview.None?
  {
    if VisibleSite(w.store, siteId).None? then Err(SiteNotFound)
    else
      match CallerId(Authenticate(auth, c, true))
      case Err(f) => Err(f)
      case Ok(user) =>
        var persons := PersonsOf(auth.users);
        var approved := Reviews.ListPublicReviews(w.reviews, persons, siteId);
        Reviews.StatsMatchListing(w.reviews, persons, siteId);
        var mine := if user.Some? then Reviews.FindReviewByUser(w.reviews, siteId, user.value) else None;
        Ok(SiteReviews(approved, Reviews.PublicStats(w.reviews, siteId), mine))
  }

  /** The JSON body of a review request: not JSON, JSON that is not an
      object (a falsy one reads as `{}`), or an object with its entries. */
  datatype ReviewBody = NoJsonBody | NonDictJson(truthy: bool) | DictJson(rating: PyValue, comment: PyValue)

  /** The `rating` and `comment` entries; a truthy non-object body makes
      `payload.get` raise, and so does a truthy comment that is not text,
      which the handler turns into a 500. */
  function ReviewPayload(b: ReviewBody): (r: Result<ReviewCheck, Failure>)
    ensures b.NoJsonBody? <==> r == Err(InvalidData(JsonRequired))
    ensures b.DictJson? && ValidateReviewPayload(b.rating, b.comment).Some?
      ==> r == Ok(ValidateReviewPayload(b.rating, b.comment).value)
    ensures b.DictJson? && Truthy(b.comment) && !b.comment.PStr? ==> r == Err(ServerError)
    ensures b.NonDictJson? ==> r == if b.truthy then Err(ServerError) else Ok(ValidateReviewPayload(PNone, PNone).value)
  {
    match b
    case NoJsonBody => Err(InvalidData(JsonRequired))
    case NonDictJson(truthy) => if truthy then Err(ServerError) else Ok(ValidateReviewPayload(PNone, PNone).value)
    case DictJson(rating, comment) =>
      match ValidateReviewPayload(rating, comment)
      case None => Err(ServerError)
      case Some(c) => Ok(c)
  }

  /** What the three write endpoints check first: the reviews flag (before
      anything about the caller), then a required caller, then a visible
      site. */
  function ReviewGate(w: World, auth: AuthEnv, c: Caller, siteId: int): (r: Result<int, Failure>)
    requires Ready(w)
    ensures !ReviewsFeatureEnabled(w.flags) ==> r == Err(ReviewsDisabled)
    ensures r.Ok? <==> && ReviewsFeatureEnabled(w.flags)
                       && Authenticate(auth, c, false).Authenticated?
                       && VisibleSite(w.store, siteId).Some?
    ensures r.Ok? ==> r.value == Authenticate(auth, c, false).id && r.value in auth.users.rows
  {
    if !ReviewsFeatureEnabled(w.flags) then Err(ReviewsDisabled)
    else
      match CallerId(Authenticate(auth, c, false))
      case Err(f) => Err(f)
      case Ok(user) =>
        if user.None? then Err(ServerError)
        else if VisibleSite(w.store, siteId).None? then Err(SiteNotFound)
        else Ok(user.value)
  }

  /** A saved review: the table after the write, the review's id and the
      author name the response shows. */
  datatype Saved = Saved(reviews: Table<Reviews.Review>, id: int, authorName: string)

  /** The validated payload, or the 400 it gets. */
  function Checked(b: ReviewBody): (r: Result<ReviewCheck, Failure>)
    ensures r.Ok? ==> ReviewOk(r.value) && r.value.rating.Some?
    ensures r.Ok? ==> ReviewMinScore <= r.value.rating.value <= ReviewMaxScore
    ensures r.Ok? ==> ReviewMinLength <= |r.value.comment| <= ReviewMaxLength && Stripped(r.value.comment)
    ensures ReviewPayload(b).Ok? ==> (r.Ok? <==> ReviewOk(ReviewPayload(b).value))
  {
    match ReviewPayload(b)
    case Err(f) => Err(f)
    case Ok(check) => if ReviewOk(check) then Ok(check) else Err(InvalidData(ReviewRejected(check)))
  }

  /** Whether the caller owns the review under that site. */
  predicate Owns(t: Table<Reviews.Review>, siteId: int, userId: int, reviewId: int) {
    reviewId in t.rows && t.rows[reviewId].siteId == siteId && t.rows[reviewId].userId == userId
  }

  /** What a valid creation does to the review table: refused when the user
      already reviewed the site, otherwise one pending review more and no
      other row touched. */
  function CreateOwn(t: Table<Reviews.Review>, siteId: int, userId: int, check: ReviewCheck, now: int)
    : (r: Result<(Table<Reviews.Review>, int), Failure>)
    requires Reviews.ReviewsOk(t) && check.rating.Some?
    ensures r.Err? <==> Reviews.FindReviewByUser(t, siteId, userId).Some?
    ensures r.Err? ==> r.error == InvalidData(AlreadyReviewed)
    ensures r.Ok? ==>
      var (u, id) := r.value;
      && Reviews.ReviewsOk(u) && id !in t.rows && id in u.rows
      && u.rows[id] == Reviews.NewReview(siteId, userId, check.rating.value, check.comment, now)
      && (forall k :: k in t.rows ==> k in u.rows && u.rows[k] == t.rows[k])
      && (forall k :: k in u.rows ==> k in t.rows || k == id)
  {
    if Reviews.FindReviewByUser(t, siteId, userId).Some? then Err(InvalidData(AlreadyReviewed))
    else Ok(Reviews.CreateSiteReview(t, siteId, userId, check.rating.value, check.comment, now))
  }

  /** What a valid update does: a review the user does not own under that
      site is a 404; the owned one takes the new rating and comment and goes
      back to moderation; no other row changes. */
  function UpdateOwn(t: Table<Reviews.Review>, siteId: int, userId: int, reviewId: int, check: ReviewCheck)
    : (r: Result<Table<Reviews.Review>, Failure>)
    requires Reviews.ReviewsOk(t) && check.rating.Some?
    ensures r.Err? <==> !Owns(t, siteId, userId, reviewId)
    ensures r.Err? ==> r.error == ReviewNotFound
    ensures r.Ok? ==>
      && Reviews.ReviewsOk(r.value) && reviewId in r.value.rows
      && r.value.rows[reviewId] == Reviews.UpdateSiteReview(t.rows[reviewId], check.rating.value, check.comment)
      && r.value.rows[reviewId].status == Reviews.Pending
      && (forall k :: k in t.rows ==> k in r.value.rows)
      && (forall k :: k in t.rows && k != reviewId ==> r.value.rows[k] == t.rows[k])
  {
    if !Owns(t, siteId, userId, reviewId) then Err(ReviewNotFound)
    else Ok(Reviews.SaveReview(t, reviewId, Reviews.UpdateSiteReview(t.rows[reviewId], check.rating.value, check.comment)))
  }

  /** What a delete does: a 404 unless the user owns the review under that
      site; then exactly that row goes. */
  function DeleteOwn(t: Table<Reviews.Review>, siteId: int, userId: int, reviewId: int)
    : (r: Result<Table<Reviews.Review>, Failure>)
    requires Reviews.ReviewsOk(t)
    ensures r.Err? <==> !Owns(t, siteId, userId, reviewId)
    ensures r.Err? ==> r.error == ReviewNotFound
    ensures r.Ok? ==> && Reviews.ReviewsOk(r.value)
                      && (forall k :: k in r.value.rows <==> k in t.rows && k != reviewId)
                      && (forall k :: k in r.value.rows ==> r.value.rows[k] == t.rows[k])
  {
    if !Owns(t, siteId, userId, reviewId) then Err(ReviewNotFound)
    else Ok(Reviews.DeleteReview(t, reviewId))
  }

  /** `create_site_review_endpoint`: the gate, the payload, then the
      creation; the response shows the caller's display name. */
  function CreateReviewEndpoint(w: World, auth: AuthEnv, c: Caller, siteId: int, b: ReviewBody, now: int)
    : (r: Result<Saved, Failure>)
    requires Ready(w)
    ensures ReviewGate(w, auth, c, siteId).Err? ==> r == Err(ReviewGate(w, auth, c, siteId).error)
    ensures ReviewGate(w, auth, c, siteId).Ok? && Checked(b).Err? ==> r == Err(Checked(b).error)
    ensures ReviewGate(w, auth, c, siteId).Ok? && Checked(b).Ok? ==>
      var made := CreateOwn(w.reviews, siteId, ReviewGate(w, auth, c, siteId).value, Checked(b).value, now);
      && (made.Err? ==> r == Err(made.error))
      && (made.Ok? ==> r == Ok(Saved(made.value.0, made.value.1,
                                      FormatUserDisplay(Some(auth.users.rows[ReviewGate(w, auth, c, siteId).value])))))
  {
    match ReviewGate(w, auth, c, siteId)
    case Err(f) => Err(f)
    case Ok(id) =>
      match Checked(b)
      case Err(f) => Err(f)
      case Ok(check) =>
        match CreateOwn(w.reviews, siteId, id, check, now)
        case Err(f) => Err(f)
        case Ok((t, rid)) => Ok(Saved(t, rid, FormatUserDisplay(Some(auth.users.rows[id]))))
  }

  /** One review per user and site, on the table: once the user's review
      is created, the next creation for the same site is refused. */
  lemma CreateOwnOnce(t: Table<Reviews.Review>, siteId: int, userId: int, check: ReviewCheck, now: int,
                      check2: ReviewCheck, later: int)
    requires Reviews.ReviewsOk(t) && check.rating.Some? && check2.rating.Some?
    requires CreateOwn(t, siteId, userId, check, now).Ok?
    ensures CreateOwn(CreateOwn(t, siteId, userId, check, now).value.0, siteId, userId, check2, later)
            == Err(InvalidData(AlreadyReviewed))
  {
    var (u, id) := CreateOwn(t, siteId, userId, check, now).value;
    assert Reviews.ByAuthor(siteId, userId, (id, u.rows[id]));
  }

  /** The gate looks only at the flags, the sites and the caller, so a
      write to the review table leaves its answer alone. */
  lemma GateIgnoresReviews(w: World, auth: AuthEnv, c: Caller, siteId: int, t: Table<Reviews.Review>)
    requires Ready(w) && Reviews.ReviewsOk(t)
    ensures Ready(w.(reviews := t))
    ensures ReviewGate(w.(reviews := t), auth, c, siteId) == ReviewGate(w, auth, c, siteId)
  {
  }

  /** One review per user and site: once a review is created, the same
      caller's next attempt on that site is refused. */
  lemma SecondReviewRefused(w: World, auth: AuthEnv, c: Caller, siteId: int, b: ReviewBody, now: int,
                            b2: ReviewBody, later: int)
    requires Ready(w) && CreateReviewEndpoint(w, auth, c, siteId, b, now).Ok?
    ensures var w' := w.(reviews := CreateReviewEndpoint(w, auth, c, siteId, b, now).value.reviews);
      && Ready(w')
      && CreateReviewEndpoint(w', auth, c, siteId, b2, later).Err?
      && (Checked(b2).Ok? ==> CreateReviewEndpoint(w', auth, c, siteId, b2, later) == Err(InvalidData(AlreadyReviewed)))
  {
    var id := ReviewGate(w, auth, c, siteId).value;
    var made := CreateOwn(w.reviews, siteId, id, Checked(b).value, now);
    GateIgnoresReviews(w, auth, c, siteId, made.value.0);
    if Checked(b2).Ok? {
      CreateOwnOnce(w.reviews, siteId, id, Checked(b).value, now, Checked(b2).value, later);
    }
  }

  /** `update_site_review_endpoint`: the gate, the payload, then the
      update of the caller's own review. */
  function UpdateReviewEndpoint(w: World, auth: AuthEnv, c: Caller, siteId: int, reviewId: int, b: ReviewBody)
    : (r: Result<Saved, Failure>)
    requires Ready(w)
    ensures ReviewGate(w, auth, c, siteId).Err? ==> r == Err(ReviewGate(w, auth, c, siteId).error)
    ensures ReviewGate(w, auth, c, siteId).Ok? && Checked(b).Err? ==> r == Err(Checked(b).error)
    ensures ReviewGate(w, auth, c, siteId).Ok? && Checked(b).Ok? ==>
      var made := UpdateOwn(w.reviews, siteId, ReviewGate(w, auth, c, siteId).value, reviewId, Checked(b).value);
      && (made.Err? ==> r == Err(made.error))
      && (made.Ok? ==> r == Ok(Saved(made.value, reviewId,
                                      FormatUserDisplay(Some(auth.users.rows[ReviewGate(w, auth, c, siteId).value])))))
  {
    match ReviewGate(w, auth, c, siteId)
    case Err(f) => Err(f)
    case Ok(id) =>
      match Checked(b)
      case Err(f) => Err(f)
      case Ok(check) =>
        match UpdateOwn(w.reviews, siteId, id, reviewId, check)
        case Err(f) => Err(f)
        case Ok(t) => Ok(Saved(t, reviewId, FormatUserDisplay(Some(auth.users.rows[id]))))
  }

  /** `delete_site_review_endpoint`: the gate, then the removal of the
      caller's own review. */
  function DeleteReviewEndpoint(w: World, auth: AuthEnv, c: Caller, siteId: int, reviewId: int)
    : (r: Result<Table<Reviews.Review>, Failure>)
    requires Ready(w)
    ensures ReviewGate(w, auth, c, siteId).Err? ==> r == Err(ReviewGate(w, auth, c, siteId).error)
    ensures ReviewGate(w, auth, c, siteId).Ok? ==>
      r == DeleteOwn(w.reviews, siteId, ReviewGate(w, auth, c, siteId).value, reviewId)
  {
    match ReviewGate(w, auth, c, siteId)
    case Err(f) => Err(f)
    case Ok(id) => DeleteOwn(w.reviews, siteId, id, reviewId)
  }

  /** Someone else's review can be neither edited nor deleted: both are a
      404 and nothing changes. */
  lemma OnlyOwnerWrites(w: World, auth: AuthEnv, c: Caller, siteId: int, reviewId: int, b: ReviewBody)
    requires Ready(w) && ReviewGate(w, auth, c, siteId).Ok?
    requires reviewId in w.reviews.rows && w.reviews.rows[reviewId].userId != Authenticate(auth, c, false).id
    ensures DeleteReviewEndpoint(w, auth, c, siteId, reviewId) == Err(ReviewNotFound)
    ensures UpdateReviewEndpoint(w, auth, c, siteId, reviewId, b).Err?
    ensures Checked(b).Ok? ==> UpdateReviewEndpoint(w, auth, c, siteId, reviewId, b) == Err(ReviewNotFound)
  {
  }

  /** With the reviews flag off, every write is a 503, whoever asks. */
  lemma DisabledReviewsRefuseWrites(w: World, auth: AuthEnv, c: Caller, siteId: int, reviewId: int,
                                    b: ReviewBody, now: int)
    requires Ready(w) && Flags.ReviewsEnabled in w.flags && !w.flags[Flags.ReviewsEnabled].enabled
    ensures CreateReviewEndpoint(w, auth, c, siteId, b, now) == Err(ReviewsDisabled)
    ensures UpdateReviewEndpoint(w, auth, c, siteId, reviewId, b) == Err(ReviewsDisabled)
    ensures DeleteReviewEndpoint(w, auth, c, siteId, reviewId) == Err(ReviewsDisabled)
    ensures StatusCode(ReviewsDisabled) == 503
  {
  }

  /** On the table: the review a user just created is theirs to delete,
      and deleting it gives back the rows as they were. */
  lemma CreateOwnThenDelete(t: Table<Reviews.Review>, siteId: int, userId: int, check: ReviewCheck, now: int)
    requires Reviews.ReviewsOk(t) && check.rating.Some? && CreateOwn(t, siteId, userId, check, now).Ok?
    ensures var (u, id) := CreateOwn(t, siteId, userId, check, now).value;
      DeleteOwn(u, siteId, userId, id).Ok? && DeleteOwn(u, siteId, userId, id).value.rows == t.rows
  {
    var (u, id) := CreateOwn(t, siteId, userId, check, now).value;
    assert (u, id) == Reviews.CreateSiteReview(t, siteId, userId, check.rating.value, check.comment, now);
    assert Owns(u, siteId, userId, id);
    assert DeleteOwn(u, siteId, userId, id) == Ok(Reviews.DeleteReview(u, id));
    Reviews.CreateThenDelete(t, siteId, userId, check.rating.value, check.comment, now);
  }

  /** A created review is the caller's own, so the same caller may delete
      it, which gives back the table as it was. */
  lemma CreatedReviewDeletable(w: World, auth: AuthEnv, c: Caller, siteId: int, b: ReviewBody, now: int)
    requires Ready(w) && CreateReviewEndpoint(w, auth, c, siteId, b, now).Ok?
    ensures var s := CreateReviewEndpoint(w, auth, c, siteId, b, now).value;
      && Ready(w.(reviews := s.reviews))
      && DeleteReviewEndpoint(w.(reviews := s.reviews), auth, c, siteId, s.id).Ok?
      && DeleteReviewEndpoint(w.(reviews := s.reviews), auth, c, siteId, s.id).value.rows == w.reviews.rows
  {
    var id := ReviewGate(w, auth, c, siteId).value;
    var made := CreateOwn(w.reviews, siteId, id, Checked(b).value, now);
    GateIgnoresReviews(w, auth, c, siteId, made.value.0);
    CreateOwnThenDelete(w.reviews, siteId, id, Checked(b).value, now);
  }

  /** The ids of the visible sites. */
  function VisibleIds(st: SiteService.Store): (r: set<int>)
    ensures forall id :: id in r <==> id in st.sites.rows && st.sites.rows[id].isVisible
  {
    set id | id in st.sites.rows && st.sites.rows[id].isVisible
  }

  /** `list_my_reviews`: a required caller; their reviews on visible sites,
      newest first, in every moderation state. */
  function MyReviews(w: World, auth: AuthEnv, c: Caller): (r: Result<seq<(int, Reviews.Review)>, Failure>)
    requires Ready(w)
    ensures r.Ok? <==> Authenticate(auth, c, false).Authenticated?
    ensures r.Ok? ==> forall x :: x in r.value <==>
      && x.0 in w.reviews.rows && w.reviews.rows[x.0] == x.1
      && x.1.userId == Authenticate(auth, c, false).id
      && x.1.siteId in w.store.sites.rows && w.store.sites.rows[x.1.siteId].isVisible
    ensures r.Ok? ==> forall i, j :: 0 <= i < j < |r.value| ==> r.value[i].1.createdAt >= r.value[j].1.createdAt
  {
    match CallerId(Authenticate(auth, c, false))
    case Err(f) => Err(f)
    case Ok(user) =>
      if user.None? then Err(ServerError)
      else Ok(Reviews.ListReviewsForUser(w.reviews, VisibleIds(w.store), user.value))
  }

  // ---------------------------------------------------------------------------
  // Favourites

  /** `mark_favorite_endpoint`: a required caller and a visible site; the
      pair joins the favourites and nothing else changes. */
  function MarkFavoriteEndpoint(w: World, auth: AuthEnv, c: Caller, siteId: int): (r: Result<SiteService.Store, Failure>)
    requires Ready(w)
    ensures r.Ok? <==> Authenticate(auth, c, false).Authenticated? && VisibleSite(w.store, siteId).Some?
    ensures Authenticate(auth, c, false).Authenticated? && VisibleSite(w.store, siteId).None? ==> r == Err(SiteNotFound)
    ensures r.Ok? ==> r.value == w.store.(favorites := w.store.favorites + {(siteId, Authenticate(auth, c, false).id)})
  {
    match CallerId(Authenticate(auth, c, false))
    case Err(f) => Err(f)
    case Ok(user) =>
      if user.None? then Err(ServerError)
      else if VisibleSite(w.store, siteId).None? then Err(SiteNotFound)
      else
        var (st, ok) := SiteService.MarkFavorite(w.store, siteId, user.value);
        if !ok then Err(SiteNotFound) else Ok(st)
  }

  /** `unmark_favorite_endpoint`: a required caller and a visible site; the
      pair leaves the favourites. */
  function UnmarkFavoriteEndpoint(w: World, auth: AuthEnv, c: Caller, siteId: int): (r: Result<SiteService.Store, Failure>)
    requires Ready(w)
    ensures r.Ok? <==> Authenticate(auth, c, false).Authenticated? && VisibleSite(w.store, siteId).Some?
    ensures r.Ok? ==> r.value == w.store.(favorites := w.store.favorites - {(siteId, Authenticate(auth, c, false).id)})
  {
    match CallerId(Authenticate(auth, c, false))
    case Err(f) => Err(f)
    case Ok(user) =>
      if user.None? then Err(ServerError)
      else if VisibleSite(w.store, siteId).None? then Err(SiteNotFound)
      else Ok(SiteService.UnmarkFavorite(w.store, siteId, user.value).0)
  }

  /** Marking then unmarking leaves the caller without that favourite and
      everyone else's favourites as they were; marking twice is marking
      once. */
  lemma FavoriteEndpointsRoundTrip(w: World, auth: AuthEnv, c: Caller, siteId: int)
    requires Ready(w) && MarkFavoriteEndpoint(w, auth, c, siteId).Ok?
    ensures var marked := w.(store := MarkFavoriteEndpoint(w, auth, c, siteId).value);
      && Ready(marked)
      && MarkFavoriteEndpoint(marked, auth, c, siteId) == MarkFavoriteEndpoint(w, auth, c, siteId)
      && UnmarkFavoriteEndpoint(marked, auth, c, siteId).Ok?
      && UnmarkFavoriteEndpoint(marked, auth, c, siteId).value.favorites
         == w.store.favorites - {(siteId, Authenticate(auth, c, false).id)}
  {
    var id := Authenticate(auth, c, false).id;
    var marked := w.(store := MarkFavoriteEndpoint(w, auth, c, siteId).value);
    assert VisibleSite(marked.store, siteId).Some?;
    assert marked.store.favorites + {(siteId, id)} == marked.store.favorites;
  }

  // ---------------------------------------------------------------------------
  // POST /api/sites: proposing a site

  /** The multipart form of a proposal: each text field absent or as sent,
      and the two tag lists `tags[]` and `tags`. */
  datatype SiteForm = SiteForm(
    name: Option<string>, shortDescription: Option<string>, description: Option<string>,
    city: Option<string>, province: Option<string>, lat: Option<string>, long: Option<string>,
    state: Option<string>, category: Option<string>, year: Option<string>,
    tagsBracket: seq<string>, tagsPlain: seq<string>)

  /** A proposal: multipart with its form and cover file, a JSON body, or
      anything else. */
  datatype SiteRequest = Multipart(form: SiteForm, cover: Option<ImageHelpers.Upload>) | JsonRequest | OtherRequest

  /** `file_storage and file_storage.filename.strip()`. */
  predicate HasFile(cover: Option<ImageHelpers.Upload>) {
    cover.Some? && Strip(cover.value.filename) != ""
  }

  /** `create_site_endpoint` as written: `images_helpers` is never
      imported, so a multipart request with a file raises NameError, which
      the handler turns into a 500; every other request is refused before
      that point. No site is ever created. */
  function CreateSiteEndpointAsWritten(req: SiteRequest): (r: Result<(World, int), Failure>)
    ensures r.Err?
    ensures req.Multipart? && HasFile(req.cover) ==> r == Err(ServerError)
    ensures req.JsonRequest? || (req.Multipart? && !HasFile(req.cover)) ==> r == Err(InvalidData(CoverRequired))
  {
    match req
    case OtherRequest => Err(InvalidData(QueryParam(BadBody)))
    case JsonRequest => Err(InvalidData(CoverRequired))
    case Multipart(form, cover) => if !HasFile(cover) then Err(InvalidData(CoverRequired)) else Err(ServerError)
  }

  /** The form's tags: `tags[]` when sent, else `tags`. The split of a
      plain `tags` text never runs: the key has just been popped. */
  function FormTags(f: SiteForm): seq<string> {
    if |f.tagsBracket| > 0 then f.tagsBracket else f.tagsPlain
  }

  function TagValues(ts: seq<string>): (r: seq<PyValue>)
    ensures |r| == |ts| && forall i :: 0 <= i < |ts| ==> r[i] == PStr(ts[i])
  {
    seq(|ts|, (i: int) requires 0 <= i < |ts| => PStr(ts[i]))
  }

  function RequiredFields(): seq<string> {
    ["name", "short_description", "description", "city", "province"]
  }

  /** A required field's text; absent reads as "". */
  function FieldText(f: SiteForm, key: string): string {
    if key == "name" then ArgText(f.name)
    else if key == "short_description" then ArgText(f.shortDescription)
    else if key == "description" then ArgText(f.description)
    else if key == "city" then ArgText(f.city)
    else ArgText(f.province)
  }

  predicate FieldEmpty(f: SiteForm, key: string) { FieldText(f, key) == "" }

  function EmptyTest(f: SiteForm): string -> bool { (key: string) => FieldEmpty(f, key) }

  /** The required fields that are missing or empty, in form order. */
  function Missing(f: SiteForm): (r: seq<string>)
    ensures forall k :: k in r <==> k in RequiredFields() && FieldText(f, k) == ""
    ensures r == [] <==> forall k :: k in RequiredFields() ==> FieldText(f, k) != ""
  {
    Filter(RequiredFields(), EmptyTest(f))
  }

  /** `safe_float` of a form value. */
  function FormFloat(v: Option<string>, parseFloat: string -> Option<real>): Option<real> {
    if v.None? || v.value == "" then None else parseFloat(v.value)
  }

  /** The year: absent or empty is no year; otherwise it must parse. */
  function FormYear(v: Option<string>): (r: Result<Option<int>, Failure>)
    ensures v.None? || v == Some("") ==> r == Ok(None)
    ensures v.Some? && v.value != "" ==>
      r == if ParseInt(v.value).Some? then Ok(ParseInt(v.value)) else Err(InvalidData(YearNotNumber))
  {
    if v.None? || v.value == "" then Ok(None)
    else if ParseInt(v.value).None? then Err(InvalidData(YearNotNumber))
    else Ok(ParseInt(v.value))
  }

  /** The checks of a proposal up to the arguments of `create_site`, in the
      handler's order: the cover file, the status and the category (so a
      missing status is reported before missing fields), the required
      fields, the coordinates, the year and the tags. */
  function ProposalArgs(w: World, req: SiteRequest, parseFloat: string -> Option<real>)
    : (r: Result<(SiteService.SiteArgs, string), Failure>)
    requires Ready(w)
    ensures !req.Multipart? ==> r.Err? && r.error.InvalidData?
    ensures req.Multipart? && !HasFile(req.cover) ==> r == Err(InvalidData(CoverRequired))
    ensures r.Ok? ==> && req.Multipart? && HasFile(req.cover)
                      && ImageHelpers.ValidateImageFile(req.cover).errors == []
                      && Missing(req.form) == []
                      && r.value.0.name == req.form.name.value && r.value.0.name != ""
                      && r.value.0.latitude.Some? && r.value.0.longitude.Some?
                      && r.value.0.isVisible == Some(false)
                      && ImageHelpers.ValidateImageFile(req.cover).extension == Some(r.value.1)
    ensures r.Ok? ==> ParseStateOfConservation(req.form.state) == Ok(r.value.0.conservationStatus)
    ensures r.Ok? ==> ParseCategory(req.form.category) == Ok(r.value.0.category)
    ensures r.Ok? ==> var tags := TagQuery.ParseTags(PList(TagValues(FormTags(req.form))), w.store.tags);
      tags.Ok? && r.value.0.tagIds == tags.value.1
    ensures r.Ok? ==>
      && req.Multipart?
      && r.value.0.shortDescription == ArgText(req.form.shortDescription)
      && r.value.0.fullDescription == ArgText(req.form.description)
      && r.value.0.city == ArgText(req.form.city) && r.value.0.province == ArgText(req.form.province)
      && r.value.0.latitude == FormFloat(req.form.lat, parseFloat)
      && r.value.0.longitude == FormFloat(req.form.long, parseFloat)
      && FormYear(req.form.year) == Ok(r.value.0.inagurationYear)
  {
    match req
    case OtherRequest => Err(InvalidData(QueryParam(BadBody)))
    case JsonRequest => Err(InvalidData(CoverRequired))
    case Multipart(form, cover) =>
      if !HasFile(cover) then Err(InvalidData(CoverRequired))
      else
        var file := ImageHelpers.ValidateImageFile(cover);
        if file.errors != [] then Err(InvalidData(CoverRefused(file.errors)))
        else
          match ParseStateOfConservation(form.state)
          case Err(e) => Err(InvalidData(QueryParam(e)))
          case Ok(status) =>
            match ParseCategory(form.category)
            case Err(e) => Err(InvalidData(QueryParam(e)))
            case Ok(category) =>
              var missing := Missing(form);
              if missing != [] then Err(InvalidData(MissingFields(missing)))
              else
                var lat := FormFloat(form.lat, parseFloat);
                var long := FormFloat(form.long, parseFloat);
                if lat.None? || long.None? then Err(InvalidData(CoordinatesRequired))
                else
                  match FormYear(form.year)
                  case Err(f) => Err(f)
                  case Ok(year) =>
                    match TagQuery.ParseTags(PList(TagValues(FormTags(form))), w.store.tags)
                    case Err(e) => Err(InvalidData(QueryParam(e)))
                    case Ok((_, tagIds)) =>
                      assert "name" in RequiredFields();
                      Ok((SiteService.SiteArgs(form.name.value, ArgText(form.shortDescription), ArgText(form.description),
                                               ArgText(form.city), ArgText(form.province), lat, long, status, year,
                                               category, Some(false), tagIds),
                          file.extension.value))
  }

  /** The new site's gallery ends with its cover, titled with the site's
      name, and no other image of it is a cover. */
  predicate CoverLast(images: Images.ImageStore, id: int, name: string) {
    var g := Images.GalleryOf(images, id);
    && |g| >= 1
    && g[|g| - 1].isCover && g[|g| - 1].title == name
    && (forall i :: 0 <= i < |g| - 1 ==> !g[i].isCover)
  }

  /** The second write of an accepted proposal: the upload of the cover
      under `sites/<id>/<hex>.<ext>`, then `create_image` with the site's
      name as title, made the cover, logged in the history the site's
      creation started. `upload` gives the public URL, or None when the
      upload raises (no storage client, no bucket). That and a full gallery
      both raise, and the handler answers 500. */
  function AttachCover(images: Images.ImageStore, st: SiteService.Store, id: int, name: string, ext: string,
                       hex: string, upload: string -> Option<string>, now: int)
    : (r: Result<(SiteService.Store, Images.ImageStore), Failure>)
    requires Images.StoreOk(images) && SiteService.Consistent(st)
    ensures r.Err? <==>
      upload(ImageHelpers.ObjectName(id, hex, ext)).None? || |Images.GalleryOf(images, id)| >= Images.MaxImages
    ensures r.Err? ==> r.error == ServerError
    ensures r.Ok? ==> SiteService.Consistent(r.value.0) && r.value.0 == st.(history := r.value.0.history)
    ensures r.Ok? ==> Images.StoreOk(r.value.1) && CoverLast(r.value.1, id, name)
  {
    var objectName := ImageHelpers.ObjectName(id, hex, ext);
    match upload(objectName)
    case None => Err(ServerError)
    case Some(url) => CoverImage(images, st, id, name, objectName, url, now)
  }

  /** `create_image` of the uploaded cover: a full gallery raises. */
  function CoverImage(images: Images.ImageStore, st: SiteService.Store, id: int, name: string,
                      objectName: string, url: string, now: int)
    : (r: Result<(SiteService.Store, Images.ImageStore), Failure>)
    requires Images.StoreOk(images) && SiteService.Consistent(st)
    ensures r.Err? <==> |Images.GalleryOf(images, id)| >= Images.MaxImages
    ensures r.Err? ==> r.error == ServerError
    ensures r.Ok? ==> SiteService.Consistent(r.value.0) && r.value.0 == st.(history := r.value.0.history)
    ensures r.Ok? ==> Images.StoreOk(r.value.1) && CoverLast(r.value.1, id, name)
  {
    var shared := images.(history := st.history);
    assert Images.StoreOk(shared) && Images.GalleryOf(shared, id) == Images.GalleryOf(images, id);
    match Images.CreateImage(shared, id, objectName, url, name, None, true, None, now)
    case Err(_) => Err(ServerError)
    case Ok((after, iid)) =>
      assert Ok(Images.GalleryOf(after, id))
        == Images.AddImage(Images.GalleryOf(shared, id), iid, objectName, url, name, None, true);
      Ok((st.(history := after.history), after))
  }

  /** The two writes of an accepted proposal. `create_site` commits the
      hidden site first; a duplicate name raises before anything is
      written. When the cover then fails the handler answers 500, and the
      committed site stays, without a cover. */
  function Commit(w: World, args: SiteService.SiteArgs, ext: string, hex: string,
                  upload: string -> Option<string>, now: int): (r: (World, Result<int, Failure>))
    requires WorldOk(w) && args.latitude.Some? && args.longitude.Some?
    ensures WorldOk(r.0) && r.0.reviews == w.reviews && r.0.flags == w.flags && r.0.visits == w.visits
    ensures r.1.Err? ==> r.1.error == ServerError
    ensures SiteService.NameTaken(w.store, args.name, -1) ==> r == (w, Err(ServerError))
    ensures !SiteService.NameTaken(w.store, args.name, -1) ==>
      var (st, id) := SiteService.CreateSite(w.store, args, None, now).value;
      && r.0.store.sites == st.sites && r.0.store.links == st.links
      && (r.1.Ok? <==>
           upload(ImageHelpers.ObjectName(id, hex, ext)).Some? && |Images.GalleryOf(w.images, id)| < Images.MaxImages)
      && (r.1.Ok? ==> r.1.value == id && CoverLast(r.0.images, id, args.name))
      && (r.1.Err? ==> r.0.store == st && r.0.images == w.images)
    ensures r.1.Ok? ==>
      var (w', id) := (r.0, r.1.value);
      && id !in w.store.sites.rows && id in w'.store.sites.rows
      && w'.store.sites.rows[id] == SiteService.NewSite(args, args.latitude.value, args.longitude.value, now)
      && (forall k :: k in w.store.sites.rows ==> k in w'.store.sites.rows && w'.store.sites.rows[k] == w.store.sites.rows[k])
  {
    match SiteService.CreateSite(w.store, args, None, now)
    case Err(_) => (w, Err(ServerError))
    case Ok((st, id)) =>
      match AttachCover(w.images, st, id, args.name, ext, hex, upload, now)
      case Err(f) => (w.(store := st), Err(f))
      case Ok((st', images)) => (w.(store := st', images := images), Ok(id))
  }

  /** `create_site_endpoint` with the image helpers imported: the checks,
      then the hidden site and its cover. */
  function CreateSiteEndpoint(w: World, req: SiteRequest, parseFloat: string -> Option<real>, hex: string,
                              upload: string -> Option<string>, now: int): (r: (World, Result<int, Failure>))
    requires WorldOk(w)
    ensures ProposalArgs(w, req, parseFloat).Err? ==> r == (w, Err(ProposalArgs(w, req, parseFloat).error))
    ensures ProposalArgs(w, req, parseFloat).Ok? ==>
      r == Commit(w, ProposalArgs(w, req, parseFloat).value.0, ProposalArgs(w, req, parseFloat).value.1,
                  hex, upload, now)
  {
    match ProposalArgs(w, req, parseFloat)
    case Err(f) => (w, Err(f))
    case Ok((args, ext)) => Commit(w, args, ext, hex, upload, now)
  }

  /** What an accepted proposal leaves for the new site: hidden, under the
      given name, and with a cover of that title, the only one. */
  predicate CoveredSite(w': World, id: int, name: string) {
    && id in w'.store.sites.rows
    && !w'.store.sites.rows[id].isVisible
    && w'.store.sites.rows[id].name == name
    && CoverLast(w'.images, id, name)
  }

  /** An accepted proposal adds one hidden site under the submitted name,
      and the uploaded file, titled with that name, becomes its cover and
      the only one. */
  lemma ProposedSiteCover(w: World, req: SiteRequest, parseFloat: string -> Option<real>, hex: string,
                          upload: string -> Option<string>, now: int)
    requires WorldOk(w) && CreateSiteEndpoint(w, req, parseFloat, hex, upload, now).1.Ok?
    ensures req.Multipart? && HasFile(req.cover)
    ensures CoveredSite(CreateSiteEndpoint(w, req, parseFloat, hex, upload, now).0,
                        CreateSiteEndpoint(w, req, parseFloat, hex, upload, now).1.value, req.form.name.value)
  {
    var p := ProposalArgs(w, req, parseFloat).value;
    assert p.0.name == req.form.name.value && p.0.isVisible == Some(false);
    var r := Commit(w, p.0, p.1, hex, upload, now);
    assert CreateSiteEndpoint(w, req, parseFloat, hex, upload, now) == r;
    assert r.0.store.sites.rows[r.1.value]
        == SiteService.NewSite(p.0, p.0.latitude.value, p.0.longitude.value, now);
  }

  /** With storage not configured every upload raises: a proposal under a
      free name is answered 500, yet the hidden site it created stays
      stored, with its gallery untouched. */
  lemma FailedUploadKeepsSite(w: World, req: SiteRequest, parseFloat: string -> Option<real>, hex: string,
                              upload: string -> Option<string>, now: int)
    requires WorldOk(w) && ProposalArgs(w, req, parseFloat).Ok?
    requires !SiteService.NameTaken(w.store, req.form.name.value, -1)
    requires forall o :: upload(o).None?
    ensures var r := CreateSiteEndpoint(w, req, parseFloat, hex, upload, now);
      var id := w.store.sites.nextId;
      && r.1 == Err(ServerError)
      && id !in w.store.sites.rows && id in r.0.store.sites.rows
      && !r.0.store.sites.rows[id].isVisible && r.0.store.sites.rows[id].name == req.form.name.value
      && r.0.images == w.images
  {
    var p := ProposalArgs(w, req, parseFloat).value;
    assert CreateSiteEndpoint(w, req, parseFloat, hex, upload, now) == Commit(w, p.0, p.1, hex, upload, now);
    CommitKeepsSite(w, p.0, p.1, hex, upload, now);
    assert p.0.name == req.form.name.value && p.0.isVisible == Some(false);
  }

  /** A cover upload that raises after `create_site` leaves the new site
      stored under the next id, and no image written. */
  lemma CommitKeepsSite(w: World, args: SiteService.SiteArgs, ext: string, hex: string,
                        upload: string -> Option<string>, now: int)
    requires WorldOk(w) && args.latitude.Some? && args.longitude.Some?
    requires !SiteService.NameTaken(w.store, args.name, -1)
    requires upload(ImageHelpers.ObjectName(w.store.sites.nextId, hex, ext)).None?
    ensures var r := Commit(w, args, ext, hex, upload, now);
      var id := w.store.sites.nextId;
      && r.1 == Err(ServerError) && r.0.images == w.images
      && id !in w.store.sites.rows && id in r.0.store.sites.rows
      && r.0.store.sites.rows[id] == SiteService.NewSite(args, args.latitude.value, args.longitude.value, now)
  {
    var c := SiteService.CreateSite(w.store, args, None, now);
    assert c.Ok? && c.value.1 == w.store.sites.nextId;
  }

  /** A proposal without a status is refused for the status even when the
      required fields are missing too: the status is parsed first. */
  lemma StatusCheckedBeforeFields(w: World, form: SiteForm, cover: ImageHelpers.Upload,
                                  parseFloat: string -> Option<real>)
    requires Ready(w) && HasFile(Some(cover)) && ImageHelpers.ValidateImageFile(Some(cover)).errors == []
    requires form.state.None?
    ensures ProposalArgs(w, Multipart(form, Some(cover)), parseFloat) == Err(InvalidData(QueryParam(StatusRequired)))
  {
  }

  /** The endpoint as written refuses or fails every request the corrected
      one accepts. */
  lemma ProposalNeverCreatedAsWritten(w: World, req: SiteRequest, parseFloat: string -> Option<real>, hex: string,
                                      upload: string -> Option<string>, now: int)
    requires WorldOk(w) && CreateSiteEndpoint(w, req, parseFloat, hex, upload, now).1.Ok?
    ensures CreateSiteEndpointAsWritten(req) == Err(ServerError)
  {
  }

  // ---------------------------------------------------------------------------
  // GET /api/status and GET /api/flags

  /** `public_status`: both maintenance flags, without the disabled
      message. */
  function PublicStatus(flags: map<string, Flags.FeatureFlag>): (r: (FlagState, FlagState))
    ensures r.0.enabled <==> Flags.AdminMaintenance in flags && flags[Flags.AdminMaintenance].enabled
    ensures r.1.enabled <==> Flags.PortalMaintenance in flags && flags[Flags.PortalMaintenance].enabled
    ensures !r.0.enabled ==> r.0.message == ""
    ensures !r.1.enabled ==> r.1.message == ""
  {
    (SerializeFlagState(FlagGet(flags, Flags.AdminMaintenance), Flags.AdminMaintenance, false),
     SerializeFlagState(FlagGet(flags, Flags.PortalMaintenance), Flags.PortalMaintenance, false))
  }

  /** The admin, portal and reviews states `get_public_flags` reports. */
  datatype PublicFlagStates = PublicFlagStates(admin: FlagState, portal: FlagState, reviews: FlagState)

  /** `get_public_flags` as written: the reviews flag is serialised with
      its disabled message, which crashes when that flag is missing; None
      stands for the crash (an unhandled 500). */
  function PublicFlagsAsWritten(flags: map<string, Flags.FeatureFlag>): (r: Option<PublicFlagStates>)
    ensures r.None? <==> Flags.ReviewsEnabled !in flags
  {
    var admin := SerializeFlagStateAsWritten(FlagGet(flags, Flags.AdminMaintenance), Flags.AdminMaintenance, false);
    var portal := SerializeFlagStateAsWritten(FlagGet(flags, Flags.PortalMaintenance), Flags.PortalMaintenance, false);
    var reviews := SerializeFlagStateAsWritten(FlagGet(flags, Flags.ReviewsEnabled), Flags.ReviewsEnabled, true);
    if admin.None? || portal.None? || reviews.None? then None
    else Some(PublicFlagStates(admin.value, portal.value, reviews.value))
  }

  /** `get_public_flags` with a missing flag's message read as empty. */
  function PublicFlags(flags: map<string, Flags.FeatureFlag>): (r: PublicFlagStates)
    ensures (r.admin, r.portal) == PublicStatus(flags)
    ensures r.reviews.enabled <==> Flags.ReviewsEnabled in flags && flags[Flags.ReviewsEnabled].enabled
    ensures !r.reviews.enabled ==> Stripped(r.reviews.message)
  {
    PublicFlagStates(
      SerializeFlagState(FlagGet(flags, Flags.AdminMaintenance), Flags.AdminMaintenance, false),
      SerializeFlagState(FlagGet(flags, Flags.PortalMaintenance), Flags.PortalMaintenance, false),
      SerializeFlagState(FlagGet(flags, Flags.ReviewsEnabled), Flags.ReviewsEnabled, true))
  }

  /** Where the endpoint as written answers, the corrected one answers the
      same. */
  lemma PublicFlagsAgree(flags: map<string, Flags.FeatureFlag>)
    requires Flags.ReviewsEnabled in flags
    ensures PublicFlagsAsWritten(flags) == Some(PublicFlags(flags))
  {
    SerializeAgrees(FlagGet(flags, Flags.AdminMaintenance), Flags.AdminMaintenance, false);
    SerializeAgrees(FlagGet(flags, Flags.PortalMaintenance), Flags.PortalMaintenance, false);
    SerializeAgrees(FlagGet(flags, Flags.ReviewsEnabled), Flags.ReviewsEnabled, true);
  }

  /** The reported reviews state is the gate the write endpoints apply
      exactly when the flag exists; a missing flag lets reviews through
      while the report says they are off. */
  lemma ReviewsStateMatchesGate(flags: map<string, Flags.FeatureFlag>)
    ensures Flags.ReviewsEnabled in flags ==> (PublicFlags(flags).reviews.enabled <==> ReviewsFeatureEnabled(flags))
    ensures Flags.ReviewsEnabled !in flags ==> !PublicFlags(flags).reviews.enabled && ReviewsFeatureEnabled(flags)
  {
  }
}

=== FILE: auth.dfy ===
/** The panel's access control: the login decision sequence, logout, the
    view decorators, and the request hooks that load permissions, gate the
    panel behind the maintenance flag and mark private pages uncacheable. */
module Auth {
  import opened Common
  import opened Tables
  import Flags
  import Users
  import opened Permissions

  /** The role slug the hooks and the login compare against as text. */
  const SysadminSlug: string := "sysadmin"

  const InvalidCredentials: string := "Credenciales inv\U{e1}lidas."
  const InactiveAccount: string :=
    "Tu cuenta se encuentra inactiva. Contact\U{e1} a un administrador para reactivarla."

  /** The server-side session: who is logged in, their role slug, the cached
      permission codes, and the maintenance notice. */
  datatype Session = Session(userId: Option<int>, userRole: Option<string>, permissions: Option<seq<string>>,
                             maintenanceMessage: Option<string>)

  function EmptySession(): Session { Session(None, None, None, None) }

  /** `session.get("user_id")` is truthy. */
  predicate LoggedIn(s: Session) { s.userId.Some? && s.userId.value != 0 }

  predicate IsSysadmin(s: Session) { s.userRole == Some(SysadminSlug) }

  /** `set(session.get("permissions") or [])`. */
  function Granted(s: Session): (r: set<string>)
    ensures s.permissions.None? ==> r == {}
    ensures s.permissions.Some? ==> forall c :: c in r <==> c in s.permissions.value
  {
    if s.permissions.None? then {} else CodeSet(s.permissions.value)
  }

  function CodeSet(codes: seq<string>): (r: set<string>)
    ensures forall c :: c in r <==> c in codes
  {
    set c | c in codes
  }

  // ---------------------------------------------------------------------------
  // Decorators

  /** What a guarded view does with a request. */
  datatype Gate = RunView | ToLogin | ToReferrer | GateCrashed

  /** `require_login`. */
  function RequireLogin(s: Session): (r: Gate)
    ensures r == RunView <==> LoggedIn(s)
    ensures r != RunView ==> r == ToLogin
  {
    if LoggedIn(s) then RunView else ToLogin
  }

  /** `require_permissions` as written: once a user is logged in, the role
      comparison reads a `SYSADMIN` member the role enumeration does not
      have, so every logged-in request fails. */
  function RequirePermissionsAsWritten(s: Session, required: set<string>): (r: Gate)
    ensures !LoggedIn(s) <==> r == ToLogin
    ensures LoggedIn(s) <==> r == GateCrashed
  {
    if !LoggedIn(s) then ToLogin else GateCrashed
  }

  /** The decorator as written never runs its view. */
  lemma RequirePermissionsAsWrittenNeverRuns(s: Session, required: set<string>)
    ensures RequirePermissionsAsWritten(s, required) != RunView
    ensures LoggedIn(s) && IsSysadmin(s) ==> RequirePermissions(s, required) == RunView
  {
  }

  /** `require_permissions` with the comparison against the sysadmin slug:
      a sysadmin always passes, anyone else needs every required code. */
  function RequirePermissions(s: Session, required: set<string>): (r: Gate)
    ensures r == ToLogin <==> !LoggedIn(s)
    ensures r == RunView <==> LoggedIn(s) && (IsSysadmin(s) || required <= Granted(s))
    ensures r != GateCrashed
  {
    if !LoggedIn(s) then ToLogin
    else if IsSysadmin(s) then RunView
    else if required <= Granted(s) then RunView
    else ToReferrer
  }

  /** Asking for fewer permissions, or holding more, never turns a passing
      request away. */
  lemma RequirePermissionsMonotone(s: Session, t: Session, required: set<string>, fewer: set<string>)
    requires RequirePermissions(s, required) == RunView
    requires fewer <= required
    requires t.userId == s.userId && t.userRole == s.userRole && Granted(s) <= Granted(t)
    ensures RequirePermissions(t, fewer) == RunView
  {
  }

  // ---------------------------------------------------------------------------
  // Login

  /** `verify_password`: an empty password or hash never matches; otherwise
      the bcrypt comparison decides (a parameter here). */
  function VerifyPassword(plain: string, hashed: string, checkpw: (string, string) -> bool): (r: bool)
    ensures plain == "" || hashed == "" ==> !r
    ensures plain != "" && hashed != "" ==> (r <==> checkpw(plain, hashed))
  {
    plain != "" && hashed != "" && checkpw(plain, hashed)
  }

  function EmailIs(email: string): ((int, Users.User)) -> bool {
    (row: (int, Users.User)) => row.1.email == email
  }

  /** Looking a user up by exact email. */
  function FindUserByEmail(users: Table<Users.User>, email: string): (r: Option<int>)
    requires Users.UsersOk(users)
    ensures r.Some? <==> exists id :: id in users.rows && users.rows[id].email == email
    ensures r.Some? ==> r.value in users.rows && users.rows[r.value].email == email
  {
    var hits := Ordering.Filter(Rows(users), EmailIs(email));
    if |hits| == 0 then
      assert forall id :: id in users.rows ==> users.rows[id].email != email by {
        forall id | id in users.rows ensures users.rows[id].email != email {
          assert (id, users.rows[id]) in Rows(users);
        }
      }
      None
    else
      assert hits[0] in hits;
      Some(hits[0].0)
  }

  /** Where a redirect goes. */
  datatype Dest = Home | FlagPanel | Given(url: string)

  datatype LoginOutcome =
    | LoginRefused(message: string, next: Dest)
    | LoggedInto(session: Session, next: Dest)
    | LoginCrashed

  /** The form's email, stripped and lower-cased. */
  function LoginEmail(raw: Option<string>): (r: string)
    ensures Stripped(r)
    ensures forall i :: 0 <= i < |r| ==> !('A' <= r[i] <= 'Z')
    ensures raw.None? ==> r == ""
  {
    var clean := CleanStr(raw);
    LowerKeepsStripped(clean);
    Lower(clean)
  }

  lemma LowerCharSpace(c: char)
    ensures IsSpace(LowerChar(c)) <==> IsSpace(c)
  {
    if 'A' <= c <= 'Z' {
      assert 'a' <= LowerChar(c) <= 'z';
    }
  }

  lemma LowerKeepsStripped(s: string)
    requires Stripped(s)
    ensures Stripped(Lower(s))
  {
    if |s| > 0 {
      LowerCharSpace(s[0]);
      LowerCharSpace(s[|s| - 1]);
    }
  }

  /** Normalising an already normalised email changes nothing. */
  lemma LoginEmailIdempotent(raw: Option<string>)
    ensures LoginEmail(Some(LoginEmail(raw))) == LoginEmail(raw)
  {
    var r := LoginEmail(raw);
    StripOfStripped(r);
    LowerNoUpper(r);
  }

  /** `?next=`, or the home page when it is missing or empty. */
  function NextOf(arg: Option<string>): (r: Dest)
    ensures r.Given? <==> arg.Some? && arg.value != ""
    ensures r.Given? ==> r.url == arg.value
    ensures !r.FlagPanel?
  {
    if arg.Some? && arg.value != "" then Given(arg.value) else Home
  }

  /** The admin maintenance flag exists and is on. */
  predicate MaintenanceOn(flags: Table<Flags.FeatureFlag>)
    requires Flags.FlagsOk(flags)
  {
    var f := Flags.GetFlag(flags, Flags.AdminMaintenance);
    f.Some? && f.value.1.enabled
  }

  /** The flag's own message, or the default for the admin panel. */
  function MaintenanceText(f: Flags.FeatureFlag): (r: string)
    ensures r != ""
    ensures f.message != "" ==> r == f.message
  {
    if f.message != "" then f.message else Flags.DefaultMessage(Flags.AdminMaintenance).value
  }

  function CodesOf(ps: seq<Permission>): (r: seq<string>)
    ensures |r| == |ps|
    ensures forall i :: 0 <= i < |r| ==> r[i] == ps[i].code
  {
    if |ps| == 0 then [] else [ps[0].code] + CodesOf(ps[1..])
  }

  /** `_load_permissions_for_user`: the codes of the role's permissions, in
      code order; an unknown role slug is an error. */
  function RoleCodes(perms: PermStore, role: string): (r: Result<seq<string>, PermError>)
    requires StoreOk(perms)
    ensures r.Err? <==> !RoleKnown(perms, RoleSlug(role))
    ensures r.Ok? ==> forall c :: c in r.value <==>
      exists id :: id in perms.perms.rows && perms.perms.rows[id].code == c
                   && (ResolveRole(perms, RoleSlug(role)).value, id) in perms.links
  {
    match ListRolePermissions(perms, RoleSlug(role))
    case Err(e) => Err(e)
    case Ok(ps) =>
      CodesOfMembers(ps);
      RoleCodesMembers(perms, ResolveRole(perms, RoleSlug(role)).value, ps);
      Ok(CodesOf(ps))
  }

  lemma CodesOfMembers(ps: seq<Permission>)
    ensures forall c :: c in CodesOf(ps) <==> exists p :: p in ps && p.code == c
  {
    var codes := CodesOf(ps);
    forall c | c in codes ensures exists p :: p in ps && p.code == c {
      var i :| 0 <= i < |codes| && codes[i] == c;
      assert ps[i] in ps;
    }
    forall p | p in ps ensures p.code in codes {
      var i :| 0 <= i < |ps| && ps[i] == p;
      assert codes[i] == p.code;
    }
  }

  lemma RoleCodesMembers(perms: PermStore, roleId: int, ps: seq<Permission>)
    requires forall p :: p in ps <==>
      exists id :: id in perms.perms.rows && perms.perms.rows[id] == p && (roleId, id) in perms.links
    requires forall c :: c in CodesOf(ps) <==> exists p :: p in ps && p.code == c
    ensures forall c :: c in CodesOf(ps) <==>
      exists id :: id in perms.perms.rows && perms.perms.rows[id].code == c && (roleId, id) in perms.links
  {
    forall c | c in CodesOf(ps)
      ensures exists id :: id in perms.perms.rows && perms.perms.rows[id].code == c && (roleId, id) in perms.links
    {
      var p :| p in ps && p.code == c;
      var id :| id in perms.perms.rows && perms.perms.rows[id] == p && (roleId, id) in perms.links;
    }
    forall c, id | id in perms.perms.rows && perms.perms.rows[id].code == c && (roleId, id) in perms.links
      ensures c in CodesOf(ps)
    {
      assert perms.perms.rows[id] in ps;
    }
  }

  /** `login_post` as written: the user lookup calls `find_user_by_email`,
      which the users service does not define, so every submission fails
      before any check. */
  function LoginPostAsWritten(users: Table<Users.User>, email: Option<string>): (r: LoginOutcome)
    ensures r == LoginCrashed
  {
    LoginCrashed
  }

  /** `login_post` with the lookup by email: unknown user, then inactive
      account, then wrong password, then the maintenance gate; a sysadmin
      passing the gate is sent to the flag panel. A successful login
      replaces the session with the user, the role slug and the role's
      permission codes. */
  function LoginPost(users: Table<Users.User>, flags: Table<Flags.FeatureFlag>, perms: PermStore,
                     email: Option<string>, password: Option<string>, next: Option<string>,
                     checkpw: (string, string) -> bool): (r: LoginOutcome)
    requires Users.UsersOk(users) && Flags.FlagsOk(flags) && StoreOk(perms)
    ensures var found := FindUserByEmail(users, LoginEmail(email));
      (found.None? ==> r == LoginRefused(InvalidCredentials, NextOf(next)))
      && (found.Some? && !users.rows[found.value].isActive ==> r == LoginRefused(InactiveAccount, NextOf(next)))
  {
    var address := LoginEmail(email);
    var nextUrl := NextOf(next);
    match FindUserByEmail(users, address)
    case None => LoginRefused(InvalidCredentials, nextUrl)
    case Some(id) =>
      var user := users.rows[id];
      if !user.isActive then LoginRefused(InactiveAccount, nextUrl)
      else if !VerifyPassword(if password.Some? then password.value else "", user.passwordHash, checkpw) then
        LoginRefused(InvalidCredentials, nextUrl)
      else if MaintenanceOn(flags) && user.role != SysadminSlug then
        LoginRefused(MaintenanceText(Flags.GetFlag(flags, Flags.AdminMaintenance).value.1), nextUrl)
      else
        var dest := if MaintenanceOn(flags) then FlagPanel else nextUrl;
        match RoleCodes(perms, user.role)
        case Err(_) => LoginCrashed
        case Ok(codes) => LoggedInto(Session(Some(id), Some(user.role), Some(codes), None), dest)
  }

  /** The password as the form gives it. */
  function PasswordOf(password: Option<string>): string {
    if password.Some? then password.value else ""
  }

  /** A login succeeds exactly for an active user with a matching password,
      while maintenance is off or the user is a sysadmin, and then the
      session holds that user, their role and their role's codes. */
  lemma LoginSucceedsIff(users: Table<Users.User>, flags: Table<Flags.FeatureFlag>, perms: PermStore,
                         email: Option<string>, password: Option<string>, next: Option<string>,
                         checkpw: (string, string) -> bool)
    requires Users.UsersOk(users) && Flags.FlagsOk(flags) && StoreOk(perms)
    ensures var r := LoginPost(users, flags, perms, email, password, next, checkpw);
      var found := FindUserByEmail(users, LoginEmail(email));
      r.LoggedInto? <==>
        found.Some? && users.rows[found.value].isActive
        && VerifyPassword(PasswordOf(password), users.rows[found.value].passwordHash, checkpw)
        && (!MaintenanceOn(flags) || users.rows[found.value].role == SysadminSlug)
        && RoleCodes(perms, users.rows[found.value].role).Ok?
    ensures var r := LoginPost(users, flags, perms, email, password, next, checkpw);
      var found := FindUserByEmail(users, LoginEmail(email));
      r.LoggedInto? ==>
        var user := users.rows[found.value];
        r.session == Session(Some(found.value), Some(user.role), Some(RoleCodes(perms, user.role).value), None)
        && user.email == LoginEmail(email)
        && (r.next == FlagPanel <==> MaintenanceOn(flags))
  {
  }

  /** An inactive account is reported whatever password is typed. */
  lemma InactiveBeforePassword(users: Table<Users.User>, flags: Table<Flags.FeatureFlag>, perms: PermStore,
                               email: Option<string>, p1: Option<string>, p2: Option<string>, next: Option<string>,
                               checkpw: (string, string) -> bool)
    requires Users.UsersOk(users) && Flags.FlagsOk(flags) && StoreOk(perms)
    requires FindUserByEmail(users, LoginEmail(email)).Some?
    requires !users.rows[FindUserByEmail(users, LoginEmail(email)).value].isActive
    ensures LoginPost(users, flags, perms, email, p1, next, checkpw) == LoginPost(users, flags, perms, email, p2, next, checkpw)
    ensures LoginPost(users, flags, perms, email, p1, next, checkpw) == LoginRefused(InactiveAccount, NextOf(next))
  {
  }

  /** While maintenance is on, only a sysadmin can log in, and the login
      then leads to the flag panel; the refusal carries the flag's
      message or the default one. */
  lemma MaintenanceLogin(users: Table<Users.User>, flags: Table<Flags.FeatureFlag>, perms: PermStore,
                         email: Option<string>, password: Option<string>, next: Option<string>,
                         checkpw: (string, string) -> bool)
    requires Users.UsersOk(users) && Flags.FlagsOk(flags) && StoreOk(perms)
    requires MaintenanceOn(flags)
    ensures var r := LoginPost(users, flags, perms, email, password, next, checkpw);
      r.LoggedInto? ==> IsSysadmin(r.session) && r.next == FlagPanel
  {
    LoginSucceedsIff(users, flags, perms, email, password, next, checkpw);
  }

  /** The maintenance refusal of a user whose credentials are right. */
  lemma MaintenanceRefusal(users: Table<Users.User>, flags: Table<Flags.FeatureFlag>, perms: PermStore,
                           email: Option<string>, password: Option<string>, next: Option<string>,
                           checkpw: (string, string) -> bool)
    requires Users.UsersOk(users) && Flags.FlagsOk(flags) && StoreOk(perms)
    requires MaintenanceOn(flags)
    ensures var r := LoginPost(users, flags, perms, email, password, next, checkpw);
      var found := FindUserByEmail(users, LoginEmail(email));
      found.Some? && users.rows[found.value].isActive
      && VerifyPassword(PasswordOf(password), users.rows[found.value].passwordHash, checkpw)
      && users.rows[found.value].role != SysadminSlug ==>
        r == LoginRefused(MaintenanceText(Flags.GetFlag(flags, Flags.AdminMaintenance).value.1), NextOf(next))
  {
  }

  /** A fresh login session passes `require_permissions` exactly for the
      codes the user's role holds (or for anything, for a sysadmin). */
  lemma LoginThenRequire(users: Table<Users.User>, flags: Table<Flags.FeatureFlag>, perms: PermStore,
                         email: Option<string>, password: Option<string>, next: Option<string>,
                         checkpw: (string, string) -> bool, required: set<string>)
    requires Users.UsersOk(users) && Flags.FlagsOk(flags) && StoreOk(perms)
    requires users.rows.Keys !! {0}
    requires LoginPost(users, flags, perms, email, password, next, checkpw).LoggedInto?
    ensures var s := LoginPost(users, flags, perms, email, password, next, checkpw).session;
      var role := s.userRole.value;
      RequirePermissions(s, required) == RunView <==>
        role == SysadminSlug
        || forall c :: c in required ==>
             exists id :: id in perms.perms.rows && perms.perms.rows[id].code == c
                          && (ResolveRole(perms, RoleSlug(role)).value, id) in perms.links
  {
    LoginSucceedsIff(users, flags, perms, email, password, next, checkpw);
    var s := LoginPost(users, flags, perms, email, password, next, checkpw).session;
    assert s.userId.value in users.rows;
  }

  /** `logout`: a logged-in session is cleared; otherwise nothing changes.
      The flag says which message is shown. */
  function Logout(s: Session): (r: (Session, bool))
    ensures r.1 <==> LoggedIn(s)
    ensures r.1 ==> r.0 == EmptySession()
    ensures !r.1 ==> r.0 == s
  {
    if LoggedIn(s) then (EmptySession(), true) else (s, false)
  }

  /** After logging out, every guarded view sends the request to the
      login page. */
  lemma LogoutThenGuarded(s: Session, required: set<string>)
    ensures RequireLogin(Logout(s).0) == ToLogin
    ensures RequirePermissions(Logout(s).0, required) == ToLogin
  {
  }

  // ---------------------------------------------------------------------------
  // Request hooks

  /** `load_user_permissions`: a logged-in session without cached codes
      gets its role's codes cached (when the user still exists); the
      request's permission set is the cached codes, or empty without a
      user. A role the permission store lacks is an error. */
  function LoadUserPermissions(s: Session, users: Table<Users.User>, perms: PermStore)
    : (r: Result<(Session, set<string>), PermError>)
    requires StoreOk(perms)
    ensures !LoggedIn(s) ==> r == Ok((s, {}))
    ensures LoggedIn(s) && s.permissions.Some? ==> r == Ok((s, Granted(s)))
    ensures LoggedIn(s) && s.permissions.None? && s.userId.value !in users.rows ==> r == Ok((s, {}))
    ensures LoggedIn(s) && s.permissions.None? && s.userId.value in users.rows ==>
      var role := users.rows[s.userId.value].role;
      (r.Err? <==> RoleCodes(perms, role).Err?)
      && (r.Ok? ==> r.value.0 == s.(permissions := Some(RoleCodes(perms, role).value))
                    && r.value.1 == CodeSet(RoleCodes(perms, role).value))
  {
    if !LoggedIn(s) then Ok((s, {}))
    else if s.permissions.Some? then Ok((s, Granted(s)))
    else
      match Users.GetUser(users, s.userId.value)
      case None => Ok((s, {}))
      case Some(user) =>
        match RoleCodes(perms, user.role)
        case Err(e) => Err(e)
        case Ok(codes) =>
          var cached := s.(permissions := Some(codes));
          Ok((cached, Granted(cached)))
  }

  /** Codes are loaded once: a second request with the cached session sees
      the same set and leaves the session alone. */
  lemma LoadUserPermissionsCaches(s: Session, users: Table<Users.User>, perms: PermStore)
    requires StoreOk(perms) && LoadUserPermissions(s, users, perms).Ok?
    ensures var (s1, g1) := LoadUserPermissions(s, users, perms).value;
      LoadUserPermissions(s1, users, perms) == Ok((s1, g1))
  {
  }

  /** The template's maintenance state: enabled iff the flag exists and is
      on, and then the flag's message or the default; "" otherwise. */
  function InjectMaintenance(flags: Table<Flags.FeatureFlag>): (r: (bool, string))
    requires Flags.FlagsOk(flags)
    ensures r.0 <==> MaintenanceOn(flags)
    ensures r.1 != "" <==> r.0
    ensures r.0 && Flags.GetFlag(flags, Flags.AdminMaintenance).value.1.message != "" ==>
      r.1 == Flags.GetFlag(flags, Flags.AdminMaintenance).value.1.message
  {
    if MaintenanceOn(flags) then (true, MaintenanceText(Flags.GetFlag(flags, Flags.AdminMaintenance).value.1))
    else (false, "")
  }

  /** What the private-area hook does with a request. */
  datatype Guard = PassOn | RedirectToLogin

  /** Paths that never need a session. */
  predicate PublicPath(path: string) {
    path == "/login" || path == "/logout" || StartsWith(path, "/static/")
  }

  /** `protect_private_area`, with the flags loaded as `load_flags` does.
      Under maintenance the notice is stored in the session, and then the
      whole session is cleared unless the path starts with "/login";
      without maintenance the notice is dropped. */
  function ProtectPrivateArea(path: string, s: Session, flags: Table<Flags.FeatureFlag>): (r: (Session, Guard))
    requires Flags.FlagsOk(flags)
    ensures PublicPath(path) ==> r == (s, PassOn)
    ensures !PublicPath(path) && !LoggedIn(s) ==> r == (s, RedirectToLogin)
    ensures !PublicPath(path) && LoggedIn(s) && IsSysadmin(s) ==> r == (s, PassOn)
    ensures !PublicPath(path) && LoggedIn(s) && !IsSysadmin(s) ==>
      (!MaintenanceOn(flags) ==> r == (s.(maintenanceMessage := None), PassOn))
      && (MaintenanceOn(flags) && !StartsWith(path, "/login") ==> r == (EmptySession(), RedirectToLogin))
      && (MaintenanceOn(flags) && StartsWith(path, "/login") ==>
            r == (s.(maintenanceMessage := Some(InjectMaintenance(flags).1)), PassOn))
  {
    if PublicPath(path) then (s, PassOn)
    else if !LoggedIn(s) then (s, RedirectToLogin)
    else if IsSysadmin(s) then (s, PassOn)
    else
      var loaded := Flags.LoadFlags(Flags.ListFlags(flags));
      Flags.LoadAgreesWithGet(flags, Flags.AdminMaintenance);
      if Flags.AdminMaintenance in loaded && loaded[Flags.AdminMaintenance].enabled then
        var noticed := s.(maintenanceMessage := Some(MaintenanceText(loaded[Flags.AdminMaintenance])));
        if !StartsWith(path, "/login") then (EmptySession(), RedirectToLogin)
        else (noticed, PassOn)
      else (s.(maintenanceMessage := None), PassOn)
  }

  /** The login and the hook agree on maintenance: a session a login just
      created is never turned away from a private page by the maintenance
      gate. */
  lemma LoginAndHookAgree(users: Table<Users.User>, flags: Table<Flags.FeatureFlag>, perms: PermStore,
                          email: Option<string>, password: Option<string>, next: Option<string>,
                          checkpw: (string, string) -> bool, path: string)
    requires Users.UsersOk(users) && Flags.FlagsOk(flags) && StoreOk(perms)
    requires users.rows.Keys !! {0}
    requires LoginPost(users, flags, perms, email, password, next, checkpw).LoggedInto?
    ensures ProtectPrivateArea(path, LoginPost(users, flags, perms, email, password, next, checkpw).session, flags).1 == PassOn
  {
    LoginSucceedsIff(users, flags, perms, email, password, next, checkpw);
    var s := LoginPost(users, flags, perms, email, password, next, checkpw).session;
    assert s.userId.value in users.rows;
  }

  /** `add_no_cache_headers`: the three headers go only on a logged-in GET
      answered with 200; every other response is left alone. */
  function NoCacheHeaders(s: Session, httpMethod: string, status: int): (r: seq<(string, string)>)
    ensures r != [] <==> LoggedIn(s) && httpMethod == "GET" && status == 200
    ensures r != [] ==> ("Cache-Control", "no-store, no-cache, must-revalidate, private") in r
                        && ("Pragma", "no-cache") in r && ("Expires", "0") in r
  {
    if LoggedIn(s) && httpMethod == "GET" && status == 200 then
      [("Cache-Control", "no-store, no-cache, must-revalidate, private"), ("Pragma", "no-cache"), ("Expires", "0")]
    else []
  }
}

=== FILE: calculadora.dfy ===
/** The stand-alone four-operation calculator. Numbers are exact reals: the
    model does not follow IEEE rounding, and `/` is true division. */
module Calculadora {
  import opened Common

  datatype CalcError = DivisionByZero

  function Resta(a: real, b: real): (r: real)
    ensures Sumar(r, b) == a
  {
    a - b
  }

  function Sumar(a: real, b: real): real {
    a + b
  }

  function Multiplicacion(a: real, b: real): real {
    a * b
  }

  /** Division raises ValueError on a zero divisor; otherwise it is the
      exact quotient, the number that multiplied by the divisor gives the
      dividend back. */
  function Division(a: real, b: real): (r: Result<real, CalcError>)
    ensures r.Err? <==> b == 0.0
    ensures r.Ok? ==> Multiplicacion(r.value, b) == a
  {
    if b == 0.0 then Err(DivisionByZero) else Ok(a / b)
  }

  /** Dispatch on the operator symbol; an unknown symbol yields 0. */
  function Calcular(a: real, b: real, op: string): (r: Result<real, CalcError>)
    ensures op == "*" ==> r == Ok(Multiplicacion(a, b))
    ensures op == "-" ==> r == Ok(Resta(a, b))
    ensures op == "+" ==> r == Ok(Sumar(a, b))
    ensures op == "/" ==> r == Division(a, b)
    ensures op !in {"*", "-", "+", "/"} ==> r == Ok(0.0)
    ensures r.Err? <==> op == "/" && b == 0.0
  {
    if op == "*" then Ok(Multiplicacion(a, b))
    else if op == "-" then Ok(Resta(a, b))
    else if op == "+" then Ok(Sumar(a, b))
    else if op == "/" then Division(a, b)
    else Ok(0.0)
  }

  /** Subtraction undoes addition and division undoes multiplication. */
  lemma CalcularInverses(a: real, b: real)
    ensures Calcular(Sumar(a, b), b, "-") == Ok(a)
    ensures b != 0.0 ==> Calcular(Multiplicacion(a, b), b, "/") == Ok(a)
  {
    if b != 0.0 {
      var q := Division(a * b, b).value;
      assert q * b == a * b;
      assert (q - a) * b == 0.0;
    }
  }

  /** Addition and multiplication do not depend on operand order, and zero
      absorbs multiplication. */
  lemma CalcularCommutes(a: real, b: real)
    ensures Calcular(a, b, "+") == Calcular(b, a, "+")
    ensures Calcular(a, b, "*") == Calcular(b, a, "*")
    ensures Calcular(a, 0.0, "*") == Ok(0.0)
  {
  }
}

=== FILE: common.dfy ===
/** Shared vocabulary for the whole model: optional values and error results,
    the loosely typed values that arrive from HTML forms and JSON bodies, and
    the handful of Python string and integer primitives the services lean on
    (str.strip, str.lower on ASCII, str.split with one separator, str.join,
    str(int) and int(str)). */
module Common {

  datatype Option<+T> = None | Some(value: T)

  datatype Result<+T, +E> = Ok(value: T) | Err(error: E)

  /** A value as Flask hands it over from a form, a query string or a JSON
      body. Only the shapes the services distinguish are kept. */
  datatype PyValue =
    | PNone
    | PStr(s: string)
    | PInt(i: int)
    | PBool(b: bool)
    | PFloat(f: real)
    | PList(items: seq<PyValue>)

  function Min(a: int, b: int): int { if a <= b then a else b }
  function Max(a: int, b: int): int { if a >= b then a else b }

  // ---------------------------------------------------------------------------
  // Whitespace and str.strip()

  /** Python's str.isspace for one character. */
  predicate IsSpace(c: char) {
    || c == ' ' || c == '\t' || c == '\n' || c == '\r' || c == '\U{b}' || c == '\U{c}'
    || ('\U{1c}' <= c <= '\U{1f}') || c == '\U{85}' || c == '\U{a0}' || c == '\U{1680}'
    || ('\U{2000}' <= c <= '\U{200a}') || c == '\U{2028}' || c == '\U{2029}'
    || c == '\U{202f}' || c == '\U{205f}' || c == '\U{3000}'
  }

  /** No whitespace at either end: what str.strip() guarantees. */
  predicate Stripped(s: string) {
    |s| == 0 || (!IsSpace(s[0]) && !IsSpace(s[|s| - 1]))
  }

  /** The first position at or after `i` that is not whitespace. */
  function LeadEnd(s: string, i: nat): (n: nat)
    requires i <= |s|
    ensures i <= n <= |s|
    ensures forall k :: i <= k < n ==> IsSpace(s[k])
    ensures n < |s| ==> !IsSpace(s[n])
    decreases |s| - i
  {
    if i < |s| && IsSpace(s[i]) then LeadEnd(s, i + 1) else i
  }

  /** The end of `s[lo..j]` once its trailing whitespace is dropped. */
  function TrailStart(s: string, lo: nat, j: nat): (n: nat)
    requires lo <= j <= |s|
    ensures lo <= n <= j
    ensures forall k :: n <= k < j ==> IsSpace(s[k])
    ensures n > lo ==> !IsSpace(s[n - 1])
    decreases j
  {
    if j > lo && IsSpace(s[j - 1]) then TrailStart(s, lo, j - 1) else j
  }

  /** `r` sits in `s` at offset `i` and everything around it is whitespace. */
  predicate TrimmedAt(s: string, r: string, i: int) {
    0 <= i <= |s| - |r| && r == s[i..i + |r|]
    && (forall k :: 0 <= k < i ==> IsSpace(s[k]))
    && (forall k :: i + |r| <= k < |s| ==> IsSpace(s[k]))
  }

  /** str.strip(): the infix that neither starts nor ends with whitespace,
      obtained by removing only whitespace. */
  function Strip(s: string): (r: string)
    ensures Stripped(r)
    ensures exists i :: TrimmedAt(s, r, i)
  {
    var a := LeadEnd(s, 0);
    var b := TrailStart(s, a, |s|);
    assert TrimmedAt(s, s[a..b], a);
    s[a..b]
  }

  /** A non-empty unpadded infix surrounded only by whitespace is what
      str.strip() returns. */
  lemma StripUnique(s: string, r: string, i: int)
    requires TrimmedAt(s, r, i) && Stripped(r) && |r| > 0
    ensures Strip(s) == r
  {
    var a := LeadEnd(s, 0);
    assert s[i] == r[0];
    assert a == i;
    var b := TrailStart(s, a, |s|);
    assert s[i + |r| - 1] == r[|r| - 1];
    assert b == i + |r|;
  }

  /** str.strip() yields "" exactly for all-whitespace text. */
  lemma StripEmpty(s: string)
    ensures |Strip(s)| == 0 <==> forall k :: 0 <= k < |s| ==> IsSpace(s[k])
  {
    var r := Strip(s);
    var i :| TrimmedAt(s, r, i);
    if |r| > 0 {
      assert s[i] == r[0];
    }
  }

  lemma StripOfStripped(s: string)
    requires Stripped(s)
    ensures Strip(s) == s
  {
    if |s| > 0 {
      assert s == s[0..|s|];
      StripUnique(s, s, 0);
    }
  }

  // ---------------------------------------------------------------------------
  // ASCII case mapping (str.lower restricted to ASCII letters)

  function LowerChar(c: char): (r: char)
    ensures 'A' <= c <= 'Z' ==> 'a' <= r <= 'z' && r as int == c as int + 32
    ensures !('A' <= c <= 'Z') ==> r == c
  {
    if 'A' <= c <= 'Z' then (c as int + 32) as char else c
  }

  function Lower(s: string): (r: string)
    ensures |r| == |s|
    ensures forall i :: 0 <= i < |s| ==> r[i] == LowerChar(s[i])
  {
    if |s| == 0 then [] else [LowerChar(s[0])] + Lower(s[1..])
  }

  lemma LowerNoUpper(s: string)
    requires forall i :: 0 <= i < |s| ==> !('A' <= s[i] <= 'Z')
    ensures Lower(s) == s
  {
  }

  predicate StartsWith(s: string, prefix: string) {
    |prefix| <= |s| && s[..|prefix|] == prefix
  }

  /** Substring test: `needle in hay`. */
  predicate Contains(hay: string, needle: string) {
    exists i | 0 <= i <= |hay| - |needle| :: OccursAt(hay, needle, i)
  }

  predicate OccursAt(hay: string, needle: string, i: int) {
    0 <= i <= |hay| - |needle| && hay[i..i + |needle|] == needle
  }

  /** SQL `ILIKE '%needle%'` and Python casefolded `in`, on ASCII. */
  predicate ContainsFold(hay: string, needle: string) {
    Contains(Lower(hay), Lower(needle))
  }

  // ---------------------------------------------------------------------------
  // str.split(sep) with a one-character separator, and sep.join(parts)

  function Split(s: string, sep: char): (r: seq<string>)
    ensures |r| >= 1
    ensures forall k :: 0 <= k < |r| ==> sep !in r[k]
  {
    if |s| == 0 then [""]
    else
      var rest := Split(s[1..], sep);
      if s[0] == sep then [""] + rest
      else [[s[0]] + rest[0]] + rest[1..]
  }

  function Join(sep: char, parts: seq<string>): string {
    if |parts| == 0 then ""
    else if |parts| == 1 then parts[0]
    else parts[0] + [sep] + Join(sep, parts[1..])
  }

  /** Joining the pieces of a split restores the original string. */
  lemma {:induction false} JoinSplit(s: string, sep: char)
    ensures Join(sep, Split(s, sep)) == s
  {
    if |s| > 0 {
      var rest := Split(s[1..], sep);
      JoinSplit(s[1..], sep);
      if s[0] != sep {
        if |rest| > 1 {
          assert Join(sep, rest) == rest[0] + [sep] + Join(sep, rest[1..]);
          assert Join(sep, [[s[0]] + rest[0]] + rest[1..]) == [s[0]] + rest[0] + [sep] + Join(sep, rest[1..]);
        } else {
          assert Join(sep, [[s[0]] + rest[0]] + rest[1..]) == [s[0]] + rest[0];
        }
        assert [s[0]] + s[1..] == s;
      } else {
        assert Join(sep, [""] + rest) == "" + [sep] + Join(sep, rest);
        assert [s[0]] + s[1..] == s;
      }
    }
  }

  lemma {:induction false} SplitNoSep(a: string, sep: char)
    requires sep !in a
    ensures Split(a, sep) == [a]
  {
    if |a| > 0 {
      assert sep !in a[1..];
      SplitNoSep(a[1..], sep);
      assert [a[0]] + a[1..] == a;
    }
  }

  lemma {:induction false} SplitPrefix(a: string, sep: char, rest: string)
    requires sep !in a
    ensures Split(a + [sep] + rest, sep) == [a] + Split(rest, sep)
  {
    if |a| == 0 {
      assert a + [sep] + rest == [sep] + rest;
      assert ([sep] + rest)[1..] == rest;
    } else {
      assert (a + [sep] + rest)[1..] == a[1..] + [sep] + rest;
      assert sep !in a[1..];
      SplitPrefix(a[1..], sep, rest);
      assert [a[0]] + a[1..] == a;
    }
  }

  /** Splitting reads one more character at the end: a separator opens a
      new empty piece ... */
  lemma {:induction false} SplitSnocSep(s: string, sep: char)
    ensures Split(s + [sep], sep) == Split(s, sep) + [""]
  {
    if |s| == 0 {
      assert s + [sep] == [sep];
      assert ([sep])[1..] == [];
    } else {
      var rest := Split(s[1..], sep);
      assert (s + [sep])[1..] == s[1..] + [sep];
      SplitSnocSep(s[1..], sep);
      if s[0] != sep {
        var r := rest + [""];
        assert r[1..] == rest[1..] + [""];
      }
    }
  }

  /** ... and any other character extends the last piece. */
  lemma {:induction false} SplitSnocOther(s: string, sep: char, c: char)
    requires c != sep
    ensures var p := Split(s, sep); Split(s + [c], sep) == p[..|p| - 1] + [p[|p| - 1] + [c]]
  {
    if |s| == 0 {
      var one: string := [c];
      assert s + [c] == one && one[0] == c && one[1..] == "";
      var rest := Split(one[1..], sep);
      assert rest == [""];
      assert Split(one, sep) == [[c] + rest[0]] + rest[1..];
      assert rest[1..] == [] && [c] + rest[0] == [c];
      assert Split(one, sep) == [[c]];
      var p := Split(s, sep);
      assert p == [""];
      assert p[..|p| - 1] + [p[|p| - 1] + [c]] == [[c]];
    } else {
      var p := Split(s, sep);
      var rest := Split(s[1..], sep);
      assert (s + [c])[1..] == s[1..] + [c];
      SplitSnocOther(s[1..], sep, c);
      var m := |rest|;
      var r := rest[..m - 1] + [rest[m - 1] + [c]];
      assert (s + [c])[0] == s[0];
      if s[0] != sep {
        assert p == [[s[0]] + rest[0]] + rest[1..];
        assert Split(s + [c], sep) == [[s[0]] + r[0]] + r[1..];
        SplitSnocOtherCons(s[0], rest, r, c);
      }
    }
  }

  lemma SplitSnocOtherCons(x: char, rest: seq<string>, r: seq<string>, c: char)
    requires |rest| >= 1 && r == rest[..|rest| - 1] + [rest[|rest| - 1] + [c]]
    ensures var p := [[x] + rest[0]] + rest[1..];
      [[x] + r[0]] + r[1..] == p[..|p| - 1] + [p[|p| - 1] + [c]]
  {
    var m := |rest|;
    var p := [[x] + rest[0]] + rest[1..];
    if m == 1 {
      assert [x] + (rest[0] + [c]) == ([x] + rest[0]) + [c];
    } else {
      assert r[0] == rest[0];
      assert r[1..] == rest[1..m - 1] + [rest[m - 1] + [c]];
      assert p[..|p| - 1] == [[x] + rest[0]] + rest[1..m - 1];
    }
  }

  /** Joining reads one more part at the end. */
  lemma {:induction false} JoinSnoc(sep: char, parts: seq<string>, x: string)
    ensures Join(sep, parts + [x]) == if |parts| == 0 then x else Join(sep, parts) + [sep] + x
  {
    if |parts| > 1 {
      assert (parts + [x])[1..] == parts[1..] + [x];
      JoinSnoc(sep, parts[1..], x);
    } else if |parts| == 1 {
      assert parts + [x] == [parts[0], x];
    }
  }

  /** A character absent from the text is absent from every piece. */
  lemma {:induction false} SplitAvoids(s: string, sep: char, c: char)
    requires c !in s
    ensures forall k :: 0 <= k < |Split(s, sep)| ==> c !in Split(s, sep)[k]
  {
    if |s| > 0 {
      assert c !in s[1..];
      SplitAvoids(s[1..], sep, c);
    }
  }

  /** Splitting the join of separator-free parts gives the parts back. */
  lemma {:induction false} SplitJoin(parts: seq<string>, sep: char)
    requires |parts| >= 1
    requires forall k :: 0 <= k < |parts| ==> sep !in parts[k]
    ensures Split(Join(sep, parts), sep) == parts
  {
    if |parts| == 1 {
      SplitNoSep(parts[0], sep);
    } else {
      SplitJoin(parts[1..], sep);
      SplitPrefix(parts[0], sep, Join(sep, parts[1..]));
      assert [parts[0]] + parts[1..] == parts;
    }
  }

  /** Replace every character by a text and concatenate the results. */
  function FlatMap(f: char -> string, s: string): string {
    if |s| == 0 then [] else FlatMap(f, s[..|s| - 1]) + f(s[|s| - 1])
  }

  lemma {:induction false} FlatMapAppend(f: char -> string, a: string, b: string)
    ensures FlatMap(f, a + b) == FlatMap(f, a) + FlatMap(f, b)
    decreases |b|
  {
    if |b| > 0 {
      var ab := a + b;
      var init := b[..|b| - 1];
      FlatMapAppend(f, a, init);
      assert ab[..|ab| - 1] == a + init;
      assert ab[|ab| - 1] == b[|b| - 1];
    } else {
      assert a + b == a;
    }
  }

  lemma FlatMapSnoc(f: char -> string, s: string, c: char)
    ensures FlatMap(f, s + [c]) == FlatMap(f, s) + f(c)
  {
    assert (s + [c])[..|s|] == s;
  }

  /** n copies of a text. */
  function Rep(s: string, n: nat): (r: string)
    ensures |r| == n * |s|
    ensures forall i :: 0 <= i < |r| ==> r[i] in s
  {
    if n == 0 then [] else Rep(s, n - 1) + s
  }

  lemma {:induction false} FlatMapRep(f: char -> string, c: char, n: nat)
    ensures FlatMap(f, Rep([c], n)) == Rep(f(c), n)
  {
    if n > 0 {
      FlatMapRep(f, c, n - 1);
      var x := Rep([c], n);
      assert x[..|x| - 1] == Rep([c], n - 1);
    }
  }

  // ---------------------------------------------------------------------------
  // Keeping the entries a partial conversion accepts

  /** The defined results of `f` over `xs`, in order: a loop that appends
      each converted entry and skips the ones whose conversion raises. */
  function FilterMap<A, B>(xs: seq<A>, f: A -> Option<B>): (r: seq<B>)
    ensures |r| <= |xs|
    ensures forall y :: y in r ==> exists i :: 0 <= i < |xs| && f(xs[i]) == Some(y)
    ensures forall i :: 0 <= i < |xs| && f(xs[i]).Some? ==> f(xs[i]).value in r
  {
    if |xs| == 0 then []
    else
      var rest := FilterMap(xs[1..], f);
      assert forall i :: 1 <= i < |xs| ==> xs[i] == xs[1..][i - 1];
      match f(xs[0])
      case Some(y) => [y] + rest
      case None => rest
  }

  lemma FilterMapCons<A, B>(x: A, xs: seq<A>, f: A -> Option<B>)
    ensures FilterMap([x] + xs, f) == (if f(x).Some? then [f(x).value] else []) + FilterMap(xs, f)
  {
    assert ([x] + xs)[1..] == xs;
  }

  lemma {:induction false} FilterMapAppend<A, B>(a: seq<A>, b: seq<A>, f: A -> Option<B>)
    ensures FilterMap(a + b, f) == FilterMap(a, f) + FilterMap(b, f)
    decreases |a|
  {
    if |a| == 0 {
      assert a + b == b;
    } else {
      var t := a[1..];
      var h := if f(a[0]).Some? then [f(a[0]).value] else [];
      calc {
        FilterMap(a + b, f);
      == { assert a + b == [a[0]] + (t + b); FilterMapCons(a[0], t + b, f); }
        h + FilterMap(t + b, f);
      == { FilterMapAppend(t, b, f); }
        h + (FilterMap(t, f) + FilterMap(b, f));
      ==
        (h + FilterMap(t, f)) + FilterMap(b, f);
      == { assert a == [a[0]] + t; FilterMapCons(a[0], t, f); }
        FilterMap(a, f) + FilterMap(b, f);
      }
    }
  }

  /** When every entry converts, the result is the conversions, entry by
      entry. */
  lemma {:induction false} FilterMapAll<A, B>(xs: seq<A>, f: A -> Option<B>, ys: seq<B>)
    requires |xs| == |ys| && forall i :: 0 <= i < |xs| ==> f(xs[i]) == Some(ys[i])
    ensures FilterMap(xs, f) == ys
    decreases |xs|
  {
    if |xs| > 0 {
      FilterMapAll(xs[1..], f, ys[1..]);
      assert xs == [xs[0]] + xs[1..];
      FilterMapCons(xs[0], xs[1..], f);
      assert ys == [ys[0]] + ys[1..];
    }
  }

  // ---------------------------------------------------------------------------
  // Decimal digits, str(int) and int(str)

  predicate IsDigit(c: char) { '0' <= c <= '9' }

  predicate AllDigits(s: string) { forall i :: 0 <= i < |s| ==> IsDigit(s[i]) }

  function DigitChar(d: nat): (c: char)
    requires d < 10
    ensures IsDigit(c)
  {
    ('0' as int + d) as char
  }

  function DigitValue(c: char): (d: nat)
    requires IsDigit(c)
    ensures d < 10 && DigitChar(d) == c
  {
    c as int - '0' as int
  }

  /** Value of a decimal digit string, most significant digit first. */
  function DigitsValue(s: string): nat
    requires AllDigits(s)
  {
    if |s| == 0 then 0 else DigitsValue(s[..|s| - 1]) * 10 + DigitValue(s[|s| - 1])
  }

  /** str(n) for a natural number. */
  function NatToString(n: nat): (r: string)
    ensures |r| >= 1 && AllDigits(r)
    ensures |r| > 1 ==> r[0] != '0'
  {
    if n < 10 then [DigitChar(n)] else NatToString(n / 10) + [DigitChar(n % 10)]
  }

  /** Reading back the digits printed for n gives n. */
  lemma {:induction false} DigitsOfNatToString(n: nat)
    ensures DigitsValue(NatToString(n)) == n
  {
    if n >= 10 {
      var s := NatToString(n);
      DigitsOfNatToString(n / 10);
      assert s[..|s| - 1] == NatToString(n / 10);
      assert DigitValue(DigitChar(n % 10)) == n % 10;
    } else {
      assert DigitValue(DigitChar(n)) == n;
    }
  }

  lemma NatToStringInjective(a: nat, b: nat)
    ensures NatToString(a) == NatToString(b) ==> a == b
  {
    DigitsOfNatToString(a);
    DigitsOfNatToString(b);
  }

  /** str(i) for any integer. */
  function IntToString(i: int): string {
    if i < 0 then "-" + NatToString(-i) else NatToString(i)
  }

  /** str(i) is never empty and has no surrounding whitespace. */
  lemma IntToStringShape(i: int)
    ensures |IntToString(i)| > 0 && Stripped(IntToString(i))
  {
    var d := NatToString(if i < 0 then -i else i);
    assert IsDigit(d[0]) && IsDigit(d[|d| - 1]);
    assert IntToString(i)[|IntToString(i)| - 1] == d[|d| - 1];
  }

  /** Python int(text) for base-10 text: surrounding whitespace, one optional
      sign, then at least one ASCII digit. */
  function ParseInt(text: string): (r: Option<int>)
    ensures r.Some? ==> |Strip(text)| > 0
  {
    var t := Strip(text);
    if |t| == 0 then None
    else if (t[0] == '-' || t[0] == '+') && |t| > 1 && AllDigits(t[1..]) then
      var v: int := DigitsValue(t[1..]);
      Some(if t[0] == '-' then -v else v)
    else if AllDigits(t) then Some(DigitsValue(t))
    else None
  }

  lemma ParseIntOfIntToString(i: int)
    ensures ParseInt(IntToString(i)) == Some(i)
  {
    var s := IntToString(i);
    if i < 0 {
      var d := NatToString(-i);
      DigitsOfNatToString(-i);
      assert s[1..] == d;
      assert IsDigit(d[|d| - 1]);
      assert s[|s| - 1] == d[|d| - 1];
      assert Stripped(s);
      StripOfStripped(s);
      assert !AllDigits(s) by { assert !IsDigit(s[0]); }
    } else {
      var d := NatToString(i);
      DigitsOfNatToString(i);
      assert IsDigit(d[0]) && IsDigit(d[|d| - 1]);
      assert Stripped(s);
      StripOfStripped(s);
    }
  }

  /** Python int(x) on a float: truncation toward zero. */
  function TruncateReal(x: real): (r: int)
    ensures x >= 0.0 ==> r as real <= x < r as real + 1.0
    ensures x < 0.0 ==> r as real - 1.0 < x <= r as real
  {
    if x >= 0.0 then x.Floor else -((-x).Floor)
  }

  /** `safe_int`: `int(value)` unless the value is None or "", with every
      conversion failure turned into None. */
  function SafeInt(v: PyValue): (r: Option<int>)
    ensures v.PNone? || v == PStr("") || v.PList? ==> r.None?
    ensures v.PInt? ==> r == Some(v.i)
    ensures v.PBool? ==> r == Some(if v.b then 1 else 0)
    ensures v.PStr? ==> r == ParseInt(v.s)
  {
    match v
    case PNone => None
    case PStr(s) => if s == "" then None else ParseInt(s)
    case PInt(i) => Some(i)
    case PBool(b) => Some(if b then 1 else 0)
    case PFloat(f) => Some(TruncateReal(f))
    case PList(_) => None
  }

  /** Truthiness of a value as Python's `not value` sees it. */
  predicate Truthy(v: PyValue) {
    match v
    case PNone => false
    case PStr(s) => |s| > 0
    case PInt(i) => i != 0
    case PBool(b) => b
    case PFloat(f) => f != 0.0
    case PList(xs) => |xs| > 0
  }

  /** `x or y` on texts. */
  function OrText(x: string, y: string): string { if x != "" then x else y }

  /** `(value or "").strip()` for a form field that is text or absent. */
  function CleanStr(value: Option<string>): (r: string)
    ensures Stripped(r)
    ensures value.None? ==> r == ""
    ensures value.Some? ==> r == Strip(value.value)
  {
    match value
    case None => ""
    case Some(s) => Strip(s)
  }

  /** `(value or "").strip()` on any JSON value: a falsy value reads as
      the empty text, text is stripped, and any other truthy value has no
      `strip`, so the call raises (None). */
  function CleanValue(v: PyValue): (r: Option<string>)
    ensures r.None? <==> Truthy(v) && !v.PStr?
    ensures v.PStr? ==> r == Some(CleanStr(Some(v.s)))
    ensures !Truthy(v) ==> r == Some("")
  {
    match v
    case PStr(s) => Some(CleanStr(Some(s)))
    case _ => if Truthy(v) then None else Some("")
  }
}

/** A database table with an autoincrement primary key: the rows by id and
    the id the next insert receives. Rows are read back in id order, which
    stands for the order a query without ORDER BY returns. */
module Tables {

  datatype Table<T> = Table(rows: map<int, T>, nextId: int)

  /** Every id was handed out by the counter, which starts at 1. */
  predicate Valid<T>(t: Table<T>) {
    t.nextId >= 1 && forall id :: id in t.rows ==> 1 <= id < t.nextId
  }

  function Empty<T>(): (t: Table<T>)
    ensures Valid(t) && |t.rows| == 0
  {
    Table(map[], 1)
  }

  /** INSERT: the new row receives the counter as id and no other row
      changes. */
  function Insert<T>(t: Table<T>, row: T): (r: (Table<T>, int))
    requires Valid(t)
    ensures Valid(r.0)
    ensures r.1 !in t.rows && r.1 in r.0.rows && r.0.rows[r.1] == row
    ensures r.0.rows.Keys == t.rows.Keys + {r.1}
    ensures forall id :: id in t.rows ==> r.0.rows[id] == t.rows[id]
  {
    (Table(t.rows[t.nextId := row], t.nextId + 1), t.nextId)
  }

  /** UPDATE of one existing row. */
  function Put<T>(t: Table<T>, id: int, row: T): (r: Table<T>)
    requires Valid(t) && id in t.rows
    ensures Valid(r) && r.rows.Keys == t.rows.Keys && r.rows[id] == row
    ensures forall k :: k in t.rows && k != id ==> r.rows[k] == t.rows[k]
  {
    Table(t.rows[id := row], t.nextId)
  }

  /** DELETE of one row. */
  function Delete<T>(t: Table<T>, id: int): (r: Table<T>)
    requires Valid(t)
    ensures Valid(r) && r.rows.Keys == t.rows.Keys - {id}
    ensures forall k :: k in r.rows ==> r.rows[k] == t.rows[k]
  {
    Table(t.rows - {id}, t.nextId)
  }

  /** The rows whose id is below `k`, in increasing id order. */
  function RowsBelow<T>(rows: map<int, T>, k: int): (r: seq<(int, T)>)
    ensures forall i :: 0 <= i < |r| ==> r[i].0 in rows && rows[r[i].0] == r[i].1 && 1 <= r[i].0 < k
    ensures forall i, j :: 0 <= i < j < |r| ==> r[i].0 < r[j].0
    ensures forall id :: id in rows && 1 <= id < k ==> (id, rows[id]) in r
    decreases k
  {
    if k <= 1 then []
    else
      var init := RowsBelow(rows, k - 1);
      init + (if k - 1 in rows then [(k - 1, rows[k - 1])] else [])
  }

  /** All rows with their ids, in id order. */
  function Rows<T>(t: Table<T>): (r: seq<(int, T)>)
    requires Valid(t)
    ensures forall i :: 0 <= i < |r| ==> r[i].0 in t.rows && t.rows[r[i].0] == r[i].1
    ensures forall i, j :: 0 <= i < j < |r| ==> r[i].0 < r[j].0
    ensures forall id :: id in t.rows ==> (id, t.rows[id]) in r
  {
    RowsBelow(t.rows, t.nextId)
  }

  /** Two row maps that agree on every id below `k` list the same rows
      below `k`. */
  lemma {:induction false} RowsBelowAgree<T>(a: map<int, T>, b: map<int, T>, k: int)
    requires forall id :: id < k ==> (id in a <==> id in b)
    requires forall id :: id < k && id in a ==> a[id] == b[id]
    ensures RowsBelow(a, k) == RowsBelow(b, k)
    decreases k
  {
    if k > 1 {
      RowsBelowAgree(a, b, k - 1);
    }
  }

  /** An insert adds its row at the end of the id-ordered rows. */
  lemma RowsInsert<T>(t: Table<T>, row: T)
    requires Valid(t)
    ensures Rows(Insert(t, row).0) == Rows(t) + [(t.nextId, row)]
  {
    var u := Insert(t, row).0;
    RowsBelowAgree(u.rows, t.rows, t.nextId);
  }
}

=== FILE: dates.dfy ===
/** `parse_date`: a "YYYY-MM-DD" text read with `strptime` and combined with
    midnight or with the last microsecond of the day, in UTC. An instant is
    the number of microseconds since 0001-01-01T00:00:00Z, computed from the
    proleptic Gregorian day ordinal (day 1 is 0001-01-01). */
module Dates {
  import opened Common

  datatype Date = Date(year: int, month: int, day: int)

  predicate IsLeap(y: int) {
    y % 4 == 0 && (y % 100 != 0 || y % 400 == 0)
  }

  function DaysInMonth(y: int, m: int): (n: int)
    requires 1 <= m <= 12
    ensures 28 <= n <= 31
    ensures n == 29 <==> m == 2 && IsLeap(y)
  {
    if m == 2 then (if IsLeap(y) then 29 else 28)
    else if m == 4 || m == 6 || m == 9 || m == 11 then 30
    else 31
  }

  /** The dates `datetime.date` accepts: years 1 to 9999 and a day that
      exists in its month. */
  predicate ValidDate(d: Date) {
    1 <= d.year <= 9999 && 1 <= d.month <= 12 && 1 <= d.day <= DaysInMonth(d.year, d.month)
  }

  function DaysInYear(y: int): int {
    if IsLeap(y) then 366 else 365
  }

  /** Days in the years before `y`. */
  function DaysBeforeYear(y: int): int
    requires y >= 1
  {
    var p := y - 1;
    p * 365 + p / 4 - p / 100 + p / 400
  }

  /** Days in the months of year `y` before month `m`. */
  function DaysBeforeMonth(y: int, m: int): (n: int)
    requires 1 <= m <= 12
    ensures 0 <= n <= (m - 1) * 31
  {
    if m == 1 then 0 else DaysBeforeMonth(y, m - 1) + DaysInMonth(y, m - 1)
  }

  /** `date.toordinal()`. */
  function Ordinal(d: Date): (n: int)
    requires ValidDate(d)
    ensures n >= 1
  {
    DaysBeforeYear(d.year) + DaysBeforeMonth(d.year, d.month) + d.day
  }

  /** Microseconds in a day, and the offset of `time.max` (23:59:59.999999). */
  const DayMicros: int := 86_400_000_000
  const LastMicro: int := 86_399_999_999

  /** `datetime.combine(date, time.min or time.max)` in UTC, as an instant. */
  function Instant(d: Date, endOfDay: bool): (t: int)
    requires ValidDate(d)
    ensures t >= 0
  {
    (Ordinal(d) - 1) * DayMicros + (if endOfDay then LastMicro else 0)
  }

  // ---------------------------------------------------------------------------
  // The calendar: ordinals increase with the date

  /** Lexicographic order of (year, month, day). */
  predicate Before(a: Date, b: Date) {
    a.year < b.year || (a.year == b.year && (a.month < b.month || (a.month == b.month && a.day < b.day)))
  }

  /** Going from the years before `y` to the years before `y + 1` adds one
      to `p / k` exactly when `y` is a multiple of `k`. */
  lemma MultipleStep(y: int, k: int)
    requires y >= 1 && (k == 4 || k == 100 || k == 400)
    ensures y / k - (y - 1) / k == (if y % k == 0 then 1 else 0)
  {
    if k == 4 {
      assert y / 4 - (y - 1) / 4 == (if y % 4 == 0 then 1 else 0);
    } else if k == 100 {
      assert y / 100 - (y - 1) / 100 == (if y % 100 == 0 then 1 else 0);
    } else {
      assert y / 400 - (y - 1) / 400 == (if y % 400 == 0 then 1 else 0);
    }
  }

  lemma Multiples(y: int)
    ensures y % 400 == 0 ==> y % 100 == 0
    ensures y % 100 == 0 ==> y % 4 == 0
  {
  }

  lemma YearLength(y: int)
    requires y >= 1
    ensures DaysBeforeYear(y + 1) == DaysBeforeYear(y) + DaysInYear(y)
  {
    MultipleStep(y, 4);
    MultipleStep(y, 100);
    MultipleStep(y, 400);
    Multiples(y);
    var p := y - 1;
    assert DaysBeforeYear(y + 1) - DaysBeforeYear(y) == 365 + (y / 4 - p / 4) - (y / 100 - p / 100) + (y / 400 - p / 400);
  }

  /** The twelve months fill the year exactly. */
  lemma MonthsFillYear(y: int)
    ensures DaysBeforeMonth(y, 12) + DaysInMonth(y, 12) == DaysInYear(y)
  {
    var l := if IsLeap(y) then 1 else 0;
    assert DaysBeforeMonth(y, 2) == 31;
    assert DaysBeforeMonth(y, 3) == 59 + l;
    assert DaysBeforeMonth(y, 4) == 90 + l;
    assert DaysBeforeMonth(y, 5) == 120 + l;
    assert DaysBeforeMonth(y, 6) == 151 + l;
    assert DaysBeforeMonth(y, 7) == 181 + l;
    assert DaysBeforeMonth(y, 8) == 212 + l;
    assert DaysBeforeMonth(y, 9) == 243 + l;
    assert DaysBeforeMonth(y, 10) == 273 + l;
    assert DaysBeforeMonth(y, 11) == 304 + l;
    assert DaysBeforeMonth(y, 12) == 334 + l;
  }

  lemma {:induction false} MonthsIncrease(y: int, m: int, m2: int)
    requires 1 <= m < m2 <= 12
    ensures DaysBeforeMonth(y, m) + DaysInMonth(y, m) <= DaysBeforeMonth(y, m2)
    decreases m2
  {
    if m2 > m + 1 {
      MonthsIncrease(y, m, m2 - 1);
    }
  }

  lemma {:induction false} YearsIncrease(y: int, y2: int)
    requires 1 <= y < y2
    ensures DaysBeforeYear(y) + DaysInYear(y) <= DaysBeforeYear(y2)
    decreases y2 - y
  {
    YearLength(y);
    if y2 > y + 1 {
      YearsIncrease(y + 1, y2);
      YearLength(y + 1);
    }
  }

  /** An earlier date has a smaller ordinal, so instants order days the way
      the calendar does. */
  lemma OrdinalIncreasing(a: Date, b: Date)
    requires ValidDate(a) && ValidDate(b) && Before(a, b)
    ensures Ordinal(a) < Ordinal(b)
  {
    if a.year < b.year {
      YearsIncrease(a.year, b.year);
      if a.month < 12 {
        MonthsIncrease(a.year, a.month, 12);
      }
      MonthsFillYear(a.year);
    } else if a.month < b.month {
      MonthsIncrease(a.year, a.month, b.month);
    }
  }

  lemma OrdinalInjective(a: Date, b: Date)
    requires ValidDate(a) && ValidDate(b) && Ordinal(a) == Ordinal(b)
    ensures a == b
  {
    if Before(a, b) {
      OrdinalIncreasing(a, b);
    } else if Before(b, a) {
      OrdinalIncreasing(b, a);
    }
  }

  /** The day an instant falls on, as an ordinal minus one. */
  function DayIndex(t: int): int {
    t / DayMicros
  }

  /** Midnight and `time.max` bracket exactly the instants of that day. */
  lemma DayWindow(d: Date, t: int)
    requires ValidDate(d)
    ensures Instant(d, false) <= t <= Instant(d, true) <==> DayIndex(t) == Ordinal(d) - 1
  {
    var k := Ordinal(d) - 1;
    assert t == DayMicros * (t / DayMicros) + t % DayMicros;
    if t / DayMicros < k {
      assert t / DayMicros <= k - 1;
      assert DayMicros * (t / DayMicros) <= DayMicros * (k - 1);
    }
    if t / DayMicros > k {
      assert t / DayMicros >= k + 1;
      assert DayMicros * (t / DayMicros) >= DayMicros * (k + 1);
    }
  }

  /** A filter from `parse_date(from)` to `parse_date(to, end_of_day=True)`
      keeps an instant iff its day lies between the two dates, both
      included. */
  lemma DateRangeInclusive(from: Date, to: Date, t: int)
    requires ValidDate(from) && ValidDate(to)
    ensures Instant(from, false) <= t <= Instant(to, true)
        <==> Ordinal(from) - 1 <= DayIndex(t) <= Ordinal(to) - 1
  {
    var a := Ordinal(from) - 1;
    var b := Ordinal(to) - 1;
    assert t == DayMicros * (t / DayMicros) + t % DayMicros;
    if t / DayMicros < a {
      assert DayMicros * (t / DayMicros) <= DayMicros * (a - 1);
    }
    if t / DayMicros > b {
      assert DayMicros * (t / DayMicros) >= DayMicros * (b + 1);
    }
    if a <= t / DayMicros {
      assert DayMicros * a <= DayMicros * (t / DayMicros);
    }
    if t / DayMicros <= b {
      assert DayMicros * (t / DayMicros) <= DayMicros * b;
    }
  }

  // ---------------------------------------------------------------------------
  // strptime(value, "%Y-%m-%d")

  /** One alternative of a directive's pattern matched at the start of a
      text: the value read and the number of characters used. */
  datatype Piece = Piece(value: int, width: nat)

  predicate InRange(c: char, lo: char, hi: char) { lo <= c <= hi }

  /** The alternatives of `%m`, `1[0-2]|0[1-9]|[1-9]`, tried in order. */
  function MonthAlt(s: string, k: nat): (r: Option<Piece>)
    ensures r.Some? ==> 1 <= r.value.width <= |s| && 1 <= r.value.value <= 12
  {
    if k == 0 then
      if |s| >= 2 && s[0] == '1' && InRange(s[1], '0', '2') then Some(Piece(10 + DigitValue(s[1]), 2)) else None
    else if k == 1 then
      if |s| >= 2 && s[0] == '0' && InRange(s[1], '1', '9') then Some(Piece(DigitValue(s[1]), 2)) else None
    else if k == 2 then
      if |s| >= 1 && InRange(s[0], '1', '9') then Some(Piece(DigitValue(s[0]), 1)) else None
    else None
  }

  /** The alternatives of `%d`, `3[01]|[12]\d|0[1-9]|[1-9]| [1-9]`, tried in
      order. */
  function DayAlt(s: string, k: nat): (r: Option<Piece>)
    ensures r.Some? ==> 1 <= r.value.width <= |s| && 1 <= r.value.value <= 31
  {
    if k == 0 then
      if |s| >= 2 && s[0] == '3' && InRange(s[1], '0', '1') then Some(Piece(30 + DigitValue(s[1]), 2)) else None
    else if k == 1 then
      if |s| >= 2 && InRange(s[0], '1', '2') && IsDigit(s[1])
      then Some(Piece(DigitValue(s[0]) * 10 + DigitValue(s[1]), 2)) else None
    else if k == 2 then
      if |s| >= 2 && s[0] == '0' && InRange(s[1], '1', '9') then Some(Piece(DigitValue(s[1]), 2)) else None
    else if k == 3 then
      if |s| >= 1 && InRange(s[0], '1', '9') then Some(Piece(DigitValue(s[0]), 1)) else None
    else if k == 4 then
      if |s| >= 2 && s[0] == ' ' && InRange(s[1], '1', '9') then Some(Piece(DigitValue(s[1]), 2)) else None
    else None
  }

  /** `%d` ends the pattern, so the first alternative that matches a prefix
      is the match. */
  function FirstDay(s: string, k: nat): (r: Option<Piece>)
    ensures r.Some? ==> 1 <= r.value.width <= |s| && 1 <= r.value.value <= 31
    decreases 5 - k
  {
    if k >= 5 then None
    else if DayAlt(s, k).Some? then DayAlt(s, k)
    else FirstDay(s, k + 1)
  }

  /** `%m` is followed by "-" and `%d`: an alternative is kept only if the
      rest of the pattern matches after it (backtracking). */
  predicate MonthFits(s: string, p: Piece) {
    p.width < |s| && s[p.width] == '-' && FirstDay(s[p.width + 1..], 0).Some?
  }

  function FirstMonth(s: string, k: nat): (r: Option<Piece>)
    ensures r.Some? ==> 1 <= r.value.value <= 12 && MonthFits(s, r.value)
    decreases 3 - k
  {
    if k >= 3 then None
    else if MonthAlt(s, k).Some? && MonthFits(s, MonthAlt(s, k).value) then MonthAlt(s, k)
    else FirstMonth(s, k + 1)
  }

  /** `datetime.strptime(value, "%Y-%m-%d").date()`, None where it raises:
      no match, characters left over after the day, or a date that does not
      exist (year 0, February 30th, ...). */
  function Strptime(s: string): (r: Option<Date>)
    ensures r.Some? ==> ValidDate(r.value)
    ensures r.Some? ==> |s| >= 8 && AllDigits(s[..4]) && s[4] == '-' && r.value.year == DigitsValue(s[..4])
  {
    if |s| < 5 || !AllDigits(s[..4]) || s[4] != '-' then None
    else
      var rest := s[5..];
      match FirstMonth(rest, 0)
      case None => None
      case Some(m) =>
        var tail := rest[m.width + 1..];
        var d := FirstDay(tail, 0).value;
        var date := Date(DigitsValue(s[..4]), m.value, d.value);
        if d.width != |tail| || !ValidDate(date) then None
        else Some(date)
  }

  /** `parse_date`: None for "" and for text `strptime` rejects; otherwise
      the date at midnight, or at its last microsecond with `end_of_day`. */
  function ParseDate(value: string, endOfDay: bool): (r: Option<int>)
    ensures value == "" ==> r.None?
    ensures r.Some? <==> Strptime(value).Some?
    ensures r.Some? ==> r.value == Instant(Strptime(value).value, endOfDay)
  {
    if value == "" then None
    else
      match Strptime(value)
      case None => None
      case Some(d) => Some(Instant(d, endOfDay))
  }

  /** The two instants `parse_date` gives for one text are the first and
      the last microsecond of the same day. */
  lemma EndOfDayLater(value: string)
    requires ParseDate(value, false).Some?
    ensures ParseDate(value, true).Some?
    ensures ParseDate(value, true).value == ParseDate(value, false).value + DayMicros - 1
    ensures DayIndex(ParseDate(value, true).value) == DayIndex(ParseDate(value, false).value)
  {
    var d := Strptime(value).value;
    DayWindow(d, Instant(d, true));
    DayWindow(d, Instant(d, false));
  }

  // ---------------------------------------------------------------------------
  // The accepted day texts, stated directly

  /** The day texts `%d` accepts on its own: 1-9, 01-09, 10-31 and a space
      followed by 1-9. */
  predicate DayText(s: string) {
    (|s| == 1 && InRange(s[0], '1', '9'))
    || (|s| == 2 && s[0] == '0' && InRange(s[1], '1', '9'))
    || (|s| == 2 && InRange(s[0], '1', '2') && IsDigit(s[1]))
    || (|s| == 2 && s[0] == '3' && InRange(s[1], '0', '1'))
    || (|s| == 2 && s[0] == ' ' && InRange(s[1], '1', '9'))
  }

  /** Taking the first alternative and then refusing leftover characters
      accepts exactly the day texts: no longer alternative is shadowed by a
      shorter one. */
  lemma FirstDayWhole(s: string)
    ensures (FirstDay(s, 0).Some? && FirstDay(s, 0).value.width == |s|) <==> DayText(s)
  {
    if DayText(s) && |s| == 1 {
      assert FirstDay(s, 0) == FirstDay(s, 3);
    }
  }

  /** The month texts `%m` accepts between the dashes: 1-9, 01-09, 10-12. */
  predicate MonthText(s: string) {
    (|s| == 1 && InRange(s[0], '1', '9'))
    || (|s| == 2 && s[0] == '0' && InRange(s[1], '1', '9'))
    || (|s| == 2 && s[0] == '1' && InRange(s[1], '0', '2'))
  }

  /** With backtracking, `%m-` matches exactly the month texts followed by
      a dash. */
  lemma FirstMonthText(m: string, tail: string)
    requires MonthText(m) && FirstDay(tail, 0).Some?
    ensures FirstMonth(m + "-" + tail, 0).Some?
    ensures FirstMonth(m + "-" + tail, 0).value.width == |m|
  {
    var s := m + "-" + tail;
    assert s[|m|] == '-';
    assert s[|m| + 1..] == tail;
    if |m| == 1 {
      assert s[1] == '-';
      assert MonthAlt(s, 0).None? && MonthAlt(s, 1).None?;
    }
  }

  // ---------------------------------------------------------------------------
  // Writing a date back: zero-padded ISO text

  function Pad2(n: int): (r: string)
    requires 0 <= n < 100
    ensures |r| == 2 && AllDigits(r)
  {
    [DigitChar(n / 10), DigitChar(n % 10)]
  }

  function Pad4(n: int): (r: string)
    requires 0 <= n < 10000
    ensures |r| == 4 && AllDigits(r)
  {
    Pad2(n / 100) + Pad2(n % 100)
  }

  lemma Pad4Value(n: int)
    requires 0 <= n < 10000
    ensures DigitsValue(Pad4(n)) == n
  {
    var s := Pad4(n);
    assert s[0] == DigitChar(n / 100 / 10) && s[1] == DigitChar(n / 100 % 10);
    assert s[2] == DigitChar(n % 100 / 10) && s[3] == DigitChar(n % 100 % 10);
    assert DigitsValue(s[..1]) == n / 1000 by {
      assert s[..1][..0] == [];
    }
    assert DigitsValue(s[..2]) == n / 100 by {
      assert s[..2][..1] == s[..1];
    }
    assert DigitsValue(s[..3]) == n / 10 by {
      assert s[..3][..2] == s[..2];
    }
    assert s[..4][..3] == s[..3];
    assert s[..4] == s;
  }

  /** `date.isoformat()`. */
  function FormatDate(d: Date): (r: string)
    requires ValidDate(d)
    ensures |r| == 10
  {
    Pad4(d.year) + "-" + Pad2(d.month) + "-" + Pad2(d.day)
  }

  lemma Pad2MonthValue(m: int, tail: string)
    requires 1 <= m <= 12 && FirstDay(tail, 0).Some?
    ensures FirstMonth(Pad2(m) + "-" + tail, 0) == Some(Piece(m, 2))
  {
    var s := Pad2(m) + "-" + tail;
    FirstMonthText(Pad2(m), tail);
    if m < 10 {
      assert MonthAlt(s, 0).None?;
    }
  }

  lemma Pad2DayValue(d: int)
    requires 1 <= d <= 31
    ensures FirstDay(Pad2(d), 0) == Some(Piece(d, 2))
  {
    var s := Pad2(d);
    if d < 10 {
      assert DayAlt(s, 0).None? && DayAlt(s, 1).None?;
    } else if d < 30 {
      assert DayAlt(s, 0).None?;
    }
  }

  /** `parse_date(d.isoformat())` reads back the date it was given. */
  lemma StrptimeFormatDate(d: Date)
    requires ValidDate(d)
    ensures Strptime(FormatDate(d)) == Some(d)
  {
    var s := FormatDate(d);
    var rest := Pad2(d.month) + "-" + Pad2(d.day);
    assert s[..4] == Pad4(d.year);
    assert s[4] == '-';
    assert s[5..] == rest;
    Pad4Value(d.year);
    Pad2DayValue(d.day);
    Pad2MonthValue(d.month, Pad2(d.day));
    assert rest[3..] == Pad2(d.day);
  }

  lemma ParseFormatDate(d: Date, endOfDay: bool)
    requires ValidDate(d)
    ensures ParseDate(FormatDate(d), endOfDay) == Some(Instant(d, endOfDay))
  {
    StrptimeFormatDate(d);
  }
}

=== FILE: flags.dfy ===
/** Feature flags: the service that creates, lists, loads and switches the
    flags, and the panel form that edits them. A flag is a row of its own
    table; its key is unique. */
module Flags {
  import opened Common
  import opened Tables
  import opened Ordering

  const MaxMessageLength: int := 150

  const AdminMaintenance: string := "admin_maintenance_mode"
  const PortalMaintenance: string := "portal_maintenance_mode"
  const ReviewsEnabled: string := "reviews_enabled"

  datatype FeatureFlag = FeatureFlag(key: string, name: string, description: string, enabled: bool,
                                     message: string, updatedBy: Option<int>, updatedAt: int)

  /** The message the panel and the public API fall back to for each known
      flag. */
  function DefaultMessage(key: string): Option<string> {
    if key == AdminMaintenance then
      Some("El panel de administraci\U{f3}n est\U{e1} en mantenimiento.")
    else if key == PortalMaintenance then
      Some("El portal p\U{fa}blico est\U{e1} en mantenimiento.")
    else if key == ReviewsEnabled then
      Some("La creaci\U{f3}n de rese\U{f1}as est\U{e1} deshabilitada temporalmente.\n\n"
           + "Estamos trabajando para habilitarlas nuevamente pronto.")
    else None
  }

  /** The unique constraint on the key. */
  predicate KeysUnique(t: Table<FeatureFlag>) {
    forall a, b :: a in t.rows && b in t.rows && t.rows[a].key == t.rows[b].key ==> a == b
  }

  predicate FlagsOk(t: Table<FeatureFlag>) {
    Valid(t) && KeysUnique(t)
  }

  predicate HasFlag(t: Table<FeatureFlag>, key: string) {
    exists id :: id in t.rows && t.rows[id].key == key
  }

  function KeyIs(key: string): ((int, FeatureFlag)) -> bool {
    (row: (int, FeatureFlag)) => row.1.key == key
  }

  /** `get_flag`: the flag with that key, or None. */
  function GetFlag(t: Table<FeatureFlag>, key: string): (r: Option<(int, FeatureFlag)>)
    requires FlagsOk(t)
    ensures r.Some? <==> HasFlag(t, key)
    ensures r.Some? ==> r.value.0 in t.rows && t.rows[r.value.0] == r.value.1 && r.value.1.key == key
  {
    var hits := Filter(Rows(t), KeyIs(key));
    if |hits| == 0 then
      assert !HasFlag(t, key) by {
        forall id | id in t.rows ensures t.rows[id].key != key {
          assert (id, t.rows[id]) in Rows(t);
        }
      }
      None
    else
      assert hits[0] in hits;
      Some(hits[0])
  }

  /** With unique keys, the flag found for a key is the one row carrying
      it. */
  lemma GetFlagUnique(t: Table<FeatureFlag>, key: string, id: int)
    requires FlagsOk(t) && id in t.rows && t.rows[id].key == key
    ensures GetFlag(t, key) == Some((id, t.rows[id]))
  {
  }

  function FlagsOf(rows: seq<(int, FeatureFlag)>): (r: seq<FeatureFlag>)
    ensures |r| == |rows|
    ensures forall i :: 0 <= i < |r| ==> r[i] == rows[i].1
  {
    if |rows| == 0 then [] else [rows[0].1] + FlagsOf(rows[1..])
  }

  function ByKey(f: FeatureFlag): Key { KText(f.key) }

  /** `list_flags`: every flag, ordered by key ascending. */
  function ListFlags(t: Table<FeatureFlag>): (r: seq<FeatureFlag>)
    requires Valid(t)
    ensures |r| == |Rows(t)|
    ensures SortedBy(r, ByKey, false)
    ensures forall f :: f in r <==> exists id :: id in t.rows && t.rows[id] == f
  {
    var flags := FlagsOf(Rows(t));
    SortByMembers(flags, ByKey, false);
    FlagsOfRows(t);
    SortBy(flags, ByKey, false)
  }

  lemma FlagsOfRows(t: Table<FeatureFlag>)
    requires Valid(t)
    ensures forall f :: f in FlagsOf(Rows(t)) <==> exists id :: id in t.rows && t.rows[id] == f
  {
    var rows := Rows(t);
    var flags := FlagsOf(rows);
    forall f | f in flags ensures exists id :: id in t.rows && t.rows[id] == f {
      var i :| 0 <= i < |flags| && flags[i] == f;
      assert rows[i].0 in t.rows;
    }
    forall f, id | id in t.rows && t.rows[id] == f ensures f in flags {
      assert (id, t.rows[id]) in rows;
      var i :| 0 <= i < |rows| && rows[i] == (id, t.rows[id]);
      assert flags[i] == f;
    }
  }

  /** `load_flags`: the listed flags by key, a later flag replacing an
      earlier one with the same key. */
  function LoadFlags(flags: seq<FeatureFlag>): (m: map<string, FeatureFlag>)
    ensures forall k :: k in m <==> exists i :: 0 <= i < |flags| && flags[i].key == k
    ensures forall k :: k in m ==> m[k] in flags && m[k].key == k
  {
    if |flags| == 0 then map[]
    else
      var init := flags[..|flags| - 1];
      var last := flags[|flags| - 1];
      var m := LoadFlags(init);
      assert flags == init + [last];
      LoadStep(init, last, m);
      m[last.key := last]
  }

  /** One more flag in the list: its key is now loaded, and to it. */
  lemma LoadStep(init: seq<FeatureFlag>, last: FeatureFlag, m: map<string, FeatureFlag>)
    requires forall k :: k in m <==> exists i :: 0 <= i < |init| && init[i].key == k
    requires forall k :: k in m ==> m[k] in init && m[k].key == k
    ensures var flags, m' := init + [last], m[last.key := last];
      && (forall k :: k in m' <==> exists i :: 0 <= i < |flags| && flags[i].key == k)
      && (forall k :: k in m' ==> m'[k] in flags && m'[k].key == k)
  {
    var flags := init + [last];
    assert forall i :: 0 <= i < |init| ==> flags[i] == init[i];
    assert flags[|init|] == last;
  }

  /** Loading the listed flags finds, for every key, exactly the flag
      `get_flag` finds. */
  lemma LoadAgreesWithGet(t: Table<FeatureFlag>, key: string)
    requires FlagsOk(t)
    ensures key in LoadFlags(ListFlags(t)) <==> GetFlag(t, key).Some?
    ensures key in LoadFlags(ListFlags(t)) ==> LoadFlags(ListFlags(t))[key] == GetFlag(t, key).value.1
  {
    var list := ListFlags(t);
    var m := LoadFlags(list);
    if key in m {
      assert m[key] in list;
    }
    if HasFlag(t, key) {
      var id :| id in t.rows && t.rows[id].key == key;
      assert t.rows[id] in list;
      var i :| 0 <= i < |list| && list[i] == t.rows[id];
      assert list[i].key == key;
    }
  }

  /** `ensure_flag`: an existing flag is returned untouched; otherwise a
      new one is stored with the given data and no author. */
  function EnsureFlag(t: Table<FeatureFlag>, key: string, name: string, description: string, enabled: bool,
                      message: string, now: int): (r: (Table<FeatureFlag>, FeatureFlag))
    requires FlagsOk(t)
    ensures FlagsOk(r.0) && HasFlag(r.0, key)
    ensures HasFlag(t, key) ==> r.0 == t && r.1 == GetFlag(t, key).value.1
    ensures !HasFlag(t, key) ==>
      r.1 == FeatureFlag(key, name, description, enabled, message, None, now)
      && r.0.rows.Keys == t.rows.Keys + {t.nextId} && r.0.rows[t.nextId] == r.1
      && forall id :: id in t.rows ==> r.0.rows[id] == t.rows[id]
  {
    match GetFlag(t, key)
    case Some((_, f)) => (t, f)
    case None =>
      var f := FeatureFlag(key, name, description, enabled, message, None, now);
      var (u, id) := Tables.Insert(t, f);
      assert u.rows[id].key == key;
      (u, f)
  }

  /** Ensuring a flag twice is ensuring it once. */
  lemma EnsureFlagIdempotent(t: Table<FeatureFlag>, key: string, name: string, description: string,
                             enabled: bool, message: string, now: int, later: int)
    requires FlagsOk(t)
    ensures var once := EnsureFlag(t, key, name, description, enabled, message, now);
            EnsureFlag(once.0, key, name, description, enabled, message, later) == once
  {
    var once := EnsureFlag(t, key, name, description, enabled, message, now);
    if !HasFlag(t, key) {
      GetFlagUnique(once.0, key, t.nextId);
    }
  }

  datatype FlagError = NoSuchFlag | MessageRequired | MessageTooLong

  /** What a switched flag must look like: an active flag carries a
      stripped message of 1..150 characters, an inactive one none. */
  predicate MessageRule(f: FeatureFlag) {
    if f.enabled then Stripped(f.message) && 0 < |f.message| <= MaxMessageLength
    else f.message == ""
  }

  /** The flag after `set_flag` wrote it. */
  function Switched(f: FeatureFlag, enabled: bool, message: string, userId: Option<int>, now: int): FeatureFlag {
    f.(enabled := enabled, message := message, updatedBy := userId, updatedAt := now)
  }

  /** `set_flag`: an unknown key is an error; switching on needs a stripped
      message of 1..150 characters; switching off clears the message. The
      author and the time are recorded and no other flag changes. */
  function SetFlag(t: Table<FeatureFlag>, key: string, enabled: bool, message: Option<string>,
                   userId: Option<int>, now: int): (r: Result<(Table<FeatureFlag>, FeatureFlag), FlagError>)
    requires FlagsOk(t)
    ensures r == Err(NoSuchFlag) <==> !HasFlag(t, key)
    ensures r == Err(MessageRequired) <==> HasFlag(t, key) && enabled && CleanStr(message) == ""
    ensures r == Err(MessageTooLong) <==> HasFlag(t, key) && enabled && |CleanStr(message)| > MaxMessageLength
    ensures r.Ok? ==>
      var (id, f) := GetFlag(t, key).value;
      r.value.1 == Switched(f, enabled, if enabled then CleanStr(message) else "", userId, now)
      && r.value.0 == Put(t, id, r.value.1) && MessageRule(r.value.1) && FlagsOk(r.value.0)
  {
    match GetFlag(t, key)
    case None => Err(NoSuchFlag)
    case Some((id, f)) =>
      var clean := CleanStr(message);
      if enabled && clean == "" then Err(MessageRequired)
      else if enabled && |clean| > MaxMessageLength then Err(MessageTooLong)
      else
        var g := Switched(f, enabled, if enabled then clean else "", userId, now);
        Ok((Put(t, id, g), g))
  }

  // ---------------------------------------------------------------------------
  // The panel form

  datatype FormError = MaintenanceMessageMissing | DisableMessageMissing | FormMessageTooLong

  /** The form's own message rule: every flag but `reviews_enabled` needs a
      message to be switched on, `reviews_enabled` needs one to be switched
      off; in the other direction the message sent on is "". */
  function FormMessage(key: Option<string>, enabled: bool, message: Option<string>): (r: Result<string, FormError>)
    ensures var needs := if enabled then key != Some(ReviewsEnabled) else key == Some(ReviewsEnabled);
      (!needs ==> r == Ok(""))
      && (needs && CleanStr(message) == "" ==>
            r == Err(if enabled then MaintenanceMessageMissing else DisableMessageMissing))
      && (needs && CleanStr(message) != "" && |CleanStr(message)| > MaxMessageLength ==> r == Err(FormMessageTooLong))
      && (needs && 0 < |CleanStr(message)| <= MaxMessageLength ==> r == Ok(CleanStr(message)))
  {
    var needs := if enabled then key != Some(ReviewsEnabled) else key == Some(ReviewsEnabled);
    if !needs then Ok("")
    else
      var clean := CleanStr(message);
      if clean == "" then Err(if enabled then MaintenanceMessageMissing else DisableMessageMissing)
      else if |clean| > MaxMessageLength then Err(FormMessageTooLong)
      else Ok(clean)
  }

  datatype ManageOutcome =
    | FormRefused(formError: FormError)
    | ServiceRefused(flagError: FlagError)
    | Saved(flag: FeatureFlag)
    | Crashed

  /** The POST of `manage` as written: after the form's own checks the call
      passes two keyword arguments `set_flag` does not declare, so Python
      raises a TypeError that the `except FeatureFlagError` does not
      catch. */
  function ManageAsWritten(t: Table<FeatureFlag>, key: Option<string>, enabledText: Option<string>,
                           message: Option<string>): (r: (Table<FeatureFlag>, ManageOutcome))
    ensures r.0 == t
    ensures FormMessage(key, enabledText == Some("true"), message).Err? <==> r.1.FormRefused?
  {
    var enabled := enabledText == Some("true");
    match FormMessage(key, enabled, message)
    case Err(e) => (t, FormRefused(e))
    case Ok(_) => (t, Crashed)
  }

  /** No submission of the panel form, valid or not, ever switches a
      flag. */
  lemma ManageAsWrittenNeverSaves(t: Table<FeatureFlag>, key: Option<string>, enabledText: Option<string>,
                                  message: Option<string>)
    ensures ManageAsWritten(t, key, enabledText, message).0 == t
    ensures !ManageAsWritten(t, key, enabledText, message).1.Saved?
    ensures FormMessage(key, enabledText == Some("true"), message).Ok? ==>
      ManageAsWritten(t, key, enabledText, message).1 == Crashed
  {
  }

  /** Even without the TypeError, `set_flag` contradicts the form on
      `reviews_enabled`: it refuses to switch the flag on with the empty
      message the form sends, and it throws away the message the form
      demands when switching it off. */
  lemma ServiceContradictsReviewsRule(t: Table<FeatureFlag>, message: string, userId: Option<int>, now: int)
    requires FlagsOk(t) && HasFlag(t, ReviewsEnabled)
    requires 0 < |Strip(message)| <= MaxMessageLength
    ensures FormMessage(Some(ReviewsEnabled), true, Some(message)) == Ok("")
    ensures SetFlag(t, ReviewsEnabled, true, Some(""), userId, now) == Err(MessageRequired)
    ensures FormMessage(Some(ReviewsEnabled), false, Some(message)) == Ok(Strip(message))
    ensures SetFlag(t, ReviewsEnabled, false, Some(Strip(message)), userId, now).value.1.message == ""
  {
    StripEmpty("");
  }

  /** `set_flag` with the two options the form passes, read by their names:
      `requireWhenEnabled` keeps the message rule on switching on (without
      it, the cleaned message is stored as it is), `preserveWhenDisabled`
      keeps the cleaned message on switching off instead of clearing it. */
  function SetFlagWith(t: Table<FeatureFlag>, key: string, enabled: bool, message: Option<string>,
                       userId: Option<int>, now: int, preserveWhenDisabled: bool, requireWhenEnabled: bool)
    : (r: Result<(Table<FeatureFlag>, FeatureFlag), FlagError>)
    requires FlagsOk(t)
    ensures r == Err(NoSuchFlag) <==> !HasFlag(t, key)
    ensures r.Err? && HasFlag(t, key) ==> enabled && requireWhenEnabled
    ensures r.Ok? ==>
      var (id, f) := GetFlag(t, key).value;
      r.value.0 == Put(t, id, r.value.1) && FlagsOk(r.value.0)
      && r.value.1.enabled == enabled && r.value.1.key == key
      && r.value.1.message == (if enabled || preserveWhenDisabled then CleanStr(message) else "")
  {
    match GetFlag(t, key)
    case None => Err(NoSuchFlag)
    case Some((id, f)) =>
      var clean := CleanStr(message);
      if enabled && requireWhenEnabled && clean == "" then Err(MessageRequired)
      else if enabled && requireWhenEnabled && |clean| > MaxMessageLength then Err(MessageTooLong)
      else
        var g := Switched(f, enabled, if enabled || preserveWhenDisabled then clean else "", userId, now);
        Ok((Put(t, id, g), g))
  }

  /** With the options at the values that mean "behave as before",
      `SetFlagWith` is `set_flag`. */
  lemma SetFlagWithDefaults(t: Table<FeatureFlag>, key: string, enabled: bool, message: Option<string>,
                            userId: Option<int>, now: int)
    requires FlagsOk(t)
    ensures SetFlagWith(t, key, enabled, message, userId, now, false, true) == SetFlag(t, key, enabled, message, userId, now)
  {
  }

  /** The POST of `manage` as intended: the form's checks, then the service
      with the form's options. A missing key reaches the service, which
      finds no flag. */
  function Manage(t: Table<FeatureFlag>, key: Option<string>, enabledText: Option<string>, message: Option<string>,
                  userId: Option<int>, now: int): (r: (Table<FeatureFlag>, ManageOutcome))
    requires FlagsOk(t)
    ensures FlagsOk(r.0)
    ensures !r.1.Saved? ==> r.0 == t
    ensures key.None? ==> r.1 != Crashed && !r.1.Saved?
    ensures r.1.Saved? ==>
      key.Some? && HasFlag(t, key.value) && r.1.flag.key == key.value
      && r.1.flag.enabled == (enabledText == Some("true"))
      && r.0 == Put(t, GetFlag(t, key.value).value.0, r.1.flag)
  {
    var enabled := enabledText == Some("true");
    match FormMessage(key, enabled, message)
    case Err(e) => (t, FormRefused(e))
    case Ok(clean) =>
      if key.None? then (t, ServiceRefused(NoSuchFlag))
      else
        var requireOnEnable := key.value != ReviewsEnabled;
        var preserveOnDisable := key.value == ReviewsEnabled;
        match SetFlagWith(t, key.value, enabled, Some(clean), userId, now, preserveOnDisable, requireOnEnable)
        case Err(e) => (t, ServiceRefused(e))
        case Ok((u, f)) => (u, Saved(f))
  }

  /** The intended form keeps the reviews message on switching the flag
      off, switches it on without one, and still enforces the maintenance
      message on every other flag. */
  lemma ManageReviewsFlag(t: Table<FeatureFlag>, message: string, userId: Option<int>, now: int)
    requires FlagsOk(t) && HasFlag(t, ReviewsEnabled)
    requires 0 < |Strip(message)| <= MaxMessageLength
    ensures var r := Manage(t, Some(ReviewsEnabled), Some("false"), Some(message), userId, now);
      r.1.Saved? && !r.1.flag.enabled && r.1.flag.message == Strip(message)
    ensures var r := Manage(t, Some(ReviewsEnabled), Some("true"), None, userId, now);
      r.1.Saved? && r.1.flag.enabled && r.1.flag.message == ""
  {
    StripOfStripped(Strip(message));
    StripOfStripped("");
  }

  /** Switching a maintenance flag on through the intended form stores a
      message obeying the service's rule. */
  lemma ManageMaintenanceFlag(t: Table<FeatureFlag>, key: string, message: Option<string>, userId: Option<int>, now: int)
    requires FlagsOk(t) && key != ReviewsEnabled
    ensures var r := Manage(t, Some(key), Some("true"), message, userId, now);
      r.1.Saved? ==> MessageRule(r.1.flag)
  {
    var r := Manage(t, Some(key), Some("true"), message, userId, now);
    if r.1.Saved? {
      StripOfStripped(CleanStr(message));
    }
  }
}

=== FILE: history.dfy ===
/** The per-site history log: an append-only sequence of events (an event's
    id is its position plus one, as the autoincrement key hands them out)
    and the filtered, newest-first, paged listing of one site's events. */
module History {
  import opened Common
  import opened Ordering
  import opened Paging
  import opened Listing

  /** The action names the history screen offers as filter choices. */
  const Actions: seq<string> := ["Creaci\U{f3}n", "Edici\U{f3}n", "Cambio de estado", "Cambio de tags"]

  datatype Event = Event(siteId: int, userId: Option<int>, actionType: string,
                         details: Option<string>, createdAt: int)

  /** `record_event`: one new event, stamped with the current instant. */
  function RecordEvent(log: seq<Event>, siteId: int, userId: Option<int>, actionType: string,
                       details: Option<string>, now: int): (r: seq<Event>)
    ensures |r| == |log| + 1 && r[..|log|] == log
    ensures r[|log|].siteId == siteId && r[|log|].userId == userId
    ensures r[|log|].actionType == actionType && r[|log|].details == details
  {
    log + [Event(siteId, userId, actionType, details, now)]
  }

  /** The events with their ids, in insertion order. */
  function Indexed(log: seq<Event>): (r: seq<(int, Event)>)
    ensures |r| == |log|
    ensures forall i :: 0 <= i < |r| ==> r[i] == (i + 1, log[i])
  {
    seq(|log|, i requires 0 <= i < |log| => (i + 1, log[i]))
  }

  lemma IndexedSnoc(log: seq<Event>, e: Event)
    ensures Indexed(log + [e]) == Indexed(log) + [(|log| + 1, e)]
  {
  }

  /** The filters of `list_history`. Text filters apply only when non-empty;
      the user filter keeps events whose user's email contains the text. */
  datatype HistoryFilter = HistoryFilter(userEmail: Option<string>, actionType: Option<string>,
                                         dateFrom: Option<int>, dateTo: Option<int>)

  predicate Given(t: Option<string>) { t.Some? && t.value != "" }

  /** The users whose email contains the text, ignoring case. */
  function MatchingUsers(emails: map<int, string>, text: string): (r: set<int>)
    ensures forall u :: u in r <==> u in emails && ContainsFold(emails[u], text)
  {
    set u | u in emails && ContainsFold(emails[u], text)
  }

  /** The event's user is one of the users the email text picks out. */
  predicate UserMatches(emails: map<int, string>, text: string, userId: Option<int>) {
    userId.Some? && userId.value in MatchingUsers(emails, text)
  }

  predicate Keeps(emails: map<int, string>, siteId: int, f: HistoryFilter, e: Event) {
    && e.siteId == siteId
    && (Given(f.userEmail) ==> UserMatches(emails, f.userEmail.value, e.userId))
    && (Given(f.actionType) ==> e.actionType == f.actionType.value)
    && (f.dateFrom.Some? ==> e.createdAt >= f.dateFrom.value)
    && (f.dateTo.Some? ==> e.createdAt <= f.dateTo.value)
  }

  /** An item of the listing: the event's dictionary plus the email of its
      user, None when the event has no (truthy) user id or the user is
      gone. */
  datatype HistoryItem = HistoryItem(id: int, event: Event, userEmail: Option<string>)

  function UserEmail(emails: map<int, string>, userId: Option<int>): (r: Option<string>)
    ensures r.Some? <==> userId.Some? && userId.value != 0 && userId.value in emails
    ensures r.Some? ==> r.value == emails[userId.value]
  {
    if userId.Some? && userId.value != 0 && userId.value in emails then Some(emails[userId.value]) else None
  }

  function ToItem(emails: map<int, string>, row: (int, Event)): HistoryItem {
    HistoryItem(row.0, row.1, UserEmail(emails, row.1.userId))
  }

  function ToItems(emails: map<int, string>, rows: seq<(int, Event)>): (r: seq<HistoryItem>)
    ensures |r| == |rows| && forall i :: 0 <= i < |rows| ==> r[i] == ToItem(emails, rows[i])
  {
    seq(|rows|, i requires 0 <= i < |rows| => ToItem(emails, rows[i]))
  }

  function EventKey(row: (int, Event)): Key { KInt(row.1.createdAt) }

  function KeepsRow(emails: map<int, string>, siteId: int, f: HistoryFilter): ((int, Event)) -> bool {
    (row: (int, Event)) => Keeps(emails, siteId, f, row.1)
  }

  /** The matching rows of the log. */
  function Matches(log: seq<Event>, emails: map<int, string>, siteId: int, f: HistoryFilter): seq<(int, Event)> {
    Filter(Indexed(log), KeepsRow(emails, siteId, f))
  }

  /** `list_history`: the site's matching events, newest first, one page
      of at most 25, with the count of all matches. */
  function ListHistory(log: seq<Event>, emails: map<int, string>, siteId: int, f: HistoryFilter,
                       page: int, perPage: int): (p: Pagination<HistoryItem>)
    ensures p.total == |Matches(log, emails, siteId, f)|
    ensures p.page == ClampPage(page) && p.perPage == ClampPerPage(perPage, 25)
    ensures |p.items| <= p.perPage && |p.items| <= p.total
    ensures forall i :: 0 <= i < |p.items| ==> 1 <= p.items[i].id <= |log| && p.items[i].event == log[p.items[i].id - 1]
    ensures forall i :: 0 <= i < |p.items| ==> Keeps(emails, siteId, f, p.items[i].event)
    ensures forall i :: 0 <= i < |p.items| ==> p.items[i].userEmail == UserEmail(emails, p.items[i].event.userId)
    ensures forall i, j :: 0 <= i < j < |p.items| ==> p.items[i].event.createdAt >= p.items[j].event.createdAt
    ensures p.items == ToItems(emails, Window(Ordered(Indexed(log), KeepsRow(emails, siteId, f), EventKey, true),
                                              p.page, p.perPage))
  {
    var keep := KeepsRow(emails, siteId, f);
    var q := Query(Indexed(log), keep, EventKey, true, page, perPage, 25);
    var items := ToItems(emails, q.items);
    ItemsFacts(log, emails, siteId, f, q.items, items);
    Pagination(items, q.total, q.page, q.perPage)
  }

  lemma ItemsFacts(log: seq<Event>, emails: map<int, string>, siteId: int, f: HistoryFilter,
                   rows: seq<(int, Event)>, items: seq<HistoryItem>)
    requires forall i :: 0 <= i < |rows| ==> rows[i] in Indexed(log) && KeepsRow(emails, siteId, f)(rows[i])
    requires SortedBy(rows, EventKey, true)
    requires |items| == |rows| && forall i :: 0 <= i < |rows| ==> items[i] == ToItem(emails, rows[i])
    ensures forall i :: 0 <= i < |items| ==> 1 <= items[i].id <= |log| && items[i].event == log[items[i].id - 1]
    ensures forall i :: 0 <= i < |items| ==> Keeps(emails, siteId, f, items[i].event)
    ensures forall i :: 0 <= i < |items| ==> items[i].userEmail == UserEmail(emails, items[i].event.userId)
    ensures forall i, j :: 0 <= i < j < |items| ==> items[i].event.createdAt >= items[j].event.createdAt
  {
    forall i, j | 0 <= i < j < |items| ensures items[i].event.createdAt >= items[j].event.createdAt {
      assert !Ahead(EventKey(rows[j]), EventKey(rows[i]), true);
    }
    forall i | 0 <= i < |items|
      ensures 1 <= items[i].id <= |log| && items[i].event == log[items[i].id - 1]
    {
      assert rows[i] in Indexed(log);
    }
  }

  /** A user filter that matches no user's email leaves nothing to list. */
  lemma UnknownEmailEmpty(log: seq<Event>, emails: map<int, string>, siteId: int, f: HistoryFilter,
                          page: int, perPage: int)
    requires Given(f.userEmail) && MatchingUsers(emails, f.userEmail.value) == {}
    ensures ListHistory(log, emails, siteId, f, page, perPage).total == 0
    ensures ListHistory(log, emails, siteId, f, page, perPage).items == []
  {
    var keep := KeepsRow(emails, siteId, f);
    FilterKeepsNone(Indexed(log), keep);
  }

  /** Recording an event adds one to the count of a listing it matches and
      leaves every other listing's count alone. */
  lemma RecordCounts(log: seq<Event>, emails: map<int, string>, siteId: int, f: HistoryFilter,
                     s: int, userId: Option<int>, actionType: string, details: Option<string>, now: int)
    ensures var after := RecordEvent(log, s, userId, actionType, details, now);
      |Matches(after, emails, siteId, f)|
        == |Matches(log, emails, siteId, f)|
           + (if Keeps(emails, siteId, f, Event(s, userId, actionType, details, now)) then 1 else 0)
  {
    var e := Event(s, userId, actionType, details, now);
    var keep := KeepsRow(emails, siteId, f);
    IndexedSnoc(log, e);
    FilterAppend(Indexed(log), [(|log| + 1, e)], keep);
  }

  /** Events of other sites never appear: a site's listing ignores the rest
      of the log. */
  lemma OtherSitesIgnored(log: seq<Event>, emails: map<int, string>, siteId: int, f: HistoryFilter,
                          other: Event)
    requires other.siteId != siteId
    ensures Matches(log + [other], emails, siteId, f) == Matches(log, emails, siteId, f)
  {
    var keep := KeepsRow(emails, siteId, f);
    IndexedSnoc(log, other);
    FilterAppend(Indexed(log), [(|log| + 1, other)], keep);
  }
}

=== FILE: image_helpers.dfy ===
/** The image form helpers of the site controllers: file validation, the
    form extraction, object names, the public URL of an uploaded object and
    the site check on an image id. The upload itself and the stream size
    measurement are storage I/O: the size arrives as a number. */
module ImageHelpers {
  import opened Common
  import opened Images

  const AllowedExtensions: set<string> := {"jpg", "jpeg", "png", "webp"}
  const MaxFileSize: int := 5 * 1024 * 1024

  /** An uploaded file part: its client file name and its size in bytes. */
  datatype Upload = Upload(filename: string, size: int)

  datatype ImageFormError = TitleRequired | NoFile | BadFormat | EmptyFile | TooLarge

  /** The text after the last '.', the whole text when there is none. */
  function AfterLastDot(s: string): (r: string)
    ensures '.' !in r && |r| <= |s| && r == s[|s| - |r|..]
    ensures '.' in s ==> |r| < |s| && s[|s| - |r| - 1] == '.'
    ensures '.' !in s ==> r == s
  {
    if |s| == 0 then ""
    else if s[|s| - 1] == '.' then ""
    else
      var init := s[..|s| - 1];
      assert s == init + [s[|s| - 1]];
      assert '.' in s ==> '.' in init;
      AfterLastDot(init) + [s[|s| - 1]]
  }

  /** `filename.rsplit(".", 1)[-1].lower()`, or "" without a dot. */
  function Extension(filename: string): (r: string)
    ensures '.' !in filename ==> r == ""
    ensures '.' in filename ==> r == Lower(AfterLastDot(filename))
  {
    if '.' in filename then Lower(AfterLastDot(filename)) else ""
  }

  /** What `_validate_image_file` returns: the errors, the extension (None
      when there is no file) and the size. */
  datatype FileCheck = FileCheck(errors: seq<ImageFormError>, extension: Option<string>, size: int)

  /** `_validate_image_file`: a missing or blank file name is one error and
      nothing else; otherwise the extension must be allowed and the size
      must lie in 1..5 MiB, each failure its own error. */
  function ValidateImageFile(file: Option<Upload>): (r: FileCheck)
    ensures file.None? || Strip(file.value.filename) == "" ==> r == FileCheck([NoFile], None, 0)
    ensures file.Some? && Strip(file.value.filename) != "" ==>
      r == FileCheck(FileErrors(Extension(Strip(file.value.filename)), file.value.size),
                     Some(Extension(Strip(file.value.filename))), file.value.size)
  {
    if file.None? || file.value.filename == "" then
      StripEmpty("");
      FileCheck([NoFile], None, 0)
    else
      var name := Strip(file.value.filename);
      if name == "" then FileCheck([NoFile], None, 0)
      else FileCheck(FileErrors(Extension(name), file.value.size), Some(Extension(name)), file.value.size)
  }

  /** The format and size errors of a named file, each at most once. */
  function FileErrors(ext: string, size: int): (r: seq<ImageFormError>)
    ensures BadFormat in r <==> ext !in AllowedExtensions
    ensures EmptyFile in r <==> size <= 0
    ensures TooLarge in r <==> size > MaxFileSize
    ensures NoFile !in r && TitleRequired !in r && |r| <= 2
  {
    (if ext !in AllowedExtensions then [BadFormat] else [])
    + (if size <= 0 then [EmptyFile] else [])
    + (if size > MaxFileSize then [TooLarge] else [])
  }

  /** A file is accepted exactly when its extension is allowed and its size
      is between 1 byte and 5 MiB. */
  lemma AcceptedFiles(file: Upload)
    ensures ValidateImageFile(Some(file)).errors == [] <==>
      Strip(file.filename) != "" && Extension(Strip(file.filename)) in AllowedExtensions
      && 0 < file.size <= MaxFileSize
  {
    if Strip(file.filename) != "" {
      var r := FileErrors(Extension(Strip(file.filename)), file.size);
      assert r == [] <==> BadFormat !in r && EmptyFile !in r && TooLarge !in r;
    }
  }

  /** The fields `extract_image_form` returns. */
  datatype ImageForm = ImageForm(title: string, description: string, file: Option<(Upload, string, int)>,
                                 errors: seq<ImageFormError>)

  function Text(v: Option<string>): string { if v.Some? then v.value else "" }

  /** `extract_image_form`: the title is required after stripping; the file
      is validated when it is required or present, and handed on only when
      it passed. */
  function ExtractImageForm(title: Option<string>, description: Option<string>, file: Option<Upload>,
                            fileRequired: bool): (r: ImageForm)
    ensures r.title == Strip(Text(title)) && r.description == Strip(Text(description))
    ensures (TitleRequired in r.errors) <==> r.title == ""
    ensures r.file.Some? ==> file.Some? && r.file.value.0 == file.value && r.errors == (if r.title == "" then [TitleRequired] else [])
    ensures !fileRequired && (file.None? || Strip(file.value.filename) == "") ==>
      r.file.None? && r.errors == (if r.title == "" then [TitleRequired] else [])
    ensures fileRequired && (file.None? || Strip(file.value.filename) == "") ==> NoFile in r.errors && r.file.None?
  {
    var t := Strip(Text(title));
    var d := Strip(Text(description));
    var errors := if t == "" then [TitleRequired] else [];
    var hasFile := file.Some? && file.value.filename != "" && Strip(file.value.filename) != "";
    if fileRequired || hasFile then
      var check := ValidateImageFile(file);
      if check.errors == [] then
        ImageForm(t, d, Some((file.value, check.extension.value, check.size)), errors)
      else
        ImageForm(t, d, None, errors + check.errors)
    else
      ImageForm(t, d, None, errors)
  }

  /** The object name `sites/{site_id}/{hex}.{ext}`; `hex` is the random
      UUID. */
  function ObjectName(siteId: int, hex: string, extension: string): (r: string)
    ensures StartsWith(r, "sites/")
  {
    "sites/" + IntToString(siteId) + "/" + hex + "." + extension
  }

  /** The object name splits back into the prefix, the site id and the file
      name, and its extension is the one it was built with. */
  lemma {:induction false} ObjectNameParts(siteId: int, hex: string, extension: string)
    requires '/' !in hex && '/' !in extension && '.' !in extension
    ensures Split(ObjectName(siteId, hex, extension), '/') == ["sites", IntToString(siteId), hex + "." + extension]
    ensures ParseInt(Split(ObjectName(siteId, hex, extension), '/')[1]) == Some(siteId)
    ensures AfterLastDot(ObjectName(siteId, hex, extension)) == extension
  {
    var d := NatToString(if siteId < 0 then -siteId else siteId);
    assert '/' !in IntToString(siteId) by {
      forall i | 0 <= i < |d| ensures d[i] != '/' {
        assert IsDigit(d[i]);
      }
      assert IntToString(siteId) == if siteId < 0 then "-" + d else d;
    }
    var parts := ["sites", IntToString(siteId), hex + "." + extension];
    assert Join('/', parts[2..]) == hex + "." + extension;
    assert Join('/', parts[1..]) == IntToString(siteId) + "/" + hex + "." + extension;
    assert Join('/', parts) == ObjectName(siteId, hex, extension);
    SplitJoin(parts, '/');
    ParseIntOfIntToString(siteId);
    DotSuffix("sites/" + IntToString(siteId) + "/" + hex, extension);
  }

  lemma {:induction false} DotSuffix(a: string, ext: string)
    requires '.' !in ext
    ensures AfterLastDot(a + "." + ext) == ext
    decreases |ext|
  {
    var s := a + "." + ext;
    if |ext| > 0 {
      var init := ext[..|ext| - 1];
      assert s[..|s| - 1] == a + "." + init;
      DotSuffix(a, init);
      assert ext == init + [ext[|ext| - 1]];
    }
  }

  /** Strips every trailing '/'. */
  function RStripSlash(s: string): (r: string)
    ensures |r| <= |s| && r == s[..|r|]
    ensures |r| > 0 ==> r[|r| - 1] != '/'
    ensures forall i :: |r| <= i < |s| ==> s[i] == '/'
  {
    if |s| > 0 && s[|s| - 1] == '/' then RStripSlash(s[..|s| - 1]) else s
  }

  datatype StorageError = NoBucket

  /** `_build_public_url`: a server with a scheme is used as it is,
      otherwise https or http by the secure flag; then bucket and object. */
  function BuildPublicUrl(bucket: Option<string>, server: string, secure: bool, objectName: string)
    : (r: Result<string, StorageError>)
    ensures r.Err? <==> bucket.None? || bucket.value == ""
    ensures r.Ok? && (StartsWith(RStripSlash(server), "http://") || StartsWith(RStripSlash(server), "https://")) ==>
      r.value == RStripSlash(server) + "/" + bucket.value + "/" + objectName
    ensures r.Ok? && !(StartsWith(RStripSlash(server), "http://") || StartsWith(RStripSlash(server), "https://")) ==>
      r.value == RStripSlash((if secure then "https" else "http") + "://" + RStripSlash(server))
                 + "/" + bucket.value + "/" + objectName
  {
    if bucket.None? || bucket.value == "" then Err(NoBucket)
    else
      var host := RStripSlash(server);
      var base := if StartsWith(host, "http://") || StartsWith(host, "https://") then RStripSlash(host)
                  else RStripSlash((if secure then "https" else "http") + "://" + host);
      RStripSlashIdempotent(host);
      Ok(base + "/" + bucket.value + "/" + objectName)
  }

  lemma RStripSlashIdempotent(s: string)
    ensures RStripSlash(RStripSlash(s)) == RStripSlash(s)
  {
  }

  /** A server without a scheme gets the one the secure flag picks, and the
      URL always ends with the bucket and the object. */
  lemma PublicUrlShape(bucket: string, server: string, secure: bool, objectName: string)
    requires bucket != "" && server != "" && server[|server| - 1] != '/'
    requires !StartsWith(server, "http://") && !StartsWith(server, "https://")
    ensures BuildPublicUrl(Some(bucket), server, secure, objectName)
      == Ok((if secure then "https://" else "http://") + server + "/" + bucket + "/" + objectName)
  {
    var scheme := if secure then "https" else "http";
    assert RStripSlash(server) == server;
    var b := scheme + "://" + server;
    assert b[|b| - 1] == server[|server| - 1];
    assert RStripSlash(b) == b;
    assert b == (if secure then "https://" else "http://") + server;
  }

  /** `get_image_or_404`: the image only when it belongs to the site. */
  function ImageOfSite(st: ImageStore, siteId: int, imageId: int): (r: Option<Image>)
    requires StoreOk(st)
    ensures r.Some? <==> imageId in st.owner && st.owner[imageId] == siteId
    ensures r.Some? ==> r.value.id == imageId && r.value in GalleryOf(st, siteId)
  {
    if imageId !in st.owner || st.owner[imageId] != siteId then None
    else
      var k := Position(st, imageId);
      Some(st.galleries[siteId][k])
  }
}

=== FILE: images.dfy ===
/** The per-site image gallery. A site's gallery is the sequence of its
    images in display order (order index ascending); the services keep the
    indices dense (1..n), at most ten images, and exactly one cover in a
    non-empty gallery. */
module Images {
  import opened Common
  import opened History

  const MaxImages: int := 10
  const ImageAction: string := "Cambio de im\U{e1}genes"

  datatype Image = Image(id: int, objectName: string, url: string, title: string,
                         description: Option<string>, orderIndex: int, isCover: bool)

  datatype ImageError = TooManyImages | CoverInUse

  function Ids(g: seq<Image>): (r: seq<int>)
    ensures |r| == |g| && forall i :: 0 <= i < |g| ==> r[i] == g[i].id
  {
    seq(|g|, i requires 0 <= i < |g| => g[i].id)
  }

  /** Display position and order index agree: the indices are 1..n. */
  predicate Dense(g: seq<Image>) {
    forall i :: 0 <= i < |g| ==> g[i].orderIndex == i + 1
  }

  predicate HasCover(g: seq<Image>) {
    exists i :: 0 <= i < |g| && g[i].isCover
  }

  /** At most one cover, and a non-empty gallery has one. */
  predicate SingleCover(g: seq<Image>) {
    && (forall i, j :: 0 <= i < |g| && 0 <= j < |g| && g[i].isCover && g[j].isCover ==> i == j)
    && (|g| > 0 ==> HasCover(g))
  }

  predicate DistinctIds(g: seq<Image>) {
    forall i, j :: 0 <= i < j < |g| ==> g[i].id != g[j].id
  }

  predicate GalleryOk(g: seq<Image>) {
    |g| <= MaxImages && Dense(g) && SingleCover(g) && DistinctIds(g)
  }

  /** `description or None`: an empty description is stored as null. */
  function Description(d: Option<string>): (r: Option<string>)
    ensures r.None? <==> d.None? || d.value == ""
    ensures r.Some? ==> r == d
  {
    if d.Some? && d.value != "" then d else None
  }

  /** The largest order index, 0 for an empty gallery (`max(...) or 0`). */
  function LastOrder(g: seq<Image>): (r: int)
    ensures forall i :: 0 <= i < |g| ==> g[i].orderIndex <= r
    ensures |g| > 0 ==> exists i :: 0 <= i < |g| && g[i].orderIndex == r
    ensures |g| == 0 ==> r == 0
  {
    if |g| == 0 then 0
    else if |g| == 1 then g[0].orderIndex
    else
      var rest := LastOrder(g[1..]);
      var i :| 0 <= i < |g[1..]| && g[1..][i].orderIndex == rest;
      assert g[i + 1].orderIndex == rest;
      if g[0].orderIndex >= rest then g[0].orderIndex else rest
  }

  lemma DenseLastOrder(g: seq<Image>)
    requires Dense(g)
    ensures LastOrder(g) == |g|
  {
    if |g| > 0 {
      var i :| 0 <= i < |g| && g[i].orderIndex == LastOrder(g);
      assert g[|g| - 1].orderIndex == |g|;
    }
  }

  /** `_clear_cover_flags(site, keep_id)`: every image but `keepId` stops
      being the cover. */
  function ClearCovers(g: seq<Image>, keepId: int): (r: seq<Image>)
    ensures |r| == |g| && Ids(r) == Ids(g)
    ensures forall i :: 0 <= i < |g| ==> r[i] == g[i].(isCover := g[i].isCover && g[i].id == keepId)
  {
    seq(|g|, i requires 0 <= i < |g| => g[i].(isCover := g[i].isCover && g[i].id == keepId))
  }

  // ---------------------------------------------------------------------------
  // Gallery operations

  /** `create_image` on a gallery: refused at ten images; otherwise the new
      image goes last with the next order index, and it is the cover iff
      asked to be or the gallery had none, in which case no other image
      keeps the flag. */
  function AddImage(g: seq<Image>, id: int, objectName: string, url: string, title: string,
                    description: Option<string>, makeCover: bool): (r: Result<seq<Image>, ImageError>)
    requires id !in Ids(g)
    ensures r.Err? <==> |g| >= MaxImages
    ensures r.Ok? ==> |r.value| == |g| + 1 && Ids(r.value) == Ids(g) + [id]
    ensures r.Ok? ==> r.value[|g|] == Image(id, objectName, url, title, Description(description),
                                            LastOrder(g) + 1, makeCover || !HasCover(g))
    ensures r.Ok? ==> forall i :: 0 <= i < |g| ==>
      r.value[i] == g[i].(isCover := g[i].isCover && !(makeCover || !HasCover(g)))
  {
    if |g| >= MaxImages then Err(TooManyImages)
    else
      var cover := makeCover || !HasCover(g);
      var image := Image(id, objectName, url, title, Description(description), LastOrder(g) + 1, cover);
      var kept := if cover then ClearCovers(g, id) else g;
      assert forall i :: 0 <= i < |g| ==> kept[i] == g[i].(isCover := g[i].isCover && !cover) by {
        forall i | 0 <= i < |g| ensures kept[i] == g[i].(isCover := g[i].isCover && !cover) {
          assert Ids(g)[i] == g[i].id;
        }
      }
      IdsAppend(kept, [image]);
      Ok(kept + [image])
  }

  lemma IdsAppend(a: seq<Image>, b: seq<Image>)
    ensures Ids(a + b) == Ids(a) + Ids(b)
  {
  }

  /** Adding an image to a well-formed gallery under a fresh id keeps it
      well formed. */
  lemma AddImageKeepsGallery(g: seq<Image>, id: int, objectName: string, url: string, title: string,
                             description: Option<string>, makeCover: bool)
    requires GalleryOk(g) && id !in Ids(g)
    requires AddImage(g, id, objectName, url, title, description, makeCover).Ok?
    ensures GalleryOk(AddImage(g, id, objectName, url, title, description, makeCover).value)
  {
    var r := AddImage(g, id, objectName, url, title, description, makeCover).value;
    DenseLastOrder(g);
    assert r[|g|].orderIndex == |g| + 1;
    AddKeepsDistinct(g, id, r);
    AddKeepsCover(g, r);
  }

  lemma AddKeepsDistinct(g: seq<Image>, id: int, r: seq<Image>)
    requires DistinctIds(g) && id !in Ids(g)
    requires |r| == |g| + 1 && Ids(r) == Ids(g) + [id]
    ensures DistinctIds(r)
  {
    forall i, j | 0 <= i < j < |r| ensures r[i].id != r[j].id {
      assert Ids(r)[i] == Ids(g)[i];
      if j < |g| { assert Ids(r)[j] == Ids(g)[j]; }
    }
  }

  /** The new last image is the cover exactly when no earlier one stays a
      cover, so one cover remains. */
  lemma AddKeepsCover(g: seq<Image>, r: seq<Image>)
    requires SingleCover(g) && |r| == |g| + 1
    requires !r[|g|].isCover ==> HasCover(g)
    requires forall i :: 0 <= i < |g| ==> r[i].isCover == (g[i].isCover && !r[|g|].isCover)
    ensures SingleCover(r)
  {
    if !r[|g|].isCover {
      var k :| 0 <= k < |g| && g[k].isCover;
      assert r[k].isCover;
    }
  }

  /** `mark_as_cover` on a gallery: the image at `k` becomes the only
      cover. */
  function MakeCover(g: seq<Image>, k: int): (r: seq<Image>)
    requires 0 <= k < |g|
    ensures |r| == |g| && Ids(r) == Ids(g)
    ensures r[k] == g[k].(isCover := true)
    ensures DistinctIds(g) ==> forall i :: 0 <= i < |g| && i != k ==> r[i] == g[i].(isCover := false)
  {
    var cleared := ClearCovers(g, g[k].id);
    cleared[k := g[k].(isCover := true)]
  }

  lemma MakeCoverKeepsGallery(g: seq<Image>, k: int)
    requires GalleryOk(g) && 0 <= k < |g|
    ensures GalleryOk(MakeCover(g, k))
    ensures forall i :: 0 <= i < |g| ==> (MakeCover(g, k)[i].isCover <==> i == k)
  {
    var r := MakeCover(g, k);
    forall i, j | 0 <= i < j < |r| ensures r[i].id != r[j].id {
      assert Ids(r)[i] == Ids(g)[i] && Ids(r)[j] == Ids(g)[j];
    }
    assert r[k].isCover;
  }

  /** Marking the same image twice is marking it once. */
  lemma MakeCoverIdempotent(g: seq<Image>, k: int)
    requires GalleryOk(g) && 0 <= k < |g|
    ensures MakeCover(MakeCover(g, k), k) == MakeCover(g, k)
  {
    var r := MakeCover(g, k);
    var rr := MakeCover(r, k);
    assert DistinctIds(r) by { MakeCoverKeepsGallery(g, k); }
    forall i | 0 <= i < |g| ensures rr[i] == r[i] {
      if i != k {
        assert g[i].(isCover := false).(isCover := false) == g[i].(isCover := false);
      }
    }
  }

  /** `_resequence_orders`: positions 1..n in the current order. */
  function Renumber(g: seq<Image>): (r: seq<Image>)
    ensures |r| == |g| && Ids(r) == Ids(g) && Dense(r)
    ensures forall i :: 0 <= i < |g| ==> r[i] == g[i].(orderIndex := i + 1)
  {
    seq(|g|, i requires 0 <= i < |g| => g[i].(orderIndex := i + 1))
  }

  /** `delete_image` on a gallery: the cover of a gallery with other images
      cannot go; otherwise the image leaves and the rest are renumbered in
      their previous order. */
  function RemoveImage(g: seq<Image>, k: int): (r: Result<seq<Image>, ImageError>)
    requires 0 <= k < |g|
    ensures r.Err? <==> g[k].isCover && |g| > 1
    ensures r.Ok? ==> Dense(r.value) && Ids(r.value) == Ids(g)[..k] + Ids(g)[k + 1..]
    ensures r.Ok? ==> forall i :: 0 <= i < |r.value| ==>
      r.value[i] == (if i < k then g[i] else g[i + 1]).(orderIndex := i + 1)
  {
    if g[k].isCover && |g| > 1 then Err(CoverInUse)
    else
      var rest := g[..k] + g[k + 1..];
      assert Ids(rest) == Ids(g)[..k] + Ids(g)[k + 1..];
      Ok(Renumber(rest))
  }

  lemma RemoveImageKeepsGallery(g: seq<Image>, k: int)
    requires GalleryOk(g) && 0 <= k < |g| && RemoveImage(g, k).Ok?
    ensures GalleryOk(RemoveImage(g, k).value)
  {
    RemoveKeepsDistinct(g, k);
    RemoveKeepsOneCover(g, k);
    RemoveKeepsACover(g, k);
  }

  lemma RemoveKeepsDistinct(g: seq<Image>, k: int)
    requires DistinctIds(g) && 0 <= k < |g| && RemoveImage(g, k).Ok?
    ensures DistinctIds(RemoveImage(g, k).value)
  {
    var r := RemoveImage(g, k).value;
    forall i, j | 0 <= i < j < |r| ensures r[i].id != r[j].id {
      var a := if i < k then i else i + 1;
      var b := if j < k then j else j + 1;
      assert r[i].id == g[a].id && r[j].id == g[b].id;
    }
  }

  lemma RemoveKeepsOneCover(g: seq<Image>, k: int)
    requires SingleCover(g) && 0 <= k < |g| && RemoveImage(g, k).Ok?
    ensures forall i, j :: (0 <= i < |RemoveImage(g, k).value| && 0 <= j < |RemoveImage(g, k).value|
                            && RemoveImage(g, k).value[i].isCover && RemoveImage(g, k).value[j].isCover) ==> i == j
  {
    var r := RemoveImage(g, k).value;
    forall i, j | 0 <= i < |r| && 0 <= j < |r| && r[i].isCover && r[j].isCover ensures i == j {
      var a := if i < k then i else i + 1;
      var b := if j < k then j else j + 1;
      assert g[a].isCover && g[b].isCover;
    }
  }

  lemma RemoveKeepsACover(g: seq<Image>, k: int)
    requires SingleCover(g) && 0 <= k < |g| && RemoveImage(g, k).Ok?
    ensures |RemoveImage(g, k).value| > 0 ==> HasCover(RemoveImage(g, k).value)
  {
    var r := RemoveImage(g, k).value;
    if |r| > 0 {
      var c :| 0 <= c < |g| && g[c].isCover;
      assert c != k;
      var i := if c < k then c else c - 1;
      assert r[i].isCover;
    }
  }

  /** The position the image at `i` came from after a swap at `k`. */
  function Swapped(k: int, i: int): int {
    if i == k then k + 1 else if i == k + 1 then k else i
  }

  /** The neighbours at `k` and `k + 1` trade places, each taking the
      other's order index. */
  function SwapAdjacent(g: seq<Image>, k: int): (r: seq<Image>)
    requires 0 <= k < |g| - 1
    ensures |r| == |g|
    ensures r[k] == g[k + 1].(orderIndex := g[k].orderIndex)
    ensures r[k + 1] == g[k].(orderIndex := g[k + 1].orderIndex)
    ensures forall i :: 0 <= i < |g| && i != k && i != k + 1 ==> r[i] == g[i]
    ensures forall i :: 0 <= i < |g| ==>
      r[i].id == g[Swapped(k, i)].id && r[i].isCover == g[Swapped(k, i)].isCover && r[i].orderIndex == g[i].orderIndex
  {
    g[k := g[k + 1].(orderIndex := g[k].orderIndex)][k + 1 := g[k].(orderIndex := g[k + 1].orderIndex)]
  }

  /** `move_image` on a gallery: "up" swaps with the previous image and
      "down" with the next, case-insensitively; None at either end or for
      any other direction. */
  function MoveImage(g: seq<Image>, k: int, direction: Option<string>): (r: Option<seq<Image>>)
    requires 0 <= k < |g|
    ensures r.Some? <==>
      (Lower(CleanDirection(direction)) == "up" && k > 0) || (Lower(CleanDirection(direction)) == "down" && k < |g| - 1)
    ensures r.Some? && Lower(CleanDirection(direction)) == "up" ==> r.value == SwapAdjacent(g, k - 1)
    ensures r.Some? && Lower(CleanDirection(direction)) == "down" ==> r.value == SwapAdjacent(g, k)
  {
    var dir := Lower(CleanDirection(direction));
    if dir == "up" && k > 0 then Some(SwapAdjacent(g, k - 1))
    else if dir == "down" && k < |g| - 1 then Some(SwapAdjacent(g, k))
    else None
  }

  function CleanDirection(direction: Option<string>): string {
    if direction.Some? then direction.value else ""
  }

  lemma SwapKeepsGallery(g: seq<Image>, k: int)
    requires GalleryOk(g) && 0 <= k < |g| - 1
    ensures GalleryOk(SwapAdjacent(g, k))
    ensures IdSet(SwapAdjacent(g, k)) == IdSet(g)
  {
    SwapKeepsDistinct(g, k);
    SwapKeepsCovers(g, k);
    SwapKeepsIds(g, k);
  }

  lemma SwapKeepsDistinct(g: seq<Image>, k: int)
    requires DistinctIds(g) && 0 <= k < |g| - 1
    ensures DistinctIds(SwapAdjacent(g, k))
  {
    var r := SwapAdjacent(g, k);
    forall i, j | 0 <= i < j < |r| ensures r[i].id != r[j].id {
      assert Swapped(k, i) != Swapped(k, j);
    }
  }

  lemma SwapKeepsCovers(g: seq<Image>, k: int)
    requires SingleCover(g) && 0 <= k < |g| - 1
    ensures SingleCover(SwapAdjacent(g, k))
  {
    var r := SwapAdjacent(g, k);
    forall i, j | 0 <= i < |r| && 0 <= j < |r| && r[i].isCover && r[j].isCover ensures i == j {
      assert g[Swapped(k, i)].isCover && g[Swapped(k, j)].isCover;
    }
    var c :| 0 <= c < |g| && g[c].isCover;
    assert r[Swapped(k, c)].isCover;
  }

  lemma SwapKeepsIds(g: seq<Image>, k: int)
    requires 0 <= k < |g| - 1
    ensures IdSet(SwapAdjacent(g, k)) == IdSet(g)
  {
    var r := SwapAdjacent(g, k);
    forall x | x in IdSet(g) ensures x in IdSet(r) {
      var i :| 0 <= i < |g| && g[i].id == x;
      assert r[Swapped(k, i)].id == x;
    }
    forall x | x in IdSet(r) ensures x in IdSet(g) {
      var i :| 0 <= i < |r| && r[i].id == x;
      assert g[Swapped(k, i)].id == x;
    }
  }

  /** Moving an image up and then down again restores the gallery. */
  lemma UpThenDown(g: seq<Image>, k: int)
    requires GalleryOk(g) && 0 < k < |g|
    ensures MoveImage(g, k, Some("up")).Some?
    ensures MoveImage(MoveImage(g, k, Some("up")).value, k - 1, Some("down")) == Some(g)
  {
    assert Lower("up") == "up" && Lower("down") == "down";
    var r := SwapAdjacent(g, k - 1);
    var rr := SwapAdjacent(r, k - 1);
    assert rr == g;
  }

  /** Adding a non-cover image and deleting it again restores the gallery. */
  lemma AddThenRemove(g: seq<Image>, id: int, objectName: string, url: string, title: string,
                      description: Option<string>)
    requires GalleryOk(g) && |g| > 0 && |g| < MaxImages && id !in Ids(g)
    ensures var r := AddImage(g, id, objectName, url, title, description, false);
      && r.Ok? && RemoveImage(r.value, |g|) == Ok(g)
  {
    var r := AddImage(g, id, objectName, url, title, description, false).value;
    assert !r[|g|].isCover;
    var back := RemoveImage(r, |g|).value;
    assert |back| == |g|;
    forall i | 0 <= i < |g| ensures back[i] == g[i] {
      assert r[i] == g[i].(isCover := g[i].isCover);
      assert g[i].orderIndex == i + 1;
    }
    assert back == g;
  }

  // ---------------------------------------------------------------------------
  // The image store

  /** The ids in a gallery. */
  function IdSet(g: seq<Image>): (r: set<int>)
    ensures forall x :: x in r <==> exists i :: 0 <= i < |g| && g[i].id == x
  {
    set i | 0 <= i < |g| :: g[i].id
  }

  /** Every gallery keyed by site, the `site_id` column of every image, the
      id counter and the history log. */
  datatype ImageStore = ImageStore(galleries: map<int, seq<Image>>, owner: map<int, int>,
                                   nextId: int, history: seq<Event>)

  function GalleryOf(st: ImageStore, siteId: int): seq<Image> {
    if siteId in st.galleries then st.galleries[siteId] else []
  }

  /** Every gallery is well formed, the owner column agrees with the
      galleries, and every id was handed out by the counter. */
  predicate StoreOk(st: ImageStore) {
    && (forall s :: s in st.galleries ==> GalleryOk(st.galleries[s]))
    && (forall s, x :: s in st.galleries && x in IdSet(st.galleries[s]) ==> x in st.owner && st.owner[x] == s)
    && (forall x :: x in st.owner ==> Owns(st, x))
    && st.nextId >= 1
  }

  predicate Owns(st: ImageStore, x: int) {
    x in st.owner && st.owner[x] in st.galleries && x in IdSet(st.galleries[st.owner[x]]) && 1 <= x < st.nextId
  }

  /** The position of an image in a gallery. */
  function IndexOf(g: seq<Image>, id: int): (r: Option<nat>)
    ensures r.None? <==> id !in IdSet(g)
    ensures r.Some? ==> r.value < |g| && g[r.value].id == id
  {
    if |g| == 0 then None
    else if g[0].id == id then Some(0)
    else
      var rest := IndexOf(g[1..], id);
      assert id in IdSet(g) ==> id in IdSet(g[1..]) by {
        if id in IdSet(g) {
          var i :| 0 <= i < |g| && g[i].id == id;
          assert g[1..][i - 1].id == id;
        }
      }
      if rest.None? then None else Some(rest.value + 1)
  }

  /** `get_image`: the position of an image in its site's gallery. */
  function Position(st: ImageStore, imageId: int): (k: nat)
    requires StoreOk(st) && imageId in st.owner
    ensures st.owner[imageId] in st.galleries
    ensures k < |st.galleries[st.owner[imageId]]| && st.galleries[st.owner[imageId]][k].id == imageId
  {
    assert Owns(st, imageId);
    IndexOf(st.galleries[st.owner[imageId]], imageId).value
  }

  /** Replacing a gallery by a well-formed one over the same ids keeps the
      store well formed. */
  lemma ReplaceSameIds(st: ImageStore, s: int, g: seq<Image>, e: seq<Event>)
    requires StoreOk(st) && s in st.galleries && GalleryOk(g) && IdSet(g) == IdSet(st.galleries[s])
    ensures StoreOk(ImageStore(st.galleries[s := g], st.owner, st.nextId, e))
  {
    var st' := ImageStore(st.galleries[s := g], st.owner, st.nextId, e);
    forall x | x in st'.owner ensures Owns(st', x) {
      assert Owns(st, x);
    }
  }

  /** `create_image`: the new image joins its site's gallery under the next
      id and one "Cambio de imágenes" event is logged. */
  function CreateImage(st: ImageStore, siteId: int, objectName: string, url: string, title: string,
                       description: Option<string>, makeCover: bool, performedBy: Option<int>, now: int)
    : (r: Result<(ImageStore, int), ImageError>)
    requires StoreOk(st)
    ensures r.Err? <==> |GalleryOf(st, siteId)| >= MaxImages
    ensures r.Ok? ==> StoreOk(r.value.0)
    ensures r.Ok? ==> r.value.1 !in st.owner && r.value.0.owner == st.owner[r.value.1 := siteId]
    ensures r.Ok? ==> (r.value.1 !in Ids(GalleryOf(st, siteId)) &&
      Ok(GalleryOf(r.value.0, siteId))
        == AddImage(GalleryOf(st, siteId), r.value.1, objectName, url, title, description, makeCover))
    ensures r.Ok? ==> forall t :: t != siteId ==> GalleryOf(r.value.0, t) == GalleryOf(st, t)
    ensures r.Ok? ==> (r.value.0.history
      == RecordEvent(st.history, siteId, performedBy, ImageAction, Some("Imagen agregada: " + objectName), now))
  {
    var g := GalleryOf(st, siteId);
    var id := st.nextId;
    FreshId(st, siteId);
    var added := AddImage(g, id, objectName, url, title, description, makeCover);
    if added.Err? then Err(added.error)
    else
      var e := RecordEvent(st.history, siteId, performedBy, ImageAction, Some("Imagen agregada: " + objectName), now);
      AddImageKeepsGallery(g, id, objectName, url, title, description, makeCover);
      Ok((PutGallery(st, siteId, added.value, e), id))
  }

  /** Storing a gallery that gained the next id under `siteId`, with the
      log `e`. */
  function PutGallery(st: ImageStore, siteId: int, g: seq<Image>, e: seq<Event>): (r: ImageStore)
    requires StoreOk(st) && GalleryOk(g) && Ids(g) == Ids(GalleryOf(st, siteId)) + [st.nextId]
    ensures StoreOk(r) && r.history == e
    ensures r.owner == st.owner[st.nextId := siteId]
    ensures GalleryOf(r, siteId) == g
    ensures forall t :: t != siteId ==> GalleryOf(r, t) == GalleryOf(st, t)
  {
    CreateKeepsStore(st, siteId, g, e);
    ImageStore(st.galleries[siteId := g], st.owner[st.nextId := siteId], st.nextId + 1, e)
  }

  lemma FreshId(st: ImageStore, siteId: int)
    requires StoreOk(st)
    ensures st.nextId !in st.owner && st.nextId !in Ids(GalleryOf(st, siteId))
    ensures siteId in st.galleries ==> GalleryOk(GalleryOf(st, siteId))
    ensures GalleryOk(GalleryOf(st, siteId))
  {
    var g := GalleryOf(st, siteId);
    forall i | 0 <= i < |g| ensures Ids(g)[i] != st.nextId {
      assert g[i].id in IdSet(st.galleries[siteId]);
      assert Owns(st, g[i].id);
    }
    assert forall x :: x in st.owner ==> Owns(st, x);
  }

  lemma CreateKeepsStore(st: ImageStore, siteId: int, g: seq<Image>, e: seq<Event>)
    requires StoreOk(st) && GalleryOk(g) && Ids(g) == Ids(GalleryOf(st, siteId)) + [st.nextId]
    ensures StoreOk(ImageStore(st.galleries[siteId := g], st.owner[st.nextId := siteId], st.nextId + 1, e))
  {
    var id := st.nextId;
    var old_ := GalleryOf(st, siteId);
    FreshId(st, siteId);
    var st' := ImageStore(st.galleries[siteId := g], st.owner[id := siteId], id + 1, e);
    assert IdSet(g) == IdSet(old_) + {id} by {
      forall x ensures x in IdSet(g) <==> x in IdSet(old_) || x == id {
        if x in IdSet(g) {
          var i :| 0 <= i < |g| && g[i].id == x;
          assert Ids(g)[i] == x;
          if i < |old_| { assert Ids(old_)[i] == x; }
        }
        if x in IdSet(old_) {
          var i :| 0 <= i < |old_| && old_[i].id == x;
          assert Ids(g)[i] == x;
        }
        if x == id { assert Ids(g)[|old_|] == id; }
      }
    }
    forall t, x | t in st'.galleries && x in IdSet(st'.galleries[t]) ensures x in st'.owner && st'.owner[x] == t {
      if t == siteId && x != id {
        assert x in IdSet(old_);
      }
    }
    forall x | x in st'.owner ensures Owns(st', x) {
      if x != id {
        assert Owns(st, x);
        if st.owner[x] == siteId {
          assert x in IdSet(old_);
        }
      }
    }
  }

  /** `update_image` on a gallery: new title and description, and the file
      replaced only when both a new object name and a new URL are given. */
  function EditImage(g: seq<Image>, k: int, title: string, description: Option<string>,
                     newObjectName: Option<string>, newUrl: Option<string>): (r: seq<Image>)
    requires 0 <= k < |g|
    ensures |r| == |g| && forall i :: 0 <= i < |g| && i != k ==> r[i] == g[i]
    ensures r[k].id == g[k].id && r[k].orderIndex == g[k].orderIndex && r[k].isCover == g[k].isCover
    ensures r[k].title == title && r[k].description == Description(description)
    ensures Given(newObjectName) && Given(newUrl) ==> r[k].objectName == newObjectName.value && r[k].url == newUrl.value
    ensures !(Given(newObjectName) && Given(newUrl)) ==> r[k].objectName == g[k].objectName && r[k].url == g[k].url
  {
    var replace := Given(newObjectName) && Given(newUrl);
    g[k := g[k].(title := title, description := Description(description),
                 objectName := if replace then newObjectName.value else g[k].objectName,
                 url := if replace then newUrl.value else g[k].url)]
  }

  lemma EditKeepsGallery(g: seq<Image>, k: int, title: string, description: Option<string>,
                         newObjectName: Option<string>, newUrl: Option<string>)
    requires GalleryOk(g) && 0 <= k < |g|
    ensures GalleryOk(EditImage(g, k, title, description, newObjectName, newUrl))
    ensures IdSet(EditImage(g, k, title, description, newObjectName, newUrl)) == IdSet(g)
  {
    var r := EditImage(g, k, title, description, newObjectName, newUrl);
    assert forall i :: 0 <= i < |g| ==> r[i].id == g[i].id && r[i].isCover == g[i].isCover;
  }

  /** `update_image`: None for an unknown id; otherwise the image is edited
      in place and one event is logged. */
  function UpdateImage(st: ImageStore, imageId: int, title: string, description: Option<string>,
                       newObjectName: Option<string>, newUrl: Option<string>, performedBy: Option<int>, now: int)
    : (r: Option<ImageStore>)
    requires StoreOk(st)
    ensures r.None? <==> imageId !in st.owner
    ensures r.Some? ==> StoreOk(r.value) && r.value.owner == st.owner
    ensures r.Some? ==> var s := st.owner[imageId];
      r.value.galleries == st.galleries[s := EditImage(st.galleries[s], Position(st, imageId), title, description,
                                                       newObjectName, newUrl)]
    ensures r.Some? ==> (r.value.history
      == RecordEvent(st.history, st.owner[imageId], performedBy, ImageAction, Some("Imagen editada"), now))
  {
    if imageId !in st.owner then None
    else
      var s := st.owner[imageId];
      var k := Position(st, imageId);
      var g' := EditImage(st.galleries[s], k, title, description, newObjectName, newUrl);
      var e := RecordEvent(st.history, s, performedBy, ImageAction, Some("Imagen editada"), now);
      EditKeepsGallery(st.galleries[s], k, title, description, newObjectName, newUrl);
      ReplaceSameIds(st, s, g', e);
      Some(ImageStore(st.galleries[s := g'], st.owner, st.nextId, e))
  }

  /** `mark_as_cover`: None for an unknown id; otherwise that image is its
      gallery's only cover. */
  function MarkAsCover(st: ImageStore, imageId: int, performedBy: Option<int>, now: int): (r: Option<ImageStore>)
    requires StoreOk(st)
    ensures r.None? <==> imageId !in st.owner
    ensures r.Some? ==> StoreOk(r.value) && r.value.owner == st.owner
    ensures r.Some? ==> var s := st.owner[imageId];
      r.value.galleries == st.galleries[s := MakeCover(st.galleries[s], Position(st, imageId))]
    ensures r.Some? ==> var s := st.owner[imageId];
      forall i :: 0 <= i < |r.value.galleries[s]| ==>
        (r.value.galleries[s][i].isCover <==> r.value.galleries[s][i].id == imageId)
    ensures r.Some? ==> (r.value.history
      == RecordEvent(st.history, st.owner[imageId], performedBy, ImageAction, Some("Portada actualizada"), now))
  {
    if imageId !in st.owner then None
    else
      var s := st.owner[imageId];
      var k := Position(st, imageId);
      var g := st.galleries[s];
      var g' := MakeCover(g, k);
      var e := RecordEvent(st.history, s, performedBy, ImageAction, Some("Portada actualizada"), now);
      MakeCoverKeepsGallery(g, k);
      assert IdSet(g') == IdSet(g) by {
        assert forall i :: 0 <= i < |g| ==> g'[i].id == Ids(g')[i] == Ids(g)[i] == g[i].id;
      }
      assert forall i :: 0 <= i < |g'| ==> (g'[i].id == imageId <==> i == k);
      ReplaceSameIds(st, s, g', e);
      Some(ImageStore(st.galleries[s := g'], st.owner, st.nextId, e))
  }

  /** `delete_image`: false for an unknown id, CoverInUse for the cover of a
      gallery with other images; otherwise the image is gone and its
      gallery renumbered. */
  function DeleteImage(st: ImageStore, imageId: int, performedBy: Option<int>, now: int)
    : (r: Result<(ImageStore, bool), ImageError>)
    requires StoreOk(st)
    ensures imageId !in st.owner ==> r == Ok((st, false))
    ensures imageId in st.owner ==> var s := st.owner[imageId];
      (r.Err? <==> st.galleries[s][Position(st, imageId)].isCover && |st.galleries[s]| > 1)
    ensures r.Ok? && r.value.1 ==> imageId in st.owner && StoreOk(r.value.0)
    ensures r.Ok? && r.value.1 ==> var s := st.owner[imageId];
      && r.value.0.owner == st.owner - {imageId}
      && r.value.0.galleries == st.galleries[s := RemoveImage(st.galleries[s], Position(st, imageId)).value]
      && r.value.0.history == RecordEvent(st.history, s, performedBy, ImageAction, Some("Imagen eliminada"), now)
  {
    if imageId !in st.owner then Ok((st, false))
    else
      var s := st.owner[imageId];
      var k := Position(st, imageId);
      var removed := RemoveImage(st.galleries[s], k);
      if removed.Err? then Err(removed.error)
      else
        var e := RecordEvent(st.history, s, performedBy, ImageAction, Some("Imagen eliminada"), now);
        RemoveImageKeepsGallery(st.galleries[s], k);
        DeleteKeepsStore(st, s, k, removed.value, e);
        Ok((ImageStore(st.galleries[s := removed.value], st.owner - {imageId}, st.nextId, e), true))
  }

  lemma DeleteKeepsStore(st: ImageStore, s: int, k: int, g: seq<Image>, e: seq<Event>)
    requires StoreOk(st) && s in st.galleries && 0 <= k < |st.galleries[s]|
    requires GalleryOk(g) && Ids(g) == Ids(st.galleries[s])[..k] + Ids(st.galleries[s])[k + 1..]
    ensures StoreOk(ImageStore(st.galleries[s := g], st.owner - {st.galleries[s][k].id}, st.nextId, e))
  {
    var old_ := st.galleries[s];
    var id := old_[k].id;
    assert GalleryOk(old_);
    var st' := ImageStore(st.galleries[s := g], st.owner - {id}, st.nextId, e);
    RemoveIdSet(old_, k, g);
    assert id in IdSet(old_) && st.owner[id] == s;
    forall t, x | t in st'.galleries && x in IdSet(st'.galleries[t]) ensures x in st'.owner && st'.owner[x] == t {
      if t != s {
        assert st.owner[x] == t;
      }
    }
    forall x | x in st'.owner ensures Owns(st', x) {
      assert Owns(st, x);
    }
  }

  lemma RemoveIdSet(old_: seq<Image>, k: int, g: seq<Image>)
    requires DistinctIds(old_) && 0 <= k < |old_|
    requires Ids(g) == Ids(old_)[..k] + Ids(old_)[k + 1..]
    ensures IdSet(g) == IdSet(old_) - {old_[k].id}
  {
    forall x | x in IdSet(g) ensures x in IdSet(old_) - {old_[k].id} {
      RemovedIdFrom(old_, k, g, x);
    }
    forall x | x in IdSet(old_) - {old_[k].id} ensures x in IdSet(g) {
      KeptIdIn(old_, k, g, x);
    }
  }

  lemma RemovedIdFrom(old_: seq<Image>, k: int, g: seq<Image>, x: int)
    requires DistinctIds(old_) && 0 <= k < |old_|
    requires Ids(g) == Ids(old_)[..k] + Ids(old_)[k + 1..]
    requires x in IdSet(g)
    ensures x in IdSet(old_) && x != old_[k].id
  {
    var i :| 0 <= i < |g| && g[i].id == x;
    var a := if i < k then i else i + 1;
    RemovedAt(Ids(old_), k, i);
    assert old_[a].id == x && a != k;
  }

  lemma KeptIdIn(old_: seq<Image>, k: int, g: seq<Image>, x: int)
    requires 0 <= k < |old_|
    requires Ids(g) == Ids(old_)[..k] + Ids(old_)[k + 1..]
    requires x in IdSet(old_) && x != old_[k].id
    ensures x in IdSet(g)
  {
    var j :| 0 <= j < |old_| && old_[j].id == x;
    var i := if j < k then j else j - 1;
    RemovedAt(Ids(old_), k, i);
    assert g[i].id == x;
  }

  /** Where an entry of a sequence with one entry cut out comes from. */
  lemma RemovedAt(s: seq<int>, k: int, i: int)
    requires 0 <= k < |s| && 0 <= i < |s| - 1
    ensures (s[..k] + s[k + 1..])[i] == s[if i < k then i else i + 1]
  {
  }

  /** `move_image`: None for an unknown id or a move that cannot happen;
      otherwise the image trades places, and order index, with its
      neighbour. */
  function MoveImageIn(st: ImageStore, imageId: int, direction: Option<string>, performedBy: Option<int>, now: int)
    : (r: Option<ImageStore>)
    requires StoreOk(st)
    ensures imageId !in st.owner ==> r.None?
    ensures imageId in st.owner ==>
      (r.None? <==> MoveImage(st.galleries[st.owner[imageId]], Position(st, imageId), direction).None?)
    ensures r.Some? ==> StoreOk(r.value) && r.value.owner == st.owner
    ensures r.Some? ==> var s := st.owner[imageId];
      r.value.galleries == st.galleries[s := MoveImage(st.galleries[s], Position(st, imageId), direction).value]
    ensures r.Some? ==> r.value.history == RecordEvent(st.history, st.owner[imageId], performedBy, ImageAction,
                                                       Some("Orden de im\U{e1}genes actualizado"), now)
  {
    if imageId !in st.owner then None
    else
      var s := st.owner[imageId];
      var k := Position(st, imageId);
      var moved := MoveImage(st.galleries[s], k, direction);
      if moved.None? then None
      else
        var e := RecordEvent(st.history, s, performedBy, ImageAction, Some("Orden de im\U{e1}genes actualizado"), now);
        SwapKeepsGallery(st.galleries[s], if Lower(CleanDirection(direction)) == "up" then k - 1 else k);
        ReplaceSameIds(st, s, moved.value, e);
        Some(ImageStore(st.galleries[s := moved.value], st.owner, st.nextId, e))
  }

  /** `count_images`: never more than ten in a consistent store. */
  function CountImages(st: ImageStore, siteId: int): (r: int)
    requires StoreOk(st)
    ensures 0 <= r <= MaxImages && r == |GalleryOf(st, siteId)|
  {
    var g := GalleryOf(st, siteId);
    assert siteId in st.galleries ==> GalleryOk(g);
    |g|
  }
}

=== FILE: jwt.dfy ===
/** HS256 JSON Web Tokens in the compact serialisation (section 7.1 of
    RFC 7515): base64url without padding (section 5 of RFC 4648), the
    three-segment split, claim assembly, and the order in which a token is
    checked. HMAC-SHA-256 and the JSON codec are parameters. */
module Jwt {
  import opened Common

  newtype byte = x: int | 0 <= x < 256

  // ---------------------------------------------------------------------------
  // base64url

  /** The base64url alphabet: A-Z, a-z, 0-9, '-', '_'. */
  function Symbol(v: int): (c: char)
    requires 0 <= v < 64
  {
    if v < 26 then ('A' as int + v) as char
    else if v < 52 then ('a' as int + v - 26) as char
    else if v < 62 then ('0' as int + v - 52) as char
    else if v == 62 then '-'
    else '_'
  }

  /** The value of an alphabet symbol. */
  function SymbolValue(c: char): (r: Option<int>)
    ensures r.Some? ==> 0 <= r.value < 64 && Symbol(r.value) == c
  {
    if 'A' <= c <= 'Z' then Some(c as int - 'A' as int)
    else if 'a' <= c <= 'z' then Some(c as int - 'a' as int + 26)
    else if '0' <= c <= '9' then Some(c as int - '0' as int + 52)
    else if c == '-' then Some(62)
    else if c == '_' then Some(63)
    else None
  }

  lemma SymbolRoundTrip(v: int)
    requires 0 <= v < 64
    ensures SymbolValue(Symbol(v)) == Some(v)
  {
  }

  predicate InAlphabet(c: char) { SymbolValue(c).Some? }

  /** Three bytes as four symbols. */
  function Quad(b0: byte, b1: byte, b2: byte): (r: string)
    ensures |r| == 4
  {
    [Symbol(b0 as int / 4), Symbol((b0 as int % 4) * 16 + b1 as int / 16),
     Symbol((b1 as int % 16) * 4 + b2 as int / 64), Symbol(b2 as int % 64)]
  }

  /** `_b64url_encode`: standard base64 over the url alphabet with the
      trailing '=' removed. */
  function B64Encode(bs: seq<byte>): (r: string)
    ensures |r| == (4 * |bs| + 2) / 3
    ensures |r| % 4 != 1
    ensures forall i :: 0 <= i < |r| ==> InAlphabet(r[i])
  {
    if |bs| == 0 then ""
    else if |bs| == 1 then
      var b0 := bs[0];
      SymbolRoundTrip(b0 as int / 4);
      SymbolRoundTrip((b0 as int % 4) * 16);
      [Symbol(b0 as int / 4), Symbol((b0 as int % 4) * 16)]
    else if |bs| == 2 then
      var (b0, b1) := (bs[0], bs[1]);
      SymbolRoundTrip(b0 as int / 4);
      SymbolRoundTrip((b0 as int % 4) * 16 + b1 as int / 16);
      SymbolRoundTrip((b1 as int % 16) * 4);
      [Symbol(b0 as int / 4), Symbol((b0 as int % 4) * 16 + b1 as int / 16), Symbol((b1 as int % 16) * 4)]
    else
      QuadAlphabet(bs[0], bs[1], bs[2]);
      Quad(bs[0], bs[1], bs[2]) + B64Encode(bs[3..])
  }

  lemma QuadAlphabet(b0: byte, b1: byte, b2: byte)
    ensures forall i :: 0 <= i < 4 ==> InAlphabet(Quad(b0, b1, b2)[i])
  {
    SymbolRoundTrip(b0 as int / 4);
    SymbolRoundTrip((b0 as int % 4) * 16 + b1 as int / 16);
    SymbolRoundTrip((b1 as int % 16) * 4 + b2 as int / 64);
    SymbolRoundTrip(b2 as int % 64);
  }

  /** The bytes of a group of two to four symbol values; the bits past the
      last whole byte are ignored. */
  function Group(vs: seq<int>): (r: seq<byte>)
    requires 2 <= |vs| <= 4
    requires forall i :: 0 <= i < |vs| ==> 0 <= vs[i] < 64
    ensures |r| == |vs| - 1
  {
    var first := (vs[0] * 4 + vs[1] / 16) as byte;
    if |vs| == 2 then [first]
    else
      var second := ((vs[1] % 16) * 16 + vs[2] / 4) as byte;
      if |vs| == 3 then [first, second]
      else [first, second, ((vs[2] % 4) * 64 + vs[3]) as byte]
  }

  function Values(s: string): (r: Option<seq<int>>)
    ensures r.Some? ==> |r.value| == |s| && forall i :: 0 <= i < |s| ==> 0 <= r.value[i] < 64
    ensures r.Some? <==> forall i :: 0 <= i < |s| ==> InAlphabet(s[i])
    ensures r.Some? ==> forall i :: 0 <= i < |s| ==> SymbolValue(s[i]) == Some(r.value[i])
  {
    if |s| == 0 then Some([])
    else
      match (SymbolValue(s[0]), Values(s[1..]))
      case (Some(v), Some(rest)) => Some([v] + rest)
      case (None, _) => None
      case (_, None) =>
        assert !InAlphabet(s[1..][|s[1..]| - 1]) || exists i :: 0 <= i < |s[1..]| && !InAlphabet(s[1..][i]);
        None
  }

  /** `_b64url_decode` on the url alphabet: the segment is padded to a
      multiple of four and decoded; a length one past a multiple of four
      cannot be decoded. */
  function B64Decode(s: string): (r: Option<seq<byte>>)
    ensures r.Some? ==> |s| % 4 != 1 && forall i :: 0 <= i < |s| ==> InAlphabet(s[i])
    ensures r.Some? ==> |r.value| == |s| * 3 / 4
    decreases |s|
  {
    if |s| == 0 then Some([])
    else if |s| % 4 == 1 then None
    else
      match Values(s[..if |s| < 4 then |s| else 4])
      case None => None
      case Some(vs) =>
        match B64Decode(s[|vs|..])
        case None => None
        case Some(rest) =>
          assert forall i :: 0 <= i < |s| ==> InAlphabet(s[i]) by {
            forall i | 0 <= i < |s| ensures InAlphabet(s[i]) {
              if i < |vs| { assert s[i] == s[..|vs|][i]; } else { assert s[i] == s[|vs|..][i - |vs|]; }
            }
          }
          Some(Group(vs) + rest)
  }

  /** The symbol values of a text are determined symbol by symbol. */
  lemma ValuesOf(s: string, vs: seq<int>)
    requires |vs| == |s| && forall i :: 0 <= i < |s| ==> SymbolValue(s[i]) == Some(vs[i])
    ensures Values(s) == Some(vs)
  {
    assert forall i :: 0 <= i < |s| ==> InAlphabet(s[i]);
    var r := Values(s).value;
    assert forall i :: 0 <= i < |s| ==> r[i] == vs[i];
    assert r == vs;
  }

  /** The arithmetic of one group: splitting three bytes into four sextets
      and joining them back gives the bytes. */
  lemma GroupOfQuad(b0: byte, b1: byte, b2: byte)
    ensures Values(Quad(b0, b1, b2)).Some?
    ensures Group(Values(Quad(b0, b1, b2)).value) == [b0, b1, b2]
  {
    var q := Quad(b0, b1, b2);
    var v0, v1, v2, v3 := b0 as int / 4, (b0 as int % 4) * 16 + b1 as int / 16,
                          (b1 as int % 16) * 4 + b2 as int / 64, b2 as int % 64;
    SymbolRoundTrip(v0); SymbolRoundTrip(v1); SymbolRoundTrip(v2); SymbolRoundTrip(v3);
    ValuesOf(q, [v0, v1, v2, v3]);
    assert v1 / 16 == b0 as int % 4 && v1 % 16 == b1 as int / 16;
    assert v2 / 4 == b1 as int % 16 && v2 % 4 == b2 as int / 64;
  }

  /** Decoding undoes encoding. */
  lemma {:induction false} B64RoundTrip(bs: seq<byte>)
    ensures B64Decode(B64Encode(bs)) == Some(bs)
    decreases |bs|
  {
    if |bs| == 1 {
      RoundTripOne(bs[0]);
      assert [bs[0]] == bs;
    } else if |bs| == 2 {
      RoundTripTwo(bs[0], bs[1]);
      assert [bs[0], bs[1]] == bs;
    } else if |bs| >= 3 {
      B64RoundTrip(bs[3..]);
      RoundTripStep(bs);
    }
  }

  /** One step of decoding: the first group, then the rest. */
  lemma DecodeStep(s: string, n: int)
    requires 2 <= n <= 4 && n <= |s| && (|s| < 4 ==> n == |s|) && (|s| >= 4 ==> n == 4)
    requires Values(s[..n]).Some? && B64Decode(s[n..]).Some? && |s| % 4 != 1
    ensures B64Decode(s) == Some(Group(Values(s[..n]).value) + B64Decode(s[n..]).value)
  {
  }

  lemma RoundTripOne(b0: byte)
    ensures B64Decode(B64Encode([b0])) == Some([b0])
  {
    var e := B64Encode([b0]);
    var v0, v1 := b0 as int / 4, (b0 as int % 4) * 16;
    SymbolRoundTrip(v0); SymbolRoundTrip(v1);
    assert e[..2] == e && e[2..] == [];
    ValuesOf(e, [v0, v1]);
    assert v1 / 16 == b0 as int % 4;
    assert Group([v0, v1]) == [b0];
    assert B64Decode(e[2..]) == Some([]);
    DecodeStep(e, 2);
    assert Group([v0, v1]) + [] == [b0];
  }

  lemma RoundTripTwo(b0: byte, b1: byte)
    ensures B64Decode(B64Encode([b0, b1])) == Some([b0, b1])
  {
    var e := B64Encode([b0, b1]);
    var v0, v1, v2 := b0 as int / 4, (b0 as int % 4) * 16 + b1 as int / 16, (b1 as int % 16) * 4;
    SymbolRoundTrip(v0); SymbolRoundTrip(v1); SymbolRoundTrip(v2);
    assert e[..3] == e && e[3..] == [];
    ValuesOf(e, [v0, v1, v2]);
    assert v1 / 16 == b0 as int % 4 && v1 % 16 == b1 as int / 16 && v2 / 4 == b1 as int % 16;
    assert Group([v0, v1, v2]) == [b0, b1];
    assert B64Decode(e[3..]) == Some([]);
    DecodeStep(e, 3);
    assert Group([v0, v1, v2]) + [] == [b0, b1];
  }

  lemma RoundTripStep(bs: seq<byte>)
    requires |bs| >= 3
    requires B64Decode(B64Encode(bs[3..])) == Some(bs[3..])
    ensures B64Decode(B64Encode(bs)) == Some(bs)
  {
    var e := B64Encode(bs);
    var q := Quad(bs[0], bs[1], bs[2]);
    var tail := B64Encode(bs[3..]);
    assert e == q + tail;
    assert e[..4] == q && e[4..] == tail;
    GroupOfQuad(bs[0], bs[1], bs[2]);
    DecodeStep(e, 4);
    ThreeThenRest(bs);
  }

  lemma ThreeThenRest<T>(s: seq<T>)
    requires |s| >= 3
    ensures [s[0], s[1], s[2]] + s[3..] == s
  {
    assert s == s[..3] + s[3..];
  }

  // ---------------------------------------------------------------------------
  // Segments

  datatype JwtError =
    | Malformed          // JWTDecodeError: not three segments
    | BadSignature       // JWTSignatureError
    | WrongAlgorithm     // JWTDecodeError: header algorithm
    | Expired            // JWTExpiredError
    | WrongType          // JWTDecodeError: `type` claim
    | BadEncoding        // a base64, ASCII, JSON or int() failure
    | ConfigError        // RuntimeError: no secret, or an algorithm other than HS256

  /** `_split_token`: exactly three '.'-separated segments. */
  function SplitToken(token: string): (r: Result<(string, string, string), JwtError>)
    ensures r.Err? <==> |Split(token, '.')| != 3
    ensures r.Err? ==> r.error == Malformed
    ensures r.Ok? ==> token == r.value.0 + "." + r.value.1 + "." + r.value.2
    ensures r.Ok? ==> '.' !in r.value.0 && '.' !in r.value.1 && '.' !in r.value.2
  {
    var parts := Split(token, '.');
    if |parts| != 3 then Err(Malformed)
    else
      JoinSplit(token, '.');
      assert Join('.', parts) == parts[0] + "." + parts[1] + "." + parts[2] by {
        assert Join('.', parts[1..]) == parts[1] + "." + parts[2];
      }
      Ok((parts[0], parts[1], parts[2]))
  }

  /** Three segments without '.' split back out of their join. */
  lemma SplitJoinToken(a: string, b: string, c: string)
    requires '.' !in a && '.' !in b && '.' !in c
    ensures SplitToken(a + "." + b + "." + c) == Ok((a, b, c))
  {
    var parts := [a, b, c];
    SplitJoin(parts, '.');
    assert Join('.', parts) == a + "." + b + "." + c by {
      assert Join('.', parts[1..]) == b + "." + c;
    }
  }

  // ---------------------------------------------------------------------------
  // Configuration, claims and the codec

  /** The application settings the module reads. */
  datatype JwtConfig = JwtConfig(jwtSecret: Option<string>, secretKey: Option<string>, algorithm: Option<string>,
                                 accessTtl: Option<int>, refreshTtl: Option<int>)

  /** `_config_secret`: the JWT secret, else the application secret; one of
      them must be non-empty. */
  function ConfigSecret(cfg: JwtConfig): (r: Result<string, JwtError>)
    ensures r.Ok? ==> r.value != ""
    ensures r.Ok? <==> (cfg.jwtSecret.Some? && cfg.jwtSecret.value != "") || (cfg.secretKey.Some? && cfg.secretKey.value != "")
    ensures cfg.jwtSecret.Some? && cfg.jwtSecret.value != "" ==> r == Ok(cfg.jwtSecret.value)
  {
    if cfg.jwtSecret.Some? && cfg.jwtSecret.value != "" then Ok(cfg.jwtSecret.value)
    else if cfg.secretKey.Some? && cfg.secretKey.value != "" then Ok(cfg.secretKey.value)
    else Err(ConfigError)
  }

  function UpperChar(c: char): char {
    if 'a' <= c <= 'z' then (c as int - 32) as char else c
  }

  function Upper(s: string): (r: string)
    ensures |r| == |s|
    ensures forall i :: 0 <= i < |s| ==> r[i] == UpperChar(s[i])
  {
    if |s| == 0 then [] else [UpperChar(s[0])] + Upper(s[1..])
  }

  /** `_config_algorithm`: the configured algorithm (HS256 by default),
      upper-cased, must be HS256. */
  function ConfigAlgorithm(cfg: JwtConfig): (r: Result<string, JwtError>)
    ensures r.Ok? ==> r.value == "HS256"
    ensures cfg.algorithm.None? || cfg.algorithm.value == "" || cfg.algorithm.value == "HS256" ==> r.Ok?
    ensures cfg.algorithm.Some? && cfg.algorithm.value != "" && |cfg.algorithm.value| != 5 ==> r.Err?
  {
    var given := if cfg.algorithm.Some? && cfg.algorithm.value != "" then cfg.algorithm.value else "HS256";
    if Upper(given) == "HS256" then Ok("HS256") else Err(ConfigError)
  }

  predicate ConfigOk(cfg: JwtConfig) {
    ConfigSecret(cfg).Ok? && ConfigAlgorithm(cfg).Ok?
  }

  /** A JSON object: names to values. */
  type Claims = map<string, PyValue>

  /** The pieces the module takes from outside: HMAC-SHA-256 of the ASCII
      signing input under the secret, and the JSON encoder and decoder. */
  datatype Codec = Codec(hmac: (string, string) -> seq<byte>, dumps: Claims -> seq<byte>,
                         loads: seq<byte> -> Option<Claims>)

  /** The JSON codec reads back what it writes. */
  predicate ReadsBack(codec: Codec, c: Claims) {
    codec.loads(codec.dumps(c)) == Some(c)
  }

  function Header(): Claims {
    map["alg" := PStr("HS256"), "typ" := PStr("JWT")]
  }

  /** The claims `encode_token` signs: the caller's, with `iat` defaulting
      to now, `exp` set when a lifetime is given and `sub` when a subject
      is. */
  function AssembleClaims(payload: Claims, expiresIn: Option<int>, subject: Option<string>, now: int): (c: Claims)
    ensures c.Keys == payload.Keys + {"iat"} + (if expiresIn.Some? then {"exp"} else {})
                      + (if subject.Some? then {"sub"} else {})
    ensures "iat" in c && "iat" in payload ==> c["iat"] == payload["iat"]
    ensures "iat" in c && "iat" !in payload ==> c["iat"] == PInt(now)
    ensures "exp" in c && expiresIn.Some? ==> c["exp"] == PInt(now + expiresIn.value)
    ensures "sub" in c && subject.Some? ==> c["sub"] == PStr(subject.value)
    ensures forall k :: k in payload && k != "iat" && k != "exp" && k != "sub" ==> k in c && c[k] == payload[k]
  {
    var withIat := if "iat" in payload then payload else payload["iat" := PInt(now)];
    var withExp := if expiresIn.Some? then withIat["exp" := PInt(now + expiresIn.value)] else withIat;
    if subject.Some? then withExp["sub" := PStr(subject.value)] else withExp
  }

  // ---------------------------------------------------------------------------
  // Encoding and decoding

  /** `encode_token` at time `now` (seconds). */
  function EncodeToken(cfg: JwtConfig, codec: Codec, payload: Claims, expiresIn: Option<int>,
                       subject: Option<string>, now: int): (r: Result<string, JwtError>)
    ensures r.Err? <==> !ConfigOk(cfg)
    ensures r.Err? ==> r.error == ConfigError
    ensures r.Ok? ==>
      var claims := AssembleClaims(payload, expiresIn, subject, now);
      var h := B64Encode(codec.dumps(Header()));
      var p := B64Encode(codec.dumps(claims));
      r.value == h + "." + p + "." + B64Encode(codec.hmac(ConfigSecret(cfg).value, h + "." + p))
  {
    match ConfigAlgorithm(cfg)
    case Err(e) => Err(e)
    case Ok(alg) =>
      var claims := AssembleClaims(payload, expiresIn, subject, now);
      var h := B64Encode(codec.dumps(map["alg" := PStr(alg), "typ" := PStr("JWT")]));
      var p := B64Encode(codec.dumps(claims));
      var signingInput := h + "." + p;
      match ConfigSecret(cfg)
      case Err(e) => Err(e)
      case Ok(secret) => Ok(signingInput + "." + B64Encode(codec.hmac(secret, signingInput)))
  }

  predicate Ascii(s: string) { forall i :: 0 <= i < |s| ==> s[i] as int < 128 }

  /** How the expiry is compared: as written a token is refused only once
      `exp` is strictly in the past; section 4.1.4 of RFC 7519 also
      refuses it at `exp` itself. */
  datatype ExpiryRule = AcceptAtExp | RejectAtExp

  predicate ExpiredAt(exp: int, now: int, rule: ExpiryRule) {
    if rule == AcceptAtExp then exp < now else exp <= now
  }

  /** The signature stage: the secret must be configured, the signing
      input ASCII, the signature segment decodable, and the bytes equal to
      the HMAC of the first two segments. */
  function CheckSignature(cfg: JwtConfig, codec: Codec, h: string, p: string, sig: string): (r: Result<(), JwtError>)
    ensures r.Ok? <==> ConfigSecret(cfg).Ok? && Ascii(h + "." + p)
                       && B64Decode(sig) == Some(codec.hmac(ConfigSecret(cfg).value, h + "." + p))
    ensures ConfigSecret(cfg).Ok? && Ascii(h + "." + p) && B64Decode(sig).Some? && r.Err? ==> r.error == BadSignature
  {
    match ConfigSecret(cfg)
    case Err(e) => Err(e)
    case Ok(secret) =>
      if !Ascii(h + "." + p) then Err(BadEncoding)
      else
        match B64Decode(sig)
        case None => Err(BadEncoding)
        case Some(provided) =>
          if codec.hmac(secret, h + "." + p) != provided then Err(BadSignature) else Ok(())
  }

  /** The header's `alg`, or None when the segment does not decode. */
  function HeaderAlg(codec: Codec, h: string): Option<PyValue> {
    match B64Decode(h)
    case None => None
    case Some(hb) =>
      match codec.loads(hb)
      case None => None
      case Some(header) => Some(if "alg" in header then header["alg"] else PNone)
  }

  /** The header stage: the header must decode and name the configured
      algorithm. */
  function CheckHeader(cfg: JwtConfig, codec: Codec, h: string): (r: Result<(), JwtError>)
    ensures r.Ok? <==> ConfigAlgorithm(cfg).Ok? && HeaderAlg(codec, h) == Some(PStr("HS256"))
    ensures ConfigAlgorithm(cfg).Ok? && HeaderAlg(codec, h).Some? && r.Err? ==> r.error == WrongAlgorithm
  {
    match HeaderAlg(codec, h)
    case None => Err(BadEncoding)
    case Some(alg) =>
      match ConfigAlgorithm(cfg)
      case Err(e) => Err(e)
      case Ok(want) => if alg != PStr(want) then Err(WrongAlgorithm) else Ok(())
  }

  /** The expiry a payload carries, when it carries one. */
  function ExpClaim(payload: Claims): PyValue {
    if "exp" in payload then payload["exp"] else PNone
  }

  /** The payload stage: decode it and, when asked, compare its expiry. */
  function ReadPayload(codec: Codec, p: string, verifyExp: bool, now: int, rule: ExpiryRule): (r: Result<Claims, JwtError>)
    ensures r.Ok? ==> B64Decode(p).Some? && codec.loads(B64Decode(p).value) == Some(r.value)
    ensures r.Ok? && verifyExp && !ExpClaim(r.value).PNone? ==>
      SafeInt(ExpClaim(r.value)).Some? && !ExpiredAt(SafeInt(ExpClaim(r.value)).value, now, rule)
    ensures B64Decode(p).Some? && codec.loads(B64Decode(p).value).Some? ==>
      var payload := codec.loads(B64Decode(p).value).value;
      (!verifyExp || ExpClaim(payload).PNone? ==> r == Ok(payload))
      && (verifyExp && SafeInt(ExpClaim(payload)).Some? ==>
            r == if ExpiredAt(SafeInt(ExpClaim(payload)).value, now, rule) then Err(Expired) else Ok(payload))
  {
    match B64Decode(p)
    case None => Err(BadEncoding)
    case Some(pb) =>
      match codec.loads(pb)
      case None => Err(BadEncoding)
      case Some(payload) =>
        var exp := ExpClaim(payload);
        if !verifyExp || exp.PNone? then Ok(payload)
        else
          match SafeInt(exp)
          case None => Err(BadEncoding)
          case Some(e) => if ExpiredAt(e, now, rule) then Err(Expired) else Ok(payload)
  }

  /** `decode_token`: split, then the signature (before anything in the
      token is trusted), then the header's algorithm, then the payload and
      its expiry. */
  function DecodeTokenWith(cfg: JwtConfig, codec: Codec, token: string, verifyExp: bool, now: int, rule: ExpiryRule)
    : (r: Result<Claims, JwtError>)
    ensures SplitToken(token).Err? ==> r == Err(Malformed)
    ensures SplitToken(token).Ok? ==>
      var (h, p, sig) := SplitToken(token).value;
      (CheckSignature(cfg, codec, h, p, sig).Err? ==> r == Err(CheckSignature(cfg, codec, h, p, sig).error))
      && (CheckSignature(cfg, codec, h, p, sig).Ok? && CheckHeader(cfg, codec, h).Err? ==>
            r == Err(CheckHeader(cfg, codec, h).error))
      && (CheckSignature(cfg, codec, h, p, sig).Ok? && CheckHeader(cfg, codec, h).Ok? ==>
            r == ReadPayload(codec, p, verifyExp, now, rule))
  {
    match SplitToken(token)
    case Err(e) => Err(e)
    case Ok((h, p, sig)) =>
      match CheckSignature(cfg, codec, h, p, sig)
      case Err(e) => Err(e)
      case Ok(_) =>
        match CheckHeader(cfg, codec, h)
        case Err(e) => Err(e)
        case Ok(_) => ReadPayload(codec, p, verifyExp, now, rule)
  }

  /** `decode_token` as written: an accepted token's expiry is now or
      later. */
  function DecodeTokenAsWritten(cfg: JwtConfig, codec: Codec, token: string, verifyExp: bool, now: int)
    : (r: Result<Claims, JwtError>)
    ensures r.Ok? && verifyExp && !ExpClaim(r.value).PNone? ==>
      SafeInt(ExpClaim(r.value)).Some? && SafeInt(ExpClaim(r.value)).value >= now
  {
    DecodeTokenWith(cfg, codec, token, verifyExp, now, AcceptAtExp)
  }

  /** `decode_token` with the expiry of section 4.1.4 of RFC 7519: an
      accepted token's expiry is strictly after now. */
  function DecodeToken(cfg: JwtConfig, codec: Codec, token: string, verifyExp: bool, now: int)
    : (r: Result<Claims, JwtError>)
    ensures r.Ok? && verifyExp && !ExpClaim(r.value).PNone? ==>
      SafeInt(ExpClaim(r.value)).Some? && SafeInt(ExpClaim(r.value)).value > now
  {
    DecodeTokenWith(cfg, codec, token, verifyExp, now, RejectAtExp)
  }

  /** Base64url output never holds '.', so an issued token splits back into
      its three segments. */
  lemma NoDotInB64(bs: seq<byte>)
    ensures '.' !in B64Encode(bs) && Ascii(B64Encode(bs))
  {
    var e := B64Encode(bs);
    forall i | 0 <= i < |e| ensures e[i] != '.' && e[i] as int < 128 {
      assert InAlphabet(e[i]);
    }
  }

  /** The signing input of two base64url segments is ASCII. */
  lemma SigningInputAscii(a: seq<byte>, b: seq<byte>)
    ensures Ascii(B64Encode(a) + "." + B64Encode(b))
  {
    var h, p := B64Encode(a), B64Encode(b);
    NoDotInB64(a);
    NoDotInB64(b);
    forall i | 0 <= i < |h + "." + p| ensures (h + "." + p)[i] as int < 128 {
      if i < |h| { assert (h + "." + p)[i] == h[i]; }
      else if i > |h| { assert (h + "." + p)[i] == p[i - |h| - 1]; }
    }
  }

  /** The signature an issued token carries passes the signature stage. */
  lemma IssuedSignatureOk(cfg: JwtConfig, codec: Codec, a: seq<byte>, b: seq<byte>)
    requires ConfigSecret(cfg).Ok?
    ensures var (h, p) := (B64Encode(a), B64Encode(b));
      CheckSignature(cfg, codec, h, p, B64Encode(codec.hmac(ConfigSecret(cfg).value, h + "." + p))).Ok?
  {
    var h, p := B64Encode(a), B64Encode(b);
    SigningInputAscii(a, b);
    B64RoundTrip(codec.hmac(ConfigSecret(cfg).value, h + "." + p));
  }

  /** The header an issued token carries passes the header stage. */
  lemma IssuedHeaderOk(cfg: JwtConfig, codec: Codec)
    requires ConfigAlgorithm(cfg).Ok? && ReadsBack(codec, Header())
    ensures CheckHeader(cfg, codec, B64Encode(codec.dumps(Header()))).Ok?
  {
    B64RoundTrip(codec.dumps(Header()));
    assert HeaderAlg(codec, B64Encode(codec.dumps(Header()))) == Some(PStr("HS256"));
  }

  /** The payload an issued token carries reads back, unexpired. */
  lemma IssuedPayloadOk(codec: Codec, claims: Claims, now: int, rule: ExpiryRule)
    requires ReadsBack(codec, claims)
    requires "exp" in claims ==> claims["exp"] == PNone || (claims["exp"].PInt? && !ExpiredAt(claims["exp"].i, now, rule))
    ensures ReadPayload(codec, B64Encode(codec.dumps(claims)), true, now, rule) == Ok(claims)
  {
    B64RoundTrip(codec.dumps(claims));
  }

  /** A token this module issues decodes to the claims it signed, when the
      JSON codec reads back the header and the claims and the expiry is
      not reached. */
  lemma {:induction false} EncodeDecodeRoundTrip(cfg: JwtConfig, codec: Codec, payload: Claims, expiresIn: Option<int>,
                                                 subject: Option<string>, issuedAt: int, now: int, rule: ExpiryRule)
    requires ConfigOk(cfg)
    requires ReadsBack(codec, Header())
    requires ReadsBack(codec, AssembleClaims(payload, expiresIn, subject, issuedAt))
    requires expiresIn.Some? ==> !ExpiredAt(issuedAt + expiresIn.value, now, rule)
    requires expiresIn.None? && "exp" in payload ==> payload["exp"] == PNone
    ensures EncodeToken(cfg, codec, payload, expiresIn, subject, issuedAt).Ok?
    ensures DecodeTokenWith(cfg, codec, EncodeToken(cfg, codec, payload, expiresIn, subject, issuedAt).value, true, now, rule)
            == Ok(AssembleClaims(payload, expiresIn, subject, issuedAt))
  {
    var claims := AssembleClaims(payload, expiresIn, subject, issuedAt);
    var h := B64Encode(codec.dumps(Header()));
    var p := B64Encode(codec.dumps(claims));
    var sig := B64Encode(codec.hmac(ConfigSecret(cfg).value, h + "." + p));
    NoDotInB64(codec.dumps(Header()));
    NoDotInB64(codec.dumps(claims));
    NoDotInB64(codec.hmac(ConfigSecret(cfg).value, h + "." + p));
    SplitJoinToken(h, p, sig);
    IssuedSignatureOk(cfg, codec, codec.dumps(Header()), codec.dumps(claims));
    IssuedHeaderOk(cfg, codec);
    IssuedPayloadOk(codec, claims, now, rule);
  }

  /** Anything but a matching signature is refused with a signature error,
      whatever the header and payload hold. */
  lemma SignatureCheckedFirst(cfg: JwtConfig, codec: Codec, token: string, verifyExp: bool, now: int, rule: ExpiryRule)
    requires ConfigOk(cfg) && SplitToken(token).Ok?
    requires var (h, p, sig) := SplitToken(token).value;
      Ascii(h + "." + p) && B64Decode(sig).Some? && B64Decode(sig).value != codec.hmac(ConfigSecret(cfg).value, h + "." + p)
    ensures DecodeTokenWith(cfg, codec, token, verifyExp, now, rule) == Err(BadSignature)
  {
  }

  /** A correctly signed token whose header names another algorithm is
      refused. */
  lemma OtherAlgorithmRefused(cfg: JwtConfig, codec: Codec, token: string, verifyExp: bool, now: int, rule: ExpiryRule)
    requires ConfigOk(cfg) && SplitToken(token).Ok?
    requires var (h, p, sig) := SplitToken(token).value;
      Ascii(h + "." + p) && B64Decode(sig) == Some(codec.hmac(ConfigSecret(cfg).value, h + "." + p))
      && B64Decode(h).Some? && codec.loads(B64Decode(h).value).Some?
      && var header := codec.loads(B64Decode(h).value).value;
         "alg" in header && header["alg"] != PStr("HS256")
    ensures DecodeTokenWith(cfg, codec, token, verifyExp, now, rule) == Err(WrongAlgorithm)
  {
  }

  /** As written, a token is still accepted in the very second it expires;
      the corrected comparison refuses it. */
  lemma ExpiryAtNowAccepted(cfg: JwtConfig, codec: Codec, payload: Claims, lifetime: int, issuedAt: int)
    requires ConfigOk(cfg)
    requires ReadsBack(codec, Header())
    requires ReadsBack(codec, AssembleClaims(payload, Some(lifetime), None, issuedAt))
    ensures var token := EncodeToken(cfg, codec, payload, Some(lifetime), None, issuedAt).value;
      DecodeTokenAsWritten(cfg, codec, token, true, issuedAt + lifetime).Ok?
      && DecodeToken(cfg, codec, token, true, issuedAt + lifetime) == Err(Expired)
  {
    EncodeDecodeRoundTrip(cfg, codec, payload, Some(lifetime), None, issuedAt, issuedAt + lifetime, AcceptAtExp);
    var token := EncodeToken(cfg, codec, payload, Some(lifetime), None, issuedAt).value;
    var claims := AssembleClaims(payload, Some(lifetime), None, issuedAt);
    EncodeDecodeRoundTrip(cfg, codec, payload, Some(lifetime), None, issuedAt, issuedAt + lifetime - 1, RejectAtExp);
    assert DecodeTokenWith(cfg, codec, token, false, issuedAt + lifetime, RejectAtExp)
        == DecodeTokenWith(cfg, codec, token, false, issuedAt + lifetime - 1, RejectAtExp);
  }

  /** `validate_token`: decode with the expiry checked, then, when a type is
      expected, the `type` claim must equal it. */
  function ValidateToken(cfg: JwtConfig, codec: Codec, token: string, expectedType: Option<string>, now: int, rule: ExpiryRule)
    : (r: Result<Claims, JwtError>)
    ensures DecodeTokenWith(cfg, codec, token, true, now, rule).Err? ==> r == DecodeTokenWith(cfg, codec, token, true, now, rule)
    ensures r.Ok? ==> r == DecodeTokenWith(cfg, codec, token, true, now, rule)
    ensures r.Ok? && expectedType.Some? && expectedType.value != "" ==>
      "type" in r.value && r.value["type"] == PStr(expectedType.value)
  {
    match DecodeTokenWith(cfg, codec, token, true, now, rule)
    case Err(e) => Err(e)
    case Ok(payload) =>
      var kind := if "type" in payload then payload["type"] else PNone;
      if expectedType.Some? && expectedType.value != "" && kind != PStr(expectedType.value) then Err(WrongType)
      else Ok(payload)
  }

  const DefaultAccessTtl: int := 3600
  const DefaultRefreshTtl: int := 2592000

  /** `get_access_token_ttl` / `get_refresh_token_ttl`: the setting, or the
      default (one hour, thirty days) when it is missing or zero. */
  function Ttl(setting: Option<int>, default: int): (r: int)
    ensures setting.Some? && setting.value != 0 ==> r == setting.value
    ensures setting.None? || setting.value == 0 ==> r == default
  {
    if setting.Some? && setting.value != 0 then setting.value else default
  }

  /** `issue_access_token`: type "access", the caller's extra claims on top,
      the user id as subject and the access lifetime. */
  function IssueAccessToken(cfg: JwtConfig, codec: Codec, userId: int, extra: Claims, now: int): (r: Result<string, JwtError>)
    ensures r.Err? <==> !ConfigOk(cfg)
  {
    EncodeToken(cfg, codec, map["type" := PStr("access")] + extra, Some(Ttl(cfg.accessTtl, DefaultAccessTtl)),
                Some(IntToString(userId)), now)
  }

  /** `issue_refresh_token`: type "refresh" with a random `jti` (a
      parameter here), the extra claims on top, and the refresh lifetime. */
  function IssueRefreshToken(cfg: JwtConfig, codec: Codec, userId: int, extra: Claims, jti: string, now: int)
    : (r: Result<string, JwtError>)
    ensures r.Err? <==> !ConfigOk(cfg)
  {
    EncodeToken(cfg, codec, map["type" := PStr("refresh"), "jti" := PStr(jti)] + extra,
                Some(Ttl(cfg.refreshTtl, DefaultRefreshTtl)), Some(IntToString(userId)), now)
  }

  /** A decoded token validates exactly for the type it carries. */
  lemma ValidateByType(cfg: JwtConfig, codec: Codec, token: string, now: int, rule: ExpiryRule, c: Claims,
                       kind: string, other: string)
    requires DecodeTokenWith(cfg, codec, token, true, now, rule) == Ok(c)
    requires "type" in c && c["type"] == PStr(kind)
    requires other != "" && other != kind
    ensures ValidateToken(cfg, codec, token, Some(kind), now, rule) == Ok(c)
    ensures ValidateToken(cfg, codec, token, Some(other), now, rule) == Err(WrongType)
  {
  }

  /** An access token validates as an access token for its whole lifetime,
      carries the user id as subject, and is refused where a refresh token
      is expected. */
  lemma AccessTokenValidates(cfg: JwtConfig, codec: Codec, userId: int, now: int, later: int)
    requires ConfigOk(cfg)
    requires ReadsBack(codec, Header())
    requires var ttl := Ttl(cfg.accessTtl, DefaultAccessTtl);
      ReadsBack(codec, AssembleClaims(map["type" := PStr("access")], Some(ttl), Some(IntToString(userId)), now))
    requires later < now + Ttl(cfg.accessTtl, DefaultAccessTtl)
    ensures var token := IssueAccessToken(cfg, codec, userId, map[], now).value;
      var v := ValidateToken(cfg, codec, token, Some("access"), later, RejectAtExp);
      v.Ok? && "sub" in v.value && v.value["sub"] == PStr(IntToString(userId))
      && ValidateToken(cfg, codec, token, Some("refresh"), later, RejectAtExp) == Err(WrongType)
  {
    var ttl := Ttl(cfg.accessTtl, DefaultAccessTtl);
    var base: Claims := map["type" := PStr("access")];
    var sub := Some(IntToString(userId));
    AccessIsEncode(cfg, codec, userId, now);
    EncodeDecodeRoundTrip(cfg, codec, base, Some(ttl), sub, now, later, RejectAtExp);
    var token := EncodeToken(cfg, codec, base, Some(ttl), sub, now).value;
    var claims := AssembleClaims(base, Some(ttl), sub, now);
    AccessClaims(ttl, sub.value, now);
    ValidateByType(cfg, codec, token, later, RejectAtExp, claims, "access", "refresh");
  }

  /** With no extra claims, issuing an access token is encoding its type. */
  lemma AccessIsEncode(cfg: JwtConfig, codec: Codec, userId: int, now: int)
    ensures IssueAccessToken(cfg, codec, userId, map[], now)
         == EncodeToken(cfg, codec, map["type" := PStr("access")], Some(Ttl(cfg.accessTtl, DefaultAccessTtl)),
                        Some(IntToString(userId)), now)
  {
    var base: Claims := map["type" := PStr("access")];
    assert base + map[] == base;
  }

  /** The claims of an access token carry its type and its subject. */
  lemma AccessClaims(ttl: int, sub: string, now: int)
    ensures var c := AssembleClaims(map["type" := PStr("access")], Some(ttl), Some(sub), now);
      "type" in c && c["type"] == PStr("access") && "sub" in c && c["sub"] == PStr(sub)
  {
  }
}

=== FILE: listing.dfy ===
/** The query shape every list service follows: filter the rows, order them
    by one column, count the matches, then clamp the page parameters and cut
    the page. */
module Listing {
  import opened Common
  import opened Ordering
  import opened Paging

  /** An unpaged query: the matching rows, ordered. */
  function Ordered<T(!new)>(rows: seq<T>, keep: T -> bool, key: T -> Key, desc: bool): (r: seq<T>)
    ensures multiset(r) == multiset(Filter(rows, keep))
    ensures |r| == |Filter(rows, keep)|
    ensures SortedBy(r, key, desc)
    ensures forall x :: x in r <==> x in rows && keep(x)
  {
    var f := Filter(rows, keep);
    var s := SortBy(f, key, desc);
    assert forall x :: x in s <==> x in multiset(s);
    assert forall x :: x in f <==> x in multiset(f);
    s
  }

  lemma WindowSorted<T>(s: seq<T>, page: int, perPage: int, key: T -> Key, desc: bool)
    requires page >= 1 && perPage >= 1 && SortedBy(s, key, desc)
    ensures SortedBy(Window(s, page, perPage), key, desc)
  {
    var w := Window(s, page, perPage);
    var off := (page - 1) * perPage;
    forall i, j | 0 <= i < j < |w| ensures !Ahead(key(w[j]), key(w[i]), desc) {
      assert w[i] == s[off + i] && w[j] == s[off + j];
    }
  }

  lemma WindowMembers<T>(s: seq<T>, page: int, perPage: int)
    requires page >= 1 && perPage >= 1
    ensures forall x :: x in Window(s, page, perPage) ==> x in s
  {
    var w := Window(s, page, perPage);
    var off := (page - 1) * perPage;
    forall x | x in w ensures x in s {
      var i :| 0 <= i < |w| && w[i] == x;
      assert s[off + i] == x;
    }
  }

  /** A paged query: the page of the ordered matches, with the total count
      of matches and the clamped parameters. */
  function Query<T(!new)>(rows: seq<T>, keep: T -> bool, key: T -> Key, desc: bool,
                          page: int, perPage: int, cap: int): (p: Pagination<T>)
    requires cap >= 1
    ensures p.total == |Filter(rows, keep)|
    ensures p.page == ClampPage(page) && p.perPage == ClampPerPage(perPage, cap)
    ensures |p.items| <= p.perPage && |p.items| <= p.total
    ensures forall i :: 0 <= i < |p.items| ==> p.items[i] in rows && keep(p.items[i])
    ensures SortedBy(p.items, key, desc)
    ensures p.items == Window(Ordered(rows, keep, key, desc), p.page, p.perPage)
  {
    var s := Ordered(rows, keep, key, desc);
    var pg := ClampPage(page);
    var pp := ClampPerPage(perPage, cap);
    var w := Window(s, pg, pp);
    WindowSorted(s, pg, pp, key, desc);
    WindowMembers(s, pg, pp);
    Pagination(w, |Filter(rows, keep)|, pg, pp)
  }

  /** Paging through a query misses no match: the match at position `i` of
      the ordered result is on page `i / perPage + 1`, which is one of the
      counted pages, at position `i % perPage`. */
  lemma QueryRowOnItsPage<T(!new)>(rows: seq<T>, keep: T -> bool, key: T -> Key, desc: bool,
                                  perPage: int, cap: int, i: int)
    requires 1 <= perPage <= cap
    requires 0 <= i < |Ordered(rows, keep, key, desc)|
    ensures var p := Query(rows, keep, key, desc, i / perPage + 1, perPage, cap);
      p.page <= Pages(p.total, p.perPage) && i % perPage < |p.items|
      && p.items[i % perPage] == Ordered(rows, keep, key, desc)[i]
  {
    RowOnItsPage(Ordered(rows, keep, key, desc), perPage, i);
  }
}

=== FILE: moderation.dfy ===
/** The review moderation screens: the query-string filters, the return
    path a form may send the moderator back to, and the approve / reject /
    delete actions with their shortcuts for reviews already in the
    requested state. */
module Moderation {
  import opened Common
  import opened Tables
  import opened Paging
  import opened Ordering
  import opened Listing
  import opened Dates
  import opened Reviews

  const ModerationPageSize: int := 25

  // ---------------------------------------------------------------------------
  // Query-string parsing

  /** `_safe_positive_int`: a positive integer, or None for an absent,
      empty, unparsable or non-positive value. */
  function SafePositiveInt(raw: Option<string>): (r: Option<int>)
    ensures r.Some? ==> r.value > 0 && raw.Some? && ParseInt(raw.value) == r
    ensures r.None? <==> raw.None? || raw.value == "" || ParseInt(raw.value).None? || ParseInt(raw.value).value <= 0
  {
    if raw.None? || raw.value == "" then None
    else
      match ParseInt(raw.value)
      case None => None
      case Some(v) => if v > 0 then Some(v) else None
  }

  /** Every positive number written in decimal reads back as itself. */
  lemma SafePositiveIntOfText(n: int)
    requires n > 0
    ensures SafePositiveInt(Some(IntToString(n))) == Some(n)
  {
    ParseIntOfIntToString(n);
    IntToStringShape(n);
  }

  /** `_parse_rating`: a positive integer from 1 to 5, else None. */
  function ParseRating(raw: Option<string>): (r: Option<int>)
    ensures r.Some? ==> 1 <= r.value <= 5 && SafePositiveInt(raw) == r
    ensures r.None? <==> SafePositiveInt(raw).None? || SafePositiveInt(raw).value > 5
  {
    match SafePositiveInt(raw)
    case None => None
    case Some(v) => if 1 <= v <= 5 then Some(v) else None
  }

  /** The ratings on the scale and nothing else are accepted. */
  lemma ParseRatingScale(n: int)
    ensures ParseRating(Some(IntToString(n))).Some? <==> 1 <= n <= 5
  {
    ParseIntOfIntToString(n);
    IntToStringShape(n);
  }

  /** The filters as the listing screen keeps them (`ReviewFilters`). */
  datatype ModerationFilters = ModerationFilters(
    status: string, siteId: Option<int>, ratingMin: Option<int>, ratingMax: Option<int>,
    createdFrom: string, createdTo: string, userQuery: string,
    orderBy: string, orderDir: string, page: int)

  /** What `_extract_filters` returns: the filters plus the status member
      and the two parsed instants. */
  datatype Extracted = Extracted(filters: ModerationFilters, status: Option<ReviewStatus>,
                                 createdFrom: Option<int>, createdTo: Option<int>)

  function Arg(args: map<string, string>, key: string): Option<string> {
    if key in args then Some(args[key]) else None
  }

  /** `(args.get(key) or default).strip()`. */
  function ArgOr(args: map<string, string>, key: string, default: string): string {
    var raw := Arg(args, key);
    Strip(if raw.None? || raw.value == "" then default else raw.value)
  }

  /** The first status, in declaration order, whose value or name is the
      text. */
  function StatusFromText(text: string): (r: Option<ReviewStatus>)
    ensures r.Some? ==> text == r.value.Value() || text == r.value.Name()
    ensures r.None? <==> forall s: ReviewStatus :: text != s.Value() && text != s.Name()
  {
    if text == Pending.Value() || text == Pending.Name() then Some(Pending)
    else if text == Approved.Value() || text == Approved.Name() then Some(Approved)
    else if text == Rejected.Value() || text == Rejected.Name() then Some(Rejected)
    else None
  }

  /** Every status is found again from its value and from its name. */
  lemma StatusTextRoundTrip(s: ReviewStatus)
    ensures StatusFromText(s.Value()) == Some(s)
    ensures StatusFromText(s.Name()) == Some(s)
  {
  }

  /** The two ratings in order: swapped when both are present and the
      minimum exceeds the maximum. */
  function OrderedRatings(lo: Option<int>, hi: Option<int>): (r: (Option<int>, Option<int>))
    ensures r.0.Some? && r.1.Some? ==> r.0.value <= r.1.value
    ensures r == (lo, hi) || r == (hi, lo)
    ensures {r.0, r.1} == {lo, hi}
  {
    if lo.Some? && hi.Some? && lo.value > hi.value then (hi, lo) else (lo, hi)
  }

  /** The order column: "created_at" or "rating", anything else falls back
      to "created_at". */
  function OrderColumn(args: map<string, string>): (r: string)
    ensures r in {"created_at", "rating"}
    ensures ArgOr(args, "order_by", "created_at") in {"created_at", "rating"} ==> r == ArgOr(args, "order_by", "created_at")
  {
    var v := ArgOr(args, "order_by", "created_at");
    if v in {"created_at", "rating"} then v else "created_at"
  }

  /** The order direction: "asc" or "desc", anything else falls back to
      "desc". */
  function OrderDirection(args: map<string, string>): (r: string)
    ensures r in {"asc", "desc"}
    ensures ArgOr(args, "order_dir", "desc") in {"asc", "desc"} ==> r == ArgOr(args, "order_dir", "desc")
  {
    var v := ArgOr(args, "order_dir", "desc");
    if v in {"asc", "desc"} then v else "desc"
  }

  /** The page: a positive integer, or 1. */
  function PageArg(args: map<string, string>): (r: int)
    ensures r >= 1
    ensures SafePositiveInt(Arg(args, "page")).Some? ==> r == SafePositiveInt(Arg(args, "page")).value
  {
    var p := SafePositiveInt(Arg(args, "page"));
    if p.Some? then p.value else 1
  }

  /** The status member the text names, when the text is not empty. */
  function StatusArg(args: map<string, string>): (r: Option<ReviewStatus>)
    ensures ArgOr(args, "status", "") == "" ==> r.None?
    ensures ArgOr(args, "status", "") != "" ==> r == StatusFromText(ArgOr(args, "status", ""))
  {
    var text := ArgOr(args, "status", "");
    if text == "" then None else StatusFromText(text)
  }

  /** `_extract_filters`. */
  function ExtractFilters(args: map<string, string>): (e: Extracted)
    ensures e.filters.orderBy == OrderColumn(args) && e.filters.orderDir == OrderDirection(args)
    ensures e.filters.page == PageArg(args) && e.filters.siteId == SafePositiveInt(Arg(args, "site_id"))
    ensures (e.filters.ratingMin, e.filters.ratingMax)
      == OrderedRatings(ParseRating(Arg(args, "rating_min")), ParseRating(Arg(args, "rating_max")))
    ensures e.status == StatusArg(args)
    ensures e.status.Some? ==> e.filters.status == e.status.value.Value()
    ensures e.status.None? ==> e.filters.status == ""
    ensures e.filters.userQuery == ArgOr(args, "user", "")
    ensures e.createdFrom == ParseDate(e.filters.createdFrom, false) && e.createdTo == ParseDate(e.filters.createdTo, true)
  {
    var ratings := OrderedRatings(ParseRating(Arg(args, "rating_min")), ParseRating(Arg(args, "rating_max")));
    var status := StatusArg(args);
    var from := ArgOr(args, "created_from", "");
    var to := ArgOr(args, "created_to", "");
    var f := ModerationFilters(
      if status.Some? then status.value.Value() else "",
      SafePositiveInt(Arg(args, "site_id")), ratings.0, ratings.1,
      from, to, ArgOr(args, "user", ""), OrderColumn(args), OrderDirection(args), PageArg(args));
    Extracted(f, status, ParseDate(from, false), ParseDate(to, true))
  }

  /** Whatever the query string holds, the extracted filters are in range:
      known order column and direction, a page of at least 1, and rating
      bounds that do not cross. */
  lemma FiltersInRange(args: map<string, string>)
    ensures var f := ExtractFilters(args).filters;
      && f.orderBy in {"created_at", "rating"} && f.orderDir in {"asc", "desc"} && f.page >= 1
      && (f.ratingMin.Some? && f.ratingMax.Some? ==> f.ratingMin.value <= f.ratingMax.value)
      && (f.ratingMin.Some? ==> 1 <= f.ratingMin.value <= 5)
      && (f.ratingMax.Some? ==> 1 <= f.ratingMax.value <= 5)
  {
  }

  /** An unknown status text filters nothing: it is blanked and no status
      reaches the service. */
  lemma UnknownStatusIgnored(args: map<string, string>)
    requires StatusFromText(ArgOr(args, "status", "")).None?
    ensures ExtractFilters(args).status.None? && ExtractFilters(args).filters.status == ""
  {
  }

  /** The service filter the index route passes on: an empty user text
      becomes None. */
  function ServiceFilter(e: Extracted): (f: ReviewFilter)
    ensures f.status == e.status && f.siteId == e.filters.siteId
    ensures f.ratingMin == e.filters.ratingMin && f.ratingMax == e.filters.ratingMax
    ensures f.createdFrom == e.createdFrom && f.createdTo == e.createdTo
    ensures f.userQuery.Some? <==> e.filters.userQuery != ""
  {
    ReviewFilter(e.status, e.filters.siteId, e.filters.ratingMin, e.filters.ratingMax,
                 e.createdFrom, e.createdTo,
                 if e.filters.userQuery == "" then None else Some(e.filters.userQuery))
  }

  /** The moderation index: the extracted filters, 25 reviews per page. */
  function ModerationIndex(t: Table<Review>, sites: map<int, string>, users: map<int, Person>,
                           covers: map<int, (string, string)>, args: map<string, string>)
    : (p: Pagination<Presenter>)
    requires Valid(t)
    ensures p.perPage == ModerationPageSize && p.page == ExtractFilters(args).filters.page
    ensures forall i :: 0 <= i < |p.items| ==>
      p.items[i].id in t.rows && Matches(sites, users, ServiceFilter(ExtractFilters(args)), (p.items[i].id, p.items[i].review))
    ensures forall i :: 0 <= i < |p.items| ==>
      var rmin := ExtractFilters(args).filters.ratingMin;
      rmin.Some? ==> p.items[i].review.rating >= rmin.value
    ensures var e := ExtractFilters(args);
      p.total == |Filter(Rows(t), MatchesRow(sites, users, ServiceFilter(e)))|
      && p.items == Presenters(sites, users, covers,
           Window(Ordered(Rows(t), MatchesRow(sites, users, ServiceFilter(e)), ReviewKey(ReviewColumnOf(e.filters.orderBy)),
                          e.filters.orderDir != "asc"), p.page, p.perPage))
  {
    var e := ExtractFilters(args);
    PaginateReviews(t, sites, users, covers, ServiceFilter(e), e.filters.page, ModerationPageSize,
                    e.filters.orderBy, e.filters.orderDir)
  }

  // ---------------------------------------------------------------------------
  // Return paths

  /** A target a browser leaves the site for: a protocol-relative `//host`
      or its backslash spelling `/\host`. */
  predicate LeavesSite(path: string) {
    |path| >= 2 && path[0] == '/' && (path[1] == '/' || path[1] == '\\')
  }

  /** `_safe_return_path` as written: any text starting with "/". */
  function SafeReturnPathAsWritten(raw: Option<string>): (r: Option<string>)
    ensures r.Some? <==> raw.Some? && StartsWith(raw.value, "/")
    ensures r.Some? ==> r == raw
  {
    if raw.None? || raw.value == "" then None
    else if StartsWith(raw.value, "/") then raw
    else None
  }

  /** The check as written lets a protocol-relative URL through, so the
      redirect can leave the site. */
  lemma AsWrittenAcceptsOtherHost()
    ensures SafeReturnPathAsWritten(Some("//evil.example/x")) == Some("//evil.example/x")
    ensures LeavesSite("//evil.example/x")
  {
    assert StartsWith("//evil.example/x", "/");
  }

  /** The intended check: a path on this site, starting with one "/". */
  function SafeReturnPath(raw: Option<string>): (r: Option<string>)
    ensures r.Some? <==> raw.Some? && StartsWith(raw.value, "/") && !LeavesSite(raw.value)
    ensures r.Some? ==> r == raw
  {
    if raw.None? || raw.value == "" then None
    else if StartsWith(raw.value, "/") && !LeavesSite(raw.value) then raw
    else None
  }

  /** The corrected check refuses exactly the paths that leave the site and
      agrees with the written one everywhere else. */
  lemma CorrectedReturnPath(raw: Option<string>)
    ensures SafeReturnPath(raw).Some? ==> !LeavesSite(SafeReturnPath(raw).value)
    ensures raw.Some? && !LeavesSite(raw.value) ==> SafeReturnPath(raw) == SafeReturnPathAsWritten(raw)
    ensures raw.Some? && LeavesSite(raw.value) ==> SafeReturnPath(raw).None?
  {
  }

  datatype Redirect = ToPath(path: string) | ToDefault(url: string) | ToIndex

  /** `_redirect_back`: the safe return path, else the default, else the
      listing. */
  function RedirectBack(returnTo: Option<string>, default: Option<string>): (r: Redirect)
    ensures r.ToPath? <==> SafeReturnPath(returnTo).Some?
    ensures r.ToPath? ==> Some(r.path) == returnTo && !LeavesSite(r.path)
    ensures r.ToDefault? ==> default.Some? && r.url == default.value
  {
    var target := SafeReturnPath(returnTo);
    if target.Some? then ToPath(target.value)
    else if default.Some? && default.value != "" then ToDefault(default.value)
    else ToIndex
  }

  // ---------------------------------------------------------------------------
  // Moderation actions

  datatype Outcome = NoSuchReview | AlreadyDone | Done | Failed(message: string)

  /** The first (and only) message the reason validation produces. */
  function ReasonMessage(e: ReasonError): string {
    match e
    case ReasonRequired => "El motivo de rechazo es obligatorio."
    case ReasonTooLong => "El motivo no puede superar los " + IntToString(MaxRejectionLength) + " caracteres."
  }

  /** `approve`: an approved review is left alone; any other is approved. */
  function Approve(t: Table<Review>, id: int): (r: (Table<Review>, Outcome))
    requires ReviewsOk(t)
    ensures ReviewsOk(r.0) && r.0.rows.Keys == t.rows.Keys
    ensures id !in t.rows ==> r == (t, NoSuchReview)
    ensures id in t.rows && t.rows[id].status == Approved ==> r == (t, AlreadyDone)
    ensures id in t.rows && t.rows[id].status != Approved ==>
      r.1 == Done && r.0.rows[id] == ApproveReview(t.rows[id])
    ensures forall k :: k in t.rows && k != id ==> r.0.rows[k] == t.rows[k]
    ensures id in t.rows ==> r.0.rows[id].status == Approved
  {
    if id !in t.rows then (t, NoSuchReview)
    else if t.rows[id].status == Approved then (t, AlreadyDone)
    else (SaveReview(t, id, ApproveReview(t.rows[id])), Done)
  }

  /** Approving twice is approving once, and the shortcut agrees with what
      the service would have done. */
  lemma ApproveIdempotent(t: Table<Review>, id: int)
    requires ReviewsOk(t)
    ensures Approve(Approve(t, id).0, id).0 == Approve(t, id).0
    ensures id in t.rows ==> Approve(t, id).0.rows == SaveReview(t, id, ApproveReview(t.rows[id])).rows
  {
    if id in t.rows && t.rows[id].status == Approved {
      ApproveApprovedIsNoOp(t.rows[id]);
      assert t.rows[id := ApproveReview(t.rows[id])] == t.rows;
    }
  }

  /** `reject`: a rejected review is left alone; otherwise the stripped
      reason is validated, and either the review is rejected with it or the
      table is untouched and the first error is reported. */
  function Reject(t: Table<Review>, id: int, reason: Option<string>): (r: (Table<Review>, Outcome))
    requires ReviewsOk(t)
    ensures ReviewsOk(r.0) && r.0.rows.Keys == t.rows.Keys
    ensures id !in t.rows ==> r == (t, NoSuchReview)
    ensures id in t.rows && t.rows[id].status == Rejected ==> r == (t, AlreadyDone)
    ensures r.1.Failed? ==> r.0 == t && !ValidReason(CleanStr(reason))
    ensures id in t.rows && t.rows[id].status != Rejected && ValidReason(CleanStr(reason)) ==>
      r.1 == Done && r.0.rows[id].status == Rejected && r.0.rows[id].rejectionReason == Some(CleanStr(reason))
    ensures forall k :: k in t.rows && k != id ==> r.0.rows[k] == t.rows[k]
  {
    if id !in t.rows then (t, NoSuchReview)
    else if t.rows[id].status == Rejected then (t, AlreadyDone)
    else
      var cleaned := Some(CleanStr(reason));
      StripOfStripped(CleanStr(reason));
      var (u, err) := RejectReview(t.rows[id], cleaned);
      if err.Some? then (t, Failed(ReasonMessage(err.value)))
      else (SaveReview(t, id, u), Done)
  }

  /** Once rejected, a review keeps its first reason: a second rejection,
      with any reason, changes nothing. */
  lemma RejectKeepsFirstReason(t: Table<Review>, id: int, first: Option<string>, second: Option<string>)
    requires ReviewsOk(t) && id in t.rows
    requires Reject(t, id, first).1 == Done
    ensures Reject(Reject(t, id, first).0, id, second) == (Reject(t, id, first).0, AlreadyDone)
  {
  }

  /** `destroy`: deletes an existing review. */
  function Destroy(t: Table<Review>, id: int): (r: (Table<Review>, Outcome))
    requires ReviewsOk(t)
    ensures ReviewsOk(r.0)
    ensures id !in t.rows ==> r == (t, NoSuchReview)
    ensures id in t.rows ==> r.1 == Done && r.0.rows.Keys == t.rows.Keys - {id}
    ensures forall k :: k in r.0.rows ==> k in t.rows && r.0.rows[k] == t.rows[k]
  {
    if id !in t.rows then (t, NoSuchReview) else (DeleteReview(t, id), Done)
  }
}

=== FILE: ordering.dfy ===
/** Ordering of query results. Every listing in the application sorts by one
    column, either through SQL `ORDER BY` or Python's `sorted`; both are
    modelled by one stable sort over a sort key. Python's
    `sorted(..., reverse=True)` keeps equal elements in their original order,
    and so does the descending mode here. */
module Ordering {

  /** A sortable column value: timestamps and counters are integers, ratings
      may be fractional, names are text compared code point by code point. */
  datatype Key = KInt(i: int) | KReal(r: real) | KText(t: string)

  /** Lexicographic order on code points, as Python and a binary collation
      compare strings. */
  predicate TextLt(a: string, b: string) {
    if |a| == 0 then |b| > 0
    else if |b| == 0 then false
    else a[0] < b[0] || (a[0] == b[0] && TextLt(a[1..], b[1..]))
  }

  lemma {:induction false} TextLtIrreflexive(a: string)
    ensures !TextLt(a, a)
  {
    if |a| > 0 {
      TextLtIrreflexive(a[1..]);
    }
  }

  lemma {:induction false} TextLtTransitive(a: string, b: string, c: string)
    requires TextLt(a, b) && TextLt(b, c)
    ensures TextLt(a, c)
  {
    if |a| > 0 && |b| > 0 && |c| > 0 && a[0] == b[0] && b[0] == c[0] {
      TextLtTransitive(a[1..], b[1..], c[1..]);
    }
  }

  lemma {:induction false} TextLtTotal(a: string, b: string)
    ensures a == b || TextLt(a, b) || TextLt(b, a)
  {
    if |a| > 0 && |b| > 0 && a[0] == b[0] {
      TextLtTotal(a[1..], b[1..]);
      if a[1..] == b[1..] {
        assert a == [a[0]] + a[1..] && b == [b[0]] + b[1..];
      }
    }
  }

  function Rank(k: Key): nat {
    match k
    case KInt(_) => 0
    case KReal(_) => 1
    case KText(_) => 2
  }

  /** Strict order on keys. Keys of different kinds never meet in one
      listing; they are ordered by kind only to make the order total. */
  predicate KeyLt(a: Key, b: Key) {
    if Rank(a) != Rank(b) then Rank(a) < Rank(b)
    else match a
      case KInt(x) => x < b.i
      case KReal(x) => x < b.r
      case KText(x) => TextLt(x, b.t)
  }

  lemma KeyLtIrreflexive(a: Key)
    ensures !KeyLt(a, a)
  {
    if a.KText? {
      TextLtIrreflexive(a.t);
    }
  }

  lemma KeyLtTransitive(a: Key, b: Key, c: Key)
    requires KeyLt(a, b) && KeyLt(b, c)
    ensures KeyLt(a, c)
  {
    if a.KText? && b.KText? && c.KText? {
      TextLtTransitive(a.t, b.t, c.t);
    }
  }

  lemma KeyLtTotal(a: Key, b: Key)
    ensures a == b || KeyLt(a, b) || KeyLt(b, a)
  {
    if a.KText? && b.KText? {
      TextLtTotal(a.t, b.t);
    }
  }

  /** `a` must be listed strictly before `b` in the requested direction. */
  predicate Ahead(a: Key, b: Key, desc: bool) {
    if desc then KeyLt(b, a) else KeyLt(a, b)
  }

  lemma AheadFacts(a: Key, b: Key, c: Key, desc: bool)
    ensures !Ahead(a, a, desc)
    ensures Ahead(a, b, desc) && Ahead(b, c, desc) ==> Ahead(a, c, desc)
    ensures a == b || Ahead(a, b, desc) || Ahead(b, a, desc)
    ensures Ahead(a, b, desc) ==> !Ahead(b, a, desc)
  {
    KeyLtIrreflexive(a);
    KeyLtTotal(a, b);
    if KeyLt(a, b) && KeyLt(b, c) { KeyLtTransitive(a, b, c); }
    if KeyLt(c, b) && KeyLt(b, a) { KeyLtTransitive(c, b, a); }
    if KeyLt(a, b) && KeyLt(b, a) { KeyLtTransitive(a, b, a); }
  }

  /** No element is listed after one it should precede. */
  predicate SortedBy<T>(xs: seq<T>, key: T -> Key, desc: bool) {
    forall i, j :: 0 <= i < j < |xs| ==> !Ahead(key(xs[j]), key(xs[i]), desc)
  }

  /** The elements whose key equals `k`, in their order in `xs`. */
  function WithKey<T>(xs: seq<T>, key: T -> Key, k: Key): (r: seq<T>)
    ensures |r| <= |xs|
  {
    if |xs| == 0 then []
    else WithKey(xs[..|xs| - 1], key, k) + (if key(xs[|xs| - 1]) == k then [xs[|xs| - 1]] else [])
  }

  /** Stable insertion: `x` goes after every element it does not precede. */
  function Insert<T>(x: T, s: seq<T>, key: T -> Key, desc: bool): (r: seq<T>)
    ensures |r| == |s| + 1
    ensures multiset(r) == multiset(s) + multiset{x}
  {
    if |s| == 0 then [x]
    else if Ahead(key(x), key(s[0]), desc) then [x] + s
    else
      var rest := Insert(x, s[1..], key, desc);
      assert s == [s[0]] + s[1..];
      [s[0]] + rest
  }

  lemma {:induction false} InsertSorted<T>(x: T, s: seq<T>, key: T -> Key, desc: bool)
    requires SortedBy(s, key, desc)
    ensures SortedBy(Insert(x, s, key, desc), key, desc)
  {
    if |s| == 0 {
    } else if Ahead(key(x), key(s[0]), desc) {
      InsertFrontSorted(x, s, key, desc);
    } else {
      InsertSorted(x, s[1..], key, desc);
      InsertLaterSorted(x, s, key, desc);
    }
  }

  /** An element ahead of a sorted list's head may go in front of it. */
  lemma InsertFrontSorted<T>(x: T, s: seq<T>, key: T -> Key, desc: bool)
    requires SortedBy(s, key, desc) && |s| > 0 && Ahead(key(x), key(s[0]), desc)
    ensures SortedBy([x] + s, key, desc)
  {
    var r := [x] + s;
    forall i, j | 0 <= i < j < |r| ensures !Ahead(key(r[j]), key(r[i]), desc) {
      if i == 0 {
        AheadFacts(key(r[j]), key(s[0]), key(x), desc);
        AheadFacts(key(r[j]), key(x), key(s[0]), desc);
        assert r[j] == s[j - 1];
        if j - 1 > 0 {
          assert !Ahead(key(s[j - 1]), key(s[0]), desc);
        }
      } else {
        assert r[i] == s[i - 1] && r[j] == s[j - 1];
      }
    }
  }

  /** Otherwise the head stays in front of the sorted insertion into the
      tail. */
  lemma InsertLaterSorted<T>(x: T, s: seq<T>, key: T -> Key, desc: bool)
    requires SortedBy(s, key, desc) && |s| > 0 && !Ahead(key(x), key(s[0]), desc)
    requires SortedBy(Insert(x, s[1..], key, desc), key, desc)
    ensures SortedBy(Insert(x, s, key, desc), key, desc)
  {
    var rest := Insert(x, s[1..], key, desc);
    var r := [s[0]] + rest;
    assert Insert(x, s, key, desc) == r;
    NoneAheadOfHead(x, s, key, desc);
    forall i, j | 0 <= i < j < |r| ensures !Ahead(key(r[j]), key(r[i]), desc) {
      assert r[j] == rest[j - 1];
      if i > 0 {
        assert r[i] == rest[i - 1];
      }
    }
  }

  /** Nothing inserted into the tail goes ahead of the head it stays
      behind. */
  lemma NoneAheadOfHead<T>(x: T, s: seq<T>, key: T -> Key, desc: bool)
    requires SortedBy(s, key, desc) && |s| > 0 && !Ahead(key(x), key(s[0]), desc)
    ensures forall e :: e in Insert(x, s[1..], key, desc) ==> !Ahead(key(e), key(s[0]), desc)
  {
    var rest := Insert(x, s[1..], key, desc);
    forall e | e in rest ensures !Ahead(key(e), key(s[0]), desc) {
      assert e in multiset(rest);
      assert e in multiset(s[1..]) || e == x;
      if e != x {
        var m :| 0 <= m < |s[1..]| && s[1..][m] == e;
        assert s[m + 1] == e;
      }
    }
  }

  /** Stable sort: `sorted(xs, key=key, reverse=desc)`. */
  function SortBy<T>(xs: seq<T>, key: T -> Key, desc: bool): (r: seq<T>)
    ensures |r| == |xs|
    ensures multiset(r) == multiset(xs)
    ensures SortedBy(r, key, desc)
  {
    if |xs| == 0 then []
    else
      var init := SortBy(xs[..|xs| - 1], key, desc);
      InsertSorted(xs[|xs| - 1], init, key, desc);
      LastSplit(xs);
      Insert(xs[|xs| - 1], init, key, desc)
  }

  /** A non-empty sequence's multiset is its front's plus its last element. */
  lemma LastSplit<T>(xs: seq<T>)
    requires |xs| > 0
    ensures multiset(xs) == multiset(xs[..|xs| - 1]) + multiset{xs[|xs| - 1]}
  {
    assert xs == xs[..|xs| - 1] + [xs[|xs| - 1]];
  }

  /** Sorting keeps exactly the elements it was given. */
  lemma SortByMembers<T>(xs: seq<T>, key: T -> Key, desc: bool)
    ensures forall x :: x in SortBy(xs, key, desc) <==> x in xs
  {
    var r := SortBy(xs, key, desc);
    forall x ensures x in r <==> x in xs {
      assert x in r <==> x in multiset(r);
      assert x in xs <==> x in multiset(xs);
    }
  }

  /** Inserting into a sorted list puts `x` after every element of equal key,
      so elements of one key stay in arrival order. */
  lemma {:induction false} InsertWithKey<T>(x: T, s: seq<T>, key: T -> Key, desc: bool, k: Key)
    requires SortedBy(s, key, desc)
    ensures WithKey(Insert(x, s, key, desc), key, k)
         == WithKey(s, key, k) + (if key(x) == k then [x] else [])
  {
    if |s| == 0 {
      assert Insert(x, s, key, desc) == [x] + s;
      WithKeyPrepend(x, s, key, k);
    } else if Ahead(key(x), key(s[0]), desc) {
      InsertWithKeyFront(x, s, key, desc, k);
    } else {
      var rest := Insert(x, s[1..], key, desc);
      SortedTail(s, key, desc);
      InsertWithKey(x, s[1..], key, desc, k);
      InsertWithKeyStep(x, s, rest, key, k);
    }
  }

  lemma SortedTail<T>(s: seq<T>, key: T -> Key, desc: bool)
    requires |s| > 0 && SortedBy(s, key, desc)
    ensures SortedBy(s[1..], key, desc)
  {
    forall i, j | 0 <= i < j < |s[1..]|
      ensures !Ahead(key(s[1..][j]), key(s[1..][i]), desc) {
      assert s[1..][j] == s[j + 1] && s[1..][i] == s[i + 1];
    }
  }

  lemma InsertWithKeyFront<T>(x: T, s: seq<T>, key: T -> Key, desc: bool, k: Key)
    requires SortedBy(s, key, desc)
    requires |s| > 0 && Ahead(key(x), key(s[0]), desc)
    ensures WithKey([x] + s, key, k) == WithKey(s, key, k) + (if key(x) == k then [x] else [])
  {
    forall j | 0 <= j < |s| ensures key(s[j]) != key(x) {
      if j > 0 { assert !Ahead(key(s[j]), key(s[0]), desc); }
      AheadFacts(key(x), key(s[0]), key(s[j]), desc);
      AheadFacts(key(s[j]), key(x), key(s[0]), desc);
    }
    WithKeyPrepend(x, s, key, k);
    if key(x) == k {
      WithKeyAbsent(s, key, k);
    }
  }

  lemma InsertWithKeyStep<T>(x: T, s: seq<T>, rest: seq<T>, key: T -> Key, k: Key)
    requires |s| > 0
    requires WithKey(rest, key, k) == WithKey(s[1..], key, k) + (if key(x) == k then [x] else [])
    ensures WithKey([s[0]] + rest, key, k) == WithKey(s, key, k) + (if key(x) == k then [x] else [])
  {
    var a := if key(s[0]) == k then [s[0]] else [];
    var b := if key(x) == k then [x] else [];
    calc {
      WithKey([s[0]] + rest, key, k);
      { WithKeyPrepend(s[0], rest, key, k); }
      a + WithKey(rest, key, k);
      a + (WithKey(s[1..], key, k) + b);
      (a + WithKey(s[1..], key, k)) + b;
      { WithKeyFirst(s, key, k); }
      WithKey(s, key, k) + b;
    }
  }

  lemma WithKeyFirst<T>(s: seq<T>, key: T -> Key, k: Key)
    requires |s| > 0
    ensures WithKey(s, key, k) == (if key(s[0]) == k then [s[0]] else []) + WithKey(s[1..], key, k)
  {
    assert [s[0]] + s[1..] == s;
    WithKeyPrepend(s[0], s[1..], key, k);
  }

  lemma {:induction false} WithKeyAbsent<T>(s: seq<T>, key: T -> Key, k: Key)
    requires forall j :: 0 <= j < |s| ==> key(s[j]) != k
    ensures WithKey(s, key, k) == []
  {
    if |s| > 0 {
      WithKeyAbsent(s[..|s| - 1], key, k);
    }
  }

  lemma {:induction false} WithKeyPrepend<T>(x: T, s: seq<T>, key: T -> Key, k: Key)
    ensures WithKey([x] + s, key, k) == (if key(x) == k then [x] else []) + WithKey(s, key, k)
  {
    var xs := [x] + s;
    if |s| > 0 {
      assert xs[..|xs| - 1] == [x] + s[..|s| - 1];
      assert xs[|xs| - 1] == s[|s| - 1];
      WithKeyPrepend(x, s[..|s| - 1], key, k);
    } else {
      assert xs[..|xs| - 1] == [];
    }
  }

  /** Stability: among elements sharing a key, the sorted list keeps the
      order of the input. Together with SortBy's contract this pins the
      result down completely. */
  lemma {:induction false} SortStable<T>(xs: seq<T>, key: T -> Key, desc: bool, k: Key)
    ensures WithKey(SortBy(xs, key, desc), key, k) == WithKey(xs, key, k)
  {
    if |xs| > 0 {
      var init := SortBy(xs[..|xs| - 1], key, desc);
      SortStable(xs[..|xs| - 1], key, desc, k);
      InsertWithKey(xs[|xs| - 1], init, key, desc, k);
    }
  }

  /** A WHERE clause or list comprehension: the elements satisfying `p`,
      in their original order. */
  function Filter<T(!new)>(xs: seq<T>, p: T -> bool): (r: seq<T>)
    ensures |r| <= |xs|
    ensures forall i :: 0 <= i < |r| ==> p(r[i])
    ensures forall x :: x in r <==> x in xs && p(x)
  {
    if |xs| == 0 then []
    else
      var rest := Filter(xs[1..], p);
      assert forall x :: x in xs <==> x == xs[0] || x in xs[1..];
      (if p(xs[0]) then [xs[0]] else []) + rest
  }

  lemma {:induction false} FilterKeepsAll<T(!new)>(xs: seq<T>, p: T -> bool)
    requires forall i :: 0 <= i < |xs| ==> p(xs[i])
    ensures Filter(xs, p) == xs
  {
    if |xs| > 0 {
      FilterKeepsAll(xs[1..], p);
      assert xs == [xs[0]] + xs[1..];
    }
  }

  lemma {:induction false} FilterKeepsNone<T(!new)>(xs: seq<T>, p: T -> bool)
    requires forall i :: 0 <= i < |xs| ==> !p(xs[i])
    ensures Filter(xs, p) == []
  {
    if |xs| > 0 {
      FilterKeepsNone(xs[1..], p);
    }
  }

  /** Filtering a concatenation filters each part. */
  lemma {:induction false} FilterAppend<T(!new)>(a: seq<T>, b: seq<T>, p: T -> bool)
    ensures Filter(a + b, p) == Filter(a, p) + Filter(b, p)
    decreases |a|
  {
    if |a| > 0 {
      var h := if p(a[0]) then [a[0]] else [];
      assert (a + b)[1..] == a[1..] + b;
      calc {
        Filter(a + b, p);
        h + Filter(a[1..] + b, p);
        { FilterAppend(a[1..], b, p); }
        h + (Filter(a[1..], p) + Filter(b, p));
        (h + Filter(a[1..], p)) + Filter(b, p);
        Filter(a, p) + Filter(b, p);
      }
    } else {
      assert a + b == b;
    }
  }

  /** `a` is `b` with some elements left out, the rest in the same order. */
  ghost predicate Subsequence<T>(a: seq<T>, b: seq<T>)
    decreases |b|
  {
    if |a| == 0 then true
    else if |b| == 0 then false
    else (a[0] == b[0] && Subsequence(a[1..], b[1..])) || Subsequence(a, b[1..])
  }

  lemma {:induction false} FilterSubsequence<T(!new)>(xs: seq<T>, p: T -> bool)
    ensures Subsequence(Filter(xs, p), xs)
  {
    if |xs| > 0 {
      FilterSubsequence(xs[1..], p);
      var r := Filter(xs, p);
      if p(xs[0]) {
        assert r[1..] == Filter(xs[1..], p);
      } else {
        assert r == Filter(xs[1..], p);
      }
    }
  }

  lemma {:induction false} SubsequenceTransitive<T>(a: seq<T>, b: seq<T>, c: seq<T>)
    requires Subsequence(a, b) && Subsequence(b, c)
    ensures Subsequence(a, c)
    decreases |c|
  {
    if |a| > 0 && |c| > 0 {
      if |b| > 0 && b[0] == c[0] && Subsequence(b[1..], c[1..]) {
        if a[0] == b[0] && Subsequence(a[1..], b[1..]) {
          SubsequenceTransitive(a[1..], b[1..], c[1..]);
        } else {
          SubsequenceTransitive(a, b[1..], c[1..]);
        }
      } else {
        SubsequenceTransitive(a, b, c[1..]);
      }
    }
  }

  // ---------------------------------------------------------------------------
  // Lists without repeats

  /** No element occurs twice. */
  predicate Distinct<T(==)>(xs: seq<T>) {
    forall i, j :: 0 <= i < j < |xs| ==> xs[i] != xs[j]
  }

  /** A list without repeats holds each element at most once. */
  lemma {:induction false} DistinctCount<T>(xs: seq<T>, x: T)
    requires Distinct(xs)
    ensures multiset(xs)[x] <= 1
  {
    if |xs| > 0 {
      DistinctCount(xs[1..], x);
      assert xs == [xs[0]] + xs[1..];
      assert xs[0] !in xs[1..];
    }
  }

  /** ... and a list holding each element at most once has no repeats. */
  lemma {:induction false} CountDistinct<T>(xs: seq<T>)
    requires forall x :: multiset(xs)[x] <= 1
    ensures Distinct(xs)
  {
    if |xs| > 0 {
      var t := xs[1..];
      assert xs == [xs[0]] + t;
      assert multiset(xs) == multiset{xs[0]} + multiset(t);
      assert forall x :: multiset(t)[x] <= multiset(xs)[x];
      CountDistinct(t);
      assert xs[0] !in multiset(t);
      forall i, j | 0 <= i < j < |xs| ensures xs[i] != xs[j] {
        assert xs[j] == t[j - 1];
        if i > 0 {
          assert xs[i] == t[i - 1];
        }
      }
    }
  }
}

=== FILE: pagination.dfy ===
/** Page arithmetic shared by every listing: the `Pagination` container,
    the page/per_page clamp each service repeats, the SQL LIMIT/OFFSET window
    and the in-memory Python slice used by the public API. */
module Paging {
  import opened Common

  /** The container built by every list service: the rows of one page, the
      total number of matches and the page parameters actually used. */
  datatype Pagination<T> = Pagination(items: seq<T>, total: int, page: int, perPage: int)

  /** Number of pages: 0 when per_page is not positive, otherwise the
      ceiling of total / per_page computed with floor division. */
  function Pages(total: int, perPage: int): (n: int)
    ensures perPage <= 0 ==> n == 0
    ensures perPage > 0 && total <= 0 ==> n <= 0
    ensures perPage > 0 && total == 0 ==> n == 0
    ensures perPage > 0 && total > 0 ==> n >= 1 && (n - 1) * perPage < total <= n * perPage
  {
    if perPage <= 0 then 0
    else
      var n := (total + perPage - 1) / perPage;
      CeilingDivision(total, perPage, n);
      n
  }

  lemma CeilingDivision(total: int, perPage: int, n: int)
    requires perPage > 0 && n == (total + perPage - 1) / perPage
    ensures total <= 0 ==> n <= 0
    ensures total == 0 ==> n == 0
    ensures total > 0 ==> n >= 1 && (n - 1) * perPage < total <= n * perPage
  {
    var m := total + perPage - 1;
    assert n * perPage <= m < n * perPage + perPage;
    if total == 0 {
      assert 0 <= m < perPage;
    }
    if total > 0 {
      assert m >= perPage;
    }
  }

  function PagesOf<T>(p: Pagination<T>): int { Pages(p.total, p.perPage) }

  predicate HasPrev<T>(p: Pagination<T>) { p.page > 1 }

  predicate HasNext<T>(p: Pagination<T>) { p.page < PagesOf(p) }

  /** `max(page, 1)`. */
  function ClampPage(page: int): (r: int)
    ensures r >= 1
    ensures page >= 1 ==> r == page
    ensures page < 1 ==> r == 1
  {
    Max(page, 1)
  }

  /** `max(1, min(per_page, cap))`: 25 for most listings, 50 for users. */
  function ClampPerPage(perPage: int, cap: int): (r: int)
    requires cap >= 1
    ensures 1 <= r <= cap
    ensures 1 <= perPage <= cap ==> r == perPage
    ensures perPage < 1 ==> r == 1
    ensures perPage > cap ==> r == cap
  {
    Max(1, Min(perPage, cap))
  }

  /** SQL `LIMIT per_page OFFSET (page - 1) * per_page` on the ordered rows. */
  function Window<T>(rows: seq<T>, page: int, perPage: int): (r: seq<T>)
    requires page >= 1 && perPage >= 1
    ensures (page - 1) * perPage >= 0
    ensures |r| <= perPage && |r| <= |rows|
    ensures |r| > 0 ==> (page - 1) * perPage + |r| <= |rows|
    ensures (page - 1) * perPage >= |rows| ==> |r| == 0
    ensures (page - 1) * perPage < |rows| ==> |r| == Min(perPage, |rows| - (page - 1) * perPage)
    ensures forall i :: 0 <= i < |r| ==> r[i] == rows[(page - 1) * perPage + i]
  {
    var offset := (page - 1) * perPage;
    assert offset >= 0 by { assert page - 1 >= 0; }
    if offset >= |rows| then [] else rows[offset..Min(offset + perPage, |rows|)]
  }

  /** The common shape of a list service: count the matches, clamp the page
      parameters and cut the window. */
  function Paginate<T>(rows: seq<T>, page: int, perPage: int, cap: int): (p: Pagination<T>)
    requires cap >= 1
    ensures p.total == |rows| && p.page == ClampPage(page) && p.perPage == ClampPerPage(perPage, cap)
    ensures 1 <= p.perPage <= cap && p.page >= 1
    ensures |p.items| <= p.perPage
    ensures (p.page - 1) * p.perPage >= 0
    ensures |p.items| > 0 ==> (p.page - 1) * p.perPage + |p.items| <= |rows|
    ensures forall i :: 0 <= i < |p.items| ==> p.items[i] == rows[(p.page - 1) * p.perPage + i]
  {
    var pg := ClampPage(page);
    var pp := ClampPerPage(perPage, cap);
    Pagination(Window(rows, pg, pp), |rows|, pg, pp)
  }

  /** Every row lies on exactly the page its index predicts, and that page
      is one of the counted pages. */
  lemma RowOnItsPage<T>(rows: seq<T>, perPage: int, i: int)
    requires perPage >= 1 && 0 <= i < |rows|
    ensures 1 <= i / perPage + 1 <= Pages(|rows|, perPage)
    ensures var w := Window(rows, i / perPage + 1, perPage);
      i % perPage < |w| && w[i % perPage] == rows[i]
  {
    PageCounted(|rows|, perPage, i);
    RowInWindow(rows, perPage, i);
  }

  /** The page of a counted row is a counted page. */
  lemma PageCounted(total: int, perPage: int, i: int)
    requires perPage >= 1 && 0 <= i < total
    ensures 1 <= i / perPage + 1 <= Pages(total, perPage)
  {
    var q := i / perPage;
    assert q * perPage <= i;
    MulCancelLt(q, Pages(total, perPage), perPage);
  }

  /** Row `i` sits at position `i % perPage` of page `i / perPage + 1`. */
  lemma RowInWindow<T>(rows: seq<T>, perPage: int, i: int)
    requires perPage >= 1 && 0 <= i < |rows|
    ensures var w := Window(rows, i / perPage + 1, perPage);
      i % perPage < |w| && w[i % perPage] == rows[i]
  {
    var q, j := i / perPage, i % perPage;
    var off := q * perPage;
    assert off + j == i;
    WindowAt(rows, q + 1, perPage, j, off);
  }

  /** Position `j` of a page holds the row `j` past the page's offset. */
  lemma WindowAt<T>(rows: seq<T>, page: int, perPage: int, j: int, off: int)
    requires page >= 1 && 0 <= j < perPage && off == (page - 1) * perPage && off + j < |rows|
    ensures j < |Window(rows, page, perPage)|
    ensures Window(rows, page, perPage)[j] == rows[off + j]
  {
  }

  lemma MulCancelLt(a: int, b: int, c: int)
    requires c > 0 && a * c < b * c
    ensures a < b
  {
    if a >= b {
      MulMonotone(b, a, c);
    }
  }

  lemma MulMonotone(a: int, b: int, c: int)
    requires a <= b && c >= 0
    ensures a * c <= b * c
  {
  }

  /** `has_next` holds exactly when the next page still has rows. */
  lemma {:induction false} HasNextIffNextPageNonEmpty<T>(rows: seq<T>, page: int, perPage: int)
    requires page >= 1 && perPage >= 1
    ensures HasNext(Pagination(Window(rows, page, perPage), |rows|, page, perPage))
        <==> |Window(rows, page + 1, perPage)| > 0
  {
    var n := Pages(|rows|, perPage);
    if page < n {
      MulMonotone(page, n - 1, perPage);
    } else if |rows| > 0 {
      MulMonotone(n, page, perPage);
    }
  }

  /** Python slice `xs[start:stop]`: negative bounds count from the end and
      out-of-range bounds are clipped. */
  function PySlice<T>(xs: seq<T>, start: int, stop: int): (r: seq<T>)
    ensures |r| <= |xs|
    ensures 0 <= start <= stop <= |xs| ==> r == xs[start..stop]
    ensures 0 <= start && |xs| <= start ==> r == []
  {
    var s := if start < 0 then Max(0, start + |xs|) else Min(start, |xs|);
    var e := if stop < 0 then Max(0, stop + |xs|) else Min(stop, |xs|);
    if s >= e then [] else xs[s..e]
  }

  datatype ApiPage<T> = ApiPage(data: seq<T>, page: int, perPage: int, total: int)

  /** `_paginate`: slice `items[(page-1)*per_page : page*per_page]` and echo
      the parameters with the total count. */
  function ApiPaginate<T>(items: seq<T>, page: int, perPage: int): (r: ApiPage<T>)
    ensures r.page == page && r.perPage == perPage && r.total == |items|
    ensures page >= 1 && perPage >= 1 ==> r.data == Window(items, page, perPage)
  {
    var start := (page - 1) * perPage;
    var data := PySlice(items, start, start + perPage);
    assert page >= 1 && perPage >= 1 ==> start >= 0;
    ApiPage(data, page, perPage, |items|)
  }
}

=== FILE: permissions.dfy ===
/** Permissions: codes of the form `module_action`, the roles that hold
    them, and the role-permission relation with its idempotent assign and
    revoke. */
module Permissions {
  import opened Common
  import opened Tables
  import opened Ordering

  datatype Permission = Permission(code: string, moduleName: string, action: string, description: Option<string>)

  datatype Role = Role(slug: string, name: string)

  /** The permission and role tables and the relation between them: each
      (role id, permission id) pair at most once, with who assigned it. */
  datatype PermStore = PermStore(perms: Table<Permission>, roles: Table<Role>, links: map<(int, int), Option<int>>)

  /** The unique constraints on the permission code and the role slug, and
      the foreign keys of the relation. */
  predicate StoreOk(st: PermStore) {
    Valid(st.perms) && Valid(st.roles) && CodesUnique(st.perms) && SlugsUnique(st.roles) && LinksKnown(st)
  }

  predicate CodesUnique(perms: Table<Permission>) {
    forall a, b :: a in perms.rows && b in perms.rows && perms.rows[a].code == perms.rows[b].code ==> a == b
  }

  predicate SlugsUnique(roles: Table<Role>) {
    forall a, b :: a in roles.rows && b in roles.rows && roles.rows[a].slug == roles.rows[b].slug ==> a == b
  }

  predicate LinksKnown(st: PermStore) {
    forall l :: l in st.links ==> l.0 in st.roles.rows && l.1 in st.perms.rows
  }

  /** Adding a pair of known ids, or removing any pair, keeps the store
      consistent. */
  lemma LinkChangeKeepsOk(st: PermStore, pair: (int, int), v: Option<int>)
    requires StoreOk(st) && pair.0 in st.roles.rows && pair.1 in st.perms.rows
    ensures StoreOk(st.(links := st.links[pair := v]))
    ensures StoreOk(st.(links := st.links - {pair}))
  {
  }

  datatype PermError = BadCode | NoSuchPermission | NoSuchRole

  // ---------------------------------------------------------------------------
  // The code grammar

  /** `code.partition("_")`: the text before the first '_', and the text
      after it ("" when there is none). */
  function Partition(code: string): (r: (string, string))
    ensures '_' !in r.0
    ensures '_' !in code ==> r == (code, "")
    ensures '_' in code ==> code == r.0 + "_" + r.1
  {
    if |code| == 0 then ("", "")
    else if code[0] == '_' then ("", code[1..])
    else
      var rest := Partition(code[1..]);
      assert code == [code[0]] + code[1..];
      ([code[0]] + rest.0, rest.1)
  }

  /** A code is well formed when both parts around the first '_' are
      non-empty. */
  predicate WellFormedCode(code: string) {
    Partition(code).0 != "" && Partition(code).1 != ""
  }

  /** Joining a module without '_' and a non-empty action gives a code that
      partitions back into them. */
  lemma {:induction false} PartitionJoin(prefix: string, action: string)
    requires '_' !in prefix
    ensures Partition(prefix + "_" + action) == (prefix, action)
    decreases |prefix|
  {
    var code := prefix + "_" + action;
    if |prefix| == 0 {
      assert code == "_" + action;
      assert code[1..] == action;
    } else {
      assert code[0] == prefix[0];
      assert code[1..] == prefix[1..] + "_" + action;
      PartitionJoin(prefix[1..], action);
      assert [prefix[0]] + prefix[1..] == prefix;
    }
  }

  /** The well-formed codes are exactly the joins of a non-empty module
      without '_' and a non-empty action. */
  lemma WellFormedCodeIff(code: string)
    ensures WellFormedCode(code) <==>
      exists i :: 0 < i < |code| - 1 && code[i] == '_' && '_' !in code[..i]
  {
    var (m, a) := Partition(code);
    if WellFormedCode(code) {
      assert code == m + "_" + a;
      assert code[..|m|] == m;
      assert code[|m|] == '_';
    }
    if exists i :: 0 < i < |code| - 1 && code[i] == '_' && '_' !in code[..i] {
      var i :| 0 < i < |code| - 1 && code[i] == '_' && '_' !in code[..i];
      assert code == code[..i] + "_" + code[i + 1..];
      PartitionJoin(code[..i], code[i + 1..]);
    }
  }

  // ---------------------------------------------------------------------------
  // Lookups

  function CodeIs(code: string): ((int, Permission)) -> bool {
    (row: (int, Permission)) => row.1.code == code
  }

  /** The permission with that code, if any. */
  function FindPermission(st: PermStore, code: string): (r: Option<int>)
    requires StoreOk(st)
    ensures r.Some? <==> exists id :: id in st.perms.rows && st.perms.rows[id].code == code
    ensures r.Some? ==> r.value in st.perms.rows && st.perms.rows[r.value].code == code
  {
    var hits := Filter(Rows(st.perms), CodeIs(code));
    if |hits| == 0 then
      assert forall id :: id in st.perms.rows ==> st.perms.rows[id].code != code by {
        forall id | id in st.perms.rows ensures st.perms.rows[id].code != code {
          assert (id, st.perms.rows[id]) in Rows(st.perms);
        }
      }
      None
    else
      assert hits[0] in hits;
      Some(hits[0].0)
  }

  function SlugIs(slug: string): ((int, Role)) -> bool {
    (row: (int, Role)) => row.1.slug == slug
  }

  /** How a caller names a role: a loaded role row, or its slug (the enum's
      value or any text). */
  datatype RoleRef = RoleRow(id: int) | RoleSlug(slug: string)

  /** `_resolve_role`: a role row is taken as it is; a slug must name a
      role. */
  function ResolveRole(st: PermStore, role: RoleRef): (r: Option<int>)
    requires StoreOk(st)
    ensures role.RoleRow? ==> r == Some(role.id)
    ensures role.RoleSlug? ==>
      (r.Some? <==> exists id :: id in st.roles.rows && st.roles.rows[id].slug == role.slug)
      && (r.Some? ==> r.value in st.roles.rows && st.roles.rows[r.value].slug == role.slug)
  {
    match role
    case RoleRow(id) => Some(id)
    case RoleSlug(slug) =>
      var hits := Filter(Rows(st.roles), SlugIs(slug));
      if |hits| == 0 then
        assert forall id :: id in st.roles.rows ==> st.roles.rows[id].slug != slug by {
          forall id | id in st.roles.rows ensures st.roles.rows[id].slug != slug {
            assert (id, st.roles.rows[id]) in Rows(st.roles);
          }
        }
        None
      else
        assert hits[0] in hits;
        Some(hits[0].0)
  }

  /** A role reference names a role of the store. */
  predicate RoleKnown(st: PermStore, role: RoleRef) {
    StoreOk(st) && ResolveRole(st, role).Some? && ResolveRole(st, role).value in st.roles.rows
  }

  // ---------------------------------------------------------------------------
  // Operations

  /** `ensure_permission`: a malformed code is refused; an existing code
      only takes a given, different description; a new code is stored with
      its module and action. */
  function EnsurePermission(st: PermStore, code: string, description: Option<string>)
    : (r: Result<(PermStore, int), PermError>)
    requires StoreOk(st)
    ensures r.Err? <==> !WellFormedCode(code)
    ensures r.Err? ==> r.error == BadCode
    ensures r.Ok? ==>
      var (u, id) := r.value;
      StoreOk(u) && id in u.perms.rows && u.perms.rows[id].code == code
      && u.roles == st.roles && u.links == st.links
      && (description.Some? ==> u.perms.rows[id].description == description)
      && (FindPermission(st, code).Some? ==> id == FindPermission(st, code).value && u.perms.rows.Keys == st.perms.rows.Keys)
      && (FindPermission(st, code).None? ==>
            u.perms.rows[id] == Permission(code, Partition(code).0, Partition(code).1, description))
  {
    var (moduleName, action) := Partition(code);
    if moduleName == "" || action == "" then Err(BadCode)
    else
      match FindPermission(st, code)
      case Some(id) =>
        var p := st.perms.rows[id];
        if description.Some? && p.description != description then
          Ok((st.(perms := Put(st.perms, id, p.(description := description))), id))
        else Ok((st, id))
      case None =>
        var (perms, id) := Tables.Insert(st.perms, Permission(code, moduleName, action, description));
        Ok((st.(perms := perms), id))
  }

  /** Ensuring a permission a second time with the same description changes
      nothing. */
  lemma EnsurePermissionIdempotent(st: PermStore, code: string, description: Option<string>)
    requires StoreOk(st) && WellFormedCode(code)
    ensures var once := EnsurePermission(st, code, description).value;
            EnsurePermission(once.0, code, description) == Ok(once)
  {
    var once := EnsurePermission(st, code, description).value;
    FoundByCode(once.0, code, once.1);
  }

  /** Codes are unique, so the row carrying a code is the one found. */
  lemma FoundByCode(st: PermStore, code: string, id: int)
    requires StoreOk(st) && id in st.perms.rows && st.perms.rows[id].code == code
    ensures FindPermission(st, code) == Some(id)
  {
  }

  /** The pair a role and a permission code name, looked up in the order
      of `assign_permission` and `revoke_permission`: the permission first,
      then the role. */
  function LinkTarget(st: PermStore, role: RoleRef, code: string): (r: Result<(int, int), PermError>)
    requires StoreOk(st)
    ensures r == Err(NoSuchPermission) <==> FindPermission(st, code).None?
    ensures r == Err(NoSuchRole) <==> FindPermission(st, code).Some? && !RoleKnown(st, role)
    ensures r.Ok? ==>
      r.value.0 in st.roles.rows && r.value.1 in st.perms.rows && st.perms.rows[r.value.1].code == code
      && r.value.0 == ResolveRole(st, role).value
      && (role.RoleSlug? ==> st.roles.rows[r.value.0].slug == role.slug)
  {
    match FindPermission(st, code)
    case None => Err(NoSuchPermission)
    case Some(pid) =>
      if !RoleKnown(st, role) then Err(NoSuchRole)
      else Ok((ResolveRole(st, role).value, pid))
  }

  /** Stores that share their tables agree on every lookup. */
  lemma SameTargets(a: PermStore, b: PermStore, role: RoleRef, code: string)
    requires StoreOk(a) && StoreOk(b) && a.perms == b.perms && a.roles == b.roles
    ensures LinkTarget(a, role, code) == LinkTarget(b, role, code)
    ensures RoleKnown(a, role) <==> RoleKnown(b, role)
  {
  }

  /** `assign_permission`: a pair already related is left as it is,
      otherwise it is added with its assigner. Nothing else changes. */
  function AssignPermission(st: PermStore, role: RoleRef, code: string, assignedBy: Option<int>)
    : (r: Result<PermStore, PermError>)
    requires StoreOk(st)
    ensures r.Err? <==> LinkTarget(st, role, code).Err?
    ensures r.Err? ==> r.error == LinkTarget(st, role, code).error
    ensures r.Ok? ==>
      var pair := LinkTarget(st, role, code).value;
      StoreOk(r.value) && r.value.perms == st.perms && r.value.roles == st.roles
      && pair in r.value.links
      && (pair in st.links ==> r.value == st)
      && (pair !in st.links ==> r.value.links == st.links[pair := assignedBy])
  {
    match LinkTarget(st, role, code)
    case Err(e) => Err(e)
    case Ok(pair) =>
      if pair in st.links then Ok(st)
      else
        LinkChangeKeepsOk(st, pair, assignedBy);
        Ok(st.(links := st.links[pair := assignedBy]))
  }

  /** Assigning twice is assigning once. */
  lemma AssignIdempotent(st: PermStore, role: RoleRef, code: string, first: Option<int>, second: Option<int>)
    requires StoreOk(st) && AssignPermission(st, role, code, first).Ok?
    ensures var once := AssignPermission(st, role, code, first).value;
            AssignPermission(once, role, code, second) == Ok(once)
  {
    var once := AssignPermission(st, role, code, first).value;
    SameTargets(st, once, role, code);
  }

  /** `revoke_permission`: the pair is removed and the answer says whether
      it was there. */
  function RevokePermission(st: PermStore, role: RoleRef, code: string): (r: Result<(PermStore, bool), PermError>)
    requires StoreOk(st)
    ensures r.Err? <==> LinkTarget(st, role, code).Err?
    ensures r.Err? ==> r.error == LinkTarget(st, role, code).error
    ensures r.Ok? ==>
      var pair := LinkTarget(st, role, code).value;
      StoreOk(r.value.0) && r.value.0.perms == st.perms && r.value.0.roles == st.roles
      && r.value.0.links == st.links - {pair} && (r.value.1 <==> pair in st.links)
  {
    match LinkTarget(st, role, code)
    case Err(e) => Err(e)
    case Ok(pair) =>
      LinkChangeKeepsOk(st, pair, None);
      Ok((st.(links := st.links - {pair}), pair in st.links))
  }

  lemma AddThenRemove<K, V>(m: map<K, V>, k: K, v: V)
    requires k !in m
    ensures m[k := v] - {k} == m && m - {k} == m
  {
  }

  /** Revoking a permission just given to a role that lacked it gives back
      the store as it was and reports that the link existed; revoking it
      from the original store reports that it did not. */
  lemma AssignThenRevoke(st: PermStore, role: RoleRef, code: string, assigner: Option<int>)
    requires StoreOk(st) && LinkTarget(st, role, code).Ok?
    requires LinkTarget(st, role, code).value !in st.links
    ensures AssignPermission(st, role, code, assigner).Ok?
    ensures RevokePermission(AssignPermission(st, role, code, assigner).value, role, code) == Ok((st, true))
    ensures RevokePermission(st, role, code) == Ok((st, false))
  {
    var withLink := AssignPermission(st, role, code, assigner).value;
    var pair := LinkTarget(st, role, code).value;
    SameTargets(st, withLink, role, code);
    AddThenRemove(st.links, pair, assigner);
  }

  function PermCode(p: Permission): Key { KText(p.code) }

  function PermsOf(rows: seq<(int, Permission)>): (r: seq<Permission>)
    ensures |r| == |rows|
    ensures forall i :: 0 <= i < |r| ==> r[i] == rows[i].1
  {
    if |rows| == 0 then [] else [rows[0].1] + PermsOf(rows[1..])
  }

  function LinkedTo(links: map<(int, int), Option<int>>, roleId: int): ((int, Permission)) -> bool {
    (row: (int, Permission)) => (roleId, row.0) in links
  }

  /** `list_role_permissions`: the role's permissions, ordered by code. */
  function ListRolePermissions(st: PermStore, role: RoleRef): (r: Result<seq<Permission>, PermError>)
    requires StoreOk(st)
    ensures r.Err? <==> !RoleKnown(st, role)
    ensures r.Ok? ==>
      SortedBy(r.value, PermCode, false)
      && forall p :: p in r.value <==>
           exists id :: id in st.perms.rows && st.perms.rows[id] == p && (ResolveRole(st, role).value, id) in st.links
  {
    if !RoleKnown(st, role) then Err(NoSuchRole)
    else
      var roleId := ResolveRole(st, role).value;
      var rows := Filter(Rows(st.perms), LinkedTo(st.links, roleId));
      var perms := PermsOf(rows);
      SortByMembers(perms, PermCode, false);
      KeptPermsMembers(st, LinkedTo(st.links, roleId));
      Ok(SortBy(perms, PermCode, false))
  }

  /** The permissions a row filter keeps are the stored rows it accepts. */
  lemma KeptPermsMembers(st: PermStore, keep: ((int, Permission)) -> bool)
    requires StoreOk(st)
    ensures forall p :: p in PermsOf(Filter(Rows(st.perms), keep)) <==>
      exists id :: id in st.perms.rows && st.perms.rows[id] == p && keep((id, p))
  {
    KeptPermsSound(st, keep);
    KeptPermsComplete(st, keep);
  }

  lemma KeptPermsSound(st: PermStore, keep: ((int, Permission)) -> bool)
    requires StoreOk(st)
    ensures forall p :: p in PermsOf(Filter(Rows(st.perms), keep)) ==>
      exists id :: id in st.perms.rows && st.perms.rows[id] == p && keep((id, p))
  {
    var rows := Filter(Rows(st.perms), keep);
    var perms := PermsOf(rows);
    forall p | p in perms ensures exists id :: id in st.perms.rows && st.perms.rows[id] == p && keep((id, p)) {
      var i :| 0 <= i < |perms| && perms[i] == p;
      assert rows[i] in rows;
    }
  }

  lemma KeptPermsComplete(st: PermStore, keep: ((int, Permission)) -> bool)
    requires StoreOk(st)
    ensures forall p, id :: id in st.perms.rows && st.perms.rows[id] == p && keep((id, p)) ==>
      p in PermsOf(Filter(Rows(st.perms), keep))
  {
    var rows := Filter(Rows(st.perms), keep);
    var perms := PermsOf(rows);
    forall p, id | id in st.perms.rows && st.perms.rows[id] == p && keep((id, p)) ensures p in perms {
      assert (id, st.perms.rows[id]) in Rows(st.perms);
      assert (id, p) in rows;
      var i :| 0 <= i < |rows| && rows[i] == (id, p);
      assert perms[i] == p;
    }
  }

  function InModule(name: string): ((int, Permission)) -> bool {
    (row: (int, Permission)) => row.1.moduleName == name
  }

  function AnyRow(): ((int, Permission)) -> bool {
    (row: (int, Permission)) => true
  }

  /** `list_permissions`: every permission, or those of one module when a
      non-empty module is given, ordered by code. */
  function ListPermissions(st: PermStore, moduleName: Option<string>): (r: seq<Permission>)
    requires StoreOk(st)
    ensures SortedBy(r, PermCode, false)
    ensures forall p :: p in r <==>
      (exists id :: id in st.perms.rows && st.perms.rows[id] == p)
      && (moduleName.None? || moduleName.value == "" || p.moduleName == moduleName.value)
  {
    var keep := if moduleName.None? || moduleName.value == "" then AnyRow() else InModule(moduleName.value);
    var rows := Filter(Rows(st.perms), keep);
    var perms := PermsOf(rows);
    SortByMembers(perms, PermCode, false);
    KeptPermsMembers(st, keep);
    SortBy(perms, PermCode, false)
  }

  /** Every code names a permission and the role is known. */
  predicate AllTargetsOk(st: PermStore, role: RoleRef, codes: seq<string>)
    requires StoreOk(st)
  {
    forall i :: 0 <= i < |codes| ==> LinkTarget(st, role, codes[i]).Ok?
  }

  /** Every pair the codes name is related. */
  predicate AllLinked(st: PermStore, u: PermStore, role: RoleRef, codes: seq<string>)
    requires StoreOk(st) && AllTargetsOk(st, role, codes)
  {
    forall i :: 0 <= i < |codes| ==> LinkTarget(st, role, codes[i]).value in u.links
  }

  /** `bulk_assign`: the codes are assigned one after the other; the first
      failure stops the loop, and the assignments before it stay. */
  function BulkAssign(st: PermStore, role: RoleRef, codes: seq<string>, assignedBy: Option<int>)
    : (r: (PermStore, Option<PermError>))
    requires StoreOk(st)
    ensures StoreOk(r.0) && r.0.perms == st.perms && r.0.roles == st.roles
    ensures forall l :: l in st.links ==> l in r.0.links
    ensures r.1.None? <==> AllTargetsOk(st, role, codes)
    ensures r.1.None? ==> AllLinked(st, r.0, role, codes)
    decreases |codes|
  {
    if |codes| == 0 then (st, None)
    else
      match AssignPermission(st, role, codes[0], assignedBy)
      case Err(e) => (st, Some(e))
      case Ok(next) =>
        var r := BulkAssign(next, role, codes[1..], assignedBy);
        BulkStep(st, next, r.0, role, codes);
        r
  }

  lemma BulkStep(st: PermStore, next: PermStore, u: PermStore, role: RoleRef, codes: seq<string>)
    requires StoreOk(st) && StoreOk(next) && next.perms == st.perms && next.roles == st.roles
    requires |codes| > 0 && LinkTarget(st, role, codes[0]).Ok?
    requires LinkTarget(st, role, codes[0]).value in next.links
    requires forall l :: l in next.links ==> l in u.links
    ensures AllTargetsOk(st, role, codes) <==> AllTargetsOk(next, role, codes[1..])
    ensures AllTargetsOk(st, role, codes) && AllLinked(next, u, role, codes[1..]) ==> AllLinked(st, u, role, codes)
  {
    forall i | 0 <= i < |codes| - 1 ensures LinkTarget(next, role, codes[1..][i]) == LinkTarget(st, role, codes[i + 1]) {
      SameTargets(st, next, role, codes[i + 1]);
    }
    TargetsOkStep(st, next, role, codes);
    if AllTargetsOk(st, role, codes) {
      LinkedStep(st, next, u, role, codes);
    }
  }

  lemma TargetsOkStep(st: PermStore, next: PermStore, role: RoleRef, codes: seq<string>)
    requires StoreOk(st) && StoreOk(next)
    requires |codes| > 0 && LinkTarget(st, role, codes[0]).Ok?
    requires forall i :: 0 <= i < |codes| - 1 ==> LinkTarget(next, role, codes[1..][i]) == LinkTarget(st, role, codes[i + 1])
    ensures AllTargetsOk(st, role, codes) <==> AllTargetsOk(next, role, codes[1..])
  {
    var tail := codes[1..];
    if AllTargetsOk(next, role, tail) {
      forall i | 0 <= i < |codes| ensures LinkTarget(st, role, codes[i]).Ok? {
        if i > 0 { assert LinkTarget(next, role, tail[i - 1]).Ok?; }
      }
    }
    if AllTargetsOk(st, role, codes) {
      forall i | 0 <= i < |tail| ensures LinkTarget(next, role, tail[i]).Ok? {
        assert LinkTarget(st, role, codes[i + 1]).Ok?;
      }
    }
  }

  lemma LinkedStep(st: PermStore, next: PermStore, u: PermStore, role: RoleRef, codes: seq<string>)
    requires StoreOk(st) && StoreOk(next)
    requires |codes| > 0 && AllTargetsOk(st, role, codes)
    requires LinkTarget(st, role, codes[0]).value in next.links
    requires forall l :: l in next.links ==> l in u.links
    requires forall i :: 0 <= i < |codes| - 1 ==> LinkTarget(next, role, codes[1..][i]) == LinkTarget(st, role, codes[i + 1])
    requires AllTargetsOk(next, role, codes[1..])
    ensures AllLinked(next, u, role, codes[1..]) ==> AllLinked(st, u, role, codes)
  {
    var tail := codes[1..];
    if AllLinked(next, u, role, tail) {
      forall i | 0 <= i < |codes| ensures LinkTarget(st, role, codes[i]).value in u.links {
        if i > 0 { assert LinkTarget(next, role, tail[i - 1]).value in u.links; }
      }
    }
  }
}

=== FILE: reviews.dfy ===
/** The review service: the moderation states of a site review and the
    moves between them, the rejection-reason rule, the public listing and
    statistics (approved reviews only), the paged moderation listing with
    its filters, and the two ways a review author's name is displayed. */
module Reviews {
  import opened Common
  import opened Tables
  import opened Ordering
  import opened Paging
  import opened Listing

  const MaxRejectionLength: int := 200
  const ReviewPageCap: int := 25
  const UnknownUser: string := "Usuario desconocido"
  const Visitor: string := "Visitante"

  /** The moderation state of a review. The enum's string values live in a
      model file that is not part of this model; they are taken to be the
      lower-case names. */
  datatype ReviewStatus = Pending | Approved | Rejected {
    function Name(): string {
      match this
      case Pending => "PENDING"
      case Approved => "APPROVED"
      case Rejected => "REJECTED"
    }
    function Value(): string {
      match this
      case Pending => "pending"
      case Approved => "approved"
      case Rejected => "rejected"
    }
  }

  datatype Review = Review(siteId: int, userId: int, rating: int, comment: string,
                           status: ReviewStatus, rejectionReason: Option<string>, createdAt: int)

  /** The user columns the review queries join in. */
  datatype Person = Person(email: string, firstName: Option<string>, lastName: Option<string>)

  // ---------------------------------------------------------------------------
  // Display names

  function OrEmpty(s: Option<string>): string { if s.Some? then s.value else "" }

  predicate AllSpace(s: string) { forall k :: 0 <= k < |s| ==> IsSpace(s[k]) }

  /** `" ".join(part for part in [a, b] if part)`. */
  function JoinParts(a: string, b: string): string {
    if a == "" then b else if b == "" then a else a + " " + b
  }

  /** The full name the moderation listing shows: the non-empty name
      columns joined by one space, then stripped. */
  function FullName(first: Option<string>, last: Option<string>): (r: string)
    ensures Stripped(r)
    ensures r == "" <==> AllSpace(OrEmpty(first)) && AllSpace(OrEmpty(last))
  {
    var a := OrEmpty(first);
    var b := OrEmpty(last);
    StripEmpty(JoinParts(a, b));
    JoinAllSpace(a, b);
    Strip(JoinParts(a, b))
  }

  lemma JoinAllSpace(a: string, b: string)
    ensures AllSpace(JoinParts(a, b)) <==> AllSpace(a) && AllSpace(b)
  {
    if a != "" && b != "" {
      var j := a + " " + b;
      if AllSpace(a) && AllSpace(b) {
        forall k | 0 <= k < |j| ensures IsSpace(j[k]) {
          if k < |a| { assert j[k] == a[k]; }
          else if k > |a| { assert j[k] == b[k - |a| - 1]; }
        }
      }
      if AllSpace(j) {
        forall k | 0 <= k < |a| ensures IsSpace(a[k]) { assert j[k] == a[k]; }
        forall k | 0 <= k < |b| ensures IsSpace(b[k]) { assert j[|a| + 1 + k] == b[k]; }
      }
    }
  }

  /** `ReviewPresenter.user_display`: the stripped name, else the email,
      else a fixed placeholder; never empty. */
  function UserDisplay(userName: string, userEmail: Option<string>): (r: string)
    ensures r != ""
    ensures Strip(userName) != "" ==> r == Strip(userName)
    ensures Strip(userName) == "" && userEmail.Some? && userEmail.value != "" ==> r == userEmail.value
    ensures Strip(userName) == "" && (userEmail.None? || userEmail.value == "") ==> r == UnknownUser
  {
    var clean := Strip(userName);
    if clean != "" then clean
    else if userEmail.Some? && userEmail.value != "" then userEmail.value
    else UnknownUser
  }

  /** `_format_author_name`: each present name is stripped, the parts are
      joined by one space, and an author with no name is a visitor. */
  function FormatAuthorName(first: Option<string>, last: Option<string>): (r: string)
    ensures r != "" && Stripped(r)
    ensures CleanStr(first) == "" && CleanStr(last) == "" ==> r == Visitor
    ensures CleanStr(first) != "" && CleanStr(last) == "" ==> r == CleanStr(first)
    ensures CleanStr(first) == "" && CleanStr(last) != "" ==> r == CleanStr(last)
    ensures CleanStr(first) != "" && CleanStr(last) != "" ==> r == CleanStr(first) + " " + CleanStr(last)
  {
    var hasA, hasB := OrEmpty(first) != "", OrEmpty(last) != "";
    var sa, sb := CleanStr(first), CleanStr(last);
    var joined := if hasA && hasB then sa + " " + sb
                  else if hasA then sa else if hasB then sb else "";
    var display := Strip(joined);
    AuthorNameCases(hasA, hasB, sa, sb, joined);
    if display == "" then Visitor else display
  }

  /** Stripping the joined, already stripped parts of the author name. */
  lemma AuthorNameCases(hasA: bool, hasB: bool, sa: string, sb: string, joined: string)
    requires Stripped(sa) && Stripped(sb)
    requires !hasA ==> sa == ""
    requires !hasB ==> sb == ""
    requires joined == (if hasA && hasB then sa + " " + sb else if hasA then sa else if hasB then sb else "")
    ensures Strip(joined) == (if sa == "" && sb == "" then "" else if sb == "" then sa
                              else if sa == "" then sb else sa + " " + sb)
  {
    if hasA && hasB {
      if sa != "" && sb != "" {
        JoinStripped(sa, sb);
        StripOfStripped(joined);
      } else if sa != "" {
        assert joined == sa + " ";
        StripSpaceAfter(sa);
      } else if sb != "" {
        assert joined == " " + sb;
        StripSpaceBefore(sb);
      } else {
        assert joined == " ";
        StripEmpty(joined);
      }
    } else if hasA {
      assert joined == sa;
      StripOfStripped(sa);
    } else if hasB {
      assert joined == sb;
      StripOfStripped(sb);
    } else {
      StripOfStripped("");
    }
  }

  lemma JoinStripped(a: string, b: string)
    requires Stripped(a) && Stripped(b) && a != "" && b != ""
    ensures Stripped(a + " " + b)
  {
    var j := a + " " + b;
    assert j[0] == a[0] && j[|j| - 1] == b[|b| - 1];
  }

  lemma StripSpaceAfter(w: string)
    requires Stripped(w) && w != ""
    ensures Strip(w + " ") == w
  {
    var s := w + " ";
    assert s[0..|w|] == w;
    StripUnique(s, w, 0);
  }

  lemma StripSpaceBefore(w: string)
    requires Stripped(w) && w != ""
    ensures Strip(" " + w) == w
  {
    var s := " " + w;
    assert s[1..1 + |w|] == w;
    StripUnique(s, w, 1);
  }

  /** For a user whose name columns carry no stray whitespace, the
      moderation display and the public author name agree whenever the user
      has a name at all. */
  lemma DisplayAgreesWithAuthor(first: Option<string>, last: Option<string>, email: Option<string>)
    requires Stripped(OrEmpty(first)) && Stripped(OrEmpty(last))
    requires OrEmpty(first) != "" || OrEmpty(last) != ""
    ensures UserDisplay(FullName(first, last), email) == FormatAuthorName(first, last)
  {
    var a, b := OrEmpty(first), OrEmpty(last);
    StripOfStripped(a);
    StripOfStripped(b);
    StripEmpty(a);
    StripEmpty(b);
    var j := JoinParts(a, b);
    if a != "" && b != "" {
      JoinStripped(a, b);
    }
    StripOfStripped(j);
    StripOfStripped(FullName(first, last));
  }

  // ---------------------------------------------------------------------------
  // Moderation states

  datatype ReasonError = ReasonRequired | ReasonTooLong

  /** What `validate_rejection_reason` returns: the error, if any, and the
      cleaned reason (returned in both cases). */
  datatype ReasonCheck = ReasonCheck(error: Option<ReasonError>, clean: string)

  /** A reason the moderator may store: stripped, present, at most 200
      characters. */
  predicate ValidReason(s: string) { Stripped(s) && 1 <= |s| <= MaxRejectionLength }

  function ValidateRejectionReason(reason: Option<string>): (c: ReasonCheck)
    ensures c.clean == CleanStr(reason)
    ensures c.error.None? <==> ValidReason(c.clean)
    ensures c.error == Some(ReasonRequired) <==> c.clean == ""
    ensures c.error == Some(ReasonTooLong) <==> |c.clean| > MaxRejectionLength
  {
    var clean := CleanStr(reason);
    if clean == "" then ReasonCheck(Some(ReasonRequired), clean)
    else if |clean| > MaxRejectionLength then ReasonCheck(Some(ReasonTooLong), clean)
    else ReasonCheck(None, clean)
  }

  /** What every stored review satisfies: the comment is stripped, a
      rejection reason is present exactly on rejected reviews, and it is a
      valid reason. */
  predicate WellFormed(r: Review) {
    && Stripped(r.comment)
    && (r.rejectionReason.Some? <==> r.status == Rejected)
    && (r.rejectionReason.Some? ==> ValidReason(r.rejectionReason.value))
  }

  /** `create_site_review` on the record: a pending review with the
      stripped comment. */
  function NewReview(siteId: int, userId: int, rating: int, comment: string, now: int): (r: Review)
    ensures WellFormed(r) && r.status == Pending
    ensures r.siteId == siteId && r.userId == userId && r.rating == rating && r.createdAt == now
    ensures r.comment == Strip(comment)
  {
    Review(siteId, userId, rating, Strip(comment), Pending, None, now)
  }

  /** `update_site_review`: new rating and stripped comment, and the review
      goes back to moderation whatever its state was. */
  function UpdateSiteReview(r: Review, rating: int, comment: string): (u: Review)
    ensures WellFormed(u) && u.status == Pending
    ensures u.siteId == r.siteId && u.userId == r.userId && u.createdAt == r.createdAt
    ensures u.rating == rating && u.comment == Strip(comment)
  {
    r.(rating := rating, comment := Strip(comment), status := Pending, rejectionReason := None)
  }

  /** `approve_review`: approved, with any earlier rejection reason
      cleared; the content is untouched. */
  function ApproveReview(r: Review): (u: Review)
    requires WellFormed(r)
    ensures WellFormed(u) && u.status == Approved
    ensures u.siteId == r.siteId && u.userId == r.userId && u.createdAt == r.createdAt
    ensures u.rating == r.rating && u.comment == r.comment
  {
    r.(status := Approved, rejectionReason := None)
  }

  /** `reject_review`: an invalid reason leaves the review as it was and
      reports the error; a valid one rejects it with the cleaned reason. */
  function RejectReview(r: Review, reason: Option<string>): (u: (Review, Option<ReasonError>))
    requires WellFormed(r)
    ensures WellFormed(u.0)
    ensures u.1 == ValidateRejectionReason(reason).error
    ensures u.1.Some? ==> u.0 == r
    ensures u.1.None? ==> u.0.status == Rejected && u.0.rejectionReason == Some(CleanStr(reason))
    ensures u.0.siteId == r.siteId && u.0.userId == r.userId && u.0.createdAt == r.createdAt
    ensures u.0.rating == r.rating && u.0.comment == r.comment
  {
    var c := ValidateRejectionReason(reason);
    if c.error.Some? then (r, c.error)
    else (r.(status := Rejected, rejectionReason := Some(c.clean)), None)
  }

  /** Approving an approved review changes nothing, so the controller's
      shortcut for that case loses nothing. */
  lemma ApproveApprovedIsNoOp(r: Review)
    requires WellFormed(r) && r.status == Approved
    ensures ApproveReview(r) == r
  {
  }

  /** The moderation moves reach every state from every state: any review
      can be approved, rejected with a valid reason, or sent back to pending
      by its author. */
  lemma ModerationReachesEveryState(r: Review, reason: string, rating: int, comment: string)
    requires WellFormed(r) && ValidReason(reason)
    ensures ApproveReview(r).status == Approved
    ensures RejectReview(r, Some(reason)).0.status == Rejected
    ensures RejectReview(r, Some(reason)).0.rejectionReason == Some(reason)
    ensures UpdateSiteReview(r, rating, comment).status == Pending
  {
    StripOfStripped(reason);
  }

  // ---------------------------------------------------------------------------
  // The review table

  predicate ReviewsOk(t: Table<Review>) {
    Valid(t) && forall id :: id in t.rows ==> WellFormed(t.rows[id])
  }

  /** `create_site_review`: inserts the pending review. */
  function CreateSiteReview(t: Table<Review>, siteId: int, userId: int, rating: int, comment: string,
                            now: int): (r: (Table<Review>, int))
    requires ReviewsOk(t)
    ensures ReviewsOk(r.0)
    ensures r.1 !in t.rows && r.0.rows.Keys == t.rows.Keys + {r.1}
    ensures r.0.rows[r.1] == NewReview(siteId, userId, rating, comment, now)
    ensures forall id :: id in t.rows ==> r.0.rows[id] == t.rows[id]
  {
    Tables.Insert(t, NewReview(siteId, userId, rating, comment, now))
  }

  /** A stored review replaced by what one of the moves made of it. */
  function SaveReview(t: Table<Review>, id: int, r: Review): (u: Table<Review>)
    requires ReviewsOk(t) && id in t.rows && WellFormed(r)
    ensures ReviewsOk(u) && u.rows.Keys == t.rows.Keys && u.rows[id] == r
    ensures forall k :: k in t.rows && k != id ==> u.rows[k] == t.rows[k]
  {
    Put(t, id, r)
  }

  /** `delete_review`. */
  function DeleteReview(t: Table<Review>, id: int): (u: Table<Review>)
    requires ReviewsOk(t)
    ensures ReviewsOk(u) && u.rows.Keys == t.rows.Keys - {id}
    ensures forall k :: k in u.rows ==> u.rows[k] == t.rows[k]
  {
    Delete(t, id)
  }

  /** Deleting the review just created gives back the rows there were. */
  lemma CreateThenDelete(t: Table<Review>, siteId: int, userId: int, rating: int, comment: string, now: int)
    requires ReviewsOk(t)
    ensures var (u, id) := CreateSiteReview(t, siteId, userId, rating, comment, now);
      DeleteReview(u, id).rows == t.rows
  {
    var (u, id) := CreateSiteReview(t, siteId, userId, rating, comment, now);
    assert DeleteReview(u, id).rows.Keys == t.rows.Keys;
  }

  /** `find_review_by_user`: the (first) review of that user on that site. */
  function FindReviewByUser(t: Table<Review>, siteId: int, userId: int): (r: Option<(int, Review)>)
    requires Valid(t)
    ensures r.None? <==> forall id :: id in t.rows ==> !ByAuthor(siteId, userId, (id, t.rows[id]))
    ensures r.Some? ==> r.value.0 in t.rows && t.rows[r.value.0] == r.value.1
                        && r.value.1.siteId == siteId && r.value.1.userId == userId
  {
    var mine := Filter(Rows(t), AuthorOf(siteId, userId));
    if |mine| == 0 then
      assert forall id :: id in t.rows ==> (id, t.rows[id]) in Rows(t);
      None
    else
      assert mine[0] in Rows(t);
      Some(mine[0])
  }

  predicate ByAuthor(siteId: int, userId: int, row: (int, Review)) {
    row.1.siteId == siteId && row.1.userId == userId
  }

  function AuthorOf(siteId: int, userId: int): ((int, Review)) -> bool {
    row => ByAuthor(siteId, userId, row)
  }

  // ---------------------------------------------------------------------------
  // Public listing and statistics

  predicate IsPublic(siteId: int, row: (int, Review)) {
    row.1.siteId == siteId && row.1.status == Approved
  }

  function PublicOf(siteId: int): ((int, Review)) -> bool {
    row => IsPublic(siteId, row)
  }

  function CreatedKey(row: (int, Review)): Key { KInt(row.1.createdAt) }

  /** The approved reviews of a site, as stored rows. */
  function PublicRows(t: Table<Review>, siteId: int): seq<(int, Review)>
    requires Valid(t)
  {
    Filter(Rows(t), PublicOf(siteId))
  }

  /** A review as the public portal shows it, with its author's name. */
  datatype PublicReview = PublicReview(id: int, review: Review, authorName: string)

  /** The author name of a review; a user row that is gone gives a visitor. */
  function AuthorName(users: map<int, Person>, userId: int): (r: string)
    ensures r != ""
    ensures userId !in users ==> r == Visitor
  {
    if userId in users then FormatAuthorName(users[userId].firstName, users[userId].lastName)
    else FormatAuthorName(None, None)
  }

  function Authored(users: map<int, Person>, rows: seq<(int, Review)>): (r: seq<PublicReview>)
    ensures |r| == |rows|
    ensures forall i :: 0 <= i < |rows| ==>
      r[i] == PublicReview(rows[i].0, rows[i].1, AuthorName(users, rows[i].1.userId))
  {
    seq(|rows|, i requires 0 <= i < |rows| => PublicReview(rows[i].0, rows[i].1, AuthorName(users, rows[i].1.userId)))
  }

  /** `list_public_reviews_for_site`: exactly the approved reviews of the
      site, newest first, each with its author's name. */
  function ListPublicReviews(t: Table<Review>, users: map<int, Person>, siteId: int): (r: seq<PublicReview>)
    requires Valid(t)
    ensures |r| == |PublicRows(t, siteId)|
    ensures forall i :: 0 <= i < |r| ==>
      r[i].id in t.rows && t.rows[r[i].id] == r[i].review && r[i].review.siteId == siteId
      && r[i].review.status == Approved && r[i].authorName == AuthorName(users, r[i].review.userId)
    ensures forall id :: id in t.rows && IsPublic(siteId, (id, t.rows[id])) ==>
      exists i :: 0 <= i < |r| && r[i].id == id
    ensures forall i, j :: 0 <= i < j < |r| ==> r[i].review.createdAt >= r[j].review.createdAt
  {
    var rows := Ordered(Rows(t), PublicOf(siteId), CreatedKey, true);
    var out := Authored(users, rows);
    PublicFacts(t, siteId, rows);
    PublicComplete(t, users, siteId, rows, out);
    out
  }

  lemma PublicComplete(t: Table<Review>, users: map<int, Person>, siteId: int,
                       rows: seq<(int, Review)>, out: seq<PublicReview>)
    requires Valid(t)
    requires forall x :: x in rows <==> x in Rows(t) && PublicOf(siteId)(x)
    requires out == Authored(users, rows)
    ensures forall id :: id in t.rows && IsPublic(siteId, (id, t.rows[id])) ==>
      exists i :: 0 <= i < |out| && out[i].id == id
  {
    forall id | id in t.rows && IsPublic(siteId, (id, t.rows[id]))
      ensures exists i :: 0 <= i < |out| && out[i].id == id
    {
      assert (id, t.rows[id]) in Rows(t);
      assert (id, t.rows[id]) in rows;
      var i :| 0 <= i < |rows| && rows[i] == (id, t.rows[id]);
      assert out[i].id == id;
    }
  }

  lemma PublicFacts(t: Table<Review>, siteId: int, rows: seq<(int, Review)>)
    requires Valid(t)
    requires forall x :: x in rows <==> x in Rows(t) && PublicOf(siteId)(x)
    requires SortedBy(rows, CreatedKey, true)
    ensures forall i :: 0 <= i < |rows| ==>
      rows[i].0 in t.rows && t.rows[rows[i].0] == rows[i].1 && IsPublic(siteId, rows[i])
    ensures forall i, j :: 0 <= i < j < |rows| ==> rows[i].1.createdAt >= rows[j].1.createdAt
  {
    forall i | 0 <= i < |rows| ensures rows[i].0 in t.rows && t.rows[rows[i].0] == rows[i].1 && IsPublic(siteId, rows[i]) {
      assert rows[i] in rows;
    }
    forall i, j | 0 <= i < j < |rows| ensures rows[i].1.createdAt >= rows[j].1.createdAt {
      assert !Ahead(CreatedKey(rows[j]), CreatedKey(rows[i]), true);
    }
  }

  function SumRatings(rows: seq<(int, Review)>): int {
    if |rows| == 0 then 0 else rows[0].1.rating + SumRatings(rows[1..])
  }

  /** The statistics the public portal shows: the average rating (absent
      without approved reviews) and their count. */
  datatype Stats = Stats(average: Option<real>, total: int)

  /** `get_public_review_stats` over approved reviews of the site only. */
  function PublicStats(t: Table<Review>, siteId: int): (s: Stats)
    requires Valid(t)
    ensures s.total == |PublicRows(t, siteId)|
    ensures s.average.None? <==> s.total == 0
    ensures s.average.Some? ==> s.average.value == SumRatings(PublicRows(t, siteId)) as real / s.total as real
  {
    var rows := PublicRows(t, siteId);
    if |rows| == 0 then Stats(None, 0)
    else Stats(Some(SumRatings(rows) as real / |rows| as real), |rows|)
  }

  /** The statistics count exactly the reviews the public listing shows. */
  lemma StatsMatchListing(t: Table<Review>, users: map<int, Person>, siteId: int)
    requires Valid(t)
    ensures PublicStats(t, siteId).total == |ListPublicReviews(t, users, siteId)|
  {
  }

  lemma {:induction false} SumBounds(rows: seq<(int, Review)>, lo: int, hi: int)
    requires forall i :: 0 <= i < |rows| ==> lo <= rows[i].1.rating <= hi
    ensures lo * |rows| <= SumRatings(rows) <= hi * |rows|
  {
    if |rows| > 0 {
      SumBounds(rows[1..], lo, hi);
    }
  }

  /** When every stored rating lies between 1 and 5, so does the average. */
  lemma AverageWithinScale(t: Table<Review>, siteId: int)
    requires Valid(t)
    requires forall id :: id in t.rows ==> 1 <= t.rows[id].rating <= 5
    ensures PublicStats(t, siteId).average.Some? ==>
      1.0 <= PublicStats(t, siteId).average.value <= 5.0
  {
    var rows := PublicRows(t, siteId);
    forall i | 0 <= i < |rows| ensures 1 <= rows[i].1.rating <= 5 {
      assert rows[i] in Rows(t);
    }
    SumBounds(rows, 1, 5);
    if |rows| > 0 {
      RatioBounds(SumRatings(rows), |rows|);
    }
  }

  lemma RatioBounds(s: int, n: int)
    requires n > 0 && n <= s <= 5 * n
    ensures 1.0 <= s as real / n as real <= 5.0
  {
    var q := s as real / n as real;
    var m := n as real;
    assert q * m == s as real;
    assert (q - 1.0) * m == s as real - m;
    assert (5.0 - q) * m == 5.0 * m - s as real;
    if q < 1.0 {
      NegTimesPos(q - 1.0, m);
    }
    if q > 5.0 {
      NegTimesPos(5.0 - q, m);
    }
  }

  lemma NegTimesPos(x: real, y: real)
    requires x < 0.0 && y > 0.0
    ensures x * y < 0.0
  {
  }

  /** A newly created review is pending, so the public listing and the
      statistics of every site stay as they were until it is approved. */
  lemma NewReviewStaysHidden(t: Table<Review>, siteId: int, userId: int, rating: int, comment: string,
                             now: int, anySite: int)
    requires ReviewsOk(t)
    ensures var u := CreateSiteReview(t, siteId, userId, rating, comment, now).0;
      PublicRows(u, anySite) == PublicRows(t, anySite) && PublicStats(u, anySite) == PublicStats(t, anySite)
  {
    var row := NewReview(siteId, userId, rating, comment, now);
    RowsInsert(t, row);
    FilterAppend(Rows(t), [(t.nextId, row)], PublicOf(anySite));
  }

  // ---------------------------------------------------------------------------
  // The moderation listing

  /** The filters of `paginate_reviews`, already parsed. */
  datatype ReviewFilter = ReviewFilter(status: Option<ReviewStatus>, siteId: Option<int>,
                                       ratingMin: Option<int>, ratingMax: Option<int>,
                                       createdFrom: Option<int>, createdTo: Option<int>,
                                       userQuery: Option<string>)

  /** The user text matches the email or a name column, ignoring case, after
      stripping; a review whose user row is gone never matches. */
  predicate UserQueryMatches(users: map<int, Person>, userId: int, query: string) {
    userId in users
    && (|| ContainsFold(users[userId].email, Strip(query))
        || (users[userId].firstName.Some? && ContainsFold(users[userId].firstName.value, Strip(query)))
        || (users[userId].lastName.Some? && ContainsFold(users[userId].lastName.value, Strip(query))))
  }

  /** One review row passes the filters; it also needs its site (inner
      join). A site id of 0 and an empty user text apply no filter. */
  predicate Matches(sites: map<int, string>, users: map<int, Person>, f: ReviewFilter, row: (int, Review)) {
    && row.1.siteId in sites
    && (f.status.Some? ==> row.1.status == f.status.value)
    && (f.siteId.Some? && f.siteId.value != 0 ==> row.1.siteId == f.siteId.value)
    && (f.ratingMin.Some? ==> row.1.rating >= f.ratingMin.value)
    && (f.ratingMax.Some? ==> row.1.rating <= f.ratingMax.value)
    && (f.createdFrom.Some? ==> row.1.createdAt >= f.createdFrom.value)
    && (f.createdTo.Some? ==> row.1.createdAt <= f.createdTo.value)
    && (f.userQuery.Some? && f.userQuery.value != "" ==> UserQueryMatches(users, row.1.userId, f.userQuery.value))
  }

  function MatchesRow(sites: map<int, string>, users: map<int, Person>, f: ReviewFilter): ((int, Review)) -> bool {
    row => Matches(sites, users, f, row)
  }

  datatype ReviewColumn = ByCreatedAt | ByRating

  /** The order whitelist: "rating", or "created_at" for anything else. */
  function ReviewColumnOf(orderBy: string): (c: ReviewColumn)
    ensures c == ByRating <==> orderBy == "rating"
  {
    if orderBy == "rating" then ByRating else ByCreatedAt
  }

  function ReviewKey(col: ReviewColumn): ((int, Review)) -> Key {
    (row: (int, Review)) => match col
                            case ByCreatedAt => KInt(row.1.createdAt)
                            case ByRating => KInt(row.1.rating)
  }

  /** A row of the moderation listing. */
  datatype Presenter = Presenter(id: int, review: Review, siteName: string, userEmail: Option<string>,
                                 userName: string, coverUrl: Option<string>, coverTitle: Option<string>)

  function Present(sites: map<int, string>, users: map<int, Person>, covers: map<int, (string, string)>,
                   row: (int, Review)): Presenter
  {
    var r := row.1;
    Presenter(row.0, r,
              if r.siteId in sites then sites[r.siteId] else "",
              if r.userId in users then Some(users[r.userId].email) else None,
              if r.userId in users then FullName(users[r.userId].firstName, users[r.userId].lastName) else "",
              if r.siteId in covers then Some(covers[r.siteId].0) else None,
              if r.siteId in covers then Some(covers[r.siteId].1) else None)
  }

  function Presenters(sites: map<int, string>, users: map<int, Person>, covers: map<int, (string, string)>,
                      rows: seq<(int, Review)>): (r: seq<Presenter>)
    ensures |r| == |rows|
    ensures forall i :: 0 <= i < |rows| ==> r[i] == Present(sites, users, covers, rows[i])
  {
    seq(|rows|, i requires 0 <= i < |rows| => Present(sites, users, covers, rows[i]))
  }

  /** `paginate_reviews`: the matching reviews ordered by the whitelisted
      column (descending unless "asc"), one clamped page of at most 25, and
      the count of every match. */
  function PaginateReviews(t: Table<Review>, sites: map<int, string>, users: map<int, Person>,
                           covers: map<int, (string, string)>, f: ReviewFilter,
                           page: int, perPage: int, orderBy: string, orderDir: string): (p: Pagination<Presenter>)
    requires Valid(t)
    ensures p.total == |Filter(Rows(t), MatchesRow(sites, users, f))|
    ensures p.page == ClampPage(page) && p.perPage == ClampPerPage(perPage, ReviewPageCap)
    ensures |p.items| <= p.perPage && |p.items| <= p.total
    ensures forall i :: 0 <= i < |p.items| ==>
      p.items[i].id in t.rows && t.rows[p.items[i].id] == p.items[i].review
      && Matches(sites, users, f, (p.items[i].id, p.items[i].review))
      && p.items[i].siteName == sites[p.items[i].review.siteId]
    ensures forall i, j :: 0 <= i < j < |p.items| ==>
      !Ahead(ReviewKey(ReviewColumnOf(orderBy))((p.items[j].id, p.items[j].review)),
             ReviewKey(ReviewColumnOf(orderBy))((p.items[i].id, p.items[i].review)), orderDir != "asc")
    ensures p.items == Presenters(sites, users, covers,
      Window(Ordered(Rows(t), MatchesRow(sites, users, f), ReviewKey(ReviewColumnOf(orderBy)), orderDir != "asc"),
             p.page, p.perPage))
  {
    var keep := MatchesRow(sites, users, f);
    var key := ReviewKey(ReviewColumnOf(orderBy));
    var q := Query(Rows(t), keep, key, orderDir != "asc", page, perPage, ReviewPageCap);
    var items := Presenters(sites, users, covers, q.items);
    PresenterFacts(t, sites, users, covers, f, key, orderDir != "asc", q.items, items);
    Pagination(items, q.total, q.page, q.perPage)
  }

  lemma PresenterFacts(t: Table<Review>, sites: map<int, string>, users: map<int, Person>,
                       covers: map<int, (string, string)>, f: ReviewFilter, key: ((int, Review)) -> Key,
                       desc: bool, rows: seq<(int, Review)>, items: seq<Presenter>)
    requires Valid(t)
    requires forall i :: 0 <= i < |rows| ==> rows[i] in Rows(t) && MatchesRow(sites, users, f)(rows[i])
    requires SortedBy(rows, key, desc)
    requires |items| == |rows| && forall i :: 0 <= i < |rows| ==> items[i] == Present(sites, users, covers, rows[i])
    ensures forall i :: 0 <= i < |items| ==>
      items[i].id in t.rows && t.rows[items[i].id] == items[i].review
      && Matches(sites, users, f, (items[i].id, items[i].review))
      && items[i].siteName == sites[items[i].review.siteId]
    ensures forall i, j :: 0 <= i < j < |items| ==>
      !Ahead(key((items[j].id, items[j].review)), key((items[i].id, items[i].review)), desc)
  {
    forall i | 0 <= i < |items|
      ensures items[i].id in t.rows && t.rows[items[i].id] == items[i].review
    {
      assert (items[i].id, items[i].review) == rows[i];
    }
    forall i, j | 0 <= i < j < |items|
      ensures !Ahead(key((items[j].id, items[j].review)), key((items[i].id, items[i].review)), desc)
    {
      assert (items[i].id, items[i].review) == rows[i];
      assert (items[j].id, items[j].review) == rows[j];
    }
  }

  /** Unknown order columns sort by creation date and every direction but
      "asc" is descending. */
  lemma PaginateReviewsDefaults(t: Table<Review>, sites: map<int, string>, users: map<int, Person>,
                                covers: map<int, (string, string)>, f: ReviewFilter,
                                page: int, perPage: int, orderBy: string, orderDir: string)
    requires Valid(t)
    ensures orderBy != "rating" ==>
      PaginateReviews(t, sites, users, covers, f, page, perPage, orderBy, orderDir)
      == PaginateReviews(t, sites, users, covers, f, page, perPage, "created_at", orderDir)
    ensures orderDir != "asc" ==>
      PaginateReviews(t, sites, users, covers, f, page, perPage, orderBy, orderDir)
      == PaginateReviews(t, sites, users, covers, f, page, perPage, orderBy, "desc")
  {
  }

  /** `list_reviews_for_user`: the user's reviews on visible sites, newest
      first. */
  function ListReviewsForUser(t: Table<Review>, visible: set<int>, userId: int): (r: seq<(int, Review)>)
    requires Valid(t)
    ensures forall x :: x in r <==> x.0 in t.rows && t.rows[x.0] == x.1 && x.1.userId == userId && x.1.siteId in visible
    ensures forall i, j :: 0 <= i < j < |r| ==> r[i].1.createdAt >= r[j].1.createdAt
  {
    var rows := Ordered(Rows(t), OwnRow(visible, userId), CreatedKey, true);
    forall i, j | 0 <= i < j < |rows| ensures rows[i].1.createdAt >= rows[j].1.createdAt {
      assert !Ahead(CreatedKey(rows[j]), CreatedKey(rows[i]), true);
    }
    rows
  }

  predicate IsOwn(visible: set<int>, userId: int, row: (int, Review)) {
    row.1.userId == userId && row.1.siteId in visible
  }

  function OwnRow(visible: set<int>, userId: int): ((int, Review)) -> bool {
    row => IsOwn(visible, userId, row)
  }
}

=== FILE: site_forms.dfy ===
/** Reading the historic-site form: the enumeration parser, the tag-id list
    parser, the list of provinces, the blank form and `build_site_payload`,
    which cleans every field, collects one message per failed check and
    returns the typed payload next to the values to show again. */
module SiteForms {
  import opened Common
  import opened Ordering
  import opened SiteModels

  // ---------------------------------------------------------------------------
  // parse_enum

  /** The first option, in the given order, whose value or name equals the
      text exactly. */
  function FirstMatch<E>(text: string, options: seq<E>, val: E -> string, name: E -> string): (r: Option<E>)
    ensures r.Some? ==> r.value in options && (text == val(r.value) || text == name(r.value))
    ensures r.None? ==> forall o :: o in options ==> text != val(o) && text != name(o)
  {
    if |options| == 0 then None
    else if text == val(options[0]) || text == name(options[0]) then Some(options[0])
    else FirstMatch(text, options[1..], val, name)
  }

  /** Over a list holding every member once, where no text is the value
      or name of two different members, the first match is the one match. */
  lemma FirstMatchExact<E>(text: string, options: seq<E>, val: E -> string, name: E -> string)
    requires forall e :: e in options
    requires forall a, b :: val(a) == val(b) ==> a == b
    requires forall a, b :: name(a) == name(b) ==> a == b
    requires forall a, b :: val(a) != name(b)
    ensures forall e :: FirstMatch(text, options, val, name) == Some(e) <==> text == val(e) || text == name(e)
  {
    var r := FirstMatch(text, options, val, name);
    forall e | text == val(e) || text == name(e) ensures r == Some(e) {
      assert e in options;
    }
  }

  /** `parse_enum(value, ConservationStatus)`. */
  function ParseStatus(text: string): (r: Option<ConservationStatus>)
    ensures forall s :: r == Some(s) <==> |text| > 0 && (text == s.Value() || text == s.Name())
  {
    StatusValuesExact();
    var val := (s: ConservationStatus) => s.Value();
    var name := (s: ConservationStatus) => s.Name();
    FirstMatchExact(text, Statuses(), val, name);
    if |text| == 0 then None else FirstMatch(text, Statuses(), val, name)
  }

  /** `parse_enum(value, SiteCategory)`. */
  function ParseCategory(text: string): (r: Option<SiteCategory>)
    ensures forall c :: r == Some(c) <==> |text| > 0 && (text == c.Value() || text == c.Name())
  {
    CategoryValuesExact();
    var val := (c: SiteCategory) => c.Value();
    var name := (c: SiteCategory) => c.Name();
    FirstMatchExact(text, Categories(), val, name);
    if |text| == 0 then None else FirstMatch(text, Categories(), val, name)
  }

  /** Matching is exact: a lower-cased value is not a member. */
  lemma ParseEnumCaseSensitive()
    ensures ParseStatus("bueno") == None && ParseStatus("Bueno") == Some(Good)
    ensures ParseStatus("good") == None && ParseStatus("GOOD") == Some(Good)
    ensures ParseCategory("otro") == None && ParseCategory("OTRO") == Some(Otro)
  {
    assert "bueno"[0] != "Bueno"[0];
    assert "good"[0] != "GOOD"[0];
    assert "otro"[0] != "OTRO"[0];
  }

  // ---------------------------------------------------------------------------
  // parse_tag_ids

  /** `parse_tag_ids`: the entries `int()` converts, converted, in order.
      `int()` fails on exactly the values `safe_int` maps to None (None and
      "" raise), so `safe_int` serves as the conversion. */
  function ParseTagIds(raws: seq<PyValue>): (r: seq<int>)
    ensures |r| <= |raws|
    ensures forall x :: x in r ==> exists i :: 0 <= i < |raws| && SafeInt(raws[i]) == Some(x)
    ensures forall i :: 0 <= i < |raws| && SafeInt(raws[i]).Some? ==> SafeInt(raws[i]).value in r
  {
    FilterMap(raws, SafeInt)
  }

  /** Parsing distributes over concatenation, so entries are kept in the
      order they came. */
  lemma ParseTagIdsAppend(a: seq<PyValue>, b: seq<PyValue>)
    ensures ParseTagIds(a + b) == ParseTagIds(a) + ParseTagIds(b)
  {
    FilterMapAppend(a, b, SafeInt);
  }

  /** The ids as a browser submits them, one decimal text per id. */
  function IdTexts(ids: seq<int>): (r: seq<PyValue>)
    ensures |r| == |ids|
  {
    seq(|ids|, i requires 0 <= i < |ids| => PStr(IntToString(ids[i])))
  }

  /** Every submitted id text is read back as the id it was written from. */
  lemma ParseTagIdsRoundTrip(ids: seq<int>)
    ensures ParseTagIds(IdTexts(ids)) == ids
  {
    var texts := IdTexts(ids);
    forall i | 0 <= i < |texts| ensures SafeInt(texts[i]) == Some(ids[i]) {
      IdTextConverts(ids[i]);
    }
    FilterMapAll(texts, SafeInt, ids);
  }

  lemma IdTextConverts(i: int)
    ensures SafeInt(PStr(IntToString(i))) == Some(i)
  {
    ParseIntOfIntToString(i);
    if i >= 0 {
      assert |NatToString(i)| > 0;
    }
  }

  // ---------------------------------------------------------------------------
  // The form

  /** How the `tags` field arrives: a multi-valued form hands over every
      submitted value (`getlist`), a plain mapping holds one value. */
  datatype TagsField =
    | MultiValues(values: seq<string>)
    | Single(value: PyValue)

  /** A submitted form: its text fields by key, and its tags field. */
  datatype Form = Form(fields: map<string, string>, tags: TagsField)

  function Get(f: Form, key: string): Option<string> {
    if key in f.fields then Some(f.fields[key]) else None
  }

  /** The raw tag entries: every value of a multi-valued field; a list as it
      is; nothing for None or ""; any other single value on its own. */
  function RawTagIds(t: TagsField): seq<PyValue> {
    match t
    case MultiValues(vs) => seq(|vs|, i requires 0 <= i < |vs| => PStr(vs[i]))
    case Single(v) =>
      if v.PList? then v.items
      else if v == PNone || v == PStr("") then []
      else [v]
  }

  /** The cleaned text values under the ten text keys. */
  const TextKeys: seq<string> := ["name", "short_description", "full_description", "city",
    "province", "conservation_status", "category", "inaguration_year", "latitude", "longitude"]

  /** The cleaned values of the text fields, by key. */
  function FormTexts(f: Form): (m: map<string, string>)
    ensures forall k :: k in m <==> k in TextKeys
  {
    map k | k in TextKeys :: Text(f, k)
  }

  /** Every text field empty. */
  function NoTexts(): (m: map<string, string>)
    ensures forall k :: k in m <==> k in TextKeys
    ensures forall k :: k in m ==> m[k] == ""
  {
    map k | k in TextKeys :: ""
  }

  /** The values shown back in the form. */
  datatype FormValues = FormValues(texts: map<string, string>, isVisible: bool, tagIds: seq<int>)

  datatype SitePayload = SitePayload(
    name: string,
    shortDescription: string,
    fullDescription: string,
    city: string,
    province: string,
    latitude: Option<real>,
    longitude: Option<real>,
    conservationStatus: Option<ConservationStatus>,
    category: Option<SiteCategory>,
    inagurationYear: Option<int>,
    isVisible: bool,
    tagIds: seq<int>)

  /** The checks, in the order their messages are collected. */
  datatype SiteFieldError =
    | NameRequired | ShortDescriptionRequired | FullDescriptionRequired
    | CityRequired | ProvinceRequired | LocationInvalid | StatusInvalid
    | CategoryInvalid | YearInvalid
  {
    function Rank(): nat {
      match this
      case NameRequired => 0
      case ShortDescriptionRequired => 1
      case FullDescriptionRequired => 2
      case CityRequired => 3
      case ProvinceRequired => 4
      case LocationInvalid => 5
      case StatusInvalid => 6
      case CategoryInvalid => 7
      case YearInvalid => 8
    }

    function Message(): string {
      match this
      case NameRequired => "El nombre es obligatorio."
      case ShortDescriptionRequired => "La descripci\U{f3}n breve es obligatoria."
      case FullDescriptionRequired => "La descripci\U{f3}n completa es obligatoria."
      case CityRequired => "La ciudad es obligatoria."
      case ProvinceRequired => "La provincia es obligatoria."
      case LocationInvalid => "Seleccion\U{e1} una ubicaci\U{f3}n en el mapa."
      case StatusInvalid => "Eleg\U{ed} un estado de conservaci\U{f3}n v\U{e1}lido."
      case CategoryInvalid => "Eleg\U{ed} una categor\U{ed}a v\U{e1}lida."
      case YearInvalid => "Ingres\U{e1} un a\U{f1}o de inauguraci\U{f3}n v\U{e1}lido."
    }
  }

  /** When each check fails, stated on the payload. */
  predicate Fails(p: SitePayload, e: SiteFieldError) {
    match e
    case NameRequired => p.name == ""
    case ShortDescriptionRequired => p.shortDescription == ""
    case FullDescriptionRequired => p.fullDescription == ""
    case CityRequired => p.city == ""
    case ProvinceRequired => p.province == ""
    case LocationInvalid => p.latitude.None? || p.longitude.None?
    case StatusInvalid => p.conservationStatus.None?
    case CategoryInvalid => p.category.None?
    case YearInvalid => p.inagurationYear.None?
  }

  predicate Ascending(errs: seq<SiteFieldError>) {
    forall i, j :: 0 <= i < j < |errs| ==> errs[i].Rank() < errs[j].Rank()
  }

  /** Every check, in check order. */
  function AllChecks(): (r: seq<SiteFieldError>)
    ensures Ascending(r)
    ensures forall i :: 0 <= i < |r| ==> r[i].Rank() == i
  {
    [NameRequired, ShortDescriptionRequired, FullDescriptionRequired, CityRequired,
     ProvinceRequired, LocationInvalid, StatusInvalid, CategoryInvalid, YearInvalid]
  }

  lemma AllChecksComplete(e: SiteFieldError)
    ensures e in AllChecks()
  {
    var r := AllChecks();
    match e
    case NameRequired => assert r[0] == e;
    case ShortDescriptionRequired => assert r[1] == e;
    case FullDescriptionRequired => assert r[2] == e;
    case CityRequired => assert r[3] == e;
    case ProvinceRequired => assert r[4] == e;
    case LocationInvalid => assert r[5] == e;
    case StatusInvalid => assert r[6] == e;
    case CategoryInvalid => assert r[7] == e;
    case YearInvalid => assert r[8] == e;
  }

  lemma {:induction false} FilterAscending(xs: seq<SiteFieldError>, q: SiteFieldError -> bool)
    requires Ascending(xs)
    ensures Ascending(Filter(xs, q))
    ensures forall e :: e in Filter(xs, q) ==> e in xs
  {
    if |xs| > 0 {
      FilterAscending(xs[1..], q);
      var rest := Filter(xs[1..], q);
      forall e | e in rest ensures xs[0].Rank() < e.Rank() {
        var j :| 0 <= j < |xs[1..]| && xs[1..][j] == e;
        assert xs[j + 1] == e;
      }
    }
  }

  /** `safe_float` on a cleaned text: None for "", otherwise Python's
      `float()`, which the model takes as a parameter. */
  function SafeFloat(text: string, parseFloat: string -> Option<real>): Option<real> {
    if text == "" then None else parseFloat(text)
  }

  /** The messages of the failed checks, in check order. */
  function SiteErrors(p: SitePayload): (errs: seq<SiteFieldError>)
    ensures forall e :: e in errs <==> Fails(p, e)
    ensures Ascending(errs)
  {
    FilterAscending(AllChecks(), Check(p));
    forall e ensures e in AllChecks() { AllChecksComplete(e); }
    Filter(AllChecks(), Check(p))
  }

  /** The check a payload is put through, as a filter. */
  function Check(p: SitePayload): SiteFieldError -> bool {
    e => Fails(p, e)
  }

  /** A cleaned text field. */
  function Text(f: Form, key: string): (r: string)
    ensures Stripped(r)
  {
    CleanStr(Get(f, key))
  }

  /** The payload half of `build_site_payload`. */
  function Payload(f: Form, parseFloat: string -> Option<real>): SitePayload {
    SitePayload(
      Text(f, "name"), Text(f, "short_description"), Text(f, "full_description"),
      Text(f, "city"), Text(f, "province"),
      SafeFloat(Text(f, "latitude"), parseFloat), SafeFloat(Text(f, "longitude"), parseFloat),
      ParseStatus(Text(f, "conservation_status")), ParseCategory(Text(f, "category")),
      SafeInt(PStr(Text(f, "inaguration_year"))),
      Get(f, "is_visible") == Some("on"),
      ParseTagIds(RawTagIds(f.tags)))
  }

  /** `build_site_payload`: the payload, the values to show back, and one
      message per failed check in check order. */
  function BuildSitePayload(f: Form, parseFloat: string -> Option<real>)
    : (r: (SitePayload, FormValues, seq<SiteFieldError>))
    ensures var (p, v, errs) := r;
      && (forall e :: e in errs <==> Fails(p, e))
      && Ascending(errs)
      && p.name == CleanStr(Get(f, "name")) && p.city == CleanStr(Get(f, "city"))
      && p.shortDescription == CleanStr(Get(f, "short_description"))
      && p.fullDescription == CleanStr(Get(f, "full_description"))
      && p.province == CleanStr(Get(f, "province"))
      && (p.isVisible <==> Get(f, "is_visible") == Some("on"))
      && p.latitude == SafeFloat(Text(f, "latitude"), parseFloat)
      && p.longitude == SafeFloat(Text(f, "longitude"), parseFloat)
      && p.conservationStatus == ParseStatus(Text(f, "conservation_status"))
      && p.category == ParseCategory(Text(f, "category"))
      && p.inagurationYear == SafeInt(PStr(Text(f, "inaguration_year")))
      && p.tagIds == ParseTagIds(RawTagIds(f.tags))
      && v.isVisible == p.isVisible && v.tagIds == p.tagIds
      && (forall k :: k in v.texts <==> k in TextKeys)
      && (forall k :: k in v.texts ==> v.texts[k] == CleanStr(Get(f, k)))
  {
    var p := Payload(f, parseFloat);
    var texts := FormTexts(f);
    (p, FormValues(texts, p.isVisible, p.tagIds), SiteErrors(p))
  }

  /** The form a browser submits for a complete site whose text fields are
      filled in, its enumerations chosen by value, its year and coordinates
      written out and its tags ticked is accepted: no message, and the
      payload holds exactly that site. */
  lemma CompleteFormAccepted(f: Form, parseFloat: string -> Option<real>, formatFloat: real -> string,
                             s: Site, year: int, lat: real, lon: real, ids: seq<int>)
    requires forall x :: parseFloat(formatFloat(x)) == Some(x) && formatFloat(x) != "" && Stripped(formatFloat(x))
    requires FilledIn(s.name) && FilledIn(s.shortDescription) && FilledIn(s.fullDescription)
    requires FilledIn(s.city) && FilledIn(s.province)
    requires Get(f, "name") == Some(s.name) && Get(f, "short_description") == Some(s.shortDescription)
    requires Get(f, "full_description") == Some(s.fullDescription)
    requires Get(f, "city") == Some(s.city) && Get(f, "province") == Some(s.province)
    requires Get(f, "conservation_status") == Some(s.conservationStatus.Value())
    requires Get(f, "category") == Some(s.category.Value())
    requires Get(f, "inaguration_year") == Some(IntToString(year))
    requires Get(f, "latitude") == Some(formatFloat(lat)) && Get(f, "longitude") == Some(formatFloat(lon))
    requires Get(f, "is_visible") == (if s.isVisible then Some("on") else None)
    requires f.tags == MultiValues(seq(|ids|, i requires 0 <= i < |ids| => IntToString(ids[i])))
    ensures var (p, _, errs) := BuildSitePayload(f, parseFloat);
      && errs == []
      && p == SitePayload(s.name, s.shortDescription, s.fullDescription, s.city, s.province,
                          Some(lat), Some(lon), Some(s.conservationStatus), Some(s.category),
                          Some(year), s.isVisible, ids)
  {
    var p := Payload(f, parseFloat);
    FilledInRead(f, "name", s.name);
    FilledInRead(f, "short_description", s.shortDescription);
    FilledInRead(f, "full_description", s.fullDescription);
    FilledInRead(f, "city", s.city);
    FilledInRead(f, "province", s.province);
    EnumsRead(f, s.conservationStatus, s.category);
    YearRead(f, year);
    CoordinateRead(f, "latitude", parseFloat, formatFloat, lat);
    CoordinateRead(f, "longitude", parseFloat, formatFloat, lon);
    TagIdsSources(ids);
    var expected := SitePayload(s.name, s.shortDescription, s.fullDescription, s.city, s.province,
                                Some(lat), Some(lon), Some(s.conservationStatus), Some(s.category),
                                Some(year), s.isVisible, ids);
    assert p == expected;
    NoFailureNoError(expected.name, expected.shortDescription, expected.fullDescription,
                     expected.city, expected.province, lat, lon, s.conservationStatus,
                     s.category, year, s.isVisible, ids);
  }

  /** A field a user filled in: not blank, no surrounding whitespace. */
  predicate FilledIn(t: string) {
    t != "" && Stripped(t)
  }

  lemma FilledInRead(f: Form, key: string, t: string)
    requires FilledIn(t) && Get(f, key) == Some(t)
    ensures Text(f, key) == t
  {
    StripOfStripped(t);
  }

  lemma EnumsRead(f: Form, s: ConservationStatus, c: SiteCategory)
    requires Get(f, "conservation_status") == Some(s.Value()) && Get(f, "category") == Some(c.Value())
    ensures ParseStatus(Text(f, "conservation_status")) == Some(s)
    ensures ParseCategory(Text(f, "category")) == Some(c)
  {
    EnumValuesStripped(s, c);
    StripOfStripped(s.Value());
    StripOfStripped(c.Value());
  }

  lemma YearRead(f: Form, year: int)
    requires Get(f, "inaguration_year") == Some(IntToString(year))
    ensures SafeInt(PStr(Text(f, "inaguration_year"))) == Some(year)
  {
    IntToStringShape(year);
    StripOfStripped(IntToString(year));
    IdTextConverts(year);
  }

  lemma CoordinateRead(f: Form, key: string, parseFloat: string -> Option<real>, formatFloat: real -> string, x: real)
    requires forall y :: parseFloat(formatFloat(y)) == Some(y) && formatFloat(y) != "" && Stripped(formatFloat(y))
    requires Get(f, key) == Some(formatFloat(x))
    ensures SafeFloat(Text(f, key), parseFloat) == Some(x)
  {
    StripOfStripped(formatFloat(x));
  }

  /** A payload with every required field present passes every check. */
  lemma NoFailureNoError(name: string, shortDescription: string, fullDescription: string,
                         city: string, province: string, lat: real, lon: real,
                         status: ConservationStatus, category: SiteCategory, year: int,
                         isVisible: bool, ids: seq<int>)
    requires name != "" && shortDescription != "" && fullDescription != ""
    requires city != "" && province != ""
    ensures SiteErrors(SitePayload(name, shortDescription, fullDescription, city, province,
                                   Some(lat), Some(lon), Some(status), Some(category),
                                   Some(year), isVisible, ids)) == []
  {
    var p := SitePayload(name, shortDescription, fullDescription, city, province,
                         Some(lat), Some(lon), Some(status), Some(category),
                         Some(year), isVisible, ids);
    assert forall e :: !Fails(p, e);
    assert forall e :: e !in SiteErrors(p);
  }

  lemma EnumValuesStripped(s: ConservationStatus, c: SiteCategory)
    ensures Stripped(s.Value()) && Stripped(c.Value())
  {
  }

  // ---------------------------------------------------------------------------
  // The blank form and the provinces

  /** `empty_site_form`: every text field blank, not visible, no tags. */
  function EmptySiteForm(): (v: FormValues)
    ensures forall k :: k in v.texts <==> k in TextKeys
    ensures forall k :: k in v.texts ==> v.texts[k] == ""
    ensures !v.isVisible && v.tagIds == []
  {
    FormValues(NoTexts(), false, [])
  }

  /** Submitting the blank form shows the blank form again, with every one
      of the nine messages in check order. */
  lemma BlankFormRejected(f: Form, parseFloat: string -> Option<real>)
    requires f.fields == map[] && f.tags == MultiValues([])
    ensures BuildSitePayload(f, parseFloat).1 == EmptySiteForm()
    ensures BuildSitePayload(f, parseFloat).2 == AllChecks()
  {
    NoTagValues();
    BlankTexts(f);
    BlankPayload(f, parseFloat);
    BlankPayloadFails();
  }

  lemma NoTagValues()
    ensures RawTagIds(MultiValues([])) == []
  {
  }

  lemma BlankTexts(f: Form)
    requires f.fields == map[]
    ensures FormTexts(f) == NoTexts()
  {
    forall k ensures Text(f, k) == "" {
      assert Get(f, k) == None;
    }
  }

  lemma BlankPayload(f: Form, parseFloat: string -> Option<real>)
    requires f.fields == map[] && f.tags == MultiValues([])
    ensures Payload(f, parseFloat) == SitePayload("", "", "", "", "", None, None, None, None, None, false, [])
  {
    forall k ensures Text(f, k) == "" {
      assert Get(f, k) == None;
    }
  }

  lemma BlankPayloadFails()
    ensures SiteErrors(SitePayload("", "", "", "", "", None, None, None, None, None, false, [])) == AllChecks()
  {
    var p := SitePayload("", "", "", "", "", None, None, None, None, None, false, []);
    var all := AllChecks();
    forall i | 0 <= i < |all| ensures Check(p)(all[i]) {
      assert Fails(p, all[i]);
    }
    FilterKeepsAll(all, Check(p));
  }

  /** How the tags field is read: every value of a multi-valued field, and a
      list as it is. */
  lemma TagIdsSources(ids: seq<int>)
    ensures ParseTagIds(RawTagIds(MultiValues(seq(|ids|, k requires 0 <= k < |ids| => IntToString(ids[k]))))) == ids
    ensures ParseTagIds(RawTagIds(Single(PList(IdTexts(ids))))) == ids
  {
    ParseTagIdsRoundTrip(ids);
    assert RawTagIds(MultiValues(seq(|ids|, k requires 0 <= k < |ids| => IntToString(ids[k])))) == IdTexts(ids);
  }

  /** A single value is read on its own, and None or "" as no tags. */
  lemma SingleTagIdSources(i: int)
    ensures ParseTagIds(RawTagIds(Single(PInt(i)))) == [i]
    ensures ParseTagIds(RawTagIds(Single(PStr(IntToString(i))))) == [i]
    ensures ParseTagIds(RawTagIds(Single(PNone))) == []
    ensures ParseTagIds(RawTagIds(Single(PStr("")))) == []
  {
    FilterMapAll([PInt(i)], SafeInt, [i]);
    IntToStringShape(i);
    IdTextConverts(i);
    FilterMapAll([PStr(IntToString(i))], SafeInt, [i]);
  }

  /** `PROVINCES`: the 24 provinces, each once. */
  function Provinces(): (r: seq<string>)
    ensures |r| == 24
    ensures forall i, j :: 0 <= i < j < |r| ==> r[i] != r[j]
  {
    ["Buenos Aires", "Ciudad Aut\U{f3}noma de Buenos Aires", "Catamarca", "Chaco", "Chubut",
     "C\U{f3}rdoba", "Corrientes", "Entre R\U{ed}os", "Formosa", "Jujuy", "La Pampa", "La Rioja",
     "Mendoza", "Misiones", "Neuqu\U{e9}n", "R\U{ed}o Negro", "Salta", "San Juan", "San Luis",
     "Santa Cruz", "Santa Fe", "Santiago del Estero",
     "Tierra del Fuego, Ant\U{e1}rtida e Islas del Atl\U{e1}ntico Sur", "Tucum\U{e1}n"]
  }
}

=== FILE: site_models.dfy ===
/** The historic-site record, the two enumerations a site is classified by,
    the location accessors and the dictionary a site is serialised to. The
    site-tag join table is a set of (site id, tag id) pairs. */
module SiteModels {
  import opened Common
  import opened Tables
  import opened Ordering
  import opened TagService

  /** The state of conservation; each member has a stored value (shown to
      users) and a member name. */
  datatype ConservationStatus = Good | Regular | Bad
  {
    function Value(): string {
      match this
      case Good => "Bueno"
      case Regular => "Regular"
      case Bad => "Malo"
    }

    function Name(): string {
      match this
      case Good => "GOOD"
      case Regular => "REGULAR"
      case Bad => "BAD"
    }
  }

  datatype SiteCategory = Architecture | Infrastructure | Archaeological | Otro
  {
    function Value(): string {
      match this
      case Architecture => "Arquitectura"
      case Infrastructure => "Infraestructura"
      case Archaeological => "Sitio arqueol\U{f3}gico"
      case Otro => "Otro"
    }

    function Name(): string {
      match this
      case Architecture => "ARCHITECTURE"
      case Infrastructure => "INFRASTRUCTURE"
      case Archaeological => "ARCHAEOLOGICAL"
      case Otro => "OTRO"
    }
  }

  /** The members in declaration order, the order in which iterating the
      enumeration visits them. */
  function Statuses(): (r: seq<ConservationStatus>)
    ensures forall i, j :: 0 <= i < j < |r| ==> r[i] != r[j]
  {
    [Good, Regular, Bad]
  }

  function Categories(): (r: seq<SiteCategory>)
    ensures forall i, j :: 0 <= i < j < |r| ==> r[i] != r[j]
  {
    [Architecture, Infrastructure, Archaeological, Otro]
  }

  /** Every member is listed; the stored values are exactly Bueno, Regular
      and Malo; no two members
      share a value, and no value is the name of a member, so a text picks
      out at most one member whichever way it is matched. */
  lemma StatusValuesExact()
    ensures forall s: ConservationStatus :: s in Statuses()
    ensures (set s | s in Statuses() :: s.Value()) == {"Bueno", "Regular", "Malo"}
    ensures forall a: ConservationStatus, b: ConservationStatus :: a.Value() == b.Value() ==> a == b
    ensures forall a: ConservationStatus, b: ConservationStatus :: a.Name() == b.Name() ==> a == b
    ensures forall a: ConservationStatus, b: ConservationStatus :: a.Value() != b.Name()
  {
    forall s: ConservationStatus ensures s in Statuses() {
      match s
      case Good => assert Statuses()[0] == s;
      case Regular => assert Statuses()[1] == s;
      case Bad => assert Statuses()[2] == s;
    }
    var vs := set s | s in Statuses() :: s.Value();
    assert Good.Value() in vs && Regular.Value() in vs && Bad.Value() in vs;
  }

  /** Every member is listed; the stored values are exactly the four
      category labels, and they pick out one member each. */
  lemma CategoryValuesExact()
    ensures forall c: SiteCategory :: c in Categories()
    ensures (set c | c in Categories() :: c.Value())
         == {"Arquitectura", "Infraestructura", "Sitio arqueol\U{f3}gico", "Otro"}
    ensures forall a: SiteCategory, b: SiteCategory :: a.Value() == b.Value() ==> a == b
    ensures forall a: SiteCategory, b: SiteCategory :: a.Name() == b.Name() ==> a == b
    ensures forall a: SiteCategory, b: SiteCategory :: a.Value() != b.Name()
  {
    forall c: SiteCategory ensures c in Categories() {
      match c
      case Architecture => assert Categories()[0] == c;
      case Infrastructure => assert Categories()[1] == c;
      case Archaeological => assert Categories()[2] == c;
      case Otro => assert Categories()[3] == c;
    }
    var vs := set c | c in Categories() :: c.Value();
    assert Architecture.Value() in vs && Infrastructure.Value() in vs;
    assert Archaeological.Value() in vs && Otro.Value() in vs;
  }

  // ---------------------------------------------------------------------------
  // Sites

  /** A PostGIS point: x is the longitude and y the latitude. */
  datatype Point = Point(x: real, y: real)

  /** The point the services write as `POINT(lon lat)`. */
  function PointAt(latitude: real, longitude: real): Point {
    Point(longitude, latitude)
  }

  datatype Site = Site(
    name: string,
    shortDescription: string,
    fullDescription: string,
    city: string,
    province: string,
    location: Option<Point>,
    conservationStatus: ConservationStatus,
    inagurationYear: Option<int>,
    category: SiteCategory,
    createdAt: int,
    isVisible: bool,
    updatedAt: int)

  /** The latitude property: the point's y, or None without a location. */
  function Latitude(s: Site): (r: Option<real>)
    ensures r.None? <==> s.location.None?
  {
    match s.location
    case None => None
    case Some(p) => Some(p.y)
  }

  /** The longitude property: the point's x, or None without a location. */
  function Longitude(s: Site): (r: Option<real>)
    ensures r.None? <==> s.location.None?
  {
    match s.location
    case None => None
    case Some(p) => Some(p.x)
  }

  /** A site stored at `POINT(lon lat)` reads back the latitude and the
      longitude it was given, not the two swapped. */
  lemma CoordinatesRoundTrip(s: Site, latitude: real, longitude: real)
    ensures Latitude(s.(location := Some(PointAt(latitude, longitude)))) == Some(latitude)
    ensures Longitude(s.(location := Some(PointAt(latitude, longitude)))) == Some(longitude)
  {
  }

  /** The database's unique constraint on site names (exact text). */
  predicate SiteNamesUnique(sites: map<int, Site>) {
    forall a, b :: a in sites && b in sites && a != b ==> sites[a].name != sites[b].name
  }

  // ---------------------------------------------------------------------------
  // Serialisation

  /** The tags of one site, in tag-id order. */
  function LinkedTags(tags: Table<Tag>, links: set<(int, int)>, siteId: int): (r: seq<(int, Tag)>)
    requires Valid(tags)
    ensures forall p :: p in r <==> p in Rows(tags) && (siteId, p.0) in links
  {
    Filter(Rows(tags), (p: (int, Tag)) => (siteId, p.0) in links)
  }

  /** The names of the tags linked to a site. */
  function TagNamesOf(tags: Table<Tag>, links: set<(int, int)>, siteId: int): (r: seq<string>)
    requires Valid(tags)
    ensures |r| == |LinkedTags(tags, links, siteId)|
    ensures forall n :: n in r <==>
      exists id :: id in tags.rows && (siteId, id) in links && tags.rows[id].name == n
  {
    var linked := LinkedTags(tags, links, siteId);
    var r := seq(|linked|, i requires 0 <= i < |linked| => linked[i].1.name);
    TagNamesMembers(tags, links, siteId, linked, r);
    r
  }

  lemma TagNamesMembers(tags: Table<Tag>, links: set<(int, int)>, siteId: int,
                        linked: seq<(int, Tag)>, r: seq<string>)
    requires Valid(tags) && linked == LinkedTags(tags, links, siteId)
    requires |r| == |linked| && forall i :: 0 <= i < |r| ==> r[i] == linked[i].1.name
    ensures forall n :: n in r <==>
      exists id :: id in tags.rows && (siteId, id) in links && tags.rows[id].name == n
  {
    forall n | n in r
      ensures exists id :: id in tags.rows && (siteId, id) in links && tags.rows[id].name == n
    {
      var i :| 0 <= i < |r| && r[i] == n;
      assert linked[i] in linked;
      var id := linked[i].0;
      assert id in tags.rows && tags.rows[id] == linked[i].1;
    }
    forall id | id in tags.rows && (siteId, id) in links ensures tags.rows[id].name in r {
      assert (id, tags.rows[id]) in Rows(tags);
      assert (id, tags.rows[id]) in linked;
      var i :| 0 <= i < |linked| && linked[i] == (id, tags.rows[id]);
      assert r[i] == tags.rows[id].name;
    }
  }

  /** What `to_dict` returns for a site. Timestamps stay instants. */
  datatype SiteDict = SiteDict(
    id: int,
    name: string,
    shortDescription: string,
    fullDescription: string,
    city: string,
    province: string,
    latitude: Option<real>,
    longitude: Option<real>,
    conservationStatus: ConservationStatus,
    inagurationYear: Option<int>,
    category: SiteCategory,
    isVisible: bool,
    tags: seq<string>,
    createdAt: int,
    updatedAt: int)

  /** `to_dict`: the record's fields, the coordinates read from the point,
      and under "tags" the names of the site's tags. */
  function ToDict(id: int, s: Site, tags: Table<Tag>, links: set<(int, int)>): (d: SiteDict)
    requires Valid(tags)
    ensures d.id == id && d.name == s.name && d.isVisible == s.isVisible
    ensures d.latitude == Latitude(s) && d.longitude == Longitude(s)
    ensures forall n :: n in d.tags <==>
      exists t :: t in tags.rows && (id, t) in links && tags.rows[t].name == n
  {
    SiteDict(id, s.name, s.shortDescription, s.fullDescription, s.city, s.province,
             Latitude(s), Longitude(s), s.conservationStatus, s.inagurationYear,
             s.category, s.isVisible, TagNamesOf(tags, links, id), s.createdAt, s.updatedAt)
  }
}

=== FILE: site_service.dfy ===
/** The site services over an abstract store: the site table, the tag
    table, the site-tag join table, the favourites join table and the
    history log. Every operation is a store-to-store function; the clock is
    the parameter `now`, and the database's unique constraint on site names
    surfaces as an error that leaves the store unchanged. */
module SiteService {
  import opened Common
  import opened Tables
  import opened Ordering
  import opened Paging
  import opened Listing
  import opened TagService
  import opened SiteModels
  import opened History

  datatype Store = Store(
    sites: Table<Site>,
    tags: Table<Tag>,
    links: set<(int, int)>,
    favorites: set<(int, int)>,
    history: seq<Event>)

  /** Both tables are well formed, site names are unique and every link
      joins an existing site to an existing tag. */
  predicate Consistent(st: Store) {
    && Valid(st.sites) && Valid(st.tags)
    && SiteNamesUnique(st.sites.rows)
    && (forall l :: l in st.links ==> l.0 in st.sites.rows && l.1 in st.tags.rows)
  }

  datatype SiteError = NotFound | DuplicateName | MissingLocation

  /** The site's tag set: the given ids that name an existing tag. */
  function LinksFor(st: Store, siteId: int, tagIds: seq<int>): (r: set<(int, int)>)
    ensures forall l :: l in r <==> l.0 == siteId && l.1 in tagIds && l.1 in st.tags.rows
  {
    var r := set t | t in tagIds && t in st.tags.rows :: (siteId, t);
    assert forall l: (int, int) :: l in r <== l.0 == siteId && l.1 in tagIds && l.1 in st.tags.rows by {
      forall l: (int, int) | l.0 == siteId && l.1 in tagIds && l.1 in st.tags.rows ensures l in r {
        var t := l.1;
        assert t in tagIds && t in st.tags.rows;
        assert (siteId, t) in r;
      }
    }
    r
  }

  /** The links of every site but one. */
  function LinksWithout(links: set<(int, int)>, siteId: int): (r: set<(int, int)>)
    ensures forall l :: l in r <==> l in links && l.0 != siteId
  {
    set l | l in links && l.0 != siteId
  }

  predicate NameTaken(st: Store, name: string, except: int) {
    exists id :: id in st.sites.rows && id != except && st.sites.rows[id].name == name
  }

  // ---------------------------------------------------------------------------
  // create_site

  datatype SiteArgs = SiteArgs(
    name: string, shortDescription: string, fullDescription: string, city: string, province: string,
    latitude: Option<real>, longitude: Option<real>,
    conservationStatus: ConservationStatus, inagurationYear: Option<int>, category: SiteCategory,
    isVisible: Option<bool>, tagIds: seq<int>)

  /** The row `create_site` inserts: the point is written as
      `POINT(lon lat)`, and visibility defaults to hidden. */
  function NewSite(a: SiteArgs, lat: real, lon: real, now: int): Site {
    Site(a.name, a.shortDescription, a.fullDescription, a.city, a.province,
         Some(PointAt(lat, lon)), a.conservationStatus, a.inagurationYear, a.category,
         now, if a.isVisible.Some? then a.isVisible.value else false, now)
  }

  const Creation: string := "Creaci\U{f3}n"
  const Edition: string := "Edici\U{f3}n"
  const Deletion: string := "Eliminaci\U{f3}n"

  /** `create_site`: insert the site, link the existing tags among
      `tag_ids`, and log one "Creación" event. A missing coordinate makes
      the point unreadable and a taken name violates the unique
      constraint; both fail without changing anything. */
  function CreateSite(st: Store, a: SiteArgs, performedBy: Option<int>, now: int): (r: Result<(Store, int), SiteError>)
    requires Consistent(st)
    ensures a.latitude.None? || a.longitude.None? <==> r == Err(MissingLocation)
    ensures r == Err(DuplicateName) <==> a.latitude.Some? && a.longitude.Some? && NameTaken(st, a.name, -1)
    ensures r.Ok? ==> var (st', id) := r.value;
      && Consistent(st')
      && id !in st.sites.rows && st'.sites.rows.Keys == st.sites.rows.Keys + {id}
      && st'.sites.rows[id] == NewSite(a, a.latitude.value, a.longitude.value, now)
      && (forall k :: k in st.sites.rows ==> st'.sites.rows[k] == st.sites.rows[k])
      && st'.links == st.links + LinksFor(st, id, a.tagIds)
      && st'.tags == st.tags && st'.favorites == st.favorites
      && st'.history == RecordEvent(st.history, id, performedBy, Creation, Some("Sitio creado"), now)
  {
    if a.latitude.None? || a.longitude.None? then Err(MissingLocation)
    else if NameTaken(st, a.name, -1) then Err(DuplicateName)
    else
      var (sites, id) := Tables.Insert(st.sites, NewSite(a, a.latitude.value, a.longitude.value, now));
      var links := st.links + LinksFor(st, id, a.tagIds);
      var st' := Store(sites, st.tags, links, st.favorites,
                       RecordEvent(st.history, id, performedBy, Creation, Some("Sitio creado"), now));
      Ok((st', id))
  }

  // ---------------------------------------------------------------------------
  // get_site

  /** `get_site`: the site's dictionary with the ids of its tags, or None. */
  function GetSite(st: Store, id: int): (r: Option<(SiteDict, set<int>)>)
    requires Consistent(st)
    ensures r.None? <==> id !in st.sites.rows
    ensures r.Some? ==> r.value.0 == ToDict(id, st.sites.rows[id], st.tags, st.links)
    ensures r.Some? ==> forall t :: t in r.value.1 <==> (id, t) in st.links
  {
    if id !in st.sites.rows then None
    else Some((ToDict(id, st.sites.rows[id], st.tags, st.links), TagIdsOf(st, id)))
  }

  function TagIdsOf(st: Store, id: int): (r: set<int>)
    requires Consistent(st)
    ensures forall t :: t in r <==> (id, t) in st.links
  {
    set l | l in st.links && l.0 == id :: l.1
  }

  /** A created site reads back with the values it was created from and the
      existing tags it was given. */
  lemma CreateThenGet(st: Store, a: SiteArgs, performedBy: Option<int>, now: int)
    requires Consistent(st) && CreateSite(st, a, performedBy, now).Ok?
    ensures var (st', id) := CreateSite(st, a, performedBy, now).value;
      && GetSite(st', id).Some?
      && GetSite(st', id).value.0.name == a.name
      && GetSite(st', id).value.0.latitude == a.latitude
      && GetSite(st', id).value.0.longitude == a.longitude
      && GetSite(st', id).value.0.isVisible == (a.isVisible == Some(true))
      && (forall t :: t in GetSite(st', id).value.1 <==> t in a.tagIds && t in st.tags.rows)
  {
    var (st', id) := CreateSite(st, a, performedBy, now).value;
    var s := st'.sites.rows[id];
    CoordinatesRoundTrip(s, a.latitude.value, a.longitude.value);
    assert s.(location := Some(PointAt(a.latitude.value, a.longitude.value))) == s;
    forall t ensures (id, t) in st'.links <==> t in a.tagIds && t in st.tags.rows {
      assert (id, t) !in st.links;
    }
  }

  // ---------------------------------------------------------------------------
  // update_site

  /** The keyword arguments given to `update_site`: None means the key was
      not passed. `inagurationYear` distinguishes "not passed" (None) from
      "set to null" (Some(None)). */
  datatype SiteChanges = SiteChanges(
    name: Option<string>, shortDescription: Option<string>, fullDescription: Option<string>,
    city: Option<string>, province: Option<string>,
    latitude: Option<real>, longitude: Option<real>,
    conservationStatus: Option<ConservationStatus>, inagurationYear: Option<Option<int>>,
    category: Option<SiteCategory>, isVisible: Option<bool>, tagIds: Option<seq<int>>)

  function Pick<T>(given: Option<T>, current: T): T {
    if given.Some? then given.value else current
  }

  /** The row after the update: passed fields replaced, the point replaced
      only when both coordinates are given, the clock stamped. */
  function Apply(s: Site, c: SiteChanges, now: int): (r: Site)
    ensures c.name.None? ==> r.name == s.name
    ensures c.city.None? ==> r.city == s.city
    ensures c.province.None? ==> r.province == s.province
    ensures c.shortDescription.None? ==> r.shortDescription == s.shortDescription
    ensures c.fullDescription.None? ==> r.fullDescription == s.fullDescription
    ensures c.latitude.None? || c.longitude.None? ==> r.location == s.location
    ensures c.conservationStatus.None? ==> r.conservationStatus == s.conservationStatus
    ensures c.inagurationYear.None? ==> r.inagurationYear == s.inagurationYear
    ensures c.category.None? ==> r.category == s.category
    ensures c.isVisible.None? ==> r.isVisible == s.isVisible
    ensures r.createdAt == s.createdAt && r.updatedAt == now
  {
    Site(Pick(c.name, s.name), Pick(c.shortDescription, s.shortDescription),
         Pick(c.fullDescription, s.fullDescription), Pick(c.city, s.city), Pick(c.province, s.province),
         if c.latitude.Some? && c.longitude.Some? then Some(PointAt(c.latitude.value, c.longitude.value)) else s.location,
         Pick(c.conservationStatus, s.conservationStatus), Pick(c.inagurationYear, s.inagurationYear),
         Pick(c.category, s.category), s.createdAt, Pick(c.isVisible, s.isVisible), now)
  }

  /** The links after the update: replaced by the existing tags among
      `tag_ids` when they are passed (an empty list clears them), untouched
      otherwise. */
  function Relink(st: Store, id: int, tagIds: Option<seq<int>>): (r: set<(int, int)>)
    ensures tagIds.None? ==> r == st.links
    ensures tagIds.Some? ==> forall l :: l in r <==>
      (l in st.links && l.0 != id) || (l.0 == id && l.1 in tagIds.value && l.1 in st.tags.rows)
  {
    if tagIds.None? then st.links else LinksWithout(st.links, id) + LinksFor(st, id, tagIds.value)
  }

  /** `update_site`: unknown id is NotFound; otherwise the changed row, the
      new tag set and one history event, by default "Edición" / "Datos
      editados". Renaming onto another site's name is refused by the unique
      constraint. */
  function UpdateSite(st: Store, id: int, c: SiteChanges, performedBy: Option<int>,
                      actionType: Option<string>, details: Option<Option<string>>, now: int)
    : (r: Result<Store, SiteError>)
    requires Consistent(st)
    ensures r == Err(NotFound) <==> id !in st.sites.rows
    ensures r == Err(DuplicateName) <==> id in st.sites.rows && c.name.Some? && NameTaken(st, c.name.value, id)
    ensures r.Ok? ==>
      && Consistent(r.value)
      && r.value.sites.rows.Keys == st.sites.rows.Keys
      && r.value.sites.rows[id] == Apply(st.sites.rows[id], c, now)
      && (forall k :: k in st.sites.rows && k != id ==> r.value.sites.rows[k] == st.sites.rows[k])
      && r.value.links == Relink(st, id, c.tagIds)
      && r.value.history == RecordEvent(st.history, id, performedBy, Pick(actionType, Edition),
                                        Pick(details, Some("Datos editados")), now)
  {
    if id !in st.sites.rows then Err(NotFound)
    else if c.name.Some? && NameTaken(st, c.name.value, id) then Err(DuplicateName)
    else
      var s := Apply(st.sites.rows[id], c, now);
      var sites := Put(st.sites, id, s);
      var links := Relink(st, id, c.tagIds);
      assert SiteNamesUnique(sites.rows);
      Ok(Store(sites, st.tags, links, st.favorites,
               RecordEvent(st.history, id, performedBy, Pick(actionType, Edition),
                           Pick(details, Some("Datos editados")), now)))
  }

  /** An update that passes nothing changes only the timestamp and adds one
      event: the row's data and the tag set stay as they were. */
  lemma EmptyUpdateKeepsData(st: Store, id: int, performedBy: Option<int>, now: int)
    requires Consistent(st) && id in st.sites.rows
    ensures var c := SiteChanges(None, None, None, None, None, None, None, None, None, None, None, None);
      var r := UpdateSite(st, id, c, performedBy, None, None, now);
      && r.Ok?
      && r.value.sites.rows[id] == st.sites.rows[id].(updatedAt := now)
      && r.value.links == st.links
      && |r.value.history| == |st.history| + 1
  {
  }

  // ---------------------------------------------------------------------------
  // delete_site

  /** The metadata stored with a deletion event (serialised as JSON). */
  datatype DeletionPayload = DeletionPayload(message: string, name: string, city: string, province: string,
                                             category: string, conservationStatus: string, deletedAt: int)

  function DeletionOf(s: Site, now: int): DeletionPayload {
    DeletionPayload("Sitio \"" + s.name + "\" eliminado", s.name, s.city, s.province,
                    s.category.Value(), s.conservationStatus.Value(), now)
  }

  /** `delete_site`: False for an unknown id; otherwise log one
      "Eliminación" event describing the site, then remove the row and its
      tag links. `dumps` is the JSON serialiser. */
  function DeleteSite(st: Store, id: int, performedBy: Option<int>, now: int,
                      dumps: DeletionPayload -> string): (r: (Store, bool))
    requires Consistent(st)
    ensures !r.1 <==> id !in st.sites.rows
    ensures !r.1 ==> r.0 == st
    ensures r.1 ==>
      && Consistent(r.0)
      && r.0.sites.rows.Keys == st.sites.rows.Keys - {id}
      && (forall k :: k in r.0.sites.rows ==> r.0.sites.rows[k] == st.sites.rows[k])
      && (forall l :: l in r.0.links <==> l in st.links && l.0 != id)
      && r.0.history == RecordEvent(st.history, id, performedBy, Deletion,
                                    Some(dumps(DeletionOf(st.sites.rows[id], now))), now)
  {
    if id !in st.sites.rows then (st, false)
    else
      var history := RecordEvent(st.history, id, performedBy, Deletion,
                                 Some(dumps(DeletionOf(st.sites.rows[id], now))), now);
      (Store(Delete(st.sites, id), st.tags, LinksWithout(st.links, id), st.favorites, history), true)
  }

  /** Creating a site and deleting it again restores the site rows and the
      tag links; the log keeps both events. */
  lemma CreateThenDelete(st: Store, a: SiteArgs, performedBy: Option<int>, now: int, later: int,
                         dumps: DeletionPayload -> string)
    requires Consistent(st) && CreateSite(st, a, performedBy, now).Ok?
    ensures var (st', id) := CreateSite(st, a, performedBy, now).value;
      var (st'', ok) := DeleteSite(st', id, performedBy, later, dumps);
      && ok
      && st''.sites.rows == st.sites.rows
      && st''.links == st.links
      && |st''.history| == |st.history| + 2
  {
    var (st', id) := CreateSite(st, a, performedBy, now).value;
    var (st'', ok) := DeleteSite(st', id, performedBy, later, dumps);
    forall l ensures l in st''.links <==> l in st.links {
      if l in st.links {
        assert l.0 in st.sites.rows;
      }
    }
  }

  // ---------------------------------------------------------------------------
  // search_sites and fetch_sites_for_export

  /** The filters both queries share. Text filters apply when non-empty; the
      tag filter requires every listed tag. */
  datatype SiteSearch = SiteSearch(
    city: Option<string>, province: Option<string>, tagIds: seq<int>,
    conservationStatus: Option<ConservationStatus>,
    createdFrom: Option<int>, createdTo: Option<int>, isVisible: Option<bool>, q: Option<string>)

  predicate SiteMatches(links: set<(int, int)>, f: SiteSearch, id: int, s: Site) {
    && (forall t :: t in f.tagIds ==> (id, t) in links)
    && (Given(f.city) ==> ContainsFold(s.city, f.city.value))
    && (Given(f.province) ==> s.province == f.province.value)
    && (f.conservationStatus.Some? ==> s.conservationStatus == f.conservationStatus.value)
    && (f.createdFrom.Some? ==> s.createdAt >= f.createdFrom.value)
    && (f.createdTo.Some? ==> s.createdAt <= f.createdTo.value)
    && (f.isVisible.Some? ==> s.isVisible == f.isVisible.value)
    && (Given(f.q) ==> ContainsFold(s.name, f.q.value) || ContainsFold(s.shortDescription, f.q.value))
  }

  function MatchesRow(links: set<(int, int)>, f: SiteSearch): ((int, Site)) -> bool {
    (row: (int, Site)) => SiteMatches(links, f, row.0, row.1)
  }

  /** The sort whitelist: created_at, name or city, anything else falls back
      to created_at; the direction is ascending only for "asc". */
  function SortColumn(sortBy: string): (r: string)
    ensures r == "created_at" || r == "name" || r == "city"
    ensures sortBy == "name" || sortBy == "city" || sortBy == "created_at" <==> r == sortBy
  {
    if sortBy == "name" || sortBy == "city" || sortBy == "created_at" then sortBy else "created_at"
  }

  predicate Descending(sortDir: string) { sortDir != "asc" }

  function SiteKey(column: string): ((int, Site)) -> Key {
    if column == "name" then (row: (int, Site)) => KText(row.1.name)
    else if column == "city" then (row: (int, Site)) => KText(row.1.city)
    else (row: (int, Site)) => KInt(row.1.createdAt)
  }

  /** `fetch_sites_for_export`: every matching site, in the chosen order
      (rows with equal keys keep id order). */
  function ExportSites(st: Store, f: SiteSearch, sortBy: string, sortDir: string): (r: seq<(int, Site)>)
    requires Consistent(st)
    ensures forall row :: row in r <==> row in Rows(st.sites) && SiteMatches(st.links, f, row.0, row.1)
    ensures SortedBy(r, SiteKey(SortColumn(sortBy)), Descending(sortDir))
    ensures |r| == |Filter(Rows(st.sites), MatchesRow(st.links, f))|
  {
    Ordered(Rows(st.sites), MatchesRow(st.links, f), SiteKey(SortColumn(sortBy)), Descending(sortDir))
  }

  function Dicts(st: Store, rows: seq<(int, Site)>): (r: seq<SiteDict>)
    requires Consistent(st)
    ensures |r| == |rows| && forall i :: 0 <= i < |rows| ==> r[i] == ToDict(rows[i].0, rows[i].1, st.tags, st.links)
  {
    seq(|rows|, i requires 0 <= i < |rows| => ToDict(rows[i].0, rows[i].1, st.tags, st.links))
  }

  /** `search_sites`: one page (at most 25) of the matching sites as
      dictionaries, with the total count of matches. */
  function SearchSites(st: Store, f: SiteSearch, sortBy: string, sortDir: string,
                       page: int, perPage: int): (p: Pagination<SiteDict>)
    requires Consistent(st)
    ensures p.total == |Filter(Rows(st.sites), MatchesRow(st.links, f))|
    ensures p.page == ClampPage(page) && p.perPage == ClampPerPage(perPage, 25)
    ensures |p.items| <= p.perPage
    ensures forall i :: 0 <= i < |p.items| ==> MatchingDict(st, f, p.items[i])
  {
    var q := Query(Rows(st.sites), MatchesRow(st.links, f), SiteKey(SortColumn(sortBy)), Descending(sortDir),
                   page, perPage, 25);
    var items := Dicts(st, q.items);
    DictsMatch(st, f, q.items, items);
    Pagination(items, q.total, q.page, q.perPage)
  }

  /** The dictionary of a stored site that passes every filter. */
  predicate MatchingDict(st: Store, f: SiteSearch, d: SiteDict)
    requires Consistent(st)
  {
    exists id :: id in st.sites.rows && SiteMatches(st.links, f, id, st.sites.rows[id]) &&
      d == ToDict(id, st.sites.rows[id], st.tags, st.links)
  }

  lemma DictsMatch(st: Store, f: SiteSearch, rows: seq<(int, Site)>, items: seq<SiteDict>)
    requires Consistent(st)
    requires forall i :: 0 <= i < |rows| ==> rows[i] in Rows(st.sites) && MatchesRow(st.links, f)(rows[i])
    requires items == Dicts(st, rows)
    ensures forall i :: 0 <= i < |items| ==> MatchingDict(st, f, items[i])
  {
    forall i | 0 <= i < |items| ensures MatchingDict(st, f, items[i]) {
      var id := rows[i].0;
      assert id in st.sites.rows && st.sites.rows[id] == rows[i].1;
    }
  }

  /** The search page is the export list cut to the page: both queries
      agree on which sites match and in which order. */
  lemma SearchIsPageOfExport(st: Store, f: SiteSearch, sortBy: string, sortDir: string, page: int, perPage: int)
    requires Consistent(st)
    ensures var p := SearchSites(st, f, sortBy, sortDir, page, perPage);
      var e := ExportSites(st, f, sortBy, sortDir);
      && p.total == |e|
      && p.items == Dicts(st, Window(e, p.page, p.perPage))
  {
  }

  /** A sort key outside the whitelist sorts exactly as created_at does,
      and any direction other than "asc" as "desc". */
  lemma SortFallback(st: Store, f: SiteSearch, sortBy: string, sortDir: string)
    requires Consistent(st)
    requires sortBy != "name" && sortBy != "city" && sortDir != "asc"
    ensures ExportSites(st, f, sortBy, sortDir) == ExportSites(st, f, "created_at", "desc")
  {
  }

  // ---------------------------------------------------------------------------
  // Favourites

  /** `mark_site_favorite`: False for a missing or hidden site; otherwise
      the (site, user) pair is present afterwards, once. */
  function MarkFavorite(st: Store, siteId: int, userId: int): (r: (Store, bool))
    ensures !r.1 <==> siteId !in st.sites.rows || !st.sites.rows[siteId].isVisible
    ensures !r.1 ==> r.0 == st
    ensures r.1 ==> r.0 == st.(favorites := st.favorites + {(siteId, userId)})
  {
    if siteId !in st.sites.rows || !st.sites.rows[siteId].isVisible then (st, false)
    else (st.(favorites := st.favorites + {(siteId, userId)}), true)
  }

  /** `unmark_site_favorite`: always True; the pair is absent afterwards. */
  function UnmarkFavorite(st: Store, siteId: int, userId: int): (r: (Store, bool))
    ensures r.1
    ensures r.0 == st.(favorites := st.favorites - {(siteId, userId)})
  {
    (st.(favorites := st.favorites - {(siteId, userId)}), true)
  }

  function FavoriteSiteIds(st: Store, userId: int): (r: set<int>)
    ensures forall s :: s in r <==> (s, userId) in st.favorites
  {
    set f | f in st.favorites && f.1 == userId :: f.0
  }

  predicate IsFavorite(st: Store, siteId: int, userId: int) {
    (siteId, userId) in st.favorites
  }

  /** Marking twice is marking once, unmarking twice is unmarking once, and
      afterwards the membership test answers accordingly; nobody else's
      favourites change. */
  lemma FavoritesIdempotent(st: Store, siteId: int, userId: int, other: int)
    requires other != userId
    ensures MarkFavorite(MarkFavorite(st, siteId, userId).0, siteId, userId) == MarkFavorite(st, siteId, userId)
    ensures UnmarkFavorite(UnmarkFavorite(st, siteId, userId).0, siteId, userId) == UnmarkFavorite(st, siteId, userId)
    ensures MarkFavorite(st, siteId, userId).1 ==> IsFavorite(MarkFavorite(st, siteId, userId).0, siteId, userId)
    ensures !IsFavorite(UnmarkFavorite(st, siteId, userId).0, siteId, userId)
    ensures FavoriteSiteIds(MarkFavorite(st, siteId, userId).0, other) == FavoriteSiteIds(st, other)
    ensures FavoriteSiteIds(UnmarkFavorite(st, siteId, userId).0, other) == FavoriteSiteIds(st, other)
  {
    var m := MarkFavorite(st, siteId, userId).0;
    var u := UnmarkFavorite(st, siteId, userId).0;
    assert u.favorites - {(siteId, userId)} == u.favorites;
    assert forall s :: s in FavoriteSiteIds(m, other) <==> s in FavoriteSiteIds(st, other);
    assert forall s :: s in FavoriteSiteIds(u, other) <==> s in FavoriteSiteIds(st, other);
  }

  /** `list_sites`: every site's dictionary, in id order. */
  function ListSites(st: Store): (r: seq<SiteDict>)
    requires Consistent(st)
    ensures |r| == |st.sites.rows|
  {
    RowsCount(st.sites);
    Dicts(st, Rows(st.sites))
  }

  /** `d` is the dictionary of a site stored in `m`. */
  ghost predicate DictOfStored(st: Store, m: map<int, Site>, d: SiteDict)
    requires Consistent(st)
  {
    exists id :: id in m && d == ToDict(id, m[id], st.tags, st.links)
  }

  /** `list_sites` lists the dictionary of every stored site and nothing
      else. */
  lemma ListSitesComplete(st: Store)
    requires Consistent(st)
    ensures forall i :: 0 <= i < |ListSites(st)| ==> DictOfStored(st, st.sites.rows, ListSites(st)[i])
    ensures forall id :: id in st.sites.rows ==> ToDict(id, st.sites.rows[id], st.tags, st.links) in ListSites(st)
  {
    DictsOfRows(st, Rows(st.sites), st.sites.rows);
  }

  lemma DictsOfRows(st: Store, rows: seq<(int, Site)>, m: map<int, Site>)
    requires Consistent(st)
    requires forall i :: 0 <= i < |rows| ==> rows[i].0 in m && m[rows[i].0] == rows[i].1
    requires forall id :: id in m ==> (id, m[id]) in rows
    ensures forall i :: 0 <= i < |Dicts(st, rows)| ==> DictOfStored(st, m, Dicts(st, rows)[i])
    ensures forall id :: id in m ==> ToDict(id, m[id], st.tags, st.links) in Dicts(st, rows)
  {
    var r := Dicts(st, rows);
    forall i | 0 <= i < |r| ensures DictOfStored(st, m, r[i]) {
      var id := rows[i].0;
      assert id in m && r[i] == ToDict(id, m[id], st.tags, st.links);
    }
    forall id | id in m ensures ToDict(id, m[id], st.tags, st.links) in r {
      var k :| 0 <= k < |rows| && rows[k] == (id, m[id]);
      assert r[k] == ToDict(id, m[id], st.tags, st.links);
    }
  }
}

=== FILE: sites_admin.dfy ===
/** The back-office pages for historic sites: the filtered listing, the
    creation and edition forms, the deletion and the CSV export. The query
    string, the submitted form, the uploaded cover, the session's user, the
    storage upload and the clock are parameters. Templates and flash
    messages are left out: each page is reduced to what it writes and to
    where it sends the browser. */
module SitesAdmin {
  import opened Common
  import opened Tables
  import opened Ordering
  import opened Paging
  import opened History
  import opened SiteModels
  import opened SiteService
  import SiteForms
  import Dates
  import Images
  import ImageHelpers
  import ApiSites

  // ---------------------------------------------------------------------------
  // The query string

  /** A query string: its single-valued parameters by key, and every value
      given for `tags` (`getlist`). */
  datatype Query = Query(fields: map<string, string>, tags: seq<string>)

  /** `clean_str(args.get(key))`. */
  function Arg(q: Query, key: string): (r: string)
    ensures Stripped(r)
  {
    CleanStr(if key in q.fields then Some(q.fields[key]) else None)
  }

  function TagValues(q: Query): seq<PyValue> {
    seq(|q.tags|, i requires 0 <= i < |q.tags| => PStr(q.tags[i]))
  }

  /** The visibility select: exactly "true" and "false" filter, anything
      else (including "", "True" and "1") lists both. */
  function VisibilityFilter(raw: string): (r: Option<bool>)
    ensures r == Some(true) <==> raw == "true"
    ensures r == Some(false) <==> raw == "false"
  {
    if raw == "true" then Some(true)
    else if raw == "false" then Some(false)
    else None
  }

  /** The texts the select submits for its two options. */
  function BoolText(b: bool): string {
    if b then "true" else "false"
  }

  /** Each option of the select reads back as the value it stands for, and
      the comparison is case-sensitive. */
  lemma VisibilityRoundTrip(b: bool)
    ensures VisibilityFilter(BoolText(b)) == Some(b)
    ensures VisibilityFilter("True") == None && VisibilityFilter("FALSE") == None
  {
    assert "True"[0] != "true"[0];
    assert "FALSE"[0] != "false"[0];
  }

  /** The filters shown back in the listing, each one cleaned. */
  datatype Filters = Filters(
    city: string, province: string, q: string, status: string,
    createdFrom: string, createdTo: string, sortBy: string, sortDir: string,
    tags: seq<int>, visibility: string)

  /** The keys under which the filters travel in a link. */
  const FilterKeys: seq<string> := ["city", "province", "q", "conservation_status",
    "created_from", "created_to", "sort_by", "sort_dir", "is_visible"]

  /** A filter by its key. */
  function Field(f: Filters, key: string): string {
    if key == "city" then f.city
    else if key == "province" then f.province
    else if key == "q" then f.q
    else if key == "conservation_status" then f.status
    else if key == "created_from" then f.createdFrom
    else if key == "created_to" then f.createdTo
    else if key == "sort_by" then f.sortBy
    else if key == "sort_dir" then f.sortDir
    else if key == "is_visible" then f.visibility
    else ""
  }

  /** Every text filter is cleaned. */
  predicate Clean(f: Filters) {
    && Stripped(f.city) && Stripped(f.province) && Stripped(f.q) && Stripped(f.status)
    && Stripped(f.createdFrom) && Stripped(f.createdTo) && Stripped(f.sortBy) && Stripped(f.sortDir)
    && Stripped(f.visibility)
  }

  lemma FieldClean(f: Filters, k: string)
    requires Clean(f)
    ensures Stripped(Field(f, k))
  {
  }

  /** The filters of `index` and `export_sites`: cleaned texts, the sort
      defaulting to newest first, and the tag ids that parse. */
  function ReadFilters(q: Query): (f: Filters)
    ensures Clean(f)
    ensures f.sortBy != "" && f.sortDir != ""
    ensures Arg(q, "sort_by") != "" ==> f.sortBy == Arg(q, "sort_by")
    ensures Arg(q, "sort_dir") != "" ==> f.sortDir == Arg(q, "sort_dir")
  {
    DefaultsStripped();
    Filters(Arg(q, "city"), Arg(q, "province"), Arg(q, "q"), Arg(q, "conservation_status"),
            Arg(q, "created_from"), Arg(q, "created_to"),
            OrText(Arg(q, "sort_by"), "created_at"), OrText(Arg(q, "sort_dir"), "desc"),
            SiteForms.ParseTagIds(TagValues(q)), Arg(q, "is_visible"))
  }

  lemma DefaultsStripped()
    ensures Stripped("created_at") && Stripped("desc")
  {
    assert !IsSpace('c') && !IsSpace('t') && !IsSpace('d');
  }

  /** The tag filter holds the ids among the `tags` values that read as
      integers, and nothing else. */
  lemma ReadTags(q: Query)
    ensures forall x :: x in ReadFilters(q).tags <==>
      exists i :: 0 <= i < |q.tags| && SafeInt(PStr(q.tags[i])) == Some(x)
  {
    var tags := ReadFilters(q).tags;
    assert tags == SiteForms.ParseTagIds(TagValues(q));
    forall x | x in tags ensures exists i :: 0 <= i < |q.tags| && SafeInt(PStr(q.tags[i])) == Some(x) {
      var i :| 0 <= i < |TagValues(q)| && SafeInt(TagValues(q)[i]) == Some(x);
    }
    forall x | exists i :: 0 <= i < |q.tags| && SafeInt(PStr(q.tags[i])) == Some(x) ensures x in tags {
      var i :| 0 <= i < |q.tags| && SafeInt(PStr(q.tags[i])) == Some(x);
      assert TagValues(q)[i] == PStr(q.tags[i]);
    }
  }

  /** `value or None`. */
  function Given(t: string): (r: Option<string>)
    ensures r.None? <==> t == ""
  {
    if t == "" then None else Some(t)
  }

  /** The search the filters ask for: blank texts do not filter, the status
      and the dates that do not parse do not filter either, and the day
      `created_to` names is included up to its last instant. */
  function SearchOf(f: Filters): SiteSearch {
    SiteSearch(Given(f.city), Given(f.province), f.tags, SiteForms.ParseStatus(f.status),
               Dates.ParseDate(f.createdFrom, false), Dates.ParseDate(f.createdTo, true),
               VisibilityFilter(f.visibility), Given(f.q))
  }

  /** The parameters that carry the filters into a link: every non-blank
      filter under its key. */
  function Params(f: Filters): (m: map<string, string>)
    ensures forall k :: k in m <==> k in FilterKeys && Field(f, k) != ""
    ensures forall k :: k in m ==> m[k] == Field(f, k)
  {
    map k | k in FilterKeys && Field(f, k) != "" :: Field(f, k)
  }

  function TagTexts(ids: seq<int>): (r: seq<string>)
    ensures |r| == |ids|
  {
    seq(|ids|, i requires 0 <= i < |ids| => IntToString(ids[i]))
  }

  /** The query string of a link to the listing that keeps the filters,
      optionally on another page (`url_for("sites.index", page=…, **params)`). */
  function LinkQuery(f: Filters, page: Option<int>): Query {
    var m := Params(f);
    Query(if page.Some? then m["page" := IntToString(page.value)] else m, TagTexts(f.tags))
  }

  lemma ArgOfLink(f: Filters, page: Option<int>, k: string)
    requires k in FilterKeys && Clean(f)
    ensures Arg(LinkQuery(f, page), k) == Field(f, k)
  {
    var q := LinkQuery(f, page);
    FieldClean(f, k);
    assert k != "page";
    if Field(f, k) != "" {
      assert k in q.fields && q.fields[k] == Field(f, k);
      StripOfStripped(Field(f, k));
    } else {
      assert k !in q.fields;
    }
  }

  /** A link built from the filters the listing read carries exactly those
      filters: following it (to another page, or back from the export)
      lists the same sites in the same order. */
  lemma {:induction false} FiltersSurviveLinks(q: Query, page: Option<int>)
    ensures ReadFilters(LinkQuery(ReadFilters(q), page)) == ReadFilters(q)
  {
    var f := ReadFilters(q);
    var q' := LinkQuery(f, page);
    LinkArgs(f, page);
    LinkTagValues(f, page);
    SiteForms.ParseTagIdsRoundTrip(f.tags);
  }

  lemma LinkTagValues(f: Filters, page: Option<int>)
    ensures TagValues(LinkQuery(f, page)) == SiteForms.IdTexts(f.tags)
  {
  }

  /** Each text filter reads back from a link as it was written. */
  lemma LinkArgs(f: Filters, page: Option<int>)
    requires Clean(f)
    ensures var q := LinkQuery(f, page);
      && Arg(q, "city") == f.city && Arg(q, "province") == f.province && Arg(q, "q") == f.q
      && Arg(q, "conservation_status") == f.status
      && Arg(q, "created_from") == f.createdFrom && Arg(q, "created_to") == f.createdTo
      && Arg(q, "sort_by") == f.sortBy && Arg(q, "sort_dir") == f.sortDir
      && Arg(q, "is_visible") == f.visibility
  {
    assert "city" in FilterKeys && "province" in FilterKeys && "q" in FilterKeys;
    assert "conservation_status" in FilterKeys && "created_from" in FilterKeys;
    assert "created_to" in FilterKeys && "sort_by" in FilterKeys && "sort_dir" in FilterKeys;
    assert "is_visible" in FilterKeys;
    ArgOfLink(f, page, "city");
    ArgOfLink(f, page, "province");
    ArgOfLink(f, page, "q");
    ArgOfLink(f, page, "conservation_status");
    ArgOfLink(f, page, "created_from");
    ArgOfLink(f, page, "created_to");
    ArgOfLink(f, page, "sort_by");
    ArgOfLink(f, page, "sort_dir");
    ArgOfLink(f, page, "is_visible");
  }

  // ---------------------------------------------------------------------------
  // index

  /** `safe_int(args.get("page")) or 1`: a missing, unreadable or zero
      page is the first. */
  function PageArg(q: Query): (p: int)
    ensures p != 0
    ensures "page" !in q.fields ==> p == 1
  {
    var v := SafeInt(if "page" in q.fields then PStr(q.fields["page"]) else PNone);
    if v.None? || v.value == 0 then 1 else v.value
  }

  lemma PageOfLink(f: Filters, n: int)
    requires n != 0
    ensures PageArg(LinkQuery(f, Some(n))) == n
  {
    SiteForms.IdTextConverts(n);
  }

  /** What the listing shows: one page of at most 25 sites, the filters,
      and the page numbers of the previous and next links when there are
      such pages. */
  datatype IndexView = IndexView(page: Pagination<SiteDict>, filters: Filters, prev: Option<int>, next: Option<int>)

  const PerPage: int := 25

  /** The sites the filters select, in the order they ask for. */
  function Selected(st: Store, f: Filters): (r: seq<(int, Site)>)
    requires Consistent(st)
  {
    ExportSites(st, SearchOf(f), f.sortBy, f.sortDir)
  }

  /** `index`: the page the query asks for (the first when it names none)
      of the sites it selects; a link back exists past the first page and a
      link forward before the last. */
  function Index(st: Store, q: Query): (v: IndexView)
    requires Consistent(st)
    ensures v.filters == ReadFilters(q)
    ensures v.page.page >= 1 && (PageArg(q) >= 1 ==> v.page.page == PageArg(q))
    ensures v.page.perPage == PerPage && v.page.total == |Selected(st, v.filters)|
    ensures v.page.items == Dicts(st, Window(Selected(st, v.filters), v.page.page, PerPage))
    ensures v.prev.Some? <==> v.page.page > 1
    ensures v.prev.Some? ==> v.prev.value == v.page.page - 1
    ensures v.next.Some? <==> v.page.page < Pages(v.page.total, PerPage)
    ensures v.next.Some? ==> v.next.value == v.page.page + 1
  {
    var f := ReadFilters(q);
    var p := SearchSites(st, SearchOf(f), f.sortBy, f.sortDir, PageArg(q), PerPage);
    SearchIsPageOfExport(st, SearchOf(f), f.sortBy, f.sortDir, PageArg(q), PerPage);
    IndexView(p, f, if p.page > 1 then Some(p.page - 1) else None,
              if p.page < Pages(p.total, p.perPage) then Some(p.page + 1) else None)
  }

  /** The forward link shows the next page of the same selection. */
  lemma FollowNext(st: Store, q: Query)
    requires Consistent(st) && Index(st, q).next.Some?
    ensures var v := Index(st, q);
      var v' := Index(st, LinkQuery(v.filters, v.next));
      v'.filters == v.filters && v'.page.page == v.page.page + 1 && v'.page.total == v.page.total
  {
    var v := Index(st, q);
    FiltersSurviveLinks(q, v.next);
    PageOfLink(v.filters, v.next.value);
  }

  /** The backward link shows the previous page of the same selection. */
  lemma FollowPrev(st: Store, q: Query)
    requires Consistent(st) && Index(st, q).prev.Some?
    ensures var v := Index(st, q);
      var v' := Index(st, LinkQuery(v.filters, v.prev));
      v'.filters == v.filters && v'.page.page == v.page.page - 1 && v'.page.total == v.page.total
  {
    var v := Index(st, q);
    FiltersSurviveLinks(q, v.prev);
    PageOfLink(v.filters, v.prev.value);
  }

  /** The query with no parameters. */
  function NoQuery(): Query {
    Query(map[], [])
  }

  /** Without parameters the selection is every site, newest first. */
  lemma NoQuerySelectsAll(st: Store)
    requires Consistent(st)
    ensures var f := ReadFilters(NoQuery());
      && (forall row :: row in Selected(st, f) <==> row in Rows(st.sites))
      && SortedBy(Selected(st, f), SiteKey("created_at"), true)
  {
    var f := ReadFilters(NoQuery());
    assert f.sortBy == "created_at" && f.sortDir == "desc";
    assert f.tags == [];
    assert SearchOf(f) == SiteSearch(None, None, [], None, None, None, None, None);
  }

  /** With `is_visible=true` only visible sites are selected, and with
      `is_visible=false` only hidden ones. */
  lemma VisibilitySelects(st: Store, q: Query, b: bool)
    requires Consistent(st) && Arg(q, "is_visible") == BoolText(b)
    ensures forall row :: row in Selected(st, ReadFilters(q)) ==> row.1.isVisible == b
  {
    VisibilityRoundTrip(b);
  }

  // ---------------------------------------------------------------------------
  // export_sites

  /** The CSV header. */
  const Header: seq<string> := ["ID", "Nombre", "Descripci\U{f3}n breve", "Ciudad", "Provincia",
    "Estado de conservaci\U{f3}n", "Fecha de registro", "Latitud", "Longitud", "Tags"]

  function NonBlank(): string -> bool {
    (n: string) => n != ""
  }

  function TextKey(): string -> Key {
    (n: string) => KText(n)
  }

  /** `", ".join(parts)`. */
  function Commas(parts: seq<string>): string {
    if |parts| == 0 then ""
    else if |parts| == 1 then parts[0]
    else parts[0] + ", " + Commas(parts[1..])
  }

  lemma {:induction false} CommasEmpty(parts: seq<string>)
    requires |parts| > 0 && parts[0] != ""
    ensures Commas(parts) != ""
  {
  }

  /** The tag cell: the non-empty names in code-point order joined by ", ",
      or "-" when there are none. */
  function TagCell(names: seq<string>): (r: string)
    ensures (forall n :: n in names ==> n == "") ==> r == "-"
    ensures (exists n :: n in names && n != "") ==> r == Commas(SortBy(Filter(names, NonBlank()), TextKey(), false))
  {
    SortedNames(names);
    OrText(Commas(SortBy(Filter(names, NonBlank()), TextKey(), false)), "-")
  }

  lemma SortedNames(names: seq<string>)
    ensures var s := SortBy(Filter(names, NonBlank()), TextKey(), false);
      (|s| > 0 <==> exists n :: n in names && n != "") && (|s| > 0 ==> Commas(s) != "")
  {
    var kept := Filter(names, NonBlank());
    var s := SortBy(kept, TextKey(), false);
    if |s| > 0 {
      assert s[0] in multiset(kept);
      CommasEmpty(s);
    }
    if exists n :: n in names && n != "" {
      var n :| n in names && n != "";
      assert n in kept;
      assert n in multiset(s);
    }
  }

  /** When a site has named tags, its cell joins exactly those names, each
      as often as it occurs, in order. */
  lemma TagCellSorted(names: seq<string>)
    requires exists n :: n in names && n != ""
    ensures exists s ::
      && TagCell(names) == Commas(s) && SortedBy(s, TextKey(), false)
      && multiset(s) == multiset(Filter(names, NonBlank()))
      && (forall n :: n in s <==> n in names && n != "")
  {
    var s := SortBy(Filter(names, NonBlank()), TextKey(), false);
    SortByMembers(Filter(names, NonBlank()), TextKey(), false);
    assert TagCell(names) == Commas(s);
  }

  /** A site whose one tag is named "-" exports the same cell as a site
      without tags. */
  lemma DashTagLooksUntagged()
    ensures TagCell(["-"]) == TagCell([]) == "-"
  {
    assert Filter(["-"], NonBlank()) == ["-"];
    assert SortBy(["-"], TextKey(), false) == ["-"];
  }

  /** One CSV line: the id, the texts, the status's value, the creation
      instant, the two coordinates (blank without a location) and the tag
      cell (given). `formatInstant` is `strftime("%Y-%m-%d %H:%M")` and
      `formatCoord` is the `.6f` format. */
  function CsvRow(id: int, s: Site, tagCell: string,
                  formatInstant: int -> string, formatCoord: real -> string): (row: seq<string>)
    ensures |row| == |Header|
    ensures row[0] == IntToString(id)
    ensures row[1] == s.name && row[2] == s.shortDescription && row[3] == s.city && row[4] == s.province
    ensures row[5] == s.conservationStatus.Value() && row[9] == tagCell
    ensures Latitude(s).None? ==> row[7] == ""
    ensures Longitude(s).None? ==> row[8] == ""
  {
    [IntToString(id), s.name, s.shortDescription, s.city, s.province, s.conservationStatus.Value(),
     formatInstant(s.createdAt),
     if Latitude(s).Some? then formatCoord(Latitude(s).value) else "",
     if Longitude(s).Some? then formatCoord(Longitude(s).value) else "",
     tagCell]
  }

  /** The line of one site, with the names of its tags. */
  function SiteLine(st: Store, site: (int, Site), formatInstant: int -> string, formatCoord: real -> string)
    : seq<string>
    requires Valid(st.tags)
  {
    CsvRow(site.0, site.1, TagCell(TagNamesOf(st.tags, st.links, site.0)), formatInstant, formatCoord)
  }

  /** The file's lines: the header, then one line per site. */
  function Lines(st: Store, sites: seq<(int, Site)>, formatInstant: int -> string, formatCoord: real -> string)
    : (rows: seq<seq<string>>)
    requires Valid(st.tags)
    ensures |rows| == |sites| + 1 && rows[0] == Header
    ensures forall i :: 0 <= i < |sites| ==> rows[i + 1] == SiteLine(st, sites[i], formatInstant, formatCoord)
  {
    [Header] + SiteLines(st, sites, formatInstant, formatCoord)
  }

  function SiteLines(st: Store, sites: seq<(int, Site)>, formatInstant: int -> string,
                     formatCoord: real -> string): (rows: seq<seq<string>>)
    requires Valid(st.tags)
    ensures |rows| == |sites|
    ensures forall i :: 0 <= i < |sites| ==> rows[i] == SiteLine(st, sites[i], formatInstant, formatCoord)
  {
    if sites == [] then []
    else [SiteLine(st, sites[0], formatInstant, formatCoord)] + SiteLines(st, sites[1..], formatInstant, formatCoord)
  }

  /** Where the export sends the browser: back to the listing with the
      filters, or a CSV file given as its lines of cells (the quoting
      `csv.writer` adds is not modelled). */
  datatype ExportResult = BackToIndex(q: Query) | Csv(rows: seq<seq<string>>)

  /** `export_sites`: with nothing selected, back to the listing under the
      same filters; otherwise the header and one line per selected site,
      in the listing's order. */
  function Export(st: Store, q: Query, formatInstant: int -> string, formatCoord: real -> string)
    : (r: ExportResult)
    requires Consistent(st)
    ensures r.BackToIndex? <==> Selected(st, ReadFilters(q)) == []
    ensures r.BackToIndex? ==> ReadFilters(r.q) == ReadFilters(q)
    ensures r.Csv? ==> r.rows == Lines(st, Selected(st, ReadFilters(q)), formatInstant, formatCoord)
  {
    var f := ReadFilters(q);
    var sites := Selected(st, f);
    if sites == [] then
      FiltersSurviveLinks(q, None);
      BackToIndex(LinkQuery(f, None))
    else
      Csv(Lines(st, sites, formatInstant, formatCoord))
  }

  /** A stored site that passes the filters. */
  predicate Listed(st: Store, f: Filters, id: int) {
    id in st.sites.rows && SiteMatches(st.links, SearchOf(f), id, st.sites.rows[id])
  }

  /** A line whose ID column reads back as `id`. */
  predicate LineOf(row: seq<string>, id: int) {
    |row| > 0 && SafeInt(PStr(row[0])) == Some(id)
  }

  /** Every line but the header has the header's ten columns and names a
      stored site that passes the filters, and every such site has a
      line. */
  ghost predicate Covers(st: Store, f: Filters, rows: seq<seq<string>>) {
    && (forall i :: 1 <= i < |rows| ==> |rows[i]| == |Header|)
    && (forall i :: 1 <= i < |rows| ==> (exists id :: Listed(st, f, id) && LineOf(rows[i], id)))
    && (forall id :: Listed(st, f, id) ==> (exists i :: 1 <= i < |rows| && LineOf(rows[i], id)))
  }

  /** The exported file lists every site the filters select, one line
      each, and nothing else. */
  lemma ExportCoversSelection(st: Store, q: Query, formatInstant: int -> string, formatCoord: real -> string)
    requires Consistent(st) && Export(st, q, formatInstant, formatCoord).Csv?
    ensures Covers(st, ReadFilters(q), Export(st, q, formatInstant, formatCoord).rows)
  {
    var f := ReadFilters(q);
    var sites := Selected(st, f);
    var rows := Lines(st, sites, formatInstant, formatCoord);
    LinesIds(st, sites, formatInstant, formatCoord);
    SelectedListed(st, f);
    LinesCoverSelection(st, f, sites, rows);
  }

  /** Lines that follow the sites one by one, over sites that are exactly
      the listed ones, cover the listing. */
  lemma {:induction false} LinesCoverSelection(st: Store, f: Filters, sites: seq<(int, Site)>, rows: seq<seq<string>>)
    requires |rows| == |sites| + 1
    requires forall i :: 1 <= i < |rows| ==> |rows[i]| == |Header| && LineOf(rows[i], sites[i - 1].0)
    requires forall k :: 0 <= k < |sites| ==> Listed(st, f, sites[k].0)
    requires forall id :: Listed(st, f, id) ==> exists k :: 0 <= k < |sites| && sites[k].0 == id
    ensures Covers(st, f, rows)
  {
    forall i | 1 <= i < |rows| ensures exists id :: Listed(st, f, id) && LineOf(rows[i], id) {
      assert Listed(st, f, sites[i - 1].0);
    }
    assert forall i :: 1 <= i < |rows| ==> (exists id :: Listed(st, f, id) && LineOf(rows[i], id));
    assert forall i :: 1 <= i < |rows| ==> |rows[i]| == |Header|;
    forall id | Listed(st, f, id) ensures exists i :: 1 <= i < |rows| && LineOf(rows[i], id) {
      var k :| 0 <= k < |sites| && sites[k].0 == id;
      assert LineOf(rows[k + 1], id);
    }
  }

  /** Line `i` of the file is `i`-th site's, with ten columns. */
  lemma LinesIds(st: Store, sites: seq<(int, Site)>, formatInstant: int -> string, formatCoord: real -> string)
    requires Valid(st.tags)
    ensures var rows := Lines(st, sites, formatInstant, formatCoord);
      forall i :: 1 <= i < |rows| ==> |rows[i]| == |Header| && LineOf(rows[i], sites[i - 1].0)
  {
    var rows := Lines(st, sites, formatInstant, formatCoord);
    forall i | 1 <= i < |rows| ensures |rows[i]| == |Header| && LineOf(rows[i], sites[i - 1].0) {
      SiteForms.IdTextConverts(sites[i - 1].0);
    }
  }

  /** The selection lists exactly the stored sites that pass the filters. */
  lemma SelectedListed(st: Store, f: Filters)
    requires Consistent(st)
    ensures var sites := Selected(st, f);
      && (forall k :: 0 <= k < |sites| ==> Listed(st, f, sites[k].0))
      && (forall id :: Listed(st, f, id) ==> exists k :: 0 <= k < |sites| && sites[k].0 == id)
  {
    var sites := Selected(st, f);
    ListedRowsSound(st, f, sites);
    ListedRowsComplete(st, f, sites);
  }

  /** The rows that pass the filters. */
  ghost predicate MatchingRows(st: Store, f: Filters, sites: seq<(int, Site)>)
    requires Valid(st.sites)
  {
    forall row :: row in sites <==> row in Rows(st.sites) && SiteMatches(st.links, SearchOf(f), row.0, row.1)
  }

  lemma ListedRowsSound(st: Store, f: Filters, sites: seq<(int, Site)>)
    requires Valid(st.sites) && MatchingRows(st, f, sites)
    ensures forall k :: 0 <= k < |sites| ==> Listed(st, f, sites[k].0)
  {
    var all := Rows(st.sites);
    forall k | 0 <= k < |sites| ensures Listed(st, f, sites[k].0) {
      assert sites[k] in sites;
      var j :| 0 <= j < |all| && all[j] == sites[k];
    }
  }

  lemma ListedRowsComplete(st: Store, f: Filters, sites: seq<(int, Site)>)
    requires Valid(st.sites) && MatchingRows(st, f, sites)
    ensures forall id :: Listed(st, f, id) ==> exists k :: 0 <= k < |sites| && sites[k].0 == id
  {
    forall id | Listed(st, f, id) ensures exists k :: 0 <= k < |sites| && sites[k].0 == id {
      var row := (id, st.sites.rows[id]);
      assert row in Rows(st.sites);
      assert row in sites;
      var k :| 0 <= k < |sites| && sites[k] == row;
    }
  }

  // ---------------------------------------------------------------------------
  // create and edit

  /** One message of the form: a failed field check, the missing cover, or
      a refused cover file. */
  datatype AdminError =
    | FieldError(e: SiteForms.SiteFieldError)
    | CoverMissing
    | CoverError(c: ImageHelpers.ImageFormError)

  function FieldErrors(errs: seq<SiteForms.SiteFieldError>): (r: seq<AdminError>)
    ensures |r| == |errs|
    ensures forall x :: x in r <==> x.FieldError? && x.e in errs
  {
    var r := seq(|errs|, i requires 0 <= i < |errs| => FieldError(errs[i]));
    assert forall i :: 0 <= i < |errs| ==> r[i] == FieldError(errs[i]);
    r
  }

  /** The cover's messages. Creation requires a file and edition does not;
      a file that is there is checked as the gallery checks it. */
  function CoverErrors(cover: Option<ImageHelpers.Upload>, required: bool): (r: seq<AdminError>)
    ensures !ApiSites.HasFile(cover) ==> r == (if required then [CoverMissing] else [])
    ensures ApiSites.HasFile(cover) ==>
      forall x :: x in r <==> x.CoverError? && x.c in ImageHelpers.ValidateImageFile(cover).errors
  {
    if !ApiSites.HasFile(cover) then (if required then [CoverMissing] else [])
    else
      var errs := ImageHelpers.ValidateImageFile(cover).errors;
      var r := seq(|errs|, i requires 0 <= i < |errs| => CoverError(errs[i]));
      assert forall i :: 0 <= i < |errs| ==> r[i] == CoverError(errs[i]);
      r
  }

  /** Every message of the submitted form, field checks first. */
  function FormErrors(p: SiteForms.SitePayload, cover: Option<ImageHelpers.Upload>, required: bool)
    : (r: seq<AdminError>)
    ensures forall e :: FieldError(e) in r <==> SiteForms.Fails(p, e)
    ensures CoverMissing in r <==> required && !ApiSites.HasFile(cover)
    ensures r == [] ==> p.conservationStatus.Some? && p.category.Some?
    ensures r == [] ==> p.latitude.Some? && p.longitude.Some?
  {
    var fe := FieldErrors(SiteForms.SiteErrors(p));
    NoFieldErrors(p, fe);
    fe + CoverErrors(cover, required)
  }

  lemma NoFieldErrors(p: SiteForms.SitePayload, fe: seq<AdminError>)
    requires fe == FieldErrors(SiteForms.SiteErrors(p))
    ensures fe == [] ==> p.conservationStatus.Some? && p.category.Some? && p.latitude.Some? && p.longitude.Some?
  {
    if fe == [] {
      assert |SiteForms.SiteErrors(p)| == 0;
      PassesChecks(p);
      PassedChecks(p);
    }
  }

  /** A payload without messages passes the checks on the enumerations
      and the location. */
  lemma PassesChecks(p: SiteForms.SitePayload)
    requires SiteForms.SiteErrors(p) == []
    ensures !SiteForms.Fails(p, SiteForms.StatusInvalid) && !SiteForms.Fails(p, SiteForms.CategoryInvalid)
    ensures !SiteForms.Fails(p, SiteForms.LocationInvalid)
  {
    assert SiteForms.StatusInvalid !in SiteForms.SiteErrors(p);
    assert SiteForms.CategoryInvalid !in SiteForms.SiteErrors(p);
    assert SiteForms.LocationInvalid !in SiteForms.SiteErrors(p);
  }

  lemma PassedChecks(p: SiteForms.SitePayload)
    requires !SiteForms.Fails(p, SiteForms.StatusInvalid) && !SiteForms.Fails(p, SiteForms.CategoryInvalid)
    requires !SiteForms.Fails(p, SiteForms.LocationInvalid)
    ensures p.conservationStatus.Some? && p.category.Some? && p.latitude.Some? && p.longitude.Some?
  {
  }

  /** The site rows and the galleries, which share the history log. */
  datatype Admin = Admin(store: Store, images: Images.ImageStore)

  predicate AdminOk(a: Admin) {
    Consistent(a.store) && Images.StoreOk(a.images)
  }

  /** What a submitted form leads to. */
  datatype Outcome = Rejected(errors: seq<AdminError>) | NameConflict | NoSuchSite | Saved(id: int, coverSaved: bool)

  /** The upload and `create_image` of a new cover under
      `sites/<id>/<hex>.<ext>`, titled with the site's name. `upload` is the
      storage call and yields the public URL, or None when it raises; a
      failed upload or a full gallery is reported and leaves everything as
      it was. */
  function SaveCover(a: Admin, id: int, title: string, ext: string, hex: string,
                     upload: string -> Option<string>, now: int): (r: (Admin, bool))
    requires AdminOk(a)
    ensures AdminOk(r.0) && r.0.store.sites == a.store.sites && r.0.store.links == a.store.links
    ensures !r.1 ==> r.0 == a
    ensures r.1 <==> upload(ImageHelpers.ObjectName(id, hex, ext)).Some?
                     && |Images.GalleryOf(a.images, id)| < Images.MaxImages
    ensures r.1 ==> ApiSites.CoverLast(r.0.images, id, title)
    ensures |r.0.store.history| >= |a.store.history| && r.0.store.history[..|a.store.history|] == a.store.history
  {
    var objectName := ImageHelpers.ObjectName(id, hex, ext);
    match upload(objectName)
    case None => (a, false)
    case Some(url) => AttachCover(a, id, title, objectName, url, now)
  }

  /** The cover row for an uploaded file, at the end of the site's
      gallery, its event logged in the shared history; refused when the
      gallery is full. */
  function AttachCover(a: Admin, id: int, title: string, objectName: string, url: string, now: int)
    : (r: (Admin, bool))
    requires AdminOk(a)
    ensures AdminOk(r.0) && r.0.store.sites == a.store.sites && r.0.store.links == a.store.links
    ensures !r.1 ==> r.0 == a
    ensures r.1 <==> |Images.GalleryOf(a.images, id)| < Images.MaxImages
    ensures r.1 ==> ApiSites.CoverLast(r.0.images, id, title)
    ensures |r.0.store.history| >= |a.store.history| && r.0.store.history[..|a.store.history|] == a.store.history
  {
    var shared := a.images.(history := a.store.history);
    assert Images.StoreOk(shared);
    match Images.CreateImage(shared, id, objectName, url, title, None, true, None, now)
    case Err(_) => (a, false)
    case Ok((after, iid)) =>
      assert Ok(Images.GalleryOf(after, id))
        == Images.AddImage(Images.GalleryOf(shared, id), iid, objectName, url, title, None, true);
      (Admin(a.store.(history := after.history), after), true)
  }

  /** The row `create_site` receives from an accepted payload: every
      field as read, the visibility as ticked. */
  function ArgsOf(p: SiteForms.SitePayload): SiteArgs
    requires p.conservationStatus.Some? && p.category.Some?
  {
    SiteArgs(p.name, p.shortDescription, p.fullDescription, p.city, p.province, p.latitude, p.longitude,
             p.conservationStatus.value, p.inagurationYear, p.category.value, Some(p.isVisible), p.tagIds)
  }

  /** A new site under `id`, built from the payload, next to the old ones. */
  predicate Created(a: Admin, a': Admin, id: int, p: SiteForms.SitePayload, now: int) {
    && p.conservationStatus.Some? && p.category.Some? && p.latitude.Some? && p.longitude.Some?
    && id !in a.store.sites.rows && id in a'.store.sites.rows
    && a'.store.sites.rows[id] == NewSite(ArgsOf(p), p.latitude.value, p.longitude.value, now)
    && (forall k :: k in a.store.sites.rows ==> k in a'.store.sites.rows && a'.store.sites.rows[k] == a.store.sites.rows[k])
  }

  /** The writes of an accepted creation: the site, then its cover. */
  function Insert(a: Admin, p: SiteForms.SitePayload, ext: string, user: Option<int>, hex: string,
                  upload: string -> Option<string>, now: int): (r: (Admin, Outcome))
    requires AdminOk(a)
    requires p.conservationStatus.Some? && p.category.Some? && p.latitude.Some? && p.longitude.Some?
    ensures AdminOk(r.0)
    ensures r.1 == NameConflict || r.1.Saved?
    ensures r.1 == NameConflict <==> NameTaken(a.store, p.name, -1)
    ensures r.1 == NameConflict ==> r.0 == a
    ensures r.1.Saved? ==> Created(a, r.0, r.1.id, p, now)
    ensures r.1.Saved? && r.1.coverSaved ==> ApiSites.CoverLast(r.0.images, r.1.id, p.name)
  {
    match CreateSite(a.store, ArgsOf(p), user, now)
    case Err(_) => (a, NameConflict)
    case Ok((st, id)) =>
      var (a', saved) := SaveCover(Admin(st, a.images), id, p.name, ext, hex, upload, now);
      (a', Saved(id, saved))
  }

  /** `create` on a POST: the form and the cover are checked together and
      any message sends the form back with nothing written; a taken name
      is refused; otherwise the site is inserted and its cover uploaded,
      and a failed upload keeps the site. */
  function Create(a: Admin, form: SiteForms.Form, cover: Option<ImageHelpers.Upload>,
                  parseFloat: string -> Option<real>, user: Option<int>, hex: string,
                  upload: string -> Option<string>, now: int): (r: (Admin, Outcome))
    requires AdminOk(a)
    ensures AdminOk(r.0) && r.1 != NoSuchSite
    ensures var p := SiteForms.BuildSitePayload(form, parseFloat).0;
      r.1.Rejected? <==> FormErrors(p, cover, true) != []
    ensures r.1.Rejected? ==> r.0 == a && r.1.errors == FormErrors(SiteForms.BuildSitePayload(form, parseFloat).0, cover, true)
    ensures r.1 == NameConflict ==> r.0 == a
    ensures r.1.Saved? ==> ApiSites.HasFile(cover)
    ensures r.1.Saved? ==> Created(a, r.0, r.1.id, SiteForms.BuildSitePayload(form, parseFloat).0, now)
  {
    CreateFrom(a, SiteForms.BuildSitePayload(form, parseFloat).0, cover, user, hex, upload, now)
  }

  /** The creation once the form is read into a payload. */
  function CreateFrom(a: Admin, p: SiteForms.SitePayload, cover: Option<ImageHelpers.Upload>,
                      user: Option<int>, hex: string, upload: string -> Option<string>, now: int)
    : (r: (Admin, Outcome))
    requires AdminOk(a)
    ensures AdminOk(r.0) && r.1 != NoSuchSite
    ensures r.1.Rejected? <==> FormErrors(p, cover, true) != []
    ensures r.1.Rejected? ==> r.0 == a && r.1.errors == FormErrors(p, cover, true)
    ensures r.1 == NameConflict ==> r.0 == a
    ensures r.1.Saved? ==> ApiSites.HasFile(cover)
    ensures r.1.Saved? ==> Created(a, r.0, r.1.id, p, now)
  {
    var errors := FormErrors(p, cover, true);
    if errors != [] then (a, Rejected(errors))
    else
      Insert(a, p, ImageHelpers.ValidateImageFile(cover).extension.value, user, hex, upload, now)
  }

  /** A form sent without a cover file is sent back with the cover message,
      whatever else it holds, and nothing is written. */
  lemma CoverRequired(a: Admin, form: SiteForms.Form, cover: Option<ImageHelpers.Upload>,
                      parseFloat: string -> Option<real>, user: Option<int>, hex: string,
                      upload: string -> Option<string>, now: int)
    requires AdminOk(a) && !ApiSites.HasFile(cover)
    ensures var r := Create(a, form, cover, parseFloat, user, hex, upload, now);
      r.1.Rejected? && CoverMissing in r.1.errors && r.0 == a
  {
  }

  /** The history entry of an edition: a change of the tag list wins over
      a change of visibility, and anything else is a plain edition. The tag
      lists are compared as lists. */
  function EditAction(payloadTags: seq<int>, siteTags: seq<int>, payloadVisible: bool, siteVisible: bool)
    : (r: (string, string))
    ensures r.0 in Actions
    ensures r.0 == Edition <==> payloadTags == siteTags && payloadVisible == siteVisible
    ensures r.0 == "Cambio de estado" <==> payloadTags == siteTags && payloadVisible != siteVisible
  {
    if payloadTags != siteTags then ("Cambio de tags", "Etiquetas editadas")
    else if payloadVisible != siteVisible then ("Cambio de estado", "Visibilidad editada")
    else (Edition, "Datos editados")
  }

  /** Submitting a site's tags in another order, or with a repeated id, is
      logged as a change of tags although the site keeps the same tags. */
  lemma ReorderedTagsLogged(st: Store, id: int, payloadTags: seq<int>, siteTags: seq<int>, v: bool, w: bool)
    requires Consistent(st) && id in st.sites.rows
    requires forall t :: t in siteTags <==> (id, t) in st.links
    requires payloadTags != siteTags && (forall t :: t in payloadTags <==> t in siteTags)
    ensures EditAction(payloadTags, siteTags, v, w).0 == "Cambio de tags"
    ensures Relink(st, id, Some(payloadTags)) == st.links
  {
    var r := Relink(st, id, Some(payloadTags));
    forall l ensures l in r <==> l in st.links {
      var (i, t) := l;
      if l in st.links && i == id {
        assert (id, t) in st.links;
        assert t in siteTags;
      }
      if i == id && t in payloadTags {
        assert t in siteTags;
      }
    }
  }

  /** The keyword arguments `update_site` receives from a payload: every
      field of the form is passed. On an accepted payload no enumeration or
      coordinate is missing. */
  function ChangesOf(p: SiteForms.SitePayload): SiteChanges {
    SiteChanges(Some(p.name), Some(p.shortDescription), Some(p.fullDescription), Some(p.city), Some(p.province),
                p.latitude, p.longitude, p.conservationStatus, Some(p.inagurationYear), p.category,
                Some(p.isVisible), Some(p.tagIds))
  }

  /** The site `id` took the changes and one event with the chosen action
      was logged for it. */
  predicate Edited(a: Admin, a': Admin, id: int, c: SiteChanges, action: (string, string),
                   user: Option<int>, now: int)
    requires Consistent(a.store)
  {
    && id in a.store.sites.rows && id in a'.store.sites.rows
    && a'.store.sites.rows[id] == Apply(a.store.sites.rows[id], c, now)
    && a'.store.links == Relink(a.store, id, c.tagIds)
    && |a'.store.history| > |a.store.history|
    && a'.store.history[|a.store.history|] == Event(id, user, action.0, Some(action.1), now)
  }

  /** The writes of an accepted edition: the update with its action, then
      the new cover when one was sent. */
  function Update(a: Admin, id: int, p: SiteForms.SitePayload, action: (string, string),
                  ext: Option<string>, user: Option<int>, hex: string,
                  upload: string -> Option<string>, now: int): (r: (Admin, Outcome))
    requires AdminOk(a) && id in a.store.sites.rows
    ensures AdminOk(r.0)
    ensures r.1 == NameConflict || r.1.Saved?
    ensures r.1 == NameConflict <==> NameTaken(a.store, p.name, id)
    ensures r.1 == NameConflict ==> r.0 == a
    ensures r.1.Saved? ==> r.1.id == id && Edited(a, r.0, id, ChangesOf(p), action, user, now)
    ensures r.1.Saved? ==> (r.1.coverSaved ==> ext.Some? && ApiSites.CoverLast(r.0.images, id, p.name))
  {
    match UpdateSite(a.store, id, ChangesOf(p), user, Some(action.0), Some(Some(action.1)), now)
    case Err(_) => (a, NameConflict)
    case Ok(st) =>
      var a1 := Admin(st, a.images);
      assert Edited(a, a1, id, ChangesOf(p), action, user, now);
      if ext.None? then (a1, Saved(id, false))
      else
        var (a2, saved) := SaveCover(a1, id, p.name, ext.value, hex, upload, now);
        assert a2.store.history[..|a1.store.history|] == a1.store.history;
        assert a2.store.history[|a.store.history|] == a1.store.history[|a.store.history|];
        (a2, Saved(id, saved))
  }

  /** `edit` on a POST once the form is read into the payload `p`. */
  function EditPayload(a: Admin, id: int, siteTags: seq<int>, p: SiteForms.SitePayload,
                       cover: Option<ImageHelpers.Upload>, user: Option<int>, hex: string,
                       upload: string -> Option<string>, now: int): (r: (Admin, Outcome))
    requires AdminOk(a)
    ensures AdminOk(r.0)
    ensures r.1 == NoSuchSite <==> id !in a.store.sites.rows
    ensures r.1.Rejected? <==> id in a.store.sites.rows && FormErrors(p, cover, false) != []
    ensures !r.1.Saved? ==> r.0 == a
    ensures r.1.Saved? ==> r.1.id == id && id in a.store.sites.rows
    ensures r.1.Saved? ==>
      Edited(a, r.0, id, ChangesOf(p), EditAction(p.tagIds, siteTags, p.isVisible, a.store.sites.rows[id].isVisible),
             user, now)
  {
    if id !in a.store.sites.rows then (a, NoSuchSite)
    else
      var errors := FormErrors(p, cover, false);
      if errors != [] then (a, Rejected(errors))
      else
        var action := EditAction(p.tagIds, siteTags, p.isVisible, a.store.sites.rows[id].isVisible);
        var ext := if ApiSites.HasFile(cover) then ImageHelpers.ValidateImageFile(cover).extension else None;
        var r := Update(a, id, p, action, ext, user, hex, upload, now);
        assert r.1 == NameConflict || r.1.Saved?;
        r
  }

  /** `edit` on a POST. `siteTags` is the site's tag list as the
      relationship loads it (its order is the database's). An unknown id is
      404; a form with messages is sent back; a taken name is refused;
      otherwise the site is updated under the action `EditAction` picks,
      and a cover that was sent becomes the new cover. */
  function Edit(a: Admin, id: int, siteTags: seq<int>, form: SiteForms.Form, cover: Option<ImageHelpers.Upload>,
                parseFloat: string -> Option<real>, user: Option<int>, hex: string,
                upload: string -> Option<string>, now: int): (r: (Admin, Outcome))
    requires AdminOk(a)
    ensures AdminOk(r.0)
    ensures r.1 == NoSuchSite <==> id !in a.store.sites.rows
    ensures var p := SiteForms.BuildSitePayload(form, parseFloat).0;
      r.1.Rejected? <==> id in a.store.sites.rows && FormErrors(p, cover, false) != []
    ensures !r.1.Saved? ==> r.0 == a
    ensures r.1.Saved? ==> r.1.id == id && id in a.store.sites.rows
    ensures r.1.Saved? ==> var p := SiteForms.BuildSitePayload(form, parseFloat).0;
      Edited(a, r.0, id, ChangesOf(p), EditAction(p.tagIds, siteTags, p.isVisible, a.store.sites.rows[id].isVisible),
             user, now)
  {
    var p := SiteForms.BuildSitePayload(form, parseFloat).0;
    var r := EditPayload(a, id, siteTags, p, cover, user, hex, upload, now);
    assert r.1.Saved? ==> id in a.store.sites.rows;
    r
  }
}

=== FILE: tag_names.dfy ===
/** Tag naming: collapsing runs of spaces in a tag name, and turning a name
    into an ASCII slug. */
module TagNames {
  import opened Common

  // ---------------------------------------------------------------------------
  // clean_tag_name

  /** The non-empty pieces, in order. */
  function NonEmpty(ps: seq<string>): (r: seq<string>)
    ensures forall k :: 0 <= k < |r| ==> |r[k]| > 0
    ensures forall k :: 0 <= k < |r| ==> r[k] in ps
    ensures |ps| > 0 && |ps[0]| > 0 ==> |r| > 0 && r[0] == ps[0]
  {
    if |ps| == 0 then []
    else (if |ps[0]| > 0 then [ps[0]] else []) + NonEmpty(ps[1..])
  }

  lemma {:induction false} NonEmptyLast(ps: seq<string>)
    requires |ps| > 0 && |ps[|ps| - 1]| > 0
    ensures |NonEmpty(ps)| > 0 && NonEmpty(ps)[|NonEmpty(ps)| - 1] == ps[|ps| - 1]
  {
    if |ps| > 1 {
      NonEmptyLast(ps[1..]);
    }
  }

  lemma {:induction false} NonEmptyOfNonEmpty(ps: seq<string>)
    requires forall k :: 0 <= k < |ps| ==> |ps[k]| > 0
    ensures NonEmpty(ps) == ps
  {
    if |ps| > 0 {
      NonEmptyOfNonEmpty(ps[1..]);
      assert [ps[0]] + ps[1..] == ps;
    }
  }

  /** The words of a text: `[p for p in text.split(" ") if p]`. */
  function Words(text: string): (r: seq<string>)
    ensures forall k :: 0 <= k < |r| ==> |r[k]| > 0 && ' ' !in r[k]
  {
    NonEmpty(Split(text, ' '))
  }

  lemma SplitFirst(s: string, sep: char)
    requires |s| > 0 && s[0] != sep
    ensures |Split(s, sep)[0]| > 0 && Split(s, sep)[0][0] == s[0]
  {
  }

  lemma {:induction false} SplitLast(s: string, sep: char)
    requires |s| > 0 && s[|s| - 1] != sep
    ensures var p := Split(s, sep); var w := p[|p| - 1];
      |w| > 0 && w[|w| - 1] == s[|s| - 1]
  {
    if |s| > 1 {
      assert s[1..][|s[1..]| - 1] == s[|s| - 1];
      SplitLast(s[1..], sep);
    }
  }

  /** No two consecutive spaces. */
  predicate SingleSpaced(s: string) {
    forall i :: 0 <= i < |s| - 1 ==> !(s[i] == ' ' && s[i + 1] == ' ')
  }

  lemma {:induction false} JoinWordsShape(ws: seq<string>)
    requires |ws| > 0
    requires forall k :: 0 <= k < |ws| ==> |ws[k]| > 0 && ' ' !in ws[k]
    ensures var r := Join(' ', ws);
      |r| > 0 && r[0] == ws[0][0] && r[|r| - 1] == ws[|ws| - 1][|ws[|ws| - 1]| - 1]
      && SingleSpaced(r)
  {
    if |ws| > 1 {
      JoinWordsShape(ws[1..]);
      var t := Join(' ', ws[1..]);
      var r := ws[0] + [' '] + t;
      assert Join(' ', ws) == r;
      forall i | 0 <= i < |r| - 1 ensures !(r[i] == ' ' && r[i + 1] == ' ') {
        if i < |ws[0]| - 1 {
          assert r[i] == ws[0][i];
        } else if i == |ws[0]| - 1 {
          assert r[i] == ws[0][i];
        } else if i == |ws[0]| {
          assert r[i + 1] == t[0];
        } else {
          assert r[i] == t[i - |ws[0]| - 1] && r[i + 1] == t[i - |ws[0]|];
        }
      }
    }
  }

  /** `clean_tag_name`: None and blank names become ""; otherwise the
      stripped name with every run of spaces collapsed to one. */
  function CleanTagName(raw: Option<string>): (r: string)
    ensures raw.None? ==> r == ""
    ensures raw.Some? && |Strip(raw.value)| == 0 ==> r == ""
    ensures raw.Some? && |Strip(raw.value)| > 0 ==> |r| > 0
    ensures Stripped(r) && SingleSpaced(r)
  {
    match raw
    case None => ""
    case Some(name) =>
      var text := Strip(name);
      if |text| == 0 then ""
      else
        CollapsedShape(text);
        Join(' ', Words(text))
  }

  lemma CollapsedShape(text: string)
    requires |text| > 0 && Stripped(text)
    ensures var r := Join(' ', Words(text)); |r| > 0 && Stripped(r) && SingleSpaced(r)
  {
    WordsEnds(text);
    JoinWordsShape(Words(text));
  }

  /** A stripped non-empty text has words, the first starting and the
      last ending where the text does. */
  lemma WordsEnds(text: string)
    requires |text| > 0 && Stripped(text)
    ensures var ws := Words(text);
      && |ws| > 0 && ws[0][0] == text[0]
      && ws[|ws| - 1][|ws[|ws| - 1]| - 1] == text[|text| - 1]
  {
    var ps := Split(text, ' ');
    SplitFirst(text, ' ');
    SplitLast(text, ' ');
    NonEmptyLast(ps);
  }

  /** Cleaning keeps exactly the words of the stripped name, so cleaning a
      cleaned name changes nothing. */
  lemma CleanTagNameWords(raw: string)
    ensures Words(CleanTagName(Some(raw))) == Words(Strip(raw))
    ensures CleanTagName(Some(CleanTagName(Some(raw)))) == CleanTagName(Some(raw))
  {
    var text := Strip(raw);
    var r := CleanTagName(Some(raw));
    if |text| > 0 {
      var ws := Words(text);
      SplitFirst(text, ' ');
      assert |ws| > 0;
      assert r == Join(' ', ws);
      SplitJoin(ws, ' ');
      NonEmptyOfNonEmpty(ws);
      assert Words(r) == ws;
      StripOfStripped(r);
      assert Strip(r) == r && |r| > 0;
    } else {
      assert Words("") == [];
    }
  }

  // ---------------------------------------------------------------------------
  // slugify

  /** Compatibility decomposition (NFKD) of one character, for the accented
      letters of Spanish and the Latin ligatures U+FB00..U+FB04; every other
      character is taken as already decomposed. */
  function NfkdChar(c: char): (r: string)
    ensures (c as int) < 128 ==> r == [c]
    ensures c == '\U{fb03}' ==> r == "ffi"
  {
    match c
    case '\U{c1}' => "A\U{301}"
    case '\U{c9}' => "E\U{301}"
    case '\U{cd}' => "I\U{301}"
    case '\U{d3}' => "O\U{301}"
    case '\U{da}' => "U\U{301}"
    case '\U{d1}' => "N\U{303}"
    case '\U{dc}' => "U\U{308}"
    case '\U{e1}' => "a\U{301}"
    case '\U{e9}' => "e\U{301}"
    case '\U{ed}' => "i\U{301}"
    case '\U{f3}' => "o\U{301}"
    case '\U{fa}' => "u\U{301}"
    case '\U{f1}' => "n\U{303}"
    case '\U{fc}' => "u\U{308}"
    case '\U{fb00}' => "ff"
    case '\U{fb01}' => "fi"
    case '\U{fb02}' => "fl"
    case '\U{fb03}' => "ffi"
    case '\U{fb04}' => "ffl"
    case _ => [c]
  }

  function Nfkd(s: string): string {
    FlatMap(NfkdChar, s)
  }

  predicate IsAscii(c: char) { (c as int) < 128 }

  function AsciiOnly(s: string): (r: string)
    ensures forall i :: 0 <= i < |r| ==> IsAscii(r[i])
  {
    if |s| == 0 then []
    else AsciiOnly(s[..|s| - 1]) + (if IsAscii(s[|s| - 1]) then [s[|s| - 1]] else [])
  }

  /** str.isalnum on an ASCII character. */
  predicate IsAlnum(c: char) { 'a' <= c <= 'z' || 'A' <= c <= 'Z' || '0' <= c <= '9' }

  predicate IsSlugChar(c: char) { 'a' <= c <= 'z' || '0' <= c <= '9' || c == '-' }

  predicate NoDoubleDash(s: string) {
    forall i :: 0 <= i < |s| - 1 ==> !(s[i] == '-' && s[i + 1] == '-')
  }

  /** The shape every slug has: non-empty, over [a-z0-9-], no dash at either
      end and no two dashes in a row. */
  predicate IsSlug(s: string) {
    && |s| > 0
    && (forall i :: 0 <= i < |s| ==> IsSlugChar(s[i]))
    && s[0] != '-' && s[|s| - 1] != '-'
    && NoDoubleDash(s)
  }

  /** The alphanumeric characters of a text, in order. */
  function AlnumOnly(s: string): (r: string)
    ensures |r| <= |s|
    ensures forall i :: 0 <= i < |r| ==> IsAlnum(r[i])
  {
    if |s| == 0 then []
    else AlnumOnly(s[..|s| - 1]) + (if IsAlnum(s[|s| - 1]) then [s[|s| - 1]] else [])
  }

  /** The text the slug loop reads: NFKD, ASCII characters only, lowered. */
  function Prepared(text: string): (r: string)
    ensures forall i :: 0 <= i < |r| ==> IsAscii(r[i]) && !('A' <= r[i] <= 'Z')
  {
    var a := AsciiOnly(Nfkd(text));
    Lower(a)
  }

  datatype WalkState = WalkState(chars: string, lastWasDash: bool)

  /** One turn of the slug loop: keep alphanumerics, turn a space, dash or
      underscore into one dash unless nothing was kept yet or a dash was
      just written, and drop everything else. */
  function Step(st: WalkState, c: char): WalkState {
    if IsAlnum(c) then WalkState(st.chars + [c], false)
    else if c == ' ' || c == '-' || c == '_' then
      if |st.chars| > 0 && !st.lastWasDash then WalkState(st.chars + ['-'], true) else st
    else st
  }

  /** The slug loop over the whole text. Its invariant: the flag says
      whether the last written character is a dash, the result never starts
      with a dash nor holds two in a row, and its alphanumerics are exactly
      those of the input. */
  function Walk(s: string): (st: WalkState)
    ensures st.lastWasDash <==> |st.chars| > 0 && st.chars[|st.chars| - 1] == '-'
    ensures |st.chars| > 0 ==> st.chars[0] != '-'
    ensures NoDoubleDash(st.chars)
    ensures forall i :: 0 <= i < |st.chars| ==> IsAlnum(st.chars[i]) || st.chars[i] == '-'
  {
    if |s| == 0 then WalkState([], false)
    else
      var prev := Walk(s[..|s| - 1]);
      var c := s[|s| - 1];
      var st := Step(prev, c);
      assert (prev.chars + [c])[..|prev.chars|] == prev.chars;
      assert (prev.chars + ['-'])[..|prev.chars|] == prev.chars;
      st
  }

  /** The slug loop keeps exactly the alphanumerics of its input. */
  lemma {:induction false} WalkAlnum(s: string)
    ensures AlnumOnly(Walk(s).chars) == AlnumOnly(s)
  {
    if |s| > 0 {
      var init := s[..|s| - 1];
      var c := s[|s| - 1];
      WalkAlnum(init);
      var prev := Walk(init);
      assert (prev.chars + [c])[..|prev.chars|] == prev.chars;
      assert (prev.chars + ['-'])[..|prev.chars|] == prev.chars;
    }
  }

  /** On a text without capitals the slug loop writes slug characters only. */
  lemma {:induction false} WalkSlugChars(s: string)
    requires forall i :: 0 <= i < |s| ==> !('A' <= s[i] <= 'Z')
    ensures forall i :: 0 <= i < |Walk(s).chars| ==> IsSlugChar(Walk(s).chars[i])
  {
    if |s| > 0 {
      var init := s[..|s| - 1];
      WalkSlugChars(init);
      assert !('A' <= s[|s| - 1] <= 'Z');
    }
  }

  function LTrimDash(s: string): (r: string)
    ensures |r| <= |s| && r == s[|s| - |r|..]
    ensures |r| > 0 ==> r[0] != '-'
    ensures forall i :: 0 <= i < |s| - |r| ==> s[i] == '-'
  {
    if |s| > 0 && s[0] == '-' then LTrimDash(s[1..]) else s
  }

  function RTrimDash(s: string): (r: string)
    ensures |r| <= |s| && r == s[..|r|]
    ensures |r| > 0 ==> r[|r| - 1] != '-'
    ensures forall i :: |r| <= i < |s| ==> s[i] == '-'
  {
    if |s| > 0 && s[|s| - 1] == '-' then RTrimDash(s[..|s| - 1]) else s
  }

  /** `s.strip("-")`. */
  function TrimDash(s: string): string {
    RTrimDash(LTrimDash(s))
  }

  /** Dropping trailing dashes keeps every alphanumeric. */
  lemma {:induction false} AlnumOnlyDropDashes(s: string, k: nat)
    requires k <= |s| && forall i :: k <= i < |s| ==> s[i] == '-'
    ensures AlnumOnly(s[..k]) == AlnumOnly(s)
  {
    if k < |s| {
      var init := s[..|s| - 1];
      AlnumOnlyDropDashes(init, k);
      assert init[..k] == s[..k];
      assert !IsAlnum(s[|s| - 1]);
      assert AlnumOnly(s) == AlnumOnly(init) + [];
    } else {
      assert s[..k] == s;
    }
  }

  lemma {:induction false} AlnumOnlyMember(s: string, c: char)
    requires c in AlnumOnly(s)
    ensures c in s
  {
    if |s| > 0 {
      var init := s[..|s| - 1];
      if c in AlnumOnly(init) {
        AlnumOnlyMember(init, c);
        assert forall x :: x in init ==> x in s;
      }
    }
  }

  /** `slugify`: None gives "tag"; otherwise the slug loop over the
      prepared text, dashes stripped from both ends, or "tag" when that
      leaves nothing. The slug keeps the prepared text's alphanumerics. */
  function Slugify(text: Option<string>): (r: string)
    ensures text.None? ==> r == "tag"
    ensures IsSlug(r)
    ensures text.Some? && |AlnumOnly(Prepared(text.value))| > 0 ==>
      AlnumOnly(r) == AlnumOnly(Prepared(text.value))
    ensures text.Some? && |AlnumOnly(Prepared(text.value))| == 0 ==> r == "tag"
  {
    match text
    case None => "tag"
    case Some(t) =>
      var p := Prepared(t);
      var w := Walk(p).chars;
      var trimmed := TrimDash(w);
      SlugifyShape(p, w, trimmed);
      if |trimmed| > 0 then trimmed else "tag"
  }

  lemma SlugifyShape(p: string, w: string, trimmed: string)
    requires forall i :: 0 <= i < |p| ==> !('A' <= p[i] <= 'Z')
    requires w == Walk(p).chars && trimmed == TrimDash(w)
    ensures |trimmed| > 0 ==> IsSlug(trimmed)
    ensures AlnumOnly(trimmed) == AlnumOnly(p)
    ensures |trimmed| > 0 <==> |AlnumOnly(p)| > 0
  {
    TrimmedPrefix(w, trimmed);
    AlnumOnlyDropDashes(w, |trimmed|);
    WalkAlnum(p);
    if |trimmed| > 0 {
      SlugChars(p, w, trimmed);
      SlugEnds(w, trimmed);
      AlnumOnlyMemberBack(trimmed, 0);
    }
  }

  /** A text that does not start with a dash loses only its trailing
      dashes to the strip. */
  lemma TrimmedPrefix(w: string, trimmed: string)
    requires (|w| > 0 ==> w[0] != '-') && trimmed == TrimDash(w)
    ensures |trimmed| <= |w| && trimmed == w[..|trimmed|]
    ensures forall i :: |trimmed| <= i < |w| ==> w[i] == '-'
    ensures |trimmed| > 0 ==> trimmed[|trimmed| - 1] != '-'
  {
    assert LTrimDash(w) == w;
  }

  lemma SlugEnds(w: string, trimmed: string)
    requires |w| > 0 ==> w[0] != '-'
    requires NoDoubleDash(w)
    requires 0 < |trimmed| <= |w| && trimmed == w[..|trimmed|]
    requires trimmed[|trimmed| - 1] != '-'
    ensures trimmed[0] != '-' && NoDoubleDash(trimmed)
  {
    assert trimmed[0] == w[0];
    forall i | 0 <= i < |trimmed| - 1 ensures !(trimmed[i] == '-' && trimmed[i + 1] == '-') {
      assert trimmed[i] == w[i] && trimmed[i + 1] == w[i + 1];
    }
  }

  lemma SlugChars(p: string, w: string, trimmed: string)
    requires forall i :: 0 <= i < |p| ==> !('A' <= p[i] <= 'Z')
    requires w == Walk(p).chars
    requires |trimmed| <= |w| && trimmed == w[..|trimmed|]
    ensures forall i :: 0 <= i < |trimmed| ==> IsSlugChar(trimmed[i])
  {
    WalkSlugChars(p);
    assert forall i :: 0 <= i < |trimmed| ==> trimmed[i] == w[i];
  }

  lemma {:induction false} AlnumOnlyMemberBack(s: string, i: int)
    requires 0 <= i < |s| && IsAlnum(s[i])
    ensures s[i] in AlnumOnly(s)
  {
    if i < |s| - 1 {
      AlnumOnlyMemberBack(s[..|s| - 1], i);
    }
  }

  // --- slugify is idempotent

  lemma {:induction false} NfkdAscii(s: string)
    requires forall i :: 0 <= i < |s| ==> IsAscii(s[i])
    ensures Nfkd(s) == s
  {
    if |s| > 0 {
      NfkdAscii(s[..|s| - 1]);
      assert s[..|s| - 1] + [s[|s| - 1]] == s;
    }
  }

  lemma {:induction false} AsciiOnlyAscii(s: string)
    requires forall i :: 0 <= i < |s| ==> IsAscii(s[i])
    ensures AsciiOnly(s) == s
  {
    if |s| > 0 {
      AsciiOnlyAscii(s[..|s| - 1]);
      assert s[..|s| - 1] + [s[|s| - 1]] == s;
    }
  }

  /** On a string already shaped like a slug body the loop copies its input. */
  lemma {:induction false} WalkSlugBody(s: string)
    requires forall i :: 0 <= i < |s| ==> IsSlugChar(s[i])
    requires |s| > 0 ==> s[0] != '-'
    requires NoDoubleDash(s)
    ensures Walk(s).chars == s
  {
    if |s| > 0 {
      var init := s[..|s| - 1];
      var c := s[|s| - 1];
      assert forall i :: 0 <= i < |init| ==> init[i] == s[i];
      assert NoDoubleDash(init) by {
        forall i | 0 <= i < |init| - 1 ensures !(init[i] == '-' && init[i + 1] == '-') {
          assert init[i] == s[i] && init[i + 1] == s[i + 1];
        }
      }
      WalkSlugBody(init);
      var prev := Walk(init);
      assert prev.chars == init;
      if c == '-' {
        assert |init| > 0;
        assert init[|init| - 1] == s[|s| - 2];
        assert !prev.lastWasDash;
      }
      assert Step(prev, c).chars == init + [c];
      assert s == init + [c];
    }
  }

  /** The slug loop reads one character at a time. */
  lemma WalkSnoc(s: string, c: char)
    ensures Walk(s + [c]) == Step(Walk(s), c)
  {
    assert (s + [c])[..|s|] == s;
  }

  lemma SlugFixpoint(s: string)
    requires IsSlug(s)
    ensures Slugify(Some(s)) == s
  {
    PreparedSlug(s);
    WalkSlugBody(s);
    var w := Walk(Prepared(s)).chars;
    assert w == s;
    assert TrimDash(s) == s by {
      assert LTrimDash(s) == s;
      assert RTrimDash(s) == s;
    }
    SlugifyBody(s);
  }

  /** A slug is already prepared: ASCII, decomposed and lower case. */
  lemma PreparedSlug(s: string)
    requires IsSlug(s)
    ensures Prepared(s) == s
  {
    NfkdAscii(s);
    AsciiOnlyAscii(s);
    assert Lower(s) == s;
  }

  /** Slugifying a slug gives it back. */
  lemma SlugifyIdempotent(text: Option<string>)
    ensures Slugify(Some(Slugify(text))) == Slugify(text)
  {
    SlugFixpoint(Slugify(text));
  }

  // ---------------------------------------------------------------------------
  // A reference definition of the slug

  /** What one character of the prepared text contributes to the word
      structure: an alphanumeric is kept, a space, dash or underscore
      separates words, and every other character is dropped. */
  function SepChar(c: char): string {
    if IsAlnum(c) then [c] else if c == ' ' || c == '-' || c == '_' then " " else ""
  }

  /** The text with separators written as spaces and every other
      non-alphanumeric dropped. */
  function Separated(s: string): (r: string)
    ensures forall i :: 0 <= i < |r| ==> r[i] == ' ' || IsAlnum(r[i])
  {
    if |s| == 0 then "" else Separated(s[..|s| - 1]) + SepChar(s[|s| - 1])
  }

  /** The reference slug: the words of the prepared text joined by one
      dash, or "tag" when there are none. */
  function SlugReference(text: Option<string>): string {
    match text
    case None => "tag"
    case Some(t) =>
      var ws := Words(Separated(Prepared(t)));
      if |ws| == 0 then "tag" else Join('-', ws)
  }

  lemma {:induction false} NonEmptySnoc(ps: seq<string>, x: string)
    ensures NonEmpty(ps + [x]) == NonEmpty(ps) + (if |x| > 0 then [x] else [])
  {
    if |ps| > 0 {
      assert (ps + [x])[1..] == ps[1..] + [x];
      NonEmptySnoc(ps[1..], x);
    }
  }

  /** What the loop has written after reading text whose pieces are `p`:
      the dash-joined words, followed by one dash when a separator came
      after the last word. */
  function WordsSoFar(p: seq<string>): string
    requires |p| >= 1
  {
    var ws := NonEmpty(p);
    Join('-', ws) + (if |ws| > 0 && |p[|p| - 1]| == 0 then "-" else "")
  }

  /** Extending the last part of a join extends the join. */
  lemma JoinExtendLast(v: seq<string>, l: string, c: char)
    ensures Join('-', v + [l + [c]]) == Join('-', v + [l]) + [c]
  {
    JoinSnoc('-', v, l);
    JoinSnoc('-', v, l + [c]);
    if |v| > 0 {
      var j := Join('-', v);
      assert (j + ['-'] + l) + [c] == j + ['-'] + (l + [c]);
    }
  }

  /** An alphanumeric after a word extends that word. */
  lemma WordsSoFarAlnumInWord(p: seq<string>, c: char)
    requires |p| >= 1 && |p[|p| - 1]| > 0
    ensures WordsSoFar(p[..|p| - 1] + [p[|p| - 1] + [c]]) == WordsSoFar(p) + [c]
  {
    var n := |p|;
    var l := p[n - 1];
    var v := NonEmpty(p[..n - 1]);
    var q := p[..n - 1] + [l + [c]];
    assert p == p[..n - 1] + [l];
    assert q[|q| - 1] == l + [c] && q[..n - 1] == p[..n - 1];
    NonEmptySnoc(p[..n - 1], l);
    NonEmptySnoc(p[..n - 1], l + [c]);
    assert NonEmpty(p) == v + [l] && NonEmpty(q) == v + [l + [c]];
    assert WordsSoFar(p) == Join('-', v + [l]);
    assert WordsSoFar(q) == Join('-', v + [l + [c]]);
    JoinExtendLast(v, l, c);
  }

  /** An alphanumeric after a separator, or first, starts a word. */
  lemma WordsSoFarAlnumNewWord(p: seq<string>, c: char)
    requires |p| >= 1 && |p[|p| - 1]| == 0
    ensures WordsSoFar(p[..|p| - 1] + [p[|p| - 1] + [c]]) == WordsSoFar(p) + [c]
  {
    var n := |p|;
    var l := p[n - 1];
    var v := NonEmpty(p[..n - 1]);
    var q := p[..n - 1] + [l + [c]];
    assert p == p[..n - 1] + [l];
    assert l + [c] == [c];
    assert q[|q| - 1] == [c] && q[..n - 1] == p[..n - 1];
    NonEmptySnoc(p[..n - 1], l);
    NonEmptySnoc(p[..n - 1], [c]);
    assert NonEmpty(p) == v && NonEmpty(q) == v + [[c]];
    JoinSnoc('-', v, [c]);
    assert WordsSoFar(q) == Join('-', v + [[c]]);
  }

  /** An alphanumeric extends the last piece and is written as it is. */
  lemma WordsSoFarAlnum(p: seq<string>, c: char)
    requires |p| >= 1
    ensures WordsSoFar(p[..|p| - 1] + [p[|p| - 1] + [c]]) == WordsSoFar(p) + [c]
  {
    if |p[|p| - 1]| > 0 {
      WordsSoFarAlnumInWord(p, c);
    } else {
      WordsSoFarAlnumNewWord(p, c);
    }
  }

  /** A separator after a word writes one dash. */
  lemma WordsSoFarSepAfterWord(p: seq<string>)
    requires |p| >= 1 && |p[|p| - 1]| > 0 && '-' !in p[|p| - 1]
    ensures var w := WordsSoFar(p);
      |w| > 0 && w[|w| - 1] != '-' && WordsSoFar(p + [""]) == w + "-"
  {
    var n := |p|;
    var l := p[n - 1];
    var v := NonEmpty(p[..n - 1]);
    assert p == p[..n - 1] + [l];
    NonEmptySnoc(p[..n - 1], l);
    NonEmptySnoc(p, "");
    assert (p + [""])[|p|] == "";
    JoinSnoc('-', v, l);
    assert NonEmpty(p) == v + [l];
    var j := Join('-', v + [l]);
    assert WordsSoFar(p) == j;
    assert l[|l| - 1] != '-';
    assert |j| > 0 && j[|j| - 1] == l[|l| - 1];
    assert NonEmpty(p + [""]) == v + [l];
  }

  /** A separator after a dash, or before the first word, writes nothing. */
  lemma WordsSoFarSepAfterSep(p: seq<string>)
    requires |p| >= 1 && |p[|p| - 1]| == 0
    ensures var w := WordsSoFar(p);
      WordsSoFar(p + [""]) == w && (|w| > 0 ==> w[|w| - 1] == '-')
  {
    var n := |p|;
    var v := NonEmpty(p[..n - 1]);
    assert p == p[..n - 1] + [p[n - 1]];
    NonEmptySnoc(p[..n - 1], p[n - 1]);
    NonEmptySnoc(p, "");
    assert (p + [""])[|p|] == "";
    assert NonEmpty(p) == v && NonEmpty(p + [""]) == v;
  }

  /** A separator opens an empty piece: one dash is written after a word,
      and nothing after a dash or before the first word. */
  lemma WordsSoFarSep(p: seq<string>)
    requires |p| >= 1 && forall k :: 0 <= k < |p| ==> '-' !in p[k]
    ensures var w := WordsSoFar(p);
      WordsSoFar(p + [""]) == if |w| > 0 && w[|w| - 1] != '-' then w + "-" else w
  {
    if |p[|p| - 1]| > 0 {
      WordsSoFarSepAfterWord(p);
    } else {
      WordsSoFarSepAfterSep(p);
    }
  }

  /** `Separated` on a text with one more character. */
  lemma SeparatedSnoc(init: string, c: char)
    ensures Separated(init + [c]) == Separated(init) + SepChar(c)
  {
    assert (init + [c])[..|init|] == init;
  }

  /** Where the loop reads an alphanumeric, both sides append it. */
  lemma WalkWordsAlnum(init: string, c: char)
    requires IsAlnum(c)
    requires Walk(init).chars == WordsSoFar(Split(Separated(init), ' '))
    ensures Walk(init + [c]).chars == WordsSoFar(Split(Separated(init + [c]), ' '))
  {
    var n0 := Separated(init);
    WalkSnoc(init, c);
    SeparatedSnoc(init, c);
    assert Separated(init + [c]) == n0 + [c];
    SplitSnocOther(n0, ' ', c);
    WordsSoFarAlnum(Split(n0, ' '), c);
  }

  /** The pieces of a separated text hold no dash. */
  lemma SeparatedPiecesNoDash(s: string)
    ensures var p := Split(Separated(s), ' ');
      forall k :: 0 <= k < |p| ==> '-' !in p[k]
  {
    var n := Separated(s);
    assert '-' !in n;
    SplitAvoids(n, ' ', '-');
  }

  /** A separator writes one dash exactly when the output so far ends
      with a word. */
  lemma StepSep(st: WalkState, c: char)
    requires c == ' ' || c == '-' || c == '_'
    requires st.lastWasDash <==> |st.chars| > 0 && st.chars[|st.chars| - 1] == '-'
    ensures var w := st.chars;
      Step(st, c).chars == if |w| > 0 && w[|w| - 1] != '-' then w + "-" else w
  {
  }

  /** Where the loop reads a separator, both sides add one dash after a
      word and nothing otherwise. */
  lemma WalkWordsSep(init: string, c: char)
    requires c == ' ' || c == '-' || c == '_'
    requires Walk(init).chars == WordsSoFar(Split(Separated(init), ' '))
    ensures Walk(init + [c]).chars == WordsSoFar(Split(Separated(init + [c]), ' '))
  {
    var n0 := Separated(init);
    var p := Split(n0, ' ');
    WalkSnoc(init, c);
    StepSep(Walk(init), c);
    SeparatedSnoc(init, c);
    assert SepChar(c) == " ";
    SplitSnocSep(n0, ' ');
    assert Split(Separated(init + [c]), ' ') == p + [""];
    SeparatedPiecesNoDash(init);
    WordsSoFarSep(p);
  }

  /** Any other character is dropped by both sides. */
  lemma WalkWordsOther(init: string, c: char)
    requires !IsAlnum(c) && c != ' ' && c != '-' && c != '_'
    requires Walk(init).chars == WordsSoFar(Split(Separated(init), ' '))
    ensures Walk(init + [c]).chars == WordsSoFar(Split(Separated(init + [c]), ' '))
  {
    WalkSnoc(init, c);
    SeparatedSnoc(init, c);
    assert SepChar(c) == "";
    assert Separated(init + [c]) == Separated(init);
    assert Step(Walk(init), c) == Walk(init);
  }

  /** The loop's output is the words read so far, as `WordsSoFar` says. */
  lemma {:induction false} WalkWords(s: string)
    ensures Walk(s).chars == WordsSoFar(Split(Separated(s), ' '))
  {
    if |s| > 0 {
      var init, c := s[..|s| - 1], s[|s| - 1];
      assert init + [c] == s;
      WalkWords(init);
      if IsAlnum(c) {
        WalkWordsAlnum(init, c);
      } else if c == ' ' || c == '-' || c == '_' {
        WalkWordsSep(init, c);
      } else {
        WalkWordsOther(init, c);
      }
    }
  }

  /** The last word of a dash join ends the text, so the join never ends
      with a dash when the words hold none. */
  lemma JoinEndsWithWord(ws: seq<string>)
    requires |ws| > 0 && |ws[|ws| - 1]| > 0 && '-' !in ws[|ws| - 1]
    ensures var j := Join('-', ws); |j| > 0 && j[|j| - 1] != '-'
  {
    var k := |ws| - 1;
    assert ws == ws[..k] + [ws[k]];
    JoinSnoc('-', ws[..k], ws[k]);
  }

  /** Trimming the dashes of the words so far leaves their join. */
  lemma TrimWordsSoFar(p: seq<string>)
    requires |p| >= 1 && forall k :: 0 <= k < |p| ==> '-' !in p[k]
    requires |NonEmpty(p)| > 0
    ensures TrimDash(WordsSoFar(p)) == Join('-', NonEmpty(p)) && |Join('-', NonEmpty(p))| > 0
  {
    var ws := NonEmpty(p);
    var j := Join('-', ws);
    var w := WordsSoFar(p);
    var last := ws[|ws| - 1];
    assert last in p;
    var k :| 0 <= k < |p| && p[k] == last;
    assert '-' !in last;
    JoinEndsWithWord(ws);
    assert LTrimDash(w) == w;
    if w != j {
      assert w == j + "-";
      assert RTrimDash(w) == RTrimDash(j);
    }
    assert RTrimDash(j) == j;
  }

  /** The slug loop computes the reference slug: one dash for each run of
      spaces, dashes and underscores between alphanumerics, every other
      character dropped. */
  lemma SlugifyIsReference(text: Option<string>)
    ensures Slugify(text) == SlugReference(text)
  {
    if text.Some? {
      var p := Prepared(text.value);
      var ps := Split(Separated(p), ' ');
      var ws := NonEmpty(ps);
      var w := Walk(p).chars;
      SlugifyBody(text.value);
      WalkWords(p);
      if |ws| > 0 {
        SeparatedPiecesNoDash(p);
        TrimWordsSoFar(ps);
      } else {
        assert w == "";
      }
    }
  }

  /** `slugify` on text: the trimmed loop output, or "tag" when empty. */
  lemma SlugifyBody(t: string)
    ensures var w := TrimDash(Walk(Prepared(t)).chars);
      Slugify(Some(t)) == if |w| > 0 then w else "tag"
  {
  }
}

=== FILE: tag_query.dfy ===
/** Resolving the `tags` query parameter of the public API to tag ids:
    splitting and stripping the candidates, case-insensitive lookup by slug
    or name, the sorted list of unknown tags, and case-insensitive
    de-duplication in first-occurrence order. */
module TagQuery {
  import opened Common
  import opened Tables
  import opened Ordering
  import opened TagService
  import opened ApiHelpers

  // ---------------------------------------------------------------------------
  // De-duplication in first-occurrence order

  /** Where `x` first occurs in `xs`. */
  function FirstIndex<T(==)>(xs: seq<T>, x: T): (i: nat)
    requires x in xs
    ensures i < |xs| && xs[i] == x
    ensures forall k :: 0 <= k < i ==> xs[k] != x
  {
    if xs[0] == x then 0 else 1 + FirstIndex(xs[1..], x)
  }

  lemma FirstIndexPrefix<T>(xs: seq<T>, y: T, x: T)
    requires x in xs
    ensures FirstIndex(xs + [y], x) == FirstIndex(xs, x)
  {
    var i := FirstIndex(xs, x);
    var j := FirstIndex(xs + [y], x);
    assert (xs + [y])[i] == x;
    assert j <= i;
    assert xs[j] == (xs + [y])[j];
  }

  lemma FirstIndexLast<T>(xs: seq<T>, y: T)
    requires y !in xs
    ensures FirstIndex(xs + [y], y) == |xs|
  {
  }

  /** The loop over the entries that skips a key already seen: every entry
      once, ordered by where it first occurs. */
  function Dedup<T(==,!new)>(xs: seq<T>): (r: seq<T>)
    ensures forall x :: x in r <==> x in xs
    ensures Distinct(r)
    ensures forall i, j :: 0 <= i < j < |r| ==> FirstIndex(xs, r[i]) < FirstIndex(xs, r[j])
  {
    if |xs| == 0 then []
    else
      var init := xs[..|xs| - 1];
      var last := xs[|xs| - 1];
      var rest := Dedup(init);
      assert xs == init + [last];
      forall x | x in init ensures FirstIndex(xs, x) == FirstIndex(init, x) {
        FirstIndexPrefix(init, last, x);
      }
      if last in rest then rest
      else
        FirstIndexLast(init, last);
        rest + [last]
  }

  /** A list without repeats is its own de-duplication. */
  lemma {:induction false} DedupDistinct<T(!new)>(xs: seq<T>)
    requires Distinct(xs)
    ensures Dedup(xs) == xs
  {
    if |xs| > 0 {
      var init := xs[..|xs| - 1];
      DedupDistinct(init);
      assert xs[|xs| - 1] !in init;
      assert xs == init + [xs[|xs| - 1]];
    }
  }

  lemma DedupIdempotent<T(!new)>(xs: seq<T>)
    ensures Dedup(Dedup(xs)) == Dedup(xs)
  {
    DedupDistinct(Dedup(xs));
  }

  // ---------------------------------------------------------------------------
  // Candidates

  function StripPiece(p: string): Option<string> { Some(Strip(p)) }

  /** A list entry counts only when it is text. */
  function StripItem(v: PyValue): Option<string> {
    if v.PStr? then Some(Strip(v.s)) else None
  }

  /** The stripped candidates: the comma-separated pieces of a text, the
      text entries of a list, nothing for None or ""; any other shape is
      refused. */
  function TagCandidates(raw: PyValue): (r: Option<seq<string>>)
    ensures r.None? <==> !(raw.PNone? || raw.PStr? || raw.PList?)
    ensures raw.PNone? || raw == PStr("") ==> r == Some([])
    ensures r.Some? ==> forall t :: t in r.value ==> Stripped(t)
    ensures raw.PStr? && raw.s != "" ==> r.Some? && |r.value| == |Split(raw.s, ',')|
  {
    match raw
    case PNone => Some([])
    case PStr(s) =>
      if s == "" then Some([])
      else
        var pieces := Split(s, ',');
        FilterMapAll(pieces, StripPiece, seq(|pieces|, (i: int) requires 0 <= i < |pieces| => Strip(pieces[i])));
        Some(FilterMap(pieces, StripPiece))
    case PList(items) => Some(FilterMap(items, StripItem))
    case _ => None
  }

  function NonBlankTest(): string -> bool { (t: string) => t != "" }

  /** The non-empty candidates, as the caller receives them back. */
  function TagNames(raw: PyValue): (r: Option<seq<string>>)
    ensures r.None? <==> !(raw.PNone? || raw.PStr? || raw.PList?)
    ensures r.Some? ==> forall t :: t in r.value ==> t != "" && Stripped(t)
  {
    match TagCandidates(raw)
    case None => None
    case Some(cands) => Some(Filter(cands, NonBlankTest()))
  }

  lemma JoinStartsWith(sep: char, parts: seq<string>)
    requires |parts| >= 1
    ensures |Join(sep, parts)| >= |parts[0]|
  {
  }

  /** Tags written out comma-separated come back as written. */
  lemma NamesOfJoined(tags: seq<string>)
    requires |tags| >= 1
    requires forall k :: 0 <= k < |tags| ==> tags[k] != "" && Stripped(tags[k]) && ',' !in tags[k]
    ensures TagNames(PStr(Join(',', tags))) == Some(tags)
  {
    var s := Join(',', tags);
    JoinStartsWith(',', tags);
    assert s != "";
    SplitJoin(tags, ',');
    forall k | 0 <= k < |tags| ensures StripPiece(tags[k]) == Some(tags[k]) {
      StripOfStripped(tags[k]);
    }
    FilterMapAll(tags, StripPiece, tags);
    assert TagCandidates(PStr(s)) == Some(tags);
    FilterKeepsAll(tags, NonBlankTest());
  }

  // ---------------------------------------------------------------------------
  // Lookup

  function LowerAll(xs: seq<string>): (r: seq<string>)
    ensures |r| == |xs|
    ensures forall i :: 0 <= i < |xs| ==> r[i] == Lower(xs[i])
  {
    seq(|xs|, (i: int) requires 0 <= i < |xs| => Lower(xs[i]))
  }

  predicate NameFolds(k: string, row: (int, Tag)) { Lower(row.1.name) == k }
  predicate SlugFolds(k: string, row: (int, Tag)) { Lower(row.1.slug) == k }

  /** A tag is known when its folded slug or folded name is `k`. */
  predicate Known(rows: seq<(int, Tag)>, k: string) {
    exists i :: 0 <= i < |rows| && (NameFolds(k, rows[i]) || SlugFolds(k, rows[i]))
  }

  function NameTest(k: string): ((int, Tag)) -> bool { (row: (int, Tag)) => NameFolds(k, row) }
  function SlugTest(k: string): ((int, Tag)) -> bool { (row: (int, Tag)) => SlugFolds(k, row) }

  /** The id of the last row satisfying `p`: a dict comprehension keeps the
      last entry written for a key. */
  function LastMatch(rows: seq<(int, Tag)>, p: ((int, Tag)) -> bool): (r: Option<int>)
    ensures r.None? <==> forall i :: 0 <= i < |rows| ==> !p(rows[i])
    ensures r.Some? ==> exists i :: 0 <= i < |rows| && p(rows[i]) && rows[i].0 == r.value
  {
    if |rows| == 0 then None
    else
      var last := rows[|rows| - 1];
      var init := rows[..|rows| - 1];
      assert forall i :: 0 <= i < |init| ==> init[i] == rows[i];
      if p(last) then Some(last.0) else LastMatch(init, p)
  }

  /** `found[k]`: the name entries overwrite the slug entries. */
  function Resolve(rows: seq<(int, Tag)>, k: string): (r: Option<int>)
    ensures r.Some? <==> Known(rows, k)
    ensures r.Some? ==> exists i :: 0 <= i < |rows| && rows[i].0 == r.value
                                    && (NameFolds(k, rows[i]) || SlugFolds(k, rows[i]))
    ensures (exists i :: 0 <= i < |rows| && NameFolds(k, rows[i]))
            ==> r.Some? && exists i :: 0 <= i < |rows| && rows[i].0 == r.value && NameFolds(k, rows[i])
  {
    var byName := LastMatch(rows, NameTest(k));
    if byName.Some? then byName else LastMatch(rows, SlugTest(k))
  }

  function ResolveAll(rows: seq<(int, Tag)>, keys: seq<string>): (r: seq<int>)
    requires forall k :: k in keys ==> Known(rows, k)
    ensures |r| == |keys|
    ensures forall i :: 0 <= i < |keys| ==> Some(r[i]) == Resolve(rows, keys[i])
  {
    seq(|keys|, (i: int) requires 0 <= i < |keys| => Resolve(rows, keys[i]).value)
  }

  function UnknownTest(rows: seq<(int, Tag)>): string -> bool { (k: string) => !Known(rows, k) }

  function TextKey(s: string): Key { KText(s) }

  /** `sorted(set(unknown))` for an `unknown` without repeats. */
  function Missing(unknown: seq<string>): (m: seq<string>)
    requires Distinct(unknown)
    ensures |m| == |unknown|
    ensures Distinct(m)
    ensures SortedBy(m, TextKey, false)
    ensures forall k :: k in m <==> k in unknown
  {
    var m := SortBy(unknown, TextKey, false);
    forall x ensures multiset(m)[x] <= 1 {
      DistinctCount(unknown, x);
    }
    CountDistinct(m);
    assert forall k :: k in m <==> k in multiset(m);
    assert forall k :: k in unknown <==> k in multiset(unknown);
    m
  }

  /** Every de-duplicated key is known exactly when every name is. */
  lemma KeysKnown(names: seq<string>, rows: seq<(int, Tag)>)
    ensures (forall k :: k in Dedup(LowerAll(names)) ==> Known(rows, k))
            <==> (forall n :: n in names ==> Known(rows, Lower(n)))
  {
    var lowered := LowerAll(names);
    if forall k :: k in Dedup(lowered) ==> Known(rows, k) {
      forall n | n in names ensures Known(rows, Lower(n)) {
        var i :| 0 <= i < |names| && names[i] == n;
        assert lowered[i] in Dedup(lowered);
      }
    }
    if forall n :: n in names ==> Known(rows, Lower(n)) {
      forall k | k in Dedup(lowered) ensures Known(rows, k) {
        var i :| 0 <= i < |lowered| && lowered[i] == k;
        assert names[i] in names;
      }
    }
  }

  /** The de-duplicated keys no tag answers to. */
  function UnknownKeys(keys: seq<string>, rows: seq<(int, Tag)>): (u: seq<string>)
    requires Distinct(keys)
    ensures Distinct(u)
    ensures forall k :: k in u <==> k in keys && !Known(rows, k)
  {
    DistinctFilter(keys, UnknownTest(rows));
    Filter(keys, UnknownTest(rows))
  }

  /** The lookup half of `_parse_tags`: the unknown folded tags sorted, or
      the ids of the folded tags de-duplicated. */
  function ResolveNames(names: seq<string>, rows: seq<(int, Tag)>): (r: Result<seq<int>, QueryError>)
    ensures r.Ok? <==> forall n :: n in names ==> Known(rows, Lower(n))
    ensures r.Ok? ==> var keys := Dedup(LowerAll(names));
      && |r.value| == |keys|
      && forall i :: 0 <= i < |keys| ==> Some(r.value[i]) == Resolve(rows, keys[i])
    ensures r.Err? ==> && r.error.UnknownTags?
                       && |r.error.missing| > 0
                       && Distinct(r.error.missing)
                       && SortedBy(r.error.missing, TextKey, false)
                       && forall k :: k in r.error.missing <==> k in Dedup(LowerAll(names)) && !Known(rows, k)
  {
    var keys := Dedup(LowerAll(names));
    var unknown := UnknownKeys(keys, rows);
    KeysKnown(names, rows);
    if |unknown| > 0 then
      assert unknown[0] in unknown;
      Err(UnknownTags(Missing(unknown)))
    else
      assert forall k :: k in keys ==> Known(rows, k) by {
        forall k | k in keys ensures Known(rows, k) {
          assert k !in unknown;
        }
      }
      Ok(ResolveAll(rows, keys))
  }

  /** `_parse_tags`: a refused shape, nothing for no tags, the sorted unknown
      tags, or the names with the ids of their folded, de-duplicated forms. */
  function ParseTags(raw: PyValue, tags: Table<Tag>): (r: Result<(seq<string>, seq<int>), QueryError>)
    requires Valid(tags)
    ensures r == Err(BadTagsShape) <==> TagNames(raw).None?
    ensures raw.PNone? || raw == PStr("") ==> r == Ok(([], []))
    ensures TagNames(raw).Some? ==>
      var names := TagNames(raw).value;
      var keys := Dedup(LowerAll(names));
      && (r.Ok? <==> forall n :: n in names ==> Known(Rows(tags), Lower(n)))
      && (r.Ok? ==> && r.value.0 == names
                    && |r.value.1| == |keys|
                    && forall i :: 0 <= i < |keys| ==> Some(r.value.1[i]) == Resolve(Rows(tags), keys[i]))
      && (r.Err? ==> && r.error.UnknownTags?
                     && |r.error.missing| > 0
                     && Distinct(r.error.missing)
                     && SortedBy(r.error.missing, TextKey, false)
                     && forall k :: k in r.error.missing <==> k in keys && !Known(Rows(tags), k))
  {
    match TagNames(raw)
    case None => Err(BadTagsShape)
    case Some(names) =>
      if |names| == 0 then Ok(([], []))
      else
        match ResolveNames(names, Rows(tags))
        case Ok(ids) => Ok((names, ids))
        case Err(e) => Err(e)
  }

  lemma {:induction false} DistinctFilter<T(!new)>(xs: seq<T>, p: T -> bool)
    requires Distinct(xs)
    ensures Distinct(Filter(xs, p))
  {
    if |xs| > 0 {
      DistinctFilter(xs[1..], p);
      assert xs[0] !in xs[1..];
    }
  }
}

=== FILE: tag_service.dfy ===
/** The tag service: validating a tag name against the other tags, choosing
    a slug no other tag owns (with the `-2`, `-3`, ... suffix search), the
    paged tag listing, and create / update / delete over the tag table. */
module TagService {
  import opened Common
  import opened Tables
  import opened Ordering
  import opened Paging
  import opened Listing
  import opened TagNames

  const MaxSlugLength: int := 60
  const MinNameLength: int := 3
  const MaxNameLength: int := 50
  const TagPageCap: int := 25

  datatype Tag = Tag(name: string, slug: string, createdAt: int)

  datatype TagError = NameRequired | NameLength | NameTaken | HasSites

  /** What `_validate_tag_payload` returns: the name errors, the cleaned
      name and the chosen slug. */
  datatype TagCheck = TagCheck(errors: seq<TagError>, cleanName: string, slug: string)

  predicate IsValid(c: TagCheck) { |c.errors| == 0 }

  /** Another tag (not the one being edited) already has this name, ignoring
      case. */
  predicate NameInUse(tags: map<int, Tag>, name: string, existingId: Option<int>) {
    exists id :: id in tags && Some(id) != existingId && Lower(tags[id].name) == Lower(name)
  }

  /** The slugs owned by the other tags. */
  function TakenSlugs(tags: map<int, Tag>, existingId: Option<int>): (r: set<string>)
    ensures forall s :: s in r <==> exists id :: id in tags && Some(id) != existingId && tags[id].slug == s
  {
    set id | id in tags && Some(id) != existingId :: tags[id].slug
  }

  // ---------------------------------------------------------------------------
  // Slug truncation and suffix candidates

  /** How a slug is cut to a length: `slug[:n]` as the service does it, or
      the same cut with trailing dashes dropped so the result stays a slug. */
  datatype Truncation = AsWritten | KeepSlugShape

  function Cut(s: string, n: int, mode: Truncation): (r: string)
    ensures 0 <= n <= |s| && mode.AsWritten? ==> r == s[..n]
    ensures 0 <= n ==> |r| <= n
    ensures |r| <= |PySlice(s, 0, n)| && r == PySlice(s, 0, n)[..|r|]
    ensures mode.KeepSlugShape? && |r| > 0 ==> r[|r| - 1] != '-'
  {
    var p := PySlice(s, 0, n);
    match mode
    case AsWritten => p
    case KeepSlugShape => RTrimDash(p)
  }

  /** The slug of the cleaned name, cut to 60 characters when longer. */
  function BaseSlug(cleanName: string, mode: Truncation): (r: string)
    ensures |r| <= MaxSlugLength
    ensures |Slugify(Some(cleanName))| <= MaxSlugLength ==> r == Slugify(Some(cleanName))
    ensures mode.AsWritten? && |Slugify(Some(cleanName))| > MaxSlugLength ==>
      r == Slugify(Some(cleanName))[..MaxSlugLength]
  {
    var slug := Slugify(Some(cleanName));
    if |slug| > MaxSlugLength then Cut(slug, MaxSlugLength, mode) else slug
  }

  function Suffix(k: nat): (r: string)
    ensures |r| == |NatToString(k)| + 1 && r[0] == '-' && r[1..] == NatToString(k)
  {
    "-" + NatToString(k)
  }

  /** The k-th candidate: `base-k`, or, when that exceeds 60 characters, the
      base cut short enough for `-k` to fit. */
  function Candidate(base: string, k: nat, mode: Truncation): (r: string)
    ensures |r| >= |Suffix(k)| && r[|r| - |Suffix(k)|..] == Suffix(k)
    ensures |base| + |Suffix(k)| <= MaxSlugLength ==> r == base + Suffix(k)
    ensures |base| <= MaxSlugLength && |Suffix(k)| <= MaxSlugLength ==> |r| <= MaxSlugLength
  {
    var suffix := Suffix(k);
    if |base| + |suffix| > MaxSlugLength then
      var c := Cut(base, MaxSlugLength - |suffix|, mode);
      assert (c + suffix)[|c|..] == suffix;
      c + suffix
    else
      assert (base + suffix)[|base|..] == suffix;
      base + suffix
  }

  /** Two strings that end in `-` followed by digits share those digits
      when both digit runs are maximal. */
  lemma DigitTailsEqual(s: string, d1: string, d2: string)
    requires AllDigits(d1) && AllDigits(d2)
    requires |s| > |d1| && |s| > |d2|
    requires s[|s| - |d1| - 1] == '-' && s[|s| - |d1|..] == d1
    requires s[|s| - |d2| - 1] == '-' && s[|s| - |d2|..] == d2
    ensures d1 == d2
  {
  }

  lemma SuffixParts(s: string, k: nat)
    requires |s| >= |Suffix(k)| && s[|s| - |Suffix(k)|..] == Suffix(k)
    ensures var d := NatToString(k);
      |s| > |d| && s[|s| - |d| - 1] == '-' && s[|s| - |d|..] == d
  {
    var d := NatToString(k);
    var t := s[|s| - |Suffix(k)|..];
    assert s[|s| - |d| - 1] == t[0];
    assert s[|s| - |d|..] == t[1..];
  }

  /** Different counters give different candidates. */
  lemma CandidateInjective(base: string, j: nat, k: nat, mode: Truncation)
    requires Candidate(base, j, mode) == Candidate(base, k, mode)
    ensures j == k
  {
    var s := Candidate(base, j, mode);
    SuffixParts(s, j);
    SuffixParts(s, k);
    DigitTailsEqual(s, NatToString(j), NatToString(k));
    NatToStringInjective(j, k);
  }

  /** The candidates tried before the counter reaches k. */
  function Tried(base: string, k: nat, mode: Truncation): set<string> {
    set j: nat | 2 <= j < k :: Candidate(base, j, mode)
  }

  lemma {:induction false} TriedSize(base: string, k: nat, mode: Truncation)
    requires k >= 2
    ensures |Tried(base, k, mode)| == k - 2
    decreases k
  {
    if k > 2 {
      TriedSize(base, k - 1, mode);
      TriedStep(base, k - 1, mode);
    } else {
      assert Tried(base, k, mode) == {};
    }
  }

  /** One more counter adds one new candidate to those tried. */
  lemma TriedStep(base: string, k: nat, mode: Truncation)
    requires k >= 2
    ensures Tried(base, k + 1, mode) == Tried(base, k, mode) + {Candidate(base, k, mode)}
    ensures Candidate(base, k, mode) !in Tried(base, k, mode)
  {
    TriedFresh(base, k, mode);
    TriedGrows(base, k, mode);
  }

  lemma TriedFresh(base: string, k: nat, mode: Truncation)
    requires k >= 2
    ensures Candidate(base, k, mode) !in Tried(base, k, mode)
  {
    var c := Candidate(base, k, mode);
    if c in Tried(base, k, mode) {
      var j: nat :| 2 <= j < k && Candidate(base, j, mode) == c;
      CandidateInjective(base, j, k, mode);
    }
  }

  lemma TriedGrows(base: string, k: nat, mode: Truncation)
    requires k >= 2
    ensures Tried(base, k + 1, mode) == Tried(base, k, mode) + {Candidate(base, k, mode)}
  {
  }

  /** The counter loop: from k on, the first candidate nobody owns. It ends
      because every failed candidate is a distinct member of the finite set
      of taken slugs. */
  function FindFreeSuffix(base: string, taken: set<string>, k: nat, mode: Truncation): (m: nat)
    requires k >= 2 && Tried(base, k, mode) <= taken
    ensures m >= k && Candidate(base, m, mode) !in taken
    ensures forall j :: k <= j < m ==> Candidate(base, j, mode) in taken
    ensures m - 2 <= |taken|
    decreases |taken| - (k - 2)
  {
    TriedSize(base, k, mode);
    assert k - 2 <= |taken| by { SubsetSize(Tried(base, k, mode), taken); }
    var c := Candidate(base, k, mode);
    if c !in taken then k
    else
      TriedStep(base, k, mode);
      TriedSize(base, k + 1, mode);
      assert k - 1 <= |taken| by { SubsetSize(Tried(base, k + 1, mode), taken); }
      FindFreeSuffix(base, taken, k + 1, mode)
  }

  lemma SubsetSize<T>(a: set<T>, b: set<T>)
    requires a <= b
    ensures |a| <= |b|
  {
    assert b == a + (b - a);
  }

  /** `m` is the least counter from 2 on whose candidate is free. */
  predicate LeastFree(base: string, taken: set<string>, m: nat, mode: Truncation) {
    m >= 2 && Candidate(base, m, mode) !in taken
    && forall j :: 2 <= j < m ==> Candidate(base, j, mode) in taken
  }

  function Pow10(d: nat): (r: nat)
    ensures r >= 1
  {
    if d == 0 then 1 else 10 * Pow10(d - 1)
  }

  lemma {:induction false} NatToStringLength(n: nat, d: nat)
    requires d >= 1 && n < Pow10(d)
    ensures |NatToString(n)| <= d
  {
    if n >= 10 {
      NatToStringLength(n / 10, d - 1);
    }
  }

  // ---------------------------------------------------------------------------
  // _validate_tag_payload

  function NameErrors(tags: map<int, Tag>, clean: string, existingId: Option<int>): (e: seq<TagError>)
    ensures |clean| == 0 ==> e == [NameRequired]
    ensures |clean| > 0 && (|clean| < MinNameLength || |clean| > MaxNameLength) ==> e == [NameLength]
    ensures MinNameLength <= |clean| <= MaxNameLength ==>
      e == (if NameInUse(tags, clean, existingId) then [NameTaken] else [])
  {
    if |clean| == 0 then [NameRequired]
    else if |clean| < MinNameLength || |clean| > MaxNameLength then [NameLength]
    else if NameInUse(tags, clean, existingId) then [NameTaken]
    else []
  }

  /** The validation with a chosen truncation: clean the name, check its
      length and uniqueness, and only for a valid name look for a free slug,
      starting with the base slug and then trying `-2`, `-3`, ... */
  function ValidateTagWith(tags: map<int, Tag>, name: Option<string>, existingId: Option<int>,
                           mode: Truncation): (c: TagCheck)
    ensures c.cleanName == CleanTagName(name)
    ensures IsValid(c) <==> MinNameLength <= |c.cleanName| <= MaxNameLength
                            && !NameInUse(tags, c.cleanName, existingId)
    ensures c.errors == NameErrors(tags, c.cleanName, existingId)
    ensures !IsValid(c) ==> c.slug == BaseSlug(c.cleanName, mode)
    ensures IsValid(c) ==> c.slug !in TakenSlugs(tags, existingId)
    ensures IsValid(c) && BaseSlug(c.cleanName, mode) !in TakenSlugs(tags, existingId) ==>
      c.slug == BaseSlug(c.cleanName, mode)
    ensures IsValid(c) && BaseSlug(c.cleanName, mode) in TakenSlugs(tags, existingId) ==>
      exists m: nat :: LeastFree(BaseSlug(c.cleanName, mode), TakenSlugs(tags, existingId), m, mode)
                    && c.slug == Candidate(BaseSlug(c.cleanName, mode), m, mode)
    ensures IsValid(c) && |TakenSlugs(tags, existingId)| + 2 < Pow10(58) ==> |c.slug| <= MaxSlugLength
  {
    var clean := CleanTagName(name);
    var errors := NameErrors(tags, clean, existingId);
    var base := BaseSlug(clean, mode);
    var taken := TakenSlugs(tags, existingId);
    if |errors| > 0 || base !in taken then TagCheck(errors, clean, base)
    else
      assert Tried(base, 2, mode) == {};
      var m := FindFreeSuffix(base, taken, 2, mode);
      assert LeastFree(base, taken, m, mode);
      assert |taken| + 2 < Pow10(58) ==> |Suffix(m)| <= 59 by {
        if |taken| + 2 < Pow10(58) { NatToStringLength(m, 58); }
      }
      TagCheck(errors, clean, Candidate(base, m, mode))
  }

  /** `_validate_tag_payload` exactly as the service computes it. */
  function ValidateTagAsWritten(tags: map<int, Tag>, name: Option<string>, existingId: Option<int>): (c: TagCheck)
    ensures c == ValidateTagWith(tags, name, existingId, AsWritten)
    ensures IsValid(c) ==> c.slug !in TakenSlugs(tags, existingId)
  {
    ValidateTagWith(tags, name, existingId, AsWritten)
  }

  /** The validation the rest of the model uses: every cut drops trailing
      dashes, so a valid name always receives a well-formed slug. */
  function ValidateTag(tags: map<int, Tag>, name: Option<string>, existingId: Option<int>): (c: TagCheck)
    ensures c == ValidateTagWith(tags, name, existingId, KeepSlugShape)
    ensures IsSlug(BaseSlug(c.cleanName, KeepSlugShape))
    ensures IsValid(c) && |TakenSlugs(tags, existingId)| + 2 < Pow10(58) ==> IsSlug(c.slug)
  {
    ValidTagSlugShape(tags, name, existingId);
    ValidateTagWith(tags, name, existingId, KeepSlugShape)
  }

  lemma ValidTagSlugShape(tags: map<int, Tag>, name: Option<string>, existingId: Option<int>)
    ensures var c := ValidateTagWith(tags, name, existingId, KeepSlugShape);
      && IsSlug(BaseSlug(c.cleanName, KeepSlugShape))
      && (IsValid(c) && |TakenSlugs(tags, existingId)| + 2 < Pow10(58) ==> IsSlug(c.slug))
  {
    var c := ValidateTagWith(tags, name, existingId, KeepSlugShape);
    var base := BaseSlug(c.cleanName, KeepSlugShape);
    var taken := TakenSlugs(tags, existingId);
    BaseSlugShape(c.cleanName);
    if IsValid(c) && |taken| + 2 < Pow10(58) && base in taken {
      var m: nat :| LeastFree(base, taken, m, KeepSlugShape) && c.slug == Candidate(base, m, KeepSlugShape);
      FindFreeSuffixBound(base, taken, m);
      NatToStringLength(m, 58);
      CandidateShape(base, m);
    }
  }

  lemma FindFreeSuffixBound(base: string, taken: set<string>, m: nat)
    requires LeastFree(base, taken, m, KeepSlugShape)
    ensures m - 2 <= |taken|
  {
    assert Tried(base, m, KeepSlugShape) <= taken;
    TriedSize(base, m, KeepSlugShape);
    SubsetSize(Tried(base, m, KeepSlugShape), taken);
  }

  /** Cutting a slug at a positive length and dropping trailing dashes
      leaves a slug. */
  lemma CutSlug(s: string, n: int)
    requires IsSlug(s) && n >= 1
    ensures IsSlug(Cut(s, n, KeepSlugShape))
  {
    var p := PySlice(s, 0, n);
    var r := Cut(s, n, KeepSlugShape);
    assert p == s[..Min(n, |s|)];
    assert r == p[..|r|];
    assert forall i :: 0 <= i < |r| ==> r[i] == s[i];
  }

  lemma BaseSlugShape(clean: string)
    ensures IsSlug(BaseSlug(clean, KeepSlugShape))
  {
    if |Slugify(Some(clean))| > MaxSlugLength {
      CutSlug(Slugify(Some(clean)), MaxSlugLength);
    }
  }

  /** A candidate built from a slug with a counter short enough to leave
      room for at least one base character is a slug. */
  lemma CandidateShape(base: string, m: nat)
    requires IsSlug(base) && |base| <= MaxSlugLength && |NatToString(m)| <= 58
    ensures IsSlug(Candidate(base, m, KeepSlugShape))
  {
    var prefix := CandidateBase(base, m, KeepSlugShape);
    if |base| + |Suffix(m)| > MaxSlugLength {
      CutSlug(base, MaxSlugLength - |Suffix(m)|);
    }
    SlugDashDigits(prefix, NatToString(m));
  }

  /** What stands before the `-k` of the k-th candidate. */
  function CandidateBase(base: string, k: nat, mode: Truncation): (r: string)
    ensures Candidate(base, k, mode) == r + "-" + NatToString(k)
  {
    var suffix := Suffix(k);
    var d := NatToString(k);
    var r := if |base| + |suffix| > MaxSlugLength then Cut(base, MaxSlugLength - |suffix|, mode) else base;
    assert Candidate(base, k, mode) == r + suffix;
    assert suffix == "-" + d;
    assert r + ("-" + d) == r + "-" + d;
    r
  }

  /** A slug, a dash and a run of digits make a slug. */
  lemma SlugDashDigits(prefix: string, d: string)
    requires IsSlug(prefix) && |d| > 0 && AllDigits(d)
    ensures IsSlug(prefix + "-" + d)
  {
    var r := prefix + "-" + d;
    assert forall i :: 0 <= i < |r| ==> IsSlugChar(r[i]) by {
      forall i | 0 <= i < |r| ensures IsSlugChar(r[i]) {
        if i < |prefix| { assert r[i] == prefix[i]; }
        else if i > |prefix| { assert r[i] == d[i - |prefix| - 1]; }
      }
    }
    assert NoDoubleDash(r) by {
      forall i | 0 <= i < |r| - 1 ensures !(r[i] == '-' && r[i + 1] == '-') {
        if i < |prefix| - 1 { assert r[i] == prefix[i] && r[i + 1] == prefix[i + 1]; }
        else if i == |prefix| - 1 { assert r[i] == prefix[|prefix| - 1]; }
        else { assert r[i + 1] == d[i - |prefix|]; }
      }
    }
    assert r[|r| - 1] == d[|d| - 1];
  }

  // ---------------------------------------------------------------------------
  // The tag table and its invariant

  /** The unique constraints on the tag table: no two tags share a slug, and
      (as the service enforces) no two names differ only in case. */
  predicate TagsUnique(tags: map<int, Tag>) {
    forall a, b :: a in tags && b in tags && a != b ==>
      tags[a].slug != tags[b].slug && Lower(tags[a].name) != Lower(tags[b].name)
  }

  /** Storing a tag whose name and slug passed the checks against the other
      tags keeps the table unique. */
  lemma StoreKeepsUnique(tags: map<int, Tag>, id: int, tag: Tag, existingId: Option<int>)
    requires existingId.None? ==> id !in tags
    requires existingId.Some? ==> existingId == Some(id)
    requires tag.slug !in TakenSlugs(tags, existingId) && !NameInUse(tags, tag.name, existingId)
    ensures TagsUnique(tags) ==> TagsUnique(tags[id := tag])
  {
    var u := tags[id := tag];
    if !TagsUnique(tags) { return; }
    forall a, b | a in u && b in u && a != b
      ensures u[a].slug != u[b].slug && Lower(u[a].name) != Lower(u[b].name)
    {
      if a == id {
        assert Some(b) != existingId && u[b] == tags[b];
        assert tags[b].slug in TakenSlugs(tags, existingId);
      } else if b == id {
        assert Some(a) != existingId && u[a] == tags[a];
        assert tags[a].slug in TakenSlugs(tags, existingId);
      }
    }
  }

  datatype TagOutcome = Saved(id: int) | Rejected(errors: seq<TagError>)

  /** `create_tag`: on an invalid name nothing is stored and the errors are
      returned; otherwise a new tag is inserted with the cleaned name and the
      chosen slug. `mode` picks the cut of a long slug: `AsWritten` is the
      code's `slug[:60]`, `KeepSlugShape` the corrected cut. */
  function CreateTag(t: Table<Tag>, name: Option<string>, now: int, mode: Truncation): (r: (Table<Tag>, TagOutcome))
    requires Valid(t)
    ensures var c := ValidateTagWith(t.rows, name, None, mode);
      && (!IsValid(c) ==> r.0 == t && r.1 == Rejected(c.errors))
      && (IsValid(c) ==>
            r.1.Saved? && r.1.id !in t.rows && r.0.rows == t.rows[r.1.id := Tag(c.cleanName, c.slug, now)])
    ensures Valid(r.0)
    ensures TagsUnique(t.rows) ==> TagsUnique(r.0.rows)
  {
    var c := ValidateTagWith(t.rows, name, None, mode);
    if !IsValid(c) then (t, Rejected(c.errors))
    else
      var (t2, id) := Tables.Insert(t, Tag(c.cleanName, c.slug, now));
      assert t2.rows == t.rows[id := Tag(c.cleanName, c.slug, now)];
      assert c.slug !in TakenSlugs(t.rows, None) && !NameInUse(t.rows, c.cleanName, None);
      StoreKeepsUnique(t.rows, id, Tag(c.cleanName, c.slug, now), None);
      (t2, Saved(id))
  }

  /** `update_tag`: the edited tag is excluded from both uniqueness checks;
      on success only its name and slug change. `mode` picks the cut as in
      `CreateTag`. */
  function UpdateTag(t: Table<Tag>, id: int, name: Option<string>, mode: Truncation): (r: (Table<Tag>, TagOutcome))
    requires Valid(t) && id in t.rows
    ensures var c := ValidateTagWith(t.rows, name, Some(id), mode);
      && (!IsValid(c) ==> r.0 == t && r.1 == Rejected(c.errors))
      && (IsValid(c) ==>
            r.1 == Saved(id) && r.0.rows == t.rows[id := Tag(c.cleanName, c.slug, t.rows[id].createdAt)])
    ensures Valid(r.0)
    ensures TagsUnique(t.rows) ==> TagsUnique(r.0.rows)
  {
    var c := ValidateTagWith(t.rows, name, Some(id), mode);
    if !IsValid(c) then (t, Rejected(c.errors))
    else
      var t2 := Put(t, id, Tag(c.cleanName, c.slug, t.rows[id].createdAt));
      assert c.slug !in TakenSlugs(t.rows, Some(id)) && !NameInUse(t.rows, c.cleanName, Some(id));
      StoreKeepsUnique(t.rows, id, Tag(c.cleanName, c.slug, t.rows[id].createdAt), Some(id));
      (t2, Saved(id))
  }

  /** With the corrected cut, a created tag receives a well-formed slug
      (while fewer than 10^58 slugs are taken). */
  lemma CreatedSlugIsSlug(t: Table<Tag>, name: Option<string>, now: int)
    requires Valid(t) && |TakenSlugs(t.rows, None)| + 2 < Pow10(58)
    ensures var r := CreateTag(t, name, now, KeepSlugShape);
      r.1.Saved? ==> r.1.id in r.0.rows && IsSlug(r.0.rows[r.1.id].slug)
  {
    var c := ValidateTagWith(t.rows, name, None, KeepSlugShape);
    ValidTagSlugShape(t.rows, name, None);
    assert IsValid(c) ==> IsSlug(c.slug);
  }

  /** ... and so does a renamed one. */
  lemma RenamedSlugIsSlug(t: Table<Tag>, id: int, name: Option<string>)
    requires Valid(t) && id in t.rows && |TakenSlugs(t.rows, Some(id))| + 2 < Pow10(58)
    ensures var r := UpdateTag(t, id, name, KeepSlugShape);
      r.1.Saved? ==> IsSlug(r.0.rows[id].slug)
  {
    var c := ValidateTagWith(t.rows, name, Some(id), KeepSlugShape);
    ValidTagSlugShape(t.rows, name, Some(id));
    assert IsValid(c) ==> IsSlug(c.slug);
  }

  /** `delete_tag`: refused while any site carries the tag; otherwise the
      tag row is removed. Links are (site id, tag id) pairs. */
  function DeleteTag(t: Table<Tag>, links: set<(int, int)>, id: int): (r: (Table<Tag>, Option<TagError>))
    requires Valid(t) && id in t.rows
    ensures r.1 == Some(HasSites) <==> exists s :: (s, id) in links
    ensures r.1.Some? ==> r.0 == t
    ensures r.1.None? ==> r.0.rows == t.rows - {id}
    ensures TagsUnique(t.rows) ==> TagsUnique(r.0.rows)
  {
    if exists p | p in links :: p.1 == id then
      var p :| p in links && p.1 == id;
      HasLink(links, p, id);
      (t, Some(HasSites))
    else
      assert forall s :: (s, id) !in links by {
        forall s ensures (s, id) !in links {
          var p := (s, id);
          assert p in links ==> p.1 == id;
        }
      }
      (Delete(t, id), None)
  }

  lemma HasLink(links: set<(int, int)>, p: (int, int), id: int)
    requires p in links && p.1 == id
    ensures exists s :: (s, id) in links
  {
    var site := p.0;
    assert (site, id) == p;
    assert (site, id) in links;
  }

  // ---------------------------------------------------------------------------
  // paginate_tags / list_tags

  datatype TagColumn = ByName | ByCreatedAt

  /** The `allowed_order` lookup: "created_at" picks the creation time and
      every other value falls back to the name. */
  function TagColumnOf(orderBy: string): (c: TagColumn)
    ensures c == ByCreatedAt <==> orderBy == "created_at"
  {
    if orderBy == "created_at" then ByCreatedAt else ByName
  }

  function TagKey(col: TagColumn, row: (int, Tag)): Key {
    match col
    case ByName => KText(row.1.name)
    case ByCreatedAt => KInt(row.1.createdAt)
  }

  /** The search filter: applied only for a non-empty search text, as a
      case-insensitive substring match on the stripped text. */
  predicate TagMatches(search: Option<string>, row: (int, Tag)) {
    match search
    case None => true
    case Some(s) => |s| == 0 || ContainsFold(row.1.name, Strip(s))
  }

  function TagSearch(search: Option<string>): ((int, Tag)) -> bool {
    row => TagMatches(search, row)
  }

  function TagOrder(col: TagColumn): ((int, Tag)) -> Key {
    row => TagKey(col, row)
  }

  /** `paginate_tags`: filter, order by the chosen column (descending for any
      direction but "asc"), count, clamp the page to >= 1 and per_page to
      [1, 25], and cut the page. */
  function PaginateTags(t: Table<Tag>, page: int, perPage: int, search: Option<string>,
                        orderBy: string, orderDir: string): (p: Pagination<(int, Tag)>)
    requires Valid(t)
    ensures p.page >= 1 && 1 <= p.perPage <= TagPageCap && |p.items| <= p.perPage
    ensures page >= 1 ==> p.page == page
    ensures 1 <= perPage <= TagPageCap ==> p.perPage == perPage
    ensures p.total == |Filter(Rows(t), TagSearch(search))|
    ensures forall i :: 0 <= i < |p.items| ==>
      p.items[i].0 in t.rows && t.rows[p.items[i].0] == p.items[i].1 && TagMatches(search, p.items[i])
    ensures SortedBy(p.items, TagOrder(TagColumnOf(orderBy)), orderDir != "asc")
    ensures p.items == Window(Ordered(Rows(t), TagSearch(search), TagOrder(TagColumnOf(orderBy)), orderDir != "asc"),
                              p.page, p.perPage)
  {
    Query(Rows(t), TagSearch(search), TagOrder(TagColumnOf(orderBy)), orderDir != "asc",
          page, perPage, TagPageCap)
  }

  /** Unknown sort columns behave as "name", and every direction other than
      "asc" gives the same page as "desc". */
  lemma PaginateTagsDefaults(t: Table<Tag>, page: int, perPage: int, search: Option<string>,
                             orderBy: string, orderDir: string)
    requires Valid(t)
    ensures orderBy != "created_at" ==>
      PaginateTags(t, page, perPage, search, orderBy, orderDir)
      == PaginateTags(t, page, perPage, search, "name", orderDir)
    ensures orderDir != "asc" ==>
      PaginateTags(t, page, perPage, search, orderBy, orderDir)
      == PaginateTags(t, page, perPage, search, orderBy, "desc")
  {
  }

  /** `list_tags`: every tag, as (id, name), ordered by name ascending. */
  function ListTags(t: Table<Tag>): (r: seq<(int, string)>)
    requires Valid(t)
    ensures |r| == |t.rows|
    ensures forall i :: 0 <= i < |r| ==> r[i].0 in t.rows && t.rows[r[i].0].name == r[i].1
    ensures forall i, j :: 0 <= i < j < |r| ==> !TextLt(r[j].1, r[i].1)
    ensures forall id :: id in t.rows ==> exists i :: 0 <= i < |r| && r[i].0 == id
    ensures forall i, j :: 0 <= i < j < |r| ==> r[i].0 != r[j].0
  {
    var all := Rows(t);
    var rows := SortBy(all, NameKey, false);
    RowsCount(t);
    SortedRowsMembers(t, rows);
    SortedRowsComplete(t, rows);
    SortedRowsDistinct(t, rows);
    NamesSorted(rows);
    NamesOf(rows)
  }

  /** Every tag is among the sorted rows. */
  lemma SortedRowsComplete(t: Table<Tag>, rows: seq<(int, Tag)>)
    requires Valid(t) && multiset(rows) == multiset(Rows(t))
    ensures forall id :: id in t.rows ==> exists i :: 0 <= i < |rows| && rows[i].0 == id
  {
    forall id | id in t.rows ensures exists i :: 0 <= i < |rows| && rows[i].0 == id {
      assert (id, t.rows[id]) in multiset(rows);
      var i :| 0 <= i < |rows| && rows[i] == (id, t.rows[id]);
    }
  }

  /** ... and none twice: the table lists each id once, and sorting keeps
      the count of every row. */
  lemma SortedRowsDistinct(t: Table<Tag>, rows: seq<(int, Tag)>)
    requires Valid(t) && multiset(rows) == multiset(Rows(t))
    requires forall i :: 0 <= i < |rows| ==> rows[i].0 in t.rows && t.rows[rows[i].0] == rows[i].1
    ensures forall i, j :: 0 <= i < j < |rows| ==> rows[i].0 != rows[j].0
  {
    var all := Rows(t);
    assert Distinct(all) by {
      forall i, j | 0 <= i < j < |all| ensures all[i] != all[j] {
        assert all[i].0 < all[j].0;
      }
    }
    forall x ensures multiset(rows)[x] <= 1 {
      DistinctCount(all, x);
    }
    CountDistinct(rows);
    forall i, j | 0 <= i < j < |rows| ensures rows[i].0 != rows[j].0 {
      assert rows[i] != rows[j];
    }
  }

  lemma SortedRowsMembers(t: Table<Tag>, rows: seq<(int, Tag)>)
    requires Valid(t) && multiset(rows) == multiset(Rows(t))
    ensures forall i :: 0 <= i < |rows| ==> rows[i].0 in t.rows && t.rows[rows[i].0] == rows[i].1
  {
    forall i | 0 <= i < |rows| ensures rows[i].0 in t.rows && t.rows[rows[i].0] == rows[i].1 {
      assert rows[i] in multiset(Rows(t));
    }
  }

  function NameKey(row: (int, Tag)): Key { KText(row.1.name) }

  lemma NamesSorted(rows: seq<(int, Tag)>)
    requires SortedBy(rows, NameKey, false)
    ensures var r := NamesOf(rows); forall i, j :: 0 <= i < j < |r| ==> !TextLt(r[j].1, r[i].1)
  {
    var r := NamesOf(rows);
    forall i, j | 0 <= i < j < |r| ensures !TextLt(r[j].1, r[i].1) {
      assert !Ahead(NameKey(rows[j]), NameKey(rows[i]), false);
    }
  }

  function NamesOf(rows: seq<(int, Tag)>): (r: seq<(int, string)>)
    ensures |r| == |rows|
    ensures forall i :: 0 <= i < |r| ==> r[i] == (rows[i].0, rows[i].1.name)
  {
    if |rows| == 0 then [] else [(rows[0].0, rows[0].1.name)] + NamesOf(rows[1..])
  }

  lemma RowsCount<T>(t: Table<T>)
    requires Valid(t)
    ensures |Rows(t)| == |t.rows|
  {
    var rs := Rows(t);
    var ids := set i | 0 <= i < |rs| :: rs[i].0;
    assert ids == t.rows.Keys;
    IndexImageSize(rs);
  }

  lemma {:induction false} IndexImageSize<T>(rs: seq<(int, T)>)
    requires forall i, j :: 0 <= i < j < |rs| ==> rs[i].0 < rs[j].0
    ensures |set i | 0 <= i < |rs| :: rs[i].0| == |rs|
  {
    if |rs| > 0 {
      var init := rs[..|rs| - 1];
      IndexImageSize(init);
      var a := set i | 0 <= i < |init| :: init[i].0;
      var b := set i | 0 <= i < |rs| :: rs[i].0;
      assert b == a + {rs[|rs| - 1].0};
      assert rs[|rs| - 1].0 !in a;
    }
  }

  // ---------------------------------------------------------------------------
  // The 60-character cut as written can end a slug with a dash

  /** n "ffi" ligatures (U+FB03) followed by "ab c". */
  function LigatureName(n: nat): (r: string)
    ensures |r| == n + 4
  {
    Rep("\U{fb03}", n) + "ab" + [' '] + ['c']
  }

  /** "ffi" repeated holds only the letters f and i. */
  lemma FfiLetters(n: nat)
    ensures var f := Rep("ffi", n); forall i :: 0 <= i < |f| ==> f[i] == 'f' || f[i] == 'i'
  {
    var f := Rep("ffi", n);
    forall i | 0 <= i < |f| ensures f[i] == 'f' || f[i] == 'i' {
      assert f[i] in "ffi";
    }
  }

  /** "ffi" n times followed by "ab": lower-case letters only. */
  lemma FfiAbLetters(n: nat)
    ensures var q := Rep("ffi", n) + "ab";
      forall i :: 0 <= i < |q| ==> 'a' <= q[i] <= 'z'
  {
    var f := Rep("ffi", n);
    var q := f + "ab";
    FfiLetters(n);
    forall i | 0 <= i < |q| ensures 'a' <= q[i] <= 'z' {
      if i < |f| { assert q[i] == f[i]; } else { assert q[i] == "ab"[i - |f|]; }
    }
  }

  /** Each ligature decomposes into "ffi"; the rest is ASCII. */
  lemma LigatureNfkd(n: nat)
    ensures Nfkd(LigatureName(n)) == Rep("ffi", n) + "ab" + [' '] + ['c']
  {
    var a := Rep("\U{fb03}", n) + "ab";
    LigaturePrefixNfkd(n);
    FlatMapSnoc(NfkdChar, a, ' ');
    FlatMapSnoc(NfkdChar, a + [' '], 'c');
    assert NfkdChar(' ') == [' '] && NfkdChar('c') == ['c'];
  }

  lemma LigaturePrefixNfkd(n: nat)
    ensures Nfkd(Rep("\U{fb03}", n) + "ab") == Rep("ffi", n) + "ab"
  {
    FlatMapAppend(NfkdChar, Rep("\U{fb03}", n), "ab");
    FlatMapRep(NfkdChar, '\U{fb03}', n);
    assert NfkdChar('\U{fb03}') == "ffi";
    NfkdAscii("ab");
  }

  /** The slug loop reads "ffi" n times, then "ab c". */
  lemma LigatureNamePrepared(n: nat)
    ensures Prepared(LigatureName(n)) == Rep("ffi", n) + "ab" + [' '] + ['c']
  {
    var q := Rep("ffi", n) + "ab";
    var p := q + [' '] + ['c'];
    LigatureNfkd(n);
    FfiAbLetters(n);
    assert forall i :: 0 <= i < |p| ==> IsAscii(p[i]) && !('A' <= p[i] <= 'Z') by {
      forall i | 0 <= i < |p| ensures IsAscii(p[i]) && !('A' <= p[i] <= 'Z') {
        if i < |q| { assert p[i] == q[i]; }
      }
    }
    AsciiOnlyAscii(p);
    LowerNoUpper(p);
  }

  /** Its slug is "ffi"*n + "ab", a dash, and "c". */
  lemma LigatureNameSlug(n: nat)
    ensures Slugify(Some(LigatureName(n))) == Rep("ffi", n) + "ab" + ['-'] + ['c']
  {
    var q := Rep("ffi", n) + "ab";
    LigatureNamePrepared(n);
    LigatureWalk(n);
    var w := q + ['-'] + ['c'];
    assert LTrimDash(w) == w;
    assert RTrimDash(w) == w;
  }

  lemma LigatureWalk(n: nat)
    ensures var q := Rep("ffi", n) + "ab";
      Walk(q + [' '] + ['c']).chars == q + ['-'] + ['c']
  {
    var q := Rep("ffi", n) + "ab";
    FfiAbLetters(n);
    WalkSlugBody(q);
    WalkSnoc(q, ' ');
    WalkSnoc(q + [' '], 'c');
  }

  /** The name is already clean. */
  lemma LigatureNameClean(n: nat)
    ensures CleanTagName(Some(LigatureName(n))) == LigatureName(n)
  {
    var name := LigatureName(n);
    LigatureNameStripped(n);
    StripOfStripped(name);
    LigatureNameWords(n);
  }

  /** The ligatures and "ab" hold no space. */
  lemma LigatureWordNoSpace(n: nat)
    ensures ' ' !in Rep("\U{fb03}", n) + "ab"
  {
    var l := Rep("\U{fb03}", n);
    var a := l + "ab";
    forall i | 0 <= i < |a| ensures a[i] != ' ' {
      if i < |l| { assert a[i] == l[i] && l[i] in "\U{fb03}"; }
      else { assert a[i] == "ab"[i - |l|]; }
    }
  }

  /** The name's words are the ligature word and "c", joined back by one
      space. */
  lemma LigatureNameWords(n: nat)
    ensures Join(' ', Words(LigatureName(n))) == LigatureName(n)
  {
    var a := Rep("\U{fb03}", n) + "ab";
    LigatureWordNoSpace(n);
    assert Join(' ', [a, ['c']]) == LigatureName(n);
    SplitJoin([a, ['c']], ' ');
    NonEmptyOfNonEmpty([a, ['c']]);
  }

  lemma LigatureNameStripped(n: nat)
    ensures Stripped(LigatureName(n))
  {
    var l := Rep("\U{fb03}", n);
    var name := LigatureName(n);
    if n > 0 { assert name[0] == l[0] && l[0] in "\U{fb03}"; }
    else { assert name[0] == 'a'; }
    assert name[|name| - 1] == 'c';
  }

  /** As written, a valid name can be given a slug that ends with a dash:
      nineteen ligatures and "ab c" (23 characters) slugify to 61
      characters, and the cut at 60 ends right after "ab-". */
  lemma AsWrittenSlugEndsWithDash(n: nat)
    requires n == 19
    ensures var c := ValidateTagAsWritten(map[], Some(LigatureName(n)), None);
      IsValid(c) && |c.slug| == MaxSlugLength && c.slug[|c.slug| - 1] == '-' && !IsSlug(c.slug)
  {
    AsWrittenLigatureSlug(n);
    var w := Rep("ffi", n) + "ab" + ['-'] + ['c'];
    assert |w| == 61 && w[59] == '-';
  }

  lemma AsWrittenLigatureSlug(n: nat)
    requires n == 19
    ensures var c := ValidateTagAsWritten(map[], Some(LigatureName(n)), None);
      IsValid(c) && c.slug == (Rep("ffi", n) + "ab" + ['-'] + ['c'])[..MaxSlugLength]
  {
    LigatureNameClean(n);
    LigatureNameSlug(n);
    LoneTag(Some(LigatureName(n)), AsWritten);
  }

  /** With no other tag, a valid name always gets its base slug. */
  lemma LoneTag(name: Option<string>, mode: Truncation)
    ensures var c := ValidateTagWith(map[], name, None, mode);
      && (IsValid(c) <==> MinNameLength <= |CleanTagName(name)| <= MaxNameLength)
      && c.slug == BaseSlug(CleanTagName(name), mode)
  {
    assert !NameInUse(map[], CleanTagName(name), None);
    assert TakenSlugs(map[], None) == {};
  }

  /** With the corrected cut the same name keeps the 59 characters before
      the dash. */
  lemma CorrectedSlugDropsDash(n: nat)
    requires n == 19
    ensures ValidateTag(map[], Some(LigatureName(n)), None).slug == Rep("ffi", n) + "ab"
  {
    LigatureNameClean(n);
    LigatureNameSlug(n);
    LoneTag(Some(LigatureName(n)), KeepSlugShape);
    LigatureCut(n);
  }

  lemma LigatureCut(n: nat)
    requires n == 19
    ensures var q := Rep("ffi", n) + "ab";
      Cut(q + ['-'] + ['c'], MaxSlugLength, KeepSlugShape) == q
  {
    var q := Rep("ffi", n) + "ab";
    var w := q + ['-'] + ['c'];
    assert PySlice(w, 0, 60) == q + ['-'];
    assert q[|q| - 1] == 'b';
    assert RTrimDash(q + ['-']) == RTrimDash(q);
  }
}

=== FILE: users.dfy ===
/** Panel users: the payload validator with its boolean and role
    normalisation, the user service (listing, create, update, delete,
    activate, deactivate) and the guards of the users controller. The role
    relation of a user is represented by its role slug; password hashing is
    a function parameter. */
module Users {
  import opened Common
  import opened Tables
  import opened Ordering
  import opened Paging
  import opened Listing

  const PublicRole: string := "public"
  const EditorRole: string := "editor"
  const AdminRole: string := "admin"

  /** The slugs of `UserRole`, which has no system-administrator member. */
  function AllRoles(): set<string> { {PublicRole, EditorRole, AdminRole} }

  /** The roles the controller's update guard protects, by slug. */
  function ProtectedRoles(): set<string> { {AdminRole, "sysadmin"} }

  const UserPageCap: int := 50
  const UserIndexPerPage: int := 25
  const MinPasswordLength: int := 8

  datatype User = User(email: string, firstName: string, lastName: string, passwordHash: string,
                       isActive: bool, role: string, createdAt: int)

  /** The unique constraint on the email. */
  predicate EmailsUnique(t: Table<User>) {
    forall a, b :: a in t.rows && b in t.rows && t.rows[a].email == t.rows[b].email ==> a == b
  }

  predicate UsersOk(t: Table<User>) {
    Valid(t) && EmailsUnique(t)
  }

  // ---------------------------------------------------------------------------
  // Normalisation

  predicate TrueWord(w: string) { w == "true" || w == "1" || w == "yes" || w == "si" || w == "on" }
  predicate FalseWord(w: string) { w == "false" || w == "0" || w == "no" || w == "off" }

  /** `str(value)` for the values whose text can be a truth word: a string
      is itself, an integer its decimal text. The text of a float or a list
      always holds a character no truth word has. */
  function WordOf(v: PyValue): Option<string> {
    match v
    case PStr(s) => Some(Lower(Strip(s)))
    case PInt(i) => Some(Lower(Strip(IntToString(i))))
    case _ => None
  }

  /** `_normalize_bool`: None means active, a boolean is itself, otherwise
      the stripped lower-case text must be a true or a false word; anything
      else is invalid (None here). */
  function NormalizeBool(v: PyValue): (r: Option<bool>)
    ensures v.PNone? ==> r == Some(true)
    ensures v.PBool? ==> r == Some(v.b)
    ensures !v.PNone? && !v.PBool? ==>
      (r == Some(true) <==> WordOf(v).Some? && TrueWord(WordOf(v).value))
      && (r == Some(false) <==> WordOf(v).Some? && !TrueWord(WordOf(v).value) && FalseWord(WordOf(v).value))
  {
    match v
    case PNone => Some(true)
    case PBool(b) => Some(b)
    case _ =>
      match WordOf(v)
      case None => None
      case Some(w) =>
        if TrueWord(w) then Some(true)
        else if FalseWord(w) then Some(false)
        else None
  }

  /** The words a boolean is usually written as read back as that
      boolean, with or without surrounding blanks. */
  lemma NormalizeBoolRoundTrip(b: bool)
    ensures NormalizeBool(PStr(if b then "true" else "false")) == Some(b)
    ensures NormalizeBool(PStr(" " + (if b then "true" else "false") + " ")) == Some(b)
  {
    var w := if b then "true" else "false";
    assert TrueWord(w) <==> b;
    assert FalseWord(w) <==> !b;
    WordRoundTrip(w);
    WordDecides(PStr(w), w, b);
    WordDecides(PStr(" " + w + " "), w, b);
  }

  lemma WordDecides(v: PyValue, w: string, b: bool)
    requires v.PStr? && WordOf(v) == Some(w) && (TrueWord(w) <==> b) && (FalseWord(w) <==> !b)
    ensures NormalizeBool(v) == Some(b)
  {
  }

  lemma WordRoundTrip(w: string)
    requires w == "true" || w == "false"
    ensures WordOf(PStr(w)) == Some(w) && WordOf(PStr(" " + w + " ")) == Some(w)
  {
    BoolWordShape(w);
    PlainWord(w);
  }

  /** The two boolean words are non-empty, unpadded and lower case. */
  lemma BoolWordShape(w: string)
    requires w == "true" || w == "false"
    ensures |w| > 0 && Stripped(w) && forall i :: 0 <= i < |w| ==> !('A' <= w[i] <= 'Z')
  {
  }

  /** A non-empty unpadded lower-case word reads back as itself, alone or
      between two spaces. */
  lemma PlainWord(w: string)
    requires |w| > 0 && Stripped(w) && forall i :: 0 <= i < |w| ==> !('A' <= w[i] <= 'Z')
    ensures WordOf(PStr(w)) == Some(w) && WordOf(PStr(" " + w + " ")) == Some(w)
  {
    StripOfStripped(w);
    StripAroundSpace(w);
    LowerNoUpper(w);
  }

  lemma StripAroundSpace(w: string)
    requires Stripped(w) && |w| > 0
    ensures Strip(" " + w + " ") == w
  {
    var s := " " + w + " ";
    assert s[1..|s| - 1] == w;
    StripUnique(s, w, 1);
  }

  /** `_normalize_role`: None means the default public role; otherwise the
      stripped lower-case slug must be allowed. */
  function NormalizeRole(v: Option<string>, allowed: set<string>): (r: Option<string>)
    ensures v.None? ==> r == Some(PublicRole)
    ensures v.Some? ==> (r.Some? <==> Lower(Strip(v.value)) in allowed)
    ensures v.Some? && r.Some? ==> r.value == Lower(Strip(v.value))
  {
    if v.None? then Some(PublicRole)
    else
      var slug := Lower(Strip(v.value));
      if slug in allowed then Some(slug) else None
  }

  // ---------------------------------------------------------------------------
  // The email pattern ^[^@\s]+@[^@\s]+\.[^@\s]+$

  /** The email pattern, stated on positions: no whitespace, exactly one
      '@' with something before it, and a '.' after the '@' with at least
      one character on each side. */
  predicate EmailPattern(e: string) {
    (forall k :: 0 <= k < |e| ==> !IsSpace(e[k]))
    && exists i :: 0 < i < |e| && e[i] == '@' && (forall k :: 0 <= k < |e| && k != i ==> e[k] != '@')
                && exists j :: i + 1 < j < |e| - 1 && e[j] == '.'
  }

  /** The position of the first `c`, or -1. */
  function IndexOf(s: string, c: char): (r: int)
    ensures -1 <= r < |s|
    ensures r >= 0 ==> s[r] == c && forall k :: 0 <= k < r ==> s[k] != c
    ensures r == -1 ==> forall k :: 0 <= k < |s| ==> s[k] != c
  {
    if |s| == 0 then -1
    else if s[0] == c then 0
    else
      var r := IndexOf(s[1..], c);
      if r == -1 then -1 else r + 1
  }

  predicate NoSpace(s: string) {
    forall k :: 0 <= k < |s| ==> !IsSpace(s[k])
  }

  /** The matcher as a scan: find the '@', then look for a '.' between the
      second character after it and the last character. */
  predicate EmailMatches(e: string) {
    var i := IndexOf(e, '@');
    NoSpace(e) && i > 0 && i + 2 < |e| && '@' !in e[i + 1..] && '.' in e[i + 2..|e| - 1]
  }

  /** The scan accepts exactly the addresses the pattern describes. */
  lemma EmailMatchesPattern(e: string)
    ensures EmailMatches(e) <==> EmailPattern(e)
  {
    var i := IndexOf(e, '@');
    if EmailMatches(e) {
      var tail := e[i + 2..|e| - 1];
      var m :| 0 <= m < |tail| && tail[m] == '.';
      assert e[i + 2 + m] == '.';
      forall k | 0 <= k < |e| && k != i ensures e[k] != '@' {
        if k > i { assert e[k] == e[i + 1..][k - i - 1]; }
      }
    }
    if EmailPattern(e) {
      var a :| 0 < a < |e| && e[a] == '@' && (forall k :: 0 <= k < |e| && k != a ==> e[k] != '@')
               && exists j :: a + 1 < j < |e| - 1 && e[j] == '.';
      assert i == a;
      var j :| a + 1 < j < |e| - 1 && e[j] == '.';
      assert e[i + 2..|e| - 1][j - i - 2] == '.';
      var rest := e[i + 1..];
      assert '@' !in rest by {
        forall k | 0 <= k < |rest| ensures rest[k] != '@' {
          assert rest[k] == e[i + 1 + k];
        }
      }
    }
  }

  // ---------------------------------------------------------------------------
  // validate_user_payload

  /** The fields a create or edit form sends. */
  datatype UserPayload = UserPayload(email: Option<string>, firstName: Option<string>, lastName: Option<string>,
                                     password: Option<string>, isActive: PyValue, role: Option<string>)

  datatype UserError =
    | EmailRequired | EmailInvalid | EmailTaken
    | FirstNameRequired | LastNameRequired
    | PasswordTooShort | PasswordRequired
    | ActiveInvalid | RoleInvalid

  /** The cleaned values; a field is None when it failed or was not
      given. */
  datatype CleanUser = CleanUser(email: Option<string>, firstName: Option<string>, lastName: Option<string>,
                                 password: Option<string>, isActive: Option<bool>, role: Option<string>)

  /** Another user (not `except`) already has this email. */
  predicate EmailInUse(t: Table<User>, email: string, except: Option<int>) {
    exists id :: id in t.rows && t.rows[id].email == email && except != Some(id)
  }

  /** `allowed_roles or UserRole`. */
  function AllowedOf(roles: set<string>): (r: set<string>)
    ensures r != {}
  {
    if roles == {} then AllRoles() else roles
  }

  datatype Check<T> = Check(errors: set<UserError>, clean: Option<T>)

  /** The email passes: present, well formed and not another user's. */
  predicate EmailOk(raw: Option<string>, t: Table<User>, except: Option<int>) {
    var e := Lower(CleanStr(raw));
    e != "" && EmailPattern(e) && !EmailInUse(t, e, except)
  }

  /** The password passes: long enough when given, otherwise not
      required. */
  predicate PasswordOk(raw: Option<string>, required: bool) {
    if raw.Some? && raw.value != "" then |raw.value| >= MinPasswordLength else !required
  }

  function CheckEmail(raw: Option<string>, t: Table<User>, except: Option<int>): (r: Check<string>)
    ensures var e := Lower(CleanStr(raw));
      (EmailRequired in r.errors <==> e == "")
      && (EmailInvalid in r.errors <==> e != "" && !EmailPattern(e))
      && (EmailTaken in r.errors <==> e != "" && EmailPattern(e) && EmailInUse(t, e, except))
      && r.errors <= {EmailRequired, EmailInvalid, EmailTaken}
      && (r.clean.Some? <==> e != "" && EmailPattern(e)) && (r.clean.Some? ==> r.clean.value == e)
    ensures r.errors == {} <==> EmailOk(raw, t, except)
  {
    var e := Lower(CleanStr(raw));
    EmailMatchesPattern(e);
    if e == "" then Check({EmailRequired}, None)
    else if !EmailMatches(e) then Check({EmailInvalid}, None)
    else Check(if EmailInUse(t, e, except) then {EmailTaken} else {}, Some(e))
  }

  function CheckName(raw: Option<string>, missing: UserError): (r: Check<string>)
    ensures r.errors == (if CleanStr(raw) == "" then {missing} else {})
    ensures r.clean == (if CleanStr(raw) == "" then None else Some(CleanStr(raw)))
  {
    var n := CleanStr(raw);
    if n == "" then Check({missing}, None) else Check({}, Some(n))
  }

  function CheckPassword(raw: Option<string>, required: bool): (r: Check<string>)
    ensures PasswordTooShort in r.errors <==> raw.Some? && 0 < |raw.value| < MinPasswordLength
    ensures PasswordRequired in r.errors <==> (raw.None? || raw.value == "") && required
    ensures r.errors <= {PasswordTooShort, PasswordRequired}
    ensures r.clean.Some? <==> raw.Some? && |raw.value| >= MinPasswordLength
    ensures r.clean.Some? ==> r.clean == raw
    ensures r.errors == {} <==> PasswordOk(raw, required)
  {
    if raw.Some? && raw.value != "" then
      if |raw.value| < MinPasswordLength then Check({PasswordTooShort}, None) else Check({}, raw)
    else if required then Check({PasswordRequired}, None)
    else Check({}, None)
  }

  function CheckActive(v: PyValue): (r: Check<bool>)
    ensures r.errors == (if NormalizeBool(v).None? then {ActiveInvalid} else {})
    ensures r.clean == NormalizeBool(v)
  {
    match NormalizeBool(v)
    case None => Check({ActiveInvalid}, None)
    case Some(b) => Check({}, Some(b))
  }

  function CheckRole(v: Option<string>, allowed: set<string>): (r: Check<string>)
    ensures r.errors == (if NormalizeRole(v, AllowedOf(allowed)).None? then {RoleInvalid} else {})
    ensures r.clean == NormalizeRole(v, AllowedOf(allowed))
  {
    match NormalizeRole(v, AllowedOf(allowed))
    case None => Check({RoleInvalid}, None)
    case Some(s) => Check({}, Some(s))
  }

  /** `validate_user_payload`: every field is checked on its own, so the
      errors are the union of the field errors; the email is looked up only
      once it is well formed, and an edited user does not collide with
      itself. */
  function ValidateUserPayload(p: UserPayload, t: Table<User>, existing: Option<int>, requirePassword: bool,
                               allowed: set<string>): (r: (set<UserError>, CleanUser))
    ensures r.0 == CheckEmail(p.email, t, existing).errors + CheckName(p.firstName, FirstNameRequired).errors
                   + CheckName(p.lastName, LastNameRequired).errors + CheckPassword(p.password, requirePassword).errors
                   + CheckActive(p.isActive).errors + CheckRole(p.role, allowed).errors
    ensures r.1 == CleanUser(CheckEmail(p.email, t, existing).clean, CheckName(p.firstName, FirstNameRequired).clean,
                             CheckName(p.lastName, LastNameRequired).clean, CheckPassword(p.password, requirePassword).clean,
                             NormalizeBool(p.isActive), NormalizeRole(p.role, AllowedOf(allowed)))
  {
    var email := CheckEmail(p.email, t, existing);
    var first := CheckName(p.firstName, FirstNameRequired);
    var last := CheckName(p.lastName, LastNameRequired);
    var password := CheckPassword(p.password, requirePassword);
    var active := CheckActive(p.isActive);
    var role := CheckRole(p.role, allowed);
    (email.errors + first.errors + last.errors + password.errors + active.errors + role.errors,
     CleanUser(email.clean, first.clean, last.clean, password.clean, active.clean, role.clean))
  }

  /** A payload passes exactly when the email is well formed and free, both
      names are present, the password is absent (where allowed) or long
      enough, the active flag normalises and the role is allowed; then
      every field the user needs is in the cleaned data. */
  lemma ValidPayloadIff(p: UserPayload, t: Table<User>, existing: Option<int>, requirePassword: bool,
                        allowed: set<string>)
    ensures var (errors, clean) := ValidateUserPayload(p, t, existing, requirePassword, allowed);
      errors == {} <==>
        EmailOk(p.email, t, existing) && CleanStr(p.firstName) != "" && CleanStr(p.lastName) != ""
        && PasswordOk(p.password, requirePassword)
        && NormalizeBool(p.isActive).Some? && NormalizeRole(p.role, AllowedOf(allowed)).Some?
    ensures var (errors, clean) := ValidateUserPayload(p, t, existing, requirePassword, allowed);
      errors == {} ==> clean.email.Some? && clean.firstName.Some? && clean.lastName.Some?
                       && clean.isActive.Some? && clean.role.Some?
                       && (requirePassword ==> clean.password.Some?)
  {
    var email := CheckEmail(p.email, t, existing);
    var first := CheckName(p.firstName, FirstNameRequired);
    var last := CheckName(p.lastName, LastNameRequired);
    var password := CheckPassword(p.password, requirePassword);
    var active := CheckActive(p.isActive);
    var role := CheckRole(p.role, allowed);
    var all := email.errors + first.errors + last.errors + password.errors + active.errors + role.errors;
    assert all == {} <==> email.errors == {} && first.errors == {} && last.errors == {}
                          && password.errors == {} && active.errors == {} && role.errors == {};
  }

  // ---------------------------------------------------------------------------
  // The user service

  /** The user's filters of `list_users`. */
  datatype UserQuery = UserQuery(searchEmail: Option<string>, active: Option<bool>, role: Option<string>)

  /** A role filter was given. */
  predicate RoleGiven(q: UserQuery) { q.role.Some? && q.role.value != "" }

  /** The filters as intended: the email as `ILIKE %search%` (folded), the
      activity and the role slug by equality. */
  predicate Matches(q: UserQuery, u: User) {
    (q.searchEmail.None? || q.searchEmail.value == "" || ContainsFold(u.email, q.searchEmail.value))
    && (q.active.None? || u.isActive == q.active.value)
    && (!RoleGiven(q) || u.role == q.role.value)
  }

  /** The filters as written: the role filter compares the role property
      of the class with the text, which is never equal, so a given role
      keeps no row; the other filters are the intended ones. */
  function MatchesRowAsWritten(q: UserQuery): ((int, User)) -> bool {
    if RoleGiven(q) then (row: (int, User)) => false else MatchesRow(q)
  }

  function MatchesRow(q: UserQuery): ((int, User)) -> bool {
    (row: (int, User)) => Matches(q, row.1)
  }

  function CreatedKey(row: (int, User)): Key { KInt(row.1.createdAt) }

  /** Only the exact order "created_at" is ascending. */
  predicate NewestFirst(order: string) { order != "created_at" }

  /** `list_users` as written. */
  function ListUsersAsWritten(t: Table<User>, page: int, perPage: int, q: UserQuery, order: string)
    : (p: Pagination<(int, User)>)
    requires Valid(t)
    ensures p.page == ClampPage(page) && p.perPage == ClampPerPage(perPage, UserPageCap)
    ensures RoleGiven(q) ==> p.items == [] && p.total == 0
    ensures p.total == |Filter(Rows(t), MatchesRowAsWritten(q))|
    ensures p.items == Window(Ordered(Rows(t), MatchesRowAsWritten(q), CreatedKey, NewestFirst(order)), p.page, p.perPage)
  {
    var p := Query(Rows(t), MatchesRowAsWritten(q), CreatedKey, NewestFirst(order), page, perPage, UserPageCap);
    assert RoleGiven(q) ==> p.total == 0 by {
      if RoleGiven(q) {
        FilterKeepsNone(Rows(t), MatchesRowAsWritten(q));
      }
    }
    p
  }

  /** `list_users` as intended: the page of matching users, ordered by
      creation time (newest first unless the order is "created_at"), with
      the count of all matches and the page clamped to 1.. and the page
      size to 1..50. */
  function ListUsers(t: Table<User>, page: int, perPage: int, q: UserQuery, order: string)
    : (p: Pagination<(int, User)>)
    requires Valid(t)
    ensures p.page == ClampPage(page) && p.perPage == ClampPerPage(perPage, UserPageCap)
    ensures p.total == |Filter(Rows(t), MatchesRow(q))|
    ensures forall i :: 0 <= i < |p.items| ==> p.items[i].0 in t.rows && p.items[i].1 == t.rows[p.items[i].0]
                                                && Matches(q, p.items[i].1)
    ensures SortedBy(p.items, CreatedKey, NewestFirst(order))
    ensures p.items == Window(Ordered(Rows(t), MatchesRow(q), CreatedKey, NewestFirst(order)), p.page, p.perPage)
  {
    Query(Rows(t), MatchesRow(q), CreatedKey, NewestFirst(order), page, perPage, UserPageCap)
  }

  /** Without a role filter the written and the intended listing are the
      same. */
  lemma ListUsersAgreeWithoutRole(t: Table<User>, page: int, perPage: int, q: UserQuery, order: string)
    requires Valid(t) && !RoleGiven(q)
    ensures ListUsersAsWritten(t, page, perPage, q, order) == ListUsers(t, page, perPage, q, order)
  {
  }

  /** The intended role filter keeps exactly the users holding that
      role. */
  lemma RoleFilterKeepsRole(t: Table<User>, role: string)
    requires Valid(t) && role != ""
    ensures forall row :: row in Filter(Rows(t), MatchesRow(UserQuery(None, None, Some(role)))) <==>
      row in Rows(t) && row.1.role == role
  {
  }

  function GetUser(t: Table<User>, id: int): (r: Option<User>)
    ensures r.Some? <==> id in t.rows
    ensures r.Some? ==> r.value == t.rows[id]
  {
    if id in t.rows then Some(t.rows[id]) else None
  }

  /** The user a valid cleaned payload describes. */
  function NewUser(c: CleanUser, hash: string -> string, now: int): User
    requires c.email.Some? && c.firstName.Some? && c.lastName.Some? && c.password.Some?
    requires c.isActive.Some? && c.role.Some?
  {
    User(c.email.value, c.firstName.value, c.lastName.value, hash(c.password.value), c.isActive.value,
         c.role.value, now)
  }

  /** Why an operation of the written service stops with an exception: the
      role slug is assigned to a property without a setter, or the missing
      system-administrator role member is looked up. */
  datatype Crash = RoleHasNoSetter | NoSysadminMember

  datatype Attempt<T> = Invalid(errors: set<UserError>) | Refused | Crashed(crash: Crash) | Done(value: T)

  /** `create_user` as written: a valid payload always carries a role, and
      building the user with it raises. */
  function CreateUserAsWritten(t: Table<User>, p: UserPayload, allowed: set<string>): (r: Attempt<(Table<User>, int)>)
    ensures ValidateUserPayload(p, t, None, true, allowed).0 != {} ==> r == Invalid(ValidateUserPayload(p, t, None, true, allowed).0)
    ensures ValidateUserPayload(p, t, None, true, allowed).0 == {} ==> r == Crashed(RoleHasNoSetter)
  {
    var (errors, clean) := ValidateUserPayload(p, t, None, true, allowed);
    if errors != {} then Invalid(errors) else Crashed(RoleHasNoSetter)
  }

  /** `create_user` as intended: an invalid payload stores nothing; a valid
      one stores a user with the cleaned fields, the hash of the password
      and the role, and the emails stay unique. */
  function CreateUser(t: Table<User>, p: UserPayload, allowed: set<string>, hash: string -> string, now: int)
    : (r: Attempt<(Table<User>, int)>)
    requires UsersOk(t)
    ensures r.Invalid? <==> ValidateUserPayload(p, t, None, true, allowed).0 != {}
    ensures r.Invalid? || r.Done?
    ensures r.Done? ==>
      var (u, id) := r.value;
      UsersOk(u) && id !in t.rows && u.rows.Keys == t.rows.Keys + {id}
      && (forall k :: k in t.rows ==> u.rows[k] == t.rows[k])
      && u.rows[id].email == Lower(CleanStr(p.email)) && u.rows[id].firstName == CleanStr(p.firstName)
      && u.rows[id].lastName == CleanStr(p.lastName) && u.rows[id].passwordHash == hash(p.password.value)
      && Some(u.rows[id].isActive) == NormalizeBool(p.isActive)
      && Some(u.rows[id].role) == NormalizeRole(p.role, AllowedOf(allowed))
  {
    var (errors, clean) := ValidateUserPayload(p, t, None, true, allowed);
    if errors != {} then Invalid(errors)
    else
      CleanOfValid(p, t, None, true, allowed);
      var user := NewUser(clean, hash, now);
      InsertKeepsEmailsUnique(t, user);
      Done(Tables.Insert(t, user))
  }

  /** What a valid payload cleans to. */
  lemma CleanOfValid(p: UserPayload, t: Table<User>, existing: Option<int>, requirePassword: bool, allowed: set<string>)
    requires ValidateUserPayload(p, t, existing, requirePassword, allowed).0 == {}
    ensures var clean := ValidateUserPayload(p, t, existing, requirePassword, allowed).1;
      clean.email == Some(Lower(CleanStr(p.email))) && !EmailInUse(t, Lower(CleanStr(p.email)), existing)
      && clean.firstName == Some(CleanStr(p.firstName)) && clean.lastName == Some(CleanStr(p.lastName))
      && clean.password == (if p.password.Some? && p.password.value != "" then p.password else None)
      && (requirePassword ==> clean.password.Some?)
      && clean.isActive == NormalizeBool(p.isActive) && clean.isActive.Some?
      && clean.role == NormalizeRole(p.role, AllowedOf(allowed)) && clean.role.Some?
  {
    ValidPayloadIff(p, t, existing, requirePassword, allowed);
  }

  lemma InsertKeepsEmailsUnique(t: Table<User>, user: User)
    requires UsersOk(t) && !EmailInUse(t, user.email, None)
    ensures UsersOk(Tables.Insert(t, user).0)
  {
  }

  lemma PutKeepsEmailsUnique(t: Table<User>, id: int, user: User)
    requires UsersOk(t) && id in t.rows && !EmailInUse(t, user.email, Some(id))
    ensures UsersOk(Put(t, id, user))
  {
  }

  /** The written `update_user`: after validation, deactivating anyone but
      an administrator looks up the missing system-administrator member,
      and every other valid update assigns the role slug to the read-only
      property. Nothing is committed either way. */
  function UpdateUserAsWritten(t: Table<User>, id: int, p: UserPayload, allowed: set<string>): (r: Attempt<Table<User>>)
    requires id in t.rows
    ensures !r.Done?
    ensures r.Invalid? <==> ValidateUserPayload(p, t, Some(id), false, allowed).0 != {}
    ensures r == Crashed(NoSysadminMember) <==>
      ValidateUserPayload(p, t, Some(id), false, allowed).0 == {} && NormalizeBool(p.isActive) == Some(false)
      && t.rows[id].role != AdminRole
  {
    var (errors, clean) := ValidateUserPayload(p, t, Some(id), false, allowed);
    if errors != {} then Invalid(errors)
    else if clean.isActive == Some(false) then
      if t.rows[id].role == AdminRole then Refused else Crashed(NoSysadminMember)
    else Crashed(RoleHasNoSetter)
  }

  /** The user after a valid update: every cleaned field is written, the
      password only when one was given. */
  function Updated(u: User, c: CleanUser, hash: string -> string): User
    requires c.email.Some? && c.firstName.Some? && c.lastName.Some? && c.isActive.Some? && c.role.Some?
  {
    u.(email := c.email.value, firstName := c.firstName.value, lastName := c.lastName.value,
       isActive := c.isActive.value, role := c.role.value,
       passwordHash := if c.password.Some? then hash(c.password.value) else u.passwordHash)
  }

  /** `update_user` as intended: an invalid payload changes nothing; an
      administrator (or system administrator) cannot be deactivated;
      otherwise the cleaned fields replace the old ones, the password hash
      changes only with a new password, and the emails stay unique. */
  function UpdateUser(t: Table<User>, id: int, p: UserPayload, allowed: set<string>, hash: string -> string)
    : (r: Attempt<Table<User>>)
    requires UsersOk(t) && id in t.rows
    ensures r.Invalid? <==> ValidateUserPayload(p, t, Some(id), false, allowed).0 != {}
    ensures r.Refused? <==>
      ValidateUserPayload(p, t, Some(id), false, allowed).0 == {} && NormalizeBool(p.isActive) == Some(false)
      && t.rows[id].role in ProtectedRoles()
    ensures !r.Crashed?
    ensures r.Done? ==>
      UsersOk(r.value) && r.value.rows.Keys == t.rows.Keys
      && (forall k :: k in t.rows && k != id ==> r.value.rows[k] == t.rows[k])
      && r.value.rows[id].email == Lower(CleanStr(p.email))
      && r.value.rows[id].createdAt == t.rows[id].createdAt
      && r.value.rows[id].firstName == CleanStr(p.firstName)
      && r.value.rows[id].lastName == CleanStr(p.lastName)
      && Some(r.value.rows[id].isActive) == NormalizeBool(p.isActive)
      && Some(r.value.rows[id].role) == NormalizeRole(p.role, AllowedOf(allowed))
      && (p.password.Some? && p.password.value != "" ==> r.value.rows[id].passwordHash == hash(p.password.value))
      && (p.password.None? || p.password.value == "" ==> r.value.rows[id].passwordHash == t.rows[id].passwordHash)
      && (t.rows[id].role in ProtectedRoles() ==> r.value.rows[id].isActive)
  {
    var (errors, clean) := ValidateUserPayload(p, t, Some(id), false, allowed);
    if errors != {} then Invalid(errors)
    else
      CleanOfValid(p, t, Some(id), false, allowed);
      if clean.isActive == Some(false) && t.rows[id].role in ProtectedRoles() then Refused
      else
        var v := Updated(t.rows[id], clean, hash);
        PutKeepsEmailsUnique(t, id, v);
        Done(Put(t, id, v))
  }

  /** The written `delete_user` removes the row and returns nothing. */
  function DeleteUserAsWritten(t: Table<User>, id: int): (r: (Table<User>, bool))
    requires Valid(t)
    ensures r.0.rows.Keys == t.rows.Keys - {id} && !r.1
  {
    (Delete(t, id), false)
  }

  /** `delete_user` as the controller reads it: administrators are kept,
      anyone else is removed, and the answer says which happened. */
  function DeleteUser(t: Table<User>, id: int): (r: (Table<User>, bool))
    requires Valid(t) && id in t.rows
    ensures r.1 <==> t.rows[id].role !in ProtectedRoles()
    ensures r.1 ==> r.0.rows.Keys == t.rows.Keys - {id} && forall k :: k in r.0.rows ==> r.0.rows[k] == t.rows[k]
    ensures !r.1 ==> r.0 == t
  {
    if t.rows[id].role in ProtectedRoles() then (t, false) else (Delete(t, id), true)
  }

  /** The written `deactivate_user`: an administrator is refused; for any
      other role the check of the missing system-administrator member
      raises before anything changes. */
  function DeactivateUserAsWritten(t: Table<User>, id: int): (r: Attempt<Table<User>>)
    requires id in t.rows
    ensures !r.Done?
    ensures r == (if t.rows[id].role == AdminRole then Refused else Crashed(NoSysadminMember))
  {
    if t.rows[id].role == AdminRole then Refused else Crashed(NoSysadminMember)
  }

  /** `deactivate_user` as intended: administrators are refused, anyone
      else is blocked and nothing else changes. */
  function DeactivateUser(t: Table<User>, id: int): (r: Attempt<Table<User>>)
    requires UsersOk(t) && id in t.rows
    ensures r.Refused? <==> t.rows[id].role in ProtectedRoles()
    ensures r.Refused? || r.Done?
    ensures r.Done? ==> UsersOk(r.value) && r.value == Put(t, id, t.rows[id].(isActive := false))
  {
    if t.rows[id].role in ProtectedRoles() then Refused
    else Done(Put(t, id, t.rows[id].(isActive := false)))
  }

  /** `activate_user`: the user is active again, nothing else changes. */
  function ActivateUser(t: Table<User>, id: int): (r: Table<User>)
    requires UsersOk(t) && id in t.rows
    ensures UsersOk(r) && r.rows.Keys == t.rows.Keys && r.rows[id].isActive
    ensures forall k :: k in t.rows && k != id ==> r.rows[k] == t.rows[k]
  {
    Put(t, id, t.rows[id].(isActive := true))
  }

  /** Blocking and unblocking an active user gives back the table it
      started from; blocking twice is blocking once. */
  lemma DeactivateThenActivate(t: Table<User>, id: int)
    requires UsersOk(t) && id in t.rows && t.rows[id].isActive && t.rows[id].role !in ProtectedRoles()
    ensures ActivateUser(DeactivateUser(t, id).value, id) == t
    ensures DeactivateUser(DeactivateUser(t, id).value, id) == DeactivateUser(t, id)
  {
    var u := DeactivateUser(t, id).value;
    assert ActivateUser(u, id).rows == t.rows;
    assert DeactivateUser(u, id).value.rows == u.rows;
  }

  // ---------------------------------------------------------------------------
  // The users controller

  datatype UserFilters = UserFilters(email: string, role: string, active: string, order: string, page: int)

  /** `_extract_filters`: the page falls back to 1 when it does not parse
      and is at least 1; the texts are stripped; the order is taken as
      it is. */
  function ExtractFilters(page: Option<string>, email: Option<string>, role: Option<string>, active: Option<string>,
                          order: Option<string>): (r: UserFilters)
    ensures r.page >= 1
    ensures page.Some? && ParseInt(page.value).Some? && ParseInt(page.value).value >= 1 ==> r.page == ParseInt(page.value).value
    ensures page.None? || ParseInt(page.value).None? ==> r.page == 1
    ensures r.email == CleanStr(email) && r.role == CleanStr(role) && r.active == CleanStr(active)
    ensures r.order == (if order.Some? then order.value else "-created_at")
  {
    var n := if page.None? then 1 else match ParseInt(page.value) case Some(v) => v case None => 1;
    UserFilters(CleanStr(email), CleanStr(role), CleanStr(active),
                if order.Some? then order.value else "-created_at", Max(n, 1))
  }

  /** `_parse_active_filter`. */
  function ParseActiveFilter(value: string): (r: Option<bool>)
    ensures r.Some? <==> value == "true" || value == "false"
    ensures r.Some? ==> r.value == (value == "true")
  {
    if value == "true" then Some(true) else if value == "false" then Some(false) else None
  }

  /** The controller's `index` query: 25 per page, empty filters dropped. */
  function IndexQuery(f: UserFilters): (r: UserQuery)
    ensures r.searchEmail.None? <==> f.email == ""
    ensures r.role.None? <==> f.role == ""
    ensures r.active == ParseActiveFilter(f.active)
  {
    UserQuery(if f.email == "" then None else Some(f.email), ParseActiveFilter(f.active),
              if f.role == "" then None else Some(f.role))
  }

  /** The listing page of the controller, as the service is written. */
  function Index(t: Table<User>, f: UserFilters): (p: Pagination<(int, User)>)
    requires Valid(t)
    ensures p.perPage == UserIndexPerPage && p.page == ClampPage(f.page)
    ensures f.role != "" ==> p.items == []
    ensures f.role == "" ==>
      p.total == |Filter(Rows(t), MatchesRow(IndexQuery(f)))|
      && p.items == Window(Ordered(Rows(t), MatchesRow(IndexQuery(f)), CreatedKey, NewestFirst(f.order)), p.page, p.perPage)
  {
    ListUsersAsWritten(t, f.page, UserIndexPerPage, IndexQuery(f), f.order)
  }

  predicate CheckboxOn(v: string) { v == "on" || v == "true" || v == "1" || v == "yes" || v == "si" }

  /** `_form_payload`: the checkbox is active for the usual truth words
      only, and always arrives as a boolean. */
  function FormPayload(email: Option<string>, firstName: Option<string>, lastName: Option<string>,
                       password: Option<string>, isActive: Option<string>, role: Option<string>): (r: UserPayload)
    ensures r.isActive == PBool(isActive.Some? && CheckboxOn(isActive.value))
    ensures r.email == email && r.firstName == firstName && r.lastName == lastName
    ensures r.password == password && r.role == role
  {
    UserPayload(email, firstName, lastName, password, PBool(isActive.Some? && CheckboxOn(isActive.value)), role)
  }

  datatype UpdateOutcome = UserMissing | GuardRefused | ServiceFailed(attempt: Attempt<Table<User>>) | UserSaved

  /** The controller's `update`: an unknown id, then its own guard (an
      administrator or system administrator being unticked), then the
      service as written. */
  function UpdateAsWritten(t: Table<User>, id: int, p: UserPayload, allowed: set<string>): (r: (Table<User>, UpdateOutcome))
    ensures r.0 == t
    ensures r.1 == UserMissing <==> id !in t.rows
    ensures r.1 == GuardRefused <==> id in t.rows && p.isActive == PBool(false) && t.rows[id].role in ProtectedRoles()
    ensures r.1 != UserSaved
  {
    if id !in t.rows then (t, UserMissing)
    else if p.isActive == PBool(false) && t.rows[id].role in ProtectedRoles() then (t, GuardRefused)
    else (t, ServiceFailed(UpdateUserAsWritten(t, id, p, allowed)))
  }

  datatype DestroyOutcome = NoSuchUser | DeletionRefused | Deleted

  /** The controller's `destroy` as written: the falsy result of
      `delete_user` is read as a refusal, after the user was deleted. */
  function DestroyAsWritten(t: Table<User>, id: int): (r: (Table<User>, DestroyOutcome))
    requires Valid(t)
    ensures id !in t.rows ==> r == (t, NoSuchUser)
    ensures id in t.rows ==> r.1 == DeletionRefused && id !in r.0.rows
  {
    if id !in t.rows then (t, NoSuchUser)
    else
      var (u, ok) := DeleteUserAsWritten(t, id);
      (u, if ok then Deleted else DeletionRefused)
  }

  /** The controller's `destroy` with the intended `delete_user`: the
      message agrees with what happened to the row. */
  function Destroy(t: Table<User>, id: int): (r: (Table<User>, DestroyOutcome))
    requires Valid(t)
    ensures id !in t.rows ==> r == (t, NoSuchUser)
    ensures r.1 == Deleted <==> id in t.rows && id !in r.0.rows
    ensures r.1 == DeletionRefused ==> r.0 == t && t.rows[id].role in ProtectedRoles()
  {
    if id !in t.rows then (t, NoSuchUser)
    else
      var (u, ok) := DeleteUser(t, id);
      (u, if ok then Deleted else DeletionRefused)
  }

  /** The written controller reports a refusal for every existing user
      although the row is gone, so its message never matches the
      outcome. */
  lemma DestroyAsWrittenMisreports(t: Table<User>, id: int)
    requires Valid(t) && id in t.rows
    ensures DestroyAsWritten(t, id).1 == DeletionRefused && id !in DestroyAsWritten(t, id).0.rows
    ensures t.rows[id].role !in ProtectedRoles() ==> Destroy(t, id).1 == Deleted
  {
  }
}
